=== FILE: README.md ===
# Desktop scripts of the Hyprland dotfiles, modelled in Dafny

This project models the pure decision logic inside the Python scripts of a
Hyprland desktop setup. Files, the environment, clocks, subprocesses and
network answers become plain input values. What is left is the logic that
decides what the scripts read, write and show.

- **Waybar manager** (`waybar.py`):
  - the `staterc` key/value store: first-match lookup, and the rewrite that removes duplicates;
  - the recursive JSON key rewrite;
  - layout listing, next/previous cycling and style-sheet resolution;
  - the "first usable source wins" lookup for font family, font size, icon size and border radius, and the `\d+pt` substitution;
  - the config watcher: the event filter, mtime polling, the theme-lock decision, the batching tick, restart versus hot reload, and the layout-sync skip flags.
- **Fan-speed module** (`fanspeedinfo.py`): which sensors are fans, a fan's speed, the persisted current-fan index, toggling, and the bar text and tooltip.
- **Media player module** (`mediaplayer.py`):
  - the time formatters and Pango `&` escaping;
  - settings validation;
  - the artist/track label;
  - the metadata cache that bridges players which briefly report nothing.
- **Auto theme daemon** (`auto_theme.py`):
  - the light/dark decision: manual override, light sensor with hysteresis, then the sun;
  - toggle, refresh and apply;
  - the `key=value` config parser;
  - the `BACKGROUND_MODE` line rewrite in Hyprland's `staterc`.
- **kitty tab bar** (`tab_bar.py`):
  - theme-file parsing and the colour-role fallback;
  - hex parsing and the reload test;
  - cursor arithmetic for the icon, tab titles and the right-hand status.
- **Weather module** (`weather.py`):
  - the text formatters and the chance summary;
  - the 12-hour to 24-hour conversion;
  - the settings and units, the rain cap and the cache-age rule.
- **Album lyrics fetcher** (`fetch_album_lyrics.py`):
  - the tag lookup and the lrclib best match;
  - the source fallback chain;
  - plain-lyrics to LRC conversion;
  - track-number stripping and the per-file flow.

There is one module per script or component. Two shared modules support them:

- `Py` (`strings.dfy`) holds the Python built-in string behaviour the scripts lean on: `strip`, `split`, `replace`, `int()` and zero padding.
- `Paths` (`paths.dfy`) holds POSIX path handling.

Python's `int()` accepts surrounding white space, a sign and single underscores between digits, and the model follows it. Case mapping and `\d` are ASCII only. `int()`, and the `\d` that `strptime`'s `%M` matches, also accept every other Unicode decimal digit (category Nd), such as full-width "１２". The model reads only ASCII digits, so such text counts as not a number. So is the digit test behind `auto_theme.py`'s key=value values (line 142). Python's `str.isdigit` there also accepts other Unicode digits such as "²", on which `int()` then raises and the whole file is dropped. The model treats such a value as text.

`list_layouts` adds one more entry to its `layouts` list when backups exist: a synthetic "List all N Backup(s) saved" entry. Descriptions of the command that say the list holds only the non-backup layouts do not match this code. `WaybarLayouts.ListLayouts` follows the code.

## Model

| member | source | states |
|---|---|---|
| WaybarState.GetStateValue | hypr-lib/.local/lib/hypr/waybar/waybar.py:203-212 | a missing file or a file with no line starting with `key=` gives the default; otherwise the value is the trimmed text after the first `=` of the first such line |
| WaybarState.FirstValue | hypr-lib/.local/lib/hypr/waybar/waybar.py:208-212 | the lookup over the lines: the first matching line decides, later matches are never read |
| WaybarState.SetStateValue | hypr-lib/.local/lib/hypr/waybar/waybar.py:228-258 | the rewritten file always ends with the line `key=value`; a missing file becomes that single line |
| WaybarState.RewriteIsFirstLines | hypr-lib/.local/lib/hypr/waybar/waybar.py:236-251 | the loop keeps exactly the first line of every other key, stripped, in file order, and drops blank lines and the lines of `key` |
| WaybarState.FirstOfKeyIffUnseen | hypr-lib/.local/lib/hypr/waybar/waybar.py:244-248 | a line is kept exactly when its key is not yet in `seen_keys` |
| WaybarState.SetLeavesOneLinePerKey | hypr-lib/.local/lib/hypr/waybar/waybar.py:228-258 | over the list of lines the update writes (key without `=`): exactly one line has the key, it is the last line, and no two lines share a key |
| WaybarState.SetIsIdempotent | hypr-lib/.local/lib/hypr/waybar/waybar.py:228-258 | over the list of lines: applying the same update twice gives the same lines as applying it once |
| WaybarState.GetAfterSet | hypr-lib/.local/lib/hypr/waybar/waybar.py:203-258 | reading a key back after setting it returns the value set, for a value without surrounding space or line breaks |
| WaybarState.ReadWritten | hypr-lib/.local/lib/hypr/waybar/waybar.py:254-256 | lines without line breaks, joined with `\n` and ended with `\n` as the file is written, read back as the same lines |
| WaybarState.SetFileIsLineModel | hypr-lib/.local/lib/hypr/waybar/waybar.py:228-258 | for a key and value without line breaks, the written file reads back as exactly the model's list of lines |
| WaybarState.SetFileLeavesOneLinePerKey | hypr-lib/.local/lib/hypr/waybar/waybar.py:228-258 | the file as written and read back has one line with the key, the last, and no two lines share a key, for a key and value without line breaks |
| WaybarState.SetFileIsIdempotent | hypr-lib/.local/lib/hypr/waybar/waybar.py:228-258 | updating the re-read file again with the same key and value writes the same text, for a key and value without line breaks |
| WaybarState.ValueWithBreakSplitsLine | hypr-lib/.local/lib/hypr/waybar/waybar.py:254-256 | the value `a\nb` is written as two lines, and the re-read file has a stray line `b` |
| WaybarState.ValueWithBreakNotIdempotent | hypr-lib/.local/lib/hypr/waybar/waybar.py:228-258 | updating that re-read file with the same value keeps the stray line, so the update is not idempotent on the file |
| WaybarState.StoredLines | hypr-lib/.local/lib/hypr/waybar/waybar.py:228-258 | the state file after an update, as the next reader sees it, holds no line breaks |
| WaybarState.SetGivesKeyLine | hypr-lib/.local/lib/hypr/waybar/waybar.py:228-258 | the line the update appends is the one line of its key, and it reads `key=value` |
| WaybarState.SetKeepsKeyLine | hypr-lib/.local/lib/hypr/waybar/waybar.py:228-258 | an update of another key keeps the one line of a key, unchanged |
| WaybarState.GetKeyLine | hypr-lib/.local/lib/hypr/waybar/waybar.py:203-212 | the one line of a key gives `get_state_value` the stripped text after its first `=` |
| WaybarState.GetConfigValue | hypr-lib/.local/lib/hypr/waybar/waybar.py:215-225 | a missing config file gives the default; otherwise the first line that, stripped and without one `export `, starts with `key=` decides |
| WaybarState.ConfigLine | hypr-lib/.local/lib/hypr/waybar/waybar.py:219-222 | a stripped line loses exactly one leading `export ` and is otherwise unchanged |
| WaybarState.ExportedSettingIsFound | hypr-lib/.local/lib/hypr/waybar/waybar.py:215-225 | for any key and trimmed value, the first config line that sets the key, written `export key=value`, gives that value: the `export ` prefix does not hide it |
| WaybarJson.ModifyJsonKey | hypr-lib/.local/lib/hypr/waybar/waybar.py:562-574 | anything but an object is returned as is; an object keeps its entry names in order, every entry named `key` takes the new value, other scalars are unchanged, and nested objects and arrays keep their shape |
| WaybarJson.ModifySetsAll | hypr-lib/.local/lib/hypr/waybar/waybar.py:562-574 | after the rewrite every entry named `key` reachable through objects and objects directly inside arrays holds the new value |
| WaybarJson.ModifyFixesAllSet | hypr-lib/.local/lib/hypr/waybar/waybar.py:562-574 | a document whose reachable `key` entries already hold the value is left unchanged, so a replaced value is not searched again |
| WaybarJson.ModifyFixedIff | hypr-lib/.local/lib/hypr/waybar/waybar.py:562-574 | the rewrite leaves a document unchanged exactly when every reachable `key` entry already holds the value |
| WaybarJson.ModifyIsIdempotent | hypr-lib/.local/lib/hypr/waybar/waybar.py:562-574 | rewriting twice with the same key and value equals rewriting once |
| WaybarLayouts.UserLayoutDir | hypr-lib/.local/lib/hypr/waybar/waybar.py:51-52 | a per-user layout directory is `<xdg home>/waybar/layouts` |
| WaybarLayouts.LayoutDirs | hypr-lib/.local/lib/hypr/waybar/waybar.py:50-55 | the four layout directories as written: the two XDG ones, then the two system entries |
| WaybarLayouts.SystemLayoutDirsAreRelative | hypr-lib/.local/lib/hypr/waybar/waybar.py:53-54 | the system layout entries as written are relative paths, so they are looked up under the working directory |
| WaybarLayouts.FixedLayoutDirs | hypr-lib/.local/lib/hypr/waybar/waybar.py:50-55 | the layout directories with the system entries under `/usr` |
| WaybarLayouts.FixedSystemLayoutDirsAreAbsolute | hypr-lib/.local/lib/hypr/waybar/waybar.py:53-54 | with the correction every system layout directory is absolute |
| WaybarLayouts.UserLayoutDirIsAbsolute | hypr-lib/.local/lib/hypr/waybar/waybar.py:51-52 | a user layout directory is absolute whenever its XDG home is |
| WaybarLayouts.DirLayoutsMembers | hypr-lib/.local/lib/hypr/waybar/waybar.py:196-199 | a walked directory contributes exactly its `.jsonc` files not on the ignore list, joined to it |
| WaybarLayouts.FindLayoutFiles | hypr-lib/.local/lib/hypr/waybar/waybar.py:192-200 | the result is sorted and is a permutation of all layout files the walks yield |
| WaybarLayouts.FindLayoutFilesMembers | hypr-lib/.local/lib/hypr/waybar/waybar.py:192-200 | a path is listed exactly when some walked directory holds a layout file of that name |
| WaybarLayouts.StyleDirs | hypr-lib/.local/lib/hypr/waybar/waybar.py:59-62 | there are two style directories, the XDG config one first |
| WaybarLayouts.DirPatterns | hypr-lib/.local/lib/hypr/waybar/waybar.py:390-410 | one style directory is tried with the layout's name, its name up to the first `#`, and the directory name only when there is one |
| WaybarLayouts.FirstMatch | hypr-lib/.local/lib/hypr/waybar/waybar.py:390-410 | no hit exactly when every pattern's glob is empty |
| WaybarLayouts.FirstMatchIsFirstHit | hypr-lib/.local/lib/hypr/waybar/waybar.py:390-410 | the hit is the first glob result of the first pattern whose glob is non-empty |
| WaybarLayouts.GlobPassIsFirstMatch | hypr-lib/.local/lib/hypr/waybar/waybar.py:389-410 | the nested directory-by-directory loop tries exactly the flattened pattern list, in order |
| WaybarLayouts.DefaultPass | hypr-lib/.local/lib/hypr/waybar/waybar.py:410-414 | nothing is found exactly when no style directory holds `defaults.css`; otherwise the result is the `defaults.css` of the first directory that holds one |
| WaybarLayouts.ResolveStylePath | hypr-lib/.local/lib/hypr/waybar/waybar.py:384-418 | a glob hit wins; otherwise the `defaults.css` of the first directory that holds one; otherwise the first style directory's `defaults.css` |
| WaybarLayouts.FallbackStyle | hypr-lib/.local/lib/hypr/waybar/waybar.py:410-417 | without a glob hit: the `defaults.css` of the first directory that holds one, else the first style directory's `defaults.css` |
| WaybarLayouts.Classify | hypr-lib/.local/lib/hypr/waybar/waybar.py:509-532 | a backup is recorded once per layout directory it starts with and never listed as a layout; any other layout is listed once exactly when it lies under some layout directory |
| WaybarLayouts.MatchingDirs | hypr-lib/.local/lib/hypr/waybar/waybar.py:509-532 | the layout directories a layout path starts with: exactly those, in search order |
| WaybarLayouts.ClassifyPerDirectory | hypr-lib/.local/lib/hypr/waybar/waybar.py:509-532 | a backup is recorded once for each layout directory it starts with, in order, named relative to that directory; a listed layout is named relative to the first directory it starts with |
| WaybarLayouts.Scan | hypr-lib/.local/lib/hypr/waybar/waybar.py:508-532 | listed layouts are never backups and recorded backups are backup paths from the found files |
| WaybarLayouts.ListLayouts | hypr-lib/.local/lib/hypr/waybar/waybar.py:505-545 | the synthetic "List all N Backup(s) saved" entry is last exactly when there are backups, and it is the only entry so marked |
| WaybarLayouts.ListLayoutsSelectable | hypr-lib/.local/lib/hypr/waybar/waybar.py:465-545 | the layouts navigation cycles through are exactly the non-backup layouts under some layout directory, in sorted order |
| WaybarLayouts.FindPair | hypr-lib/.local/lib/hypr/waybar/waybar.py:427-432 | the first entry whose layout path or name equals the argument; none exactly when no entry matches |
| WaybarLayouts.SetLayoutTarget | hypr-lib/.local/lib/hypr/waybar/waybar.py:420-434 | `set_layout` takes the first listed entry whose layout path or name equals the argument, and exits when there is none or its layout path is empty |
| WaybarLayouts.FindPairIsFirst | hypr-lib/.local/lib/hypr/waybar/waybar.py:427-432 | the search returns the first entry whose layout path or name equals the argument |
| WaybarLayouts.SetLayoutStateReadsBack | hypr-lib/.local/lib/hypr/waybar/waybar.py:436-438 | after the three state writes of `set_layout`, each re-read from the file text, the layout path reads back, and so do the name and style when they have no surrounding space |
| WaybarLayouts.NextIndex | hypr-lib/.local/lib/hypr/waybar/waybar.py:489-491 | `--next` moves one forward and wraps to 0 after the last |
| WaybarLayouts.PrevIndex | hypr-lib/.local/lib/hypr/waybar/waybar.py:492-494 | `--prev` moves one back and wraps to the last before the first |
| WaybarLayouts.PrevUndoesNext | hypr-lib/.local/lib/hypr/waybar/waybar.py:489-494 | `--prev` undoes `--next` and `--next` undoes `--prev` |
| WaybarLayouts.AdvanceWraps | hypr-lib/.local/lib/hypr/waybar/waybar.py:489-491 | up to a full round, k presses of `--next` add k and wrap once past the end |
| WaybarLayouts.FullCycle | hypr-lib/.local/lib/hypr/waybar/waybar.py:489-491 | n presses of `--next` come back to the start, and no fewer do |
| WaybarLayouts.CurrentLayout | hypr-lib/.local/lib/hypr/waybar/waybar.py:473-477 | no current layout exactly when no line starts with `WAYBAR_LAYOUT_PATH=` |
| WaybarLayouts.CurrentLayoutAgrees | hypr-lib/.local/lib/hypr/waybar/waybar.py:473-477 | for a value without `=`, navigation reads the same current layout as `get_state_value` |
| WaybarLayouts.IndexOf | hypr-lib/.local/lib/hypr/waybar/waybar.py:488 | `list.index`: the first position holding the element |
| WaybarLayouts.Navigate | hypr-lib/.local/lib/hypr/waybar/waybar.py:463-503 | a missing state file raises; `--next`/`--prev` choose a listed layout; `--set` chooses exactly its argument |
| WaybarLayouts.NextAfterSet | hypr-lib/.local/lib/hypr/waybar/waybar.py:420-503 | once `set_layout`'s three state writes have stored a listed layout, `--next` chooses the following one, cyclically |
| WaybarLayouts.PrevAfterNext | hypr-lib/.local/lib/hypr/waybar/waybar.py:420-503 | `--prev` after `--next` and its three stored writes returns to the starting layout |
| WaybarLayouts.StoredLayoutIsCurrent | hypr-lib/.local/lib/hypr/waybar/waybar.py:436-438 | a layout path stored by `set_layout`'s three writes is what navigation reads back as current |
| WaybarSources.ParseSource | hypr-lib/.local/lib/hypr/waybar/waybar.py:1043-1068 | missing or empty text yields nothing; for an integer default a value exactly when `int()` accepts the text; for a string default any non-empty text yields a value |
| WaybarSources.ParsedSources | hypr-lib/.local/lib/hypr/waybar/waybar.py:1070-1072 | every source is parsed by the same rule, in priority order |
| WaybarSources.FirstSome | hypr-lib/.local/lib/hypr/waybar/waybar.py:1070-1076 | the first present value wins, else the default |
| WaybarSources.ValueFromSources | hypr-lib/.local/lib/hypr/waybar/waybar.py:1042-1078 | the result has the default's type; it is the value of the first source that parses, or the default when none does |
| WaybarSources.LaterSourcesIgnored | hypr-lib/.local/lib/hypr/waybar/waybar.py:1070-1074 | sources after one that parses are never consulted |
| WaybarSources.MissingSourceIgnored | hypr-lib/.local/lib/hypr/waybar/waybar.py:1070-1076 | a source with no value, in any position, changes nothing |
| WaybarSources.FontFamily | hypr-lib/.local/lib/hypr/waybar/waybar.py:1081-1092 | the first source with non-empty text wins, in the order config `WAYBAR_FONT`, theme `$BAR_FONT`, state `BAR_FONT`, and is stripped of spaces, then double, then single quotes; with none the family is "monospace" |
| WaybarSources.FontSize | hypr-lib/.local/lib/hypr/waybar/waybar.py:1095-1104 | the config's `WAYBAR_SCALE` if it parses as an integer, else the state's `BAR_FONT_SIZE` if it parses, else the theme's `$BAR_FONT_SIZE` if it parses, else 10 |
| WaybarSources.IconSize | hypr-lib/.local/lib/hypr/waybar/waybar.py:1107-1117 | the first of `WAYBAR_ICON_SIZE`, `WAYBAR_SCALE`, the state's `BAR_ICON_SIZE` and the theme's `$BAR_ICON_SIZE` that parses as an integer, each case stated, else 10 |
| WaybarSources.RoundingValue | hypr-lib/.local/lib/hypr/waybar/waybar.py:1233-1240 | a rounding read from a theme file is a non-empty word |
| WaybarSources.RawRadius | hypr-lib/.local/lib/hypr/waybar/waybar.py:1211-1279 | the environment override wins; otherwise `hypr_border` outside a theme switch or theme.conf's rounding during one; with neither, the current theme's rounding, or nothing when it has none |
| WaybarSources.FinalRadiusAsWritten | hypr-lib/.local/lib/hypr/waybar/waybar.py:1281-1283 | no radius gives 2; a radius `int()` rejects raises ValueError; a non-negative integer is kept |
| WaybarSources.DecimalRadiusRaises | hypr-lib/.local/lib/hypr/waybar/waybar.py:1281-1283 | a decimal radius such as 4.5 aborts the update |
| WaybarSources.FinalRadius | hypr-lib/.local/lib/hypr/waybar/waybar.py:1281-1283 | the corrected check always yields a non-negative integer text, keeps a valid radius, and agrees with the source wherever the source does not raise |
| WaybarSources.UpdatedCss | hypr-lib/.local/lib/hypr/waybar/waybar.py:1292-1299 | the CSS is written only when the substitution changes it |
| WaybarSources.SubstituteHead | hypr-lib/.local/lib/hypr/waybar/waybar.py:1292 | the substituted text is empty exactly when the original is, and begins like it |
| WaybarSources.SubstituteIdempotent | hypr-lib/.local/lib/hypr/waybar/waybar.py:1292 | substituting a digit radius twice equals substituting it once, so a second update writes nothing |
| WaybarSources.SubstituteWithoutPt | hypr-lib/.local/lib/hypr/waybar/waybar.py:1292-1297 | CSS without any `pt` is left unchanged and not written |
| WaybarWatch.RelevantNormalize | hypr-lib/.local/lib/hypr/waybar/waybar.py:1379-1399 | relevance depends only on the name and suffix, which turning the text into a path keeps |
| WaybarWatch.FilterEvents | hypr-lib/.local/lib/hypr/waybar/waybar.py:1390-1399 | filtering never adds events |
| WaybarWatch.FilterEventsRelevant | hypr-lib/.local/lib/hypr/waybar/waybar.py:1379-1399 | everything that survives filtering is relevant: a non-empty name not starting with `.`, not ending in `~` or `.swp`, with suffix `.css`, `.json` or `.jsonc` in any case |
| WaybarWatch.FilterEventsSingle | hypr-lib/.local/lib/hypr/waybar/waybar.py:1390-1399 | a single event survives exactly when it is relevant, and then as its path text |
| WaybarWatch.FilterEventsAppend | hypr-lib/.local/lib/hypr/waybar/waybar.py:1390-1399 | filtering a batch is filtering its parts, so surviving events keep their relative order |
| WaybarWatch.FilterEventsIdempotent | hypr-lib/.local/lib/hypr/waybar/waybar.py:1390-1399 | a filtered batch passes through the filter unchanged |
| WaybarWatch.TrackedTimesMembers | hypr-lib/.local/lib/hypr/waybar/waybar.py:1411-1420 | exactly the relevant regular files whose time could be read are compared |
| WaybarWatch.PollScan | hypr-lib/.local/lib/hypr/waybar/waybar.py:1411-1427 | the scan records and reports only listed paths |
| WaybarWatch.PollScanFacts | hypr-lib/.local/lib/hypr/waybar/waybar.py:1421-1427 | a path raises an event exactly when it was recorded with a different time; a first sighting is recorded silently; other records are untouched |
| WaybarWatch.Poll | hypr-lib/.local/lib/hypr/waybar/waybar.py:1402-1431 | the record keeps only paths that still exist, each previously recorded or listed now, and events are listed paths |
| WaybarWatch.PollQuietWhenUnchanged | hypr-lib/.local/lib/hypr/waybar/waybar.py:1402-1431 | a second poll over an unchanged listing, with the record the first left, reports nothing |
| WaybarWatch.ReadThemeLockMeta | hypr-lib/.local/lib/hypr/waybar/waybar.py:1473-1499 | a missing file gives neither pid nor command hint |
| WaybarWatch.ScanLockLastWins | hypr-lib/.local/lib/hypr/waybar/waybar.py:1477-1494 | the last line setting a valid pid decides the pid, and the last `cmd` line the hint; an invalid pid leaves the earlier one |
| WaybarWatch.LockEntryOf | hypr-lib/.local/lib/hypr/waybar/waybar.py:1478-1487 | a `key=value` line with a clean key and value yields exactly them |
| WaybarWatch.PidLineSetsPid | hypr-lib/.local/lib/hypr/waybar/waybar.py:1488-1492 | a `pid=<n>` line sets pid n and no command hint |
| WaybarWatch.PidIsActive | hypr-lib/.local/lib/hypr/waybar/waybar.py:1502-1517 | a vanished process is inactive, one we may not signal is active, and a live one is active unless its readable command line lacks the hint |
| WaybarWatch.LockHint | hypr-lib/.local/lib/hypr/waybar/waybar.py:1526 | the hint is never empty: `color.set.sh` stands in for a missing one |
| WaybarWatch.ThemeUpdateLockActive | hypr-lib/.local/lib/hypr/waybar/waybar.py:1520-1550 | no lock file is inactive; with a pid the lock is active exactly when the process is, and removed otherwise; without one, ttl ≤ 0 or age ≤ ttl is active and an older lock is removed |
| WaybarWatch.LockWithPidIgnoresAge | hypr-lib/.local/lib/hypr/waybar/waybar.py:1525-1532 | a lock that names a process is judged by the process alone, whatever its age and the ttl |
| WaybarWatch.SmartReload | hypr-lib/.local/lib/hypr/waybar/waybar.py:1553-1576 | no running bar means starting one; a structural file means a restart; otherwise a hot reload, or a start when the signal finds no process |
| WaybarWatch.DedupFrom | hypr-lib/.local/lib/hypr/waybar/waybar.py:1645 | each path once, only paths not seen before |
| WaybarWatch.Dedup | hypr-lib/.local/lib/hypr/waybar/waybar.py:1645 | the deduplicated batch has the same paths, each once |
| WaybarWatch.SmartReloadIgnoresRepeats | hypr-lib/.local/lib/hypr/waybar/waybar.py:1644-1649 | removing repeated paths does not change the reload decision |
| WaybarWatch.Tick | hypr-lib/.local/lib/hypr/waybar/waybar.py:1612-1650 | the lock state is kept across the wait; nothing is reloaded while it is held; a reload happens only on a quiet tick and takes the whole pending batch; otherwise new events join the batch |
| WaybarWatch.BatchedUntilUnlocked | hypr-lib/.local/lib/hypr/waybar/waybar.py:1612-1650 | changes made while a theme update holds the lock wait in the batch and are reloaded together on the first quiet tick after release |
| WaybarWatch.ShouldSkipLayoutSync | hypr-lib/.local/lib/hypr/waybar/waybar.py:1808-1843 | skipping needs a css-only flag and no structural flag |
| WaybarWatch.FlagSetsDisjoint | hypr-lib/.local/lib/hypr/waybar/waybar.py:1809-1841 | no flag is both css-only and structural |
| WaybarWatch.SkipLayoutSyncByFlags | hypr-lib/.local/lib/hypr/waybar/waybar.py:1808-1843 | a structural flag anywhere keeps the layout sync; without one, any css-only flag skips it |
| Paths.DirnameBasenameOfJoin | hypr-lib/.local/lib/hypr/waybar/waybar.py:198-199 | a path joined from a directory and a file name gives both back through `dirname` and `basename` |
| Paths.NormalizeIdempotent | hypr-lib/.local/lib/hypr/waybar/waybar.py:1393-1397 | turning a path's text into a path and back a second time changes nothing |
| Paths.NameOfNormalize | hypr-lib/.local/lib/hypr/waybar/waybar.py:1380-1397 | a path and its normalised text have the same name and suffix |
| FanSpeed.DeviceFans | hypr-lib/.local/lib/hypr/sysinfo/fanspeedinfo.py:33-39 | a device contributes exactly its dictionary sensors with a key containing both "fan" and "input" |
| FanSpeed.DeviceFansInOrder | hypr-lib/.local/lib/hypr/sysinfo/fanspeedinfo.py:33-39 | the fans keep sensor order: one sensor gives itself or nothing, and consecutive runs of sensors give their fans concatenated |
| FanSpeed.GetAllFans | hypr-lib/.local/lib/hypr/sysinfo/fanspeedinfo.py:31-41 | every listed fan has a fan input reading |
| FanSpeed.GetAllFansSorted | hypr-lib/.local/lib/hypr/sysinfo/fanspeedinfo.py:32 | devices appear in sorted name order in the fan list |
| FanSpeed.GetAllFansMembers | hypr-lib/.local/lib/hypr/sysinfo/fanspeedinfo.py:31-41 | a sensor is listed exactly when it holds readings with a fan input key, whatever its device's place in the report |
| FanSpeed.FanSpeed | hypr-lib/.local/lib/hypr/sysinfo/fanspeedinfo.py:44-49 | the integer part of the first fan input reading above 0, else 0 |
| FanSpeed.StoredIndex | hypr-lib/.local/lib/hypr/sysinfo/fanspeedinfo.py:54-60 | a missing index file or text `int()` rejects gives no index |
| FanSpeed.CurrentFanIndex | hypr-lib/.local/lib/hypr/sysinfo/fanspeedinfo.py:52-61 | the result lies in [0, total) when there are fans and differs from the stored index by a multiple of the total, so a negative index counts from the end; 0 when there are none or nothing usable is stored |
| FanSpeed.ToggleFan | hypr-lib/.local/lib/hypr/sysinfo/fanspeedinfo.py:70-78 | no fans saves nothing; otherwise the saved index is the one after the current fan, wrapping at the end |
| FanSpeed.ToggleAdvances | hypr-lib/.local/lib/hypr/sysinfo/fanspeedinfo.py:52-78 | after a toggle, the index read back is the one after the previous current fan |
| FanSpeed.FanLine | hypr-lib/.local/lib/hypr/sysinfo/fanspeedinfo.py:107-110 | a tooltip line starts with the marker exactly for the current fan |
| FanSpeed.TooltipLines | hypr-lib/.local/lib/hypr/sysinfo/fanspeedinfo.py:104-114 | a heading, one line per fan in order with only the current one marked, and the two hint lines exactly when there is more than one fan |
| FanSpeed.GenerateOutput | hypr-lib/.local/lib/hypr/sysinfo/fanspeedinfo.py:91-119 | no fans gives "N/A" with "No fans detected"; otherwise the text is the current fan's speed divided by 10 and the tooltip joins the lines |
| FanSpeed.TooltipSplits | hypr-lib/.local/lib/hypr/sysinfo/fanspeedinfo.py:104-116 | the tooltip splits back into exactly its lines when no device or sensor name holds a line break |
| MediaPlayer.RoundHalfEven | hypr-lib/.local/lib/hypr/media/mediaplayer.py:91 | Python's `round`: the nearest integer, ties to the even one |
| MediaPlayer.Round2 | hypr-lib/.local/lib/hypr/media/mediaplayer.py:279-280 | `round(x, 2)` lies within half a hundredth of x |
| MediaPlayer.TotalSeconds | hypr-lib/.local/lib/hypr/media/mediaplayer.py:91 | negative times show as 0; otherwise the whole seconds are within half a second of the time |
| MediaPlayer.ClockFields | hypr-lib/.local/lib/hypr/media/mediaplayer.py:92-94 | two fields below an hour and three from an hour on, all digits, minutes and seconds exactly two wide; the last field is the seconds and the one before it the minutes, both below 60, and the first is the hours from an hour on, as wide as the hours' digits but at least two |
| MediaPlayer.ClockDivMod | hypr-lib/.local/lib/hypr/media/mediaplayer.py:92-94 | the minutes and seconds taken from the remainder of an hour equal those taken from the whole total |
| MediaPlayer.ClockSplits | hypr-lib/.local/lib/hypr/media/mediaplayer.py:92-96 | the clock text splits at its colons back into exactly its fields |
| MediaPlayer.ClockRoundTrip | hypr-lib/.local/lib/hypr/media/mediaplayer.py:92-94 | reading a formatted clock back gives the seconds it was made from |
| MediaPlayer.FormatTime | hypr-lib/.local/lib/hypr/media/mediaplayer.py:88-96 | "MM:SS" below an hour, "HH:MM:SS" from an hour on: split at its colons, the last two fields are two digits wide and read as the seconds and minutes of the rounded total, the first as its hours from an hour on, and the whole reads back as the total |
| MediaPlayer.TimerLines | hypr-lib/.local/lib/hypr/media/mediaplayer.py:103-109 | two lines below an hour and three from an hour on, none with a line break inside |
| MediaPlayer.MultiLineTime | hypr-lib/.local/lib/hypr/media/mediaplayer.py:99-111 | the first character is chosen by `playing` alone; two lines below an hour, three from an hour on |
| MediaPlayer.MultiLineMatchesFormatTime | hypr-lib/.local/lib/hypr/media/mediaplayer.py:88-111 | with its line breaks removed, the multi-line timer is the icon followed by the one-line clock |
| MediaPlayer.Escape | hypr-lib/.local/lib/hypr/media/mediaplayer.py:436-437 | text without `&` is unchanged |
| MediaPlayer.EscapeStep | hypr-lib/.local/lib/hypr/media/mediaplayer.py:436-437 | escaping works character by character: `&` becomes `&amp;`, every other character stays |
| MediaPlayer.EscapeLength | hypr-lib/.local/lib/hypr/media/mediaplayer.py:436-437 | the escaped length is the original length plus 4 per `&` |
| MediaPlayer.UnescapeEscape | hypr-lib/.local/lib/hypr/media/mediaplayer.py:436-437 | escaping loses nothing: turning `&amp;` back into `&` gives the text back |
| MediaPlayer.MaxLength | hypr-lib/.local/lib/hypr/media/mediaplayer.py:43-48 | the maximum length is clamped to 10..200 and is 70 when the text is not an integer |
| MediaPlayer.MaxLengthStable | hypr-lib/.local/lib/hypr/media/mediaplayer.py:43-48 | the clamp is a fixed point of its own output |
| MediaPlayer.DefaultMaxLength | hypr-lib/.local/lib/hypr/media/mediaplayer.py:44 | the default text gives 70 |
| MediaPlayer.Truncate | hypr-lib/.local/lib/hypr/media/mediaplayer.py:51-58 | a slice is the first `min(len, n)` characters of the text |
| MediaPlayer.CheckColour | hypr-lib/.local/lib/hypr/media/mediaplayer.py:79-85 | a colour is kept exactly when it starts with `#` and has length 4, 7 or 9; anything else becomes `#FFFFFF` |
| MediaPlayer.ColourSetting | hypr-lib/.local/lib/hypr/media/mediaplayer.py:61-85 | the variable's own value when it is `#` and 3, 6 or 8 characters; with the variable unset, `#` and the palette entry when that has 3, 6 or 8 characters; white otherwise |
| MediaPlayer.ValidateConfig | hypr-lib/.local/lib/hypr/media/mediaplayer.py:42-85 | the length is the `MaxLength` reading of the setting (70 when unset); the prefixes, standby text and separator are their settings (or defaults ` MPlayer` and two spaces) cut to 20, 20, 50 and 10 characters; each of the five colours follows its own variable, then its palette entry, then white |
| MediaPlayer.CutToUnique | hypr-lib/.local/lib/hypr/media/mediaplayer.py:51-58 | a cut is determined by the text and the length |
| MediaPlayer.ValidSettingsAreKept | hypr-lib/.local/lib/hypr/media/mediaplayer.py:42-85 | an in-range length, a standby text and separator within their limits and a well-formed colour are taken exactly as given |
| MediaPlayer.Ellipsize | hypr-lib/.local/lib/hypr/media/mediaplayer.py:155-156 | a short text is unchanged; a long one keeps its start, with exactly the spaces ending the first `limit` characters removed, followed by an ellipsis |
| MediaPlayer.EllipsizeDetermined | hypr-lib/.local/lib/hypr/media/mediaplayer.py:155-156 | any text that is a start of the first `limit` characters, dropping only spaces and not ending in one, followed by `…`, is the ellipsized text |
| MediaPlayer.KeptLengthUnique | hypr-lib/.local/lib/hypr/media/mediaplayer.py:156 | a text has one length without its trailing spaces |
| MediaPlayer.ArtistName | hypr-lib/.local/lib/hypr/media/mediaplayer.py:159 | the shown artist has no `,` or `&` and no surrounding space |
| MediaPlayer.ArtistNameIdempotent | hypr-lib/.local/lib/hypr/media/mediaplayer.py:159 | cutting the artist a second time changes nothing |
| MediaPlayer.TrackLabel | hypr-lib/.local/lib/hypr/media/mediaplayer.py:157 | a track-only label begins with the prefix and its separator and ends in `</b>` |
| MediaPlayer.PairLabel | hypr-lib/.local/lib/hypr/media/mediaplayer.py:180 | an artist-and-track label begins with the prefix and its separator and ends in `</b>` |
| MediaPlayer.StandbyLabel | hypr-lib/.local/lib/hypr/media/mediaplayer.py:181-189 | the standby label begins with the standby text in bold |
| MediaPlayer.FormatArtistTrack | hypr-lib/.local/lib/hypr/media/mediaplayer.py:149-190 | no track gives the standby label; a track alone or an artist and track pair that fits is shown whole; a long track alone is ellipsised at the limit; a long pair has each part ellipsised at its computed limit |
| MediaPlayer.LoneTrackFitsLimit | hypr-lib/.local/lib/hypr/media/mediaplayer.py:154-157 | a track shown without an artist takes at most the limit plus the ellipsis: the track whole when it fits, else its start with the trailing spaces of the first `limit` characters removed, followed by `…` |
| MediaPlayer.Merge | hypr-lib/.local/lib/hypr/media/mediaplayer.py:245-251 | each empty field of fresh metadata is filled from the cache |
| MediaPlayer.TimeLeft | hypr-lib/.local/lib/hypr/media/mediaplayer.py:278-289 | time left is never negative and is 0 without a duration |
| MediaPlayer.Effective | hypr-lib/.local/lib/hypr/media/mediaplayer.py:213-223 | the refresh reads from the given player whenever its name can be read, and from the last valid one (or nothing) when it cannot |
| MediaPlayer.WriteOutput | hypr-lib/.local/lib/hypr/media/mediaplayer.py:197-323 | no player shows the standby text; an unreadable name with no last valid player changes nothing; a stopped player hides the module and clears the cache; otherwise the text is the escaped label of the merged metadata, the class names the player, and the cache takes the merged metadata when it has anything |
| MediaPlayer.MetadataDropoutKeepsLabel | hypr-lib/.local/lib/hypr/media/mediaplayer.py:245-259 | a refresh in which the player momentarily reports no metadata shows the same track and artist as the one before |
| MediaPlayer.StopForgetsTrack | hypr-lib/.local/lib/hypr/media/mediaplayer.py:265-276 | after a stop, a refresh without metadata shows no stale track |
| AutoTheme.ShouldBeLight | hypr-lib/.local/lib/hypr/theme/auto_theme.py:243-275 | an unexpired override keeps the current mode; an expired one is cleared first; then lux below the dark threshold is dark, above the light threshold is light, in between keeps the mode; without a reading, light exactly between sunrise and sunset |
| AutoTheme.ExpiredOverrideIsIgnored | hypr-lib/.local/lib/hypr/theme/auto_theme.py:249-256 | once the override has expired, deciding is the same as deciding with no override at all |
| AutoTheme.FirstLineWith | hypr-lib/.local/lib/hypr/theme/auto_theme.py:328-331 | the first line starting with the key, and none exactly when no line does |
| AutoTheme.ReplaceFirstLineWith | hypr-lib/.local/lib/hypr/theme/auto_theme.py:327-332 | only the first line starting with the key is replaced, every other line is kept |
| AutoTheme.NoLineWith | hypr-lib/.local/lib/hypr/theme/auto_theme.py:326-333 | where the key occurs nowhere, no line starts with it |
| AutoTheme.AppendedLines | hypr-lib/.local/lib/hypr/theme/auto_theme.py:333-334 | appending a line adds exactly that line and an empty last line |
| AutoTheme.RewriteWithDeclares | hypr-lib/.local/lib/hypr/theme/auto_theme.py:323-335 | after the rewrite the first key line is the new line, unless the key occurs only inside a line, when the text is left as it was |
| AutoTheme.RewriteWithIdempotent | hypr-lib/.local/lib/hypr/theme/auto_theme.py:323-335 | rewriting a second time with the same line changes nothing |
| AutoTheme.ModeLine | hypr-lib/.local/lib/hypr/theme/auto_theme.py:330-334 | the recorded line is `BACKGROUND_MODE="<mode>"` on one line |
| AutoTheme.RewriteDeclaresMode | hypr-lib/.local/lib/hypr/theme/auto_theme.py:318-335 | after the rewrite `staterc` declares the applied mode, unless the key occurs in it only in the middle of a line |
| AutoTheme.RewriteIdempotent | hypr-lib/.local/lib/hypr/theme/auto_theme.py:318-335 | applying the same mode to `staterc` twice changes nothing |
| AutoTheme.ApplyMode | hypr-lib/.local/lib/hypr/theme/auto_theme.py:277-292 | nothing happens when the mode is already current; otherwise the enabled targets are rewritten and the new mode and change time are recorded |
| AutoTheme.Toggle | hypr-lib/.local/lib/hypr/theme/auto_theme.py:348-358 | a toggle flips light and dark, records the change time, and sets an override only for a positive duration |
| AutoTheme.ToggleTwice | hypr-lib/.local/lib/hypr/theme/auto_theme.py:348-358 | toggling twice restores the mode |
| AutoTheme.ToggleHolds | hypr-lib/.local/lib/hypr/theme/auto_theme.py:348-358 | a toggle with an override holds its mode on every loop step until the override ends |
| AutoTheme.Refresh | hypr-lib/.local/lib/hypr/theme/auto_theme.py:360-365 | a refresh clears the override and then follows the sensor or the sun |
| AutoTheme.Step | hypr-lib/.local/lib/hypr/theme/auto_theme.py:378-383 | a loop step under an unexpired override changes nothing; otherwise it always clears the override |
| AutoTheme.HysteresisKeepsMode | hypr-lib/.local/lib/hypr/theme/auto_theme.py:265-280 | between the thresholds a loop step changes nothing but the expired override |
| AutoTheme.ParseDecimal | hypr-lib/.local/lib/hypr/theme/auto_theme.py:143 | `float()` is only used on text containing `.` |
| AutoTheme.DecimalValue | hypr-lib/.local/lib/hypr/theme/auto_theme.py:143 | digits `a`, a point and digits `b` read as a + b / 10^len(b) |
| AutoTheme.NegatedDecimal | hypr-lib/.local/lib/hypr/theme/auto_theme.py:143 | a leading minus negates the value the rest reads as, and fails where the rest fails |
| AutoTheme.NegativeDecimalValue | hypr-lib/.local/lib/hypr/theme/auto_theme.py:143 | `-a.b` reads as minus the value of `a.b` |
| AutoTheme.BoolWordIsNotNumber | hypr-lib/.local/lib/hypr/theme/auto_theme.py:140-142 | the boolean words hold no point and are not digits once the marks are removed |
| AutoTheme.ParseValue | hypr-lib/.local/lib/hypr/theme/auto_theme.py:140-143 | "true"/"false" in any case are booleans; text of digits once `.` and `-` are removed is a Float exactly when it holds `.`, read by `float()`, else an Int read by `int()`, and a ValueError exactly when that reading fails; anything else stays text |
| AutoTheme.DigitsValueIsInt | hypr-lib/.local/lib/hypr/theme/auto_theme.py:142-143 | a plain decimal number is read as that integer |
| AutoTheme.ParseLine | hypr-lib/.local/lib/hypr/theme/auto_theme.py:133-138 | blank, `#` and `=`-less lines are skipped |
| AutoTheme.CollectFailsIff | hypr-lib/.local/lib/hypr/theme/auto_theme.py:125-147 | the user's settings are discarded exactly when some line fails to parse |
| AutoTheme.CollectIsLastSettings | hypr-lib/.local/lib/hypr/theme/auto_theme.py:133-144 | every key the user file sets takes the value of its last line |
| AutoTheme.LoadConfig | hypr-lib/.local/lib/hypr/theme/auto_theme.py:120-149 | the defaults are always present; no file or an unparsable file gives the defaults; each key the file sets takes the file's value and every other default stays; keys beyond the defaults only come from a file |
| AutoTheme.KeyValueFileLastLineWins | hypr-lib/.local/lib/hypr/theme/auto_theme.py:120-149 | in a `key=value` config file, the last line that sets a key gives its value in the loaded configuration |
| AutoTheme.ConfigOf | hypr-lib/.local/lib/hypr/theme/auto_theme.py:42-64 | the defaults give dark below 50 lux, light above 200, both targets on, and a 120-minute override |
| TabBar.ThemeEntry | kitty/.config/kitty/tab_bar.py:116-120 | blank and `#` lines give nothing; a pair is two non-empty words that do not start with space |
| TabBar.ThemeEntryFirstTwoWords | kitty/.config/kitty/tab_bar.py:116-120 | a line whose first two whitespace-separated words are `k` and `v`, `k` not starting with `#`, maps `k` to `v` whatever follows |
| TabBar.StrippedTwoWords | kitty/.config/kitty/tab_bar.py:116 | `strip()` of a line starting with two words keeps both words, and what follows them is empty or starts with white space |
| TabBar.TwoWords | kitty/.config/kitty/tab_bar.py:118 | `split()` of two words and what follows from white space on starts with those two words |
| TabBar.ThemeEntrySingleWord | kitty/.config/kitty/tab_bar.py:116-120 | a line holding a single word gives no entry |
| TabBar.AssembleIsLastValue | kitty/.config/kitty/tab_bar.py:115-120 | a key is defined exactly when some line names it, and it takes the value of the last such line |
| TabBar.LaterLinesOverride | kitty/.config/kitty/tab_bar.py:115-120 | appending lines to a theme file overrides the keys they name and keeps every other key |
| TabBar.EmptyThemeFile | kitty/.config/kitty/tab_bar.py:112 | an empty theme file yields no colours |
| TabBar.ThemeColours | kitty/.config/kitty/tab_bar.py:111-135 | `theme.conf` decides when it yields any pair; otherwise `colors.conf`, otherwise nothing |
| TabBar.RolesComplete | kitty/.config/kitty/tab_bar.py:218-227 | the conversion covers every colour role |
| TabBar.LoadColours | kitty/.config/kitty/tab_bar.py:106-161 | every role gets a colour, its theme key's value when present and the fallback otherwise; battery text, separator and UTC share `color8` |
| TabBar.ThemeFileTakesPrecedence | kitty/.config/kitty/tab_bar.py:124-125 | once `theme.conf` yields any pair, `colors.conf` no longer matters |
| TabBar.HexToRgb | kitty/.config/kitty/tab_bar.py:164-168 | only one `#` is dropped, so a second one makes `int()` fail |
| TabBar.HashRejected | kitty/.config/kitty/tab_bar.py:168 | `int(x, 16)` rejects text that starts with `#` |
| TabBar.HexParse | kitty/.config/kitty/tab_bar.py:168 | unsigned hexadecimal digits without a `0x` prefix parse to their value |
| TabBar.HexColour | kitty/.config/kitty/tab_bar.py:164-168 | a 24-bit colour written as `#rrggbb` is seven characters starting with `#` |
| TabBar.HexRoundTrip | kitty/.config/kitty/tab_bar.py:164-168 | reading back a `#rrggbb` colour gives the colour value |
| TabBar.Convert | kitty/.config/kitty/tab_bar.py:218-227 | conversion only sets the listed roles and keeps every other palette entry |
| TabBar.ConvertAll | kitty/.config/kitty/tab_bar.py:218-227 | when every colour parses, every role takes its converted colour |
| TabBar.ConvertStopsAtFailure | kitty/.config/kitty/tab_bar.py:218-229 | a colour that fails to parse stops the conversion: the roles after it keep their old values |
| TabBar.InitialState | kitty/.config/kitty/tab_bar.py:172-182 | the import succeeds exactly when every role's colour parses, and then every role has a value |
| TabBar.Refresh | kitty/.config/kitty/tab_bar.py:185-229 | unchanged mtimes change nothing; the new mtimes are always recorded, even when a colour then fails; no role is lost; with every colour valid each role takes its converted colour |
| TabBar.RefreshSettles | kitty/.config/kitty/tab_bar.py:210-215 | a second refresh against the same files does nothing |
| TabBar.Draw | kitty/.config/kitty/tab_bar.py:301 | drawing advances the cursor by one cell per character |
| TabBar.CalcDrawSpaces | kitty/.config/kitty/tab_bar.py:232-238 | the count is the total length of the arguments' texts |
| TabBar.IconText | kitty/.config/kitty/tab_bar.py:251 | the icon text is four cells longer than the layout name |
| TabBar.DrawIcon | kitty/.config/kitty/tab_bar.py:241-256 | tabs other than the first draw nothing; the first draws the icon, restores the colours, and leaves the cursor bold, not italic, at the icon's width |
| TabBar.TitleDisplay | kitty/.config/kitty/tab_bar.py:295-299 | a shown title is at most 25 characters; it is the title exactly when that is at most 25; a longer one is its first six, an ellipsis and its last six |
| TabBar.DrawLeftStatus | kitty/.config/kitty/tab_bar.py:259-328 | the tab ends no more than `max_title_length` cells after `before`; the colours are restored, bold and italic off; the separator follows unless the tab is last |
| TabBar.StatusCellsLength | kitty/.config/kitty/tab_bar.py:340-348 | the status takes the clock, one space and the date |
| TabBar.Padding | kitty/.config/kitty/tab_bar.py:346-353 | padding is drawn exactly when the status and margin leave room, and then the status ends at the margin |
| TabBar.DrawRightStatus | kitty/.config/kitty/tab_bar.py:331-365 | only the last tab draws; with room the status ends one cell before the edge, otherwise right after the text; italic, in the UTC colour |
| Weather.ReplaceZeros | hypr-lib/.local/lib/hypr/util/weather.py:192 | removing every "00" left to right leaves no two zeros side by side and keeps the first character of a text that does not start with "00" |
| Weather.FormatTime | hypr-lib/.local/lib/hypr/util/weather.py:191-192 | the result is the time with every "00" removed, left-justified with spaces to three wide; it has no "00", and a time without "00" is only padded |
| Weather.DropHundreds | hypr-lib/.local/lib/hypr/util/weather.py:192 | removing "00" from a text without it followed by "00" gives back the text |
| Weather.HourInHundreds | hypr-lib/.local/lib/hypr/util/weather.py:192 | the wttr hour 1..23 written in hundreds is the hour's digits followed by "00", and the hour's digits hold no "00" |
| Weather.WttrHourTimes | hypr-lib/.local/lib/hypr/util/weather.py:191-192 | every wttr time 0, 100, …, 2300 formats as its hour, left-justified to three |
| Weather.FormatTemp | hypr-lib/.local/lib/hypr/util/weather.py:195-198 | an empty temperature raises; otherwise a sign column (a space unless negative), then the text, padded with spaces to exactly the larger of five and its own width |
| Weather.TemperaturesAlign | hypr-lib/.local/lib/hypr/util/weather.py:195-198 | a reading and its negative differ only in the sign column |
| Weather.FirstSpace | hypr-lib/.local/lib/hypr/util/weather.py:203 | the first white-space character, where `%M` ends and `%p` begins |
| Weather.ParseTime12 | hypr-lib/.local/lib/hypr/util/weather.py:203 | a time `strptime` accepts reads as an hour below 24 and a minute below 60 |
| Weather.ParseTime12Parts | hypr-lib/.local/lib/hypr/util/weather.py:203 | `%I:%M %p` reads back the hour and minute of its parts, 12 AM as hour 0 |
| Weather.ParseClock12 | hypr-lib/.local/lib/hypr/util/weather.py:203 | reading a twelve-hour time back gives the hour and minute it shows |
| Weather.GetTimestamp | hypr-lib/.local/lib/hypr/util/weather.py:201-205 | any format but "24h" returns the text unchanged; "24h" succeeds exactly when `strptime` accepts the text and gives a five-character `HH:MM` |
| Weather.TimestampRoundTrip | hypr-lib/.local/lib/hypr/util/weather.py:201-205 | converting a twelve-hour time gives the same clock in 24-hour form |
| Weather.SplitTimeParts | hypr-lib/.local/lib/hypr/util/weather.py:208-218 | no part holds the separator it was cut at; the parts put back together give the stripped text, with or without a colon; a missing part is empty |
| Weather.SplitParts | hypr-lib/.local/lib/hypr/util/weather.py:208-218 | a time is taken apart at its colon and first space |
| Weather.SplitClock12 | hypr-lib/.local/lib/hypr/util/weather.py:208-218 | a twelve-hour sunrise time splits into its hour, minute and period |
| Weather.ChanceValue | hypr-lib/.local/lib/hypr/util/weather.py:236 | a missing field counts as chance 0 |
| Weather.ChanceItems | hypr-lib/.local/lib/hypr/util/weather.py:233-237 | the entries exist exactly when every field is an integer, and then they are the reference list: one entry per event with a positive chance, in the fixed order, none empty |
| Weather.ExpectedMembers | hypr-lib/.local/lib/hypr/util/weather.py:233-237 | the reference list has no more entries than events, is empty exactly when no chance is positive, and holds the entry of every positive chance |
| Weather.JoinChances | hypr-lib/.local/lib/hypr/util/weather.py:221-238 | for any list of events, a non-integer field gives nothing; otherwise the summary is the reference entries joined with `, `, empty exactly when no chance is positive |
| Weather.JoinNonEmpty | hypr-lib/.local/lib/hypr/util/weather.py:238 | non-empty entries join to "" exactly when there are none |
| Weather.FormatChances | hypr-lib/.local/lib/hypr/util/weather.py:221-238 | a non-integer field raises; otherwise the summary is the reference entries of the fixed events joined with `, `, empty exactly when no chance is positive |
| Weather.UnitsAsWritten | hypr-lib/.local/lib/hypr/util/weather.py:247-255 | each unit is the lower-cased setting, its default when unset, and is never corrected |
| Weather.CheckedUnits | hypr-lib/.local/lib/hypr/util/weather.py:320-325 | with the evident intent of the checks, every unit is one of its two valid choices |
| Weather.CheckedUnitsKeepValidChoices | hypr-lib/.local/lib/hypr/util/weather.py:320-325 | the checks keep every valid choice and replace only unknown ones, with the defaults |
| Weather.Temperature | hypr-lib/.local/lib/hypr/util/weather.py:133-137 | Celsius is shown exactly for the unit "c" |
| Weather.WindSpeed | hypr-lib/.local/lib/hypr/util/weather.py:154-158 | kilometres are shown exactly for the unit "km/h" |
| Weather.UnknownUnitsShowImperial | hypr-lib/.local/lib/hypr/util/weather.py:320-325 | with the units "kelvin" and "kmh" the script shows °F and Mph, where the checked units show °C and Km/h |
| Weather.TimeFormatSlipIsHarmless | hypr-lib/.local/lib/hypr/util/weather.py:322-323 | the same slip on the time format has no visible effect |
| Weather.Flag | hypr-lib/.local/lib/hypr/util/weather.py:256-275 | a set flag is true exactly when its lower-cased text is one of true, 1, t, y, yes; an unset flag takes its default's truth |
| Weather.ForecastDays | hypr-lib/.local/lib/hypr/util/weather.py:277-282 | the number of forecast days is the setting's integer when it is in 0..3, and 3 when the setting is missing, not an integer, or out of range (the range check at weather.py:326-327) |
| Weather.LoadSettings | hypr-lib/.local/lib/hypr/util/weather.py:247-282 | as written: the units are the lower-cased ones set, defaulting to c, 12h and km/h; the days are the `ForecastDays` reading (in 0..3, 3 when unset or out of range); the icon, location and today-detail flags are read with their defaults True, False, True |
| Weather.CheckedSettings | hypr-lib/.local/lib/hypr/util/weather.py:320-325 | with the evident intent of the unit checks: the days are the `ForecastDays` reading, every unit is one of its two valid choices, and unset flags take their defaults |
| Weather.RainChances | hypr-lib/.local/lib/hypr/util/weather.py:359 | every hour's chance of rain, defined exactly when all are integers |
| Weather.MaxRainChance | hypr-lib/.local/lib/hypr/util/weather.py:358-360 | an empty day or a non-integer field raises; otherwise the result is the chance of some hour capped at 99, and no hour's capped chance is larger |
| Weather.RainField | hypr-lib/.local/lib/hypr/util/weather.py:364 | a chance in 0..99 is printed two characters wide |
| Weather.RainFieldWidth | hypr-lib/.local/lib/hypr/util/weather.py:358-364 | with chances that are not negative the cap keeps the rain field two characters wide |
| Weather.IsCacheValid | hypr-lib/.local/lib/hypr/util/weather.py:53-61 | the cache is valid exactly when it exists and its age is below an hour, a modification time in the future included |
| Weather.CacheValidEarlier | hypr-lib/.local/lib/hypr/util/weather.py:53-61 | a cache valid now was valid at every earlier moment since it was written |
| Weather.ChooseWeather | hypr-lib/.local/lib/hypr/util/weather.py:333-348 | the cache is used only when not forced, valid and readable; otherwise the service's answer itself is used and saved; no answer exits |
| Lyrics.Tag | hypr-lib/.local/lib/hypr/media/fetch_album_lyrics.py:47-51 | the upper-case tag when it is non-empty, else the lower-case one; empty exactly when neither tag holds text |
| Lyrics.AudioMetadata | hypr-lib/.local/lib/hypr/media/fetch_album_lyrics.py:44-54 | when ffprobe fails every field is empty; otherwise each field is read through the upper/lower-case fallback |
| Lyrics.PickTrack | hypr-lib/.local/lib/hypr/media/fetch_album_lyrics.py:78-89 | no match when the search is empty; with a known album, the earliest result on that album ignoring case; when no result is on the album, the first result |
| Lyrics.AlbumLine | hypr-lib/.local/lib/hypr/media/fetch_album_lyrics.py:115-119 | the local album wins when preferred and known; otherwise the reported album when non-empty; no album line exactly when neither is available |
| Lyrics.FetchLyrics | hypr-lib/.local/lib/hypr/media/fetch_album_lyrics.py:244-255 | the answer of the first source that found text, every earlier source having found none; no lyrics exactly when every source came back empty, after all were asked |
| Lyrics.FetchOvh | hypr-lib/.local/lib/hypr/media/fetch_album_lyrics.py:204-231 | lyrics exactly when the request succeeded with status 200 and the stripped text is not blank, and then they are that text converted to LRC |
| Lyrics.PlainLrcRoundTrip | hypr-lib/.local/lib/hypr/media/fetch_album_lyrics.py:217-224 | reading the generated LRC back (dropping the three header lines and the zero time tags) gives the plain lyrics line for line, for a one-line artist and title |
| Lyrics.PlainLrcLines | hypr-lib/.local/lib/hypr/media/fetch_album_lyrics.py:217-224 | the generated LRC consists of the artist tag, the title tag, an empty line, then one time-zero line per lyric line |
| Lyrics.UntagTagged | hypr-lib/.local/lib/hypr/media/fetch_album_lyrics.py:222-223 | removing the zero time tag undoes adding it on every line |
| Lyrics.StripTrackNumber | hypr-lib/.local/lib/hypr/media/fetch_album_lyrics.py:274-278 | the result is a suffix of the stem; it differs exactly when one to three digits are followed by a dot, space or dash; then exactly the digits and the run of separators after them are removed, so the result does not start with a separator |
| Lyrics.StripNumberedTitle | hypr-lib/.local/lib/hypr/media/fetch_album_lyrics.py:274-278 | a stem made of one to three digits (leading zeros included), separators and a title not starting with a separator yields the title |
| Lyrics.StripNumberOfTitle | hypr-lib/.local/lib/hypr/media/fetch_album_lyrics.py:274-278 | in particular for `str(n)` of a track number below 1000 |
| Lyrics.LongNumberKept | hypr-lib/.local/lib/hypr/media/fetch_album_lyrics.py:278 | four or more leading digits leave the stem whole |
| Lyrics.Query | hypr-lib/.local/lib/hypr/media/fetch_album_lyrics.py:266-278 | tag values win over the directory names; a missing title comes from the file name without its track number |
| Lyrics.ProcessAudioFile | hypr-lib/.local/lib/hypr/media/fetch_album_lyrics.py:258-296 | skipped exactly when an .lrc exists and no force is given; otherwise the query is built from tags and directories, saved lyrics are the answer of the first source, in the order lrclib, YouTube Music, lyrics.ovh, that found text for that query, and it fails exactly when every source finds nothing |

## Left out

- Process supervision in `waybar.py` (pgrep, `/proc`, signals, systemctl, the sleep loops) is left out. It is operating-system plumbing. `SmartReload` returns the action to take instead of taking it.
- inotify and file writing are left out: the ctypes inotify reader, atomic writes, fsync, temp files and SHA-256 hashing. They are I/O. Events arrive as lists of paths, and files as sequences of lines.
- Directory walks, glob results, file existence and modification times are inputs. They come from the file system, and their order is whatever the caller supplies.
- rofi pickers, notifications, the Hyprland wrapper and `hyq` are left out. They are foreign tools.
- `update_icon_size`, and the float parsing of the watch interval and lock time-to-live, are left out. They are floating-point arithmetic. The icon size's source lookup is modelled.
- The weighted artist/track split, the progress bar and position rounding in `mediaplayer.py` are left out, because they are floating-point layout. So are the tooltip text and the JSON printed to Waybar. `format_artist_track` takes the split as a `limits` parameter, and every branch around it is modelled.
- Playerctl and GLib callbacks, the timer lifecycle and the main loop are left out. A player is the record of what the script reads from it.
- In `auto_theme.py`, IP geolocation, the sun computation, sysfs sensor discovery, signals, the daemon loop and the state file write are left out. They are I/O or an astronomy library. The Neovim settings write is modelled (`ApplyMode` sets its `background`); the exceptions `_apply_nvim` and `_apply_hyprland` swallow (auto_theme.py:294-316) are not, so a failed write is never seen. The sensor reading and sunrise/sunset are inputs, and the JSON config file is its parsed object.
- kitty's drawing API is reduced to a cursor record, with one cell per character. `as_rgb`/`color_as_int` and the clock text from `datetime.now` are parameters. Wide-character cell widths are not modelled.
- Network and subprocess work in `weather.py` is left out: the ipinfo and wttr.in requests, the location cache and the weather-code icon table. The JSON answer is an input.
- `fetch_album_lyrics.py`'s requests, ffprobe and ytmusicapi calls are left out. Each source's answer is an input.
- Only the `[al:]` line of the lrclib/YouTube Music LRC header is modelled. The `[length:]` line and the YouTube Music timestamps are float formatting.
- Writing the `.lrc` file is modelled as an outcome value.
- `fanspeedinfo.py`'s `sensors -j` subprocess is left out. The parsed report is an input.
- The `/tmp` index file is given as its text. Reads that fail count as a missing file.
- A file that disappears between listing and `stat` (an `OSError` race) is modelled only as a missing reading. `DirEntry.mtime` is `None` and the poll skips the entry; a lock whose age is `None` is handled by `ThemeUpdateLockActive`.
- Floating-point values (clock times, lux, the lock's age and time-to-live, media positions) are exact `real`s. Binary rounding is not modelled.
- `DirEntry.mtime` is a whole number of seconds, where `st_mtime` is a float. Two writes within the same second compare equal in the model.
- WaybarState.SetLeavesOneLinePerKey: holds over the list of lines; for the file as written, `SetFileLeavesOneLinePerKey` needs a key and value without `\n`. A value with a line break becomes two file lines (`ValueWithBreakSplitsLine`).
- WaybarState.SetIsIdempotent: holds over the list of lines; for the file as written, `SetFileIsIdempotent` needs a key and value without `\n`, and `ValueWithBreakNotIdempotent` shows the failure otherwise.
- Reading a text file translates `\r\n` and a lone `\r` into `\n`. `Py.Split` and `ReadLines` split on `\n` only, so a lone carriage return is not a line break here, and the file-level lemmas say nothing about values holding `\r`.
- Effective: the last valid player is kept as the snapshot from the refresh that read it. The script keeps the player object and re-reads its live name, status, metadata and position. Its second name read at mediaplayer.py:223 is outside any `try` and can raise. Neither is modelled.
- MediaPlayer.Player: the metadata is read whole or not at all. In the script, an empty `xesam:artist` list raises `IndexError` at mediaplayer.py:240, inside the `try`. The title read before it is kept and the duration after it stays 0. That partial reading is not modelled.
- WaybarWatch.PidIsActive: a lock PID outside the range of a C `int` makes `os.kill` raise `OverflowError` (waybar.py:1504), which nothing catches, and the watcher loop at waybar.py:1614-1618 ends. The model's `Probe` has no such outcome: every PID is found alive, missing or forbidden, and the watcher goes on.
- Weather.ChooseWeather: a cache that cannot be read counts as no cache. `load_cache` catches only `FileNotFoundError` and `JSONDecodeError` (weather.py:69). Any other read error, such as a permission error or invalid UTF-8, ends the script instead of starting a fetch.

## Findings

| source | as written | input that shows it | evidently intended | confidence | as-written member | corrected member |
|---|---|---|---|---|---|---|
| hypr-lib/.local/lib/hypr/waybar/waybar.py:1281-1283 | the fallback check calls `int(border_radius)`, which raises `ValueError` on a radius that is not an integer, and nothing catches it | the environment variable `WAYBAR_BORDER_RADIUS=4.5`, or `hypr_border=4.5` | a radius that is not a non-negative integer falls back to 2 | not executed | WaybarSources.DecimalRadiusRaises | WaybarSources.FinalRadius |
| hypr-lib/.local/lib/hypr/waybar/waybar.py:50-55 | the two system layout directories are built with `os.path.join("usr", ...)`, so they are relative to the working directory | running the manager from `/home/u` looks in `/home/u/usr/share/waybar/layouts` | `/usr/local/share/waybar/layouts` and `/usr/share/waybar/layouts` | not executed | WaybarLayouts.SystemLayoutDirsAreRelative | WaybarLayouts.FixedSystemLayoutDirsAreAbsolute |
| hypr-lib/.local/lib/hypr/util/weather.py:320-325 | the unit checks assign their defaults to `TEMP_UNIT`, `TIME_FORMAT` and `WINDSPEED_UINT`, names that nothing reads, so an invalid unit stays in effect | `WEATHER_TEMPERATURE_UNIT=kelvin` shows °F; `WEATHER_WINDSPEED_UNIT=kmh` shows Mph | an invalid unit falls back to `c`, `12h` or `km/h` | not executed | Weather.UnknownUnitsShowImperial | Weather.CheckedUnits |

=== FILE: auto_theme.dfy ===
/**
 * The auto-theme daemon: it decides between the light and the dark theme
 * from a manual override, an ambient light sensor (with hysteresis) or the
 * sun, and applies a change to Neovim's settings and to Hyprland's
 * `staterc`. Also its `key=value` configuration parser.
 *
 * Clock readings and datetimes are seconds as `real`; the sensor reading and
 * the sunrise and sunset times are inputs, since they come from sysfs and
 * from an astronomy library.
 */
module AutoTheme {
  import opened Py

  datatype Mode = Light | Dark

  function ModeName(m: Mode): string {
    match m
    case Light => "light"
    case Dark => "dark"
  }

  function ModeOf(light: bool): Mode {
    if light then Light else Dark
  }

  /** The persisted state. `current` is the stored text of the current
      mode, which is "light" or "dark" unless the state file was edited. */
  datatype ThemeState = ThemeState(current: string, lastChange: Option<real>, overrideUntil: Option<real>)

  const InitialState := ThemeState("dark", None, None)

  predicate KnownMode(s: ThemeState) {
    s.current == "light" || s.current == "dark"
  }

  /** The settings the decision and the transitions read. */
  datatype AutoConfig = AutoConfig(
    darkLux: real, lightLux: real, controlNvim: bool, controlHyprland: bool, overrideMinutes: real)

  datatype Reason = ManualOverride | SensorDark | SensorLight | SensorHysteresis | Sun(day: bool)

  datatype Decision = Decision(light: bool, reason: Reason, state: ThemeState)

  predicate OverrideActive(s: ThemeState, now: real) {
    s.overrideUntil.Some? && now < s.overrideUntil.value
  }

  // ---------------------------------------------------------------------
  // The decision (`_should_be_light`).
  // ---------------------------------------------------------------------

  /** `_should_be_light`: an unexpired manual override keeps the current
      mode; an expired one is cleared first. Then a sensor reading decides,
      keeping the current mode between the two thresholds; without one the
      theme is light from sunrise to sunset inclusive. */
  function ShouldBeLight(cfg: AutoConfig, s: ThemeState, now: real, lux: Option<real>, sunrise: real, sunset: real): (d: Decision)
    ensures OverrideActive(s, now) ==> d == Decision(s.current == "light", ManualOverride, s)
    ensures !OverrideActive(s, now) ==> d.state == s.(overrideUntil := None) && d.reason != ManualOverride
    ensures (!OverrideActive(s, now) && lux.Some? && lux.value < cfg.darkLux) ==> !d.light
    ensures (!OverrideActive(s, now) && lux.Some? && cfg.darkLux <= lux.value && lux.value > cfg.lightLux) ==> d.light
    ensures (!OverrideActive(s, now) && lux.Some? && cfg.darkLux <= lux.value <= cfg.lightLux) ==>
              d.light == (s.current == "light")
    ensures (!OverrideActive(s, now) && lux.None?) ==> d.light == (sunrise <= now <= sunset)
  {
    if OverrideActive(s, now) then Decision(s.current == "light", ManualOverride, s)
    else
      var s' := s.(overrideUntil := None);
      match lux
      case Some(l) =>
        if l < cfg.darkLux then Decision(false, SensorDark, s')
        else if l > cfg.lightLux then Decision(true, SensorLight, s')
        else Decision(s.current == "light", SensorHysteresis, s')
      case None =>
        var day := sunrise <= now && now <= sunset;
        Decision(day, Sun(day), s')
  }

  /** Once the override has expired, deciding is the same as deciding with
      no override at all. */
  lemma ExpiredOverrideIsIgnored(cfg: AutoConfig, s: ThemeState, now: real, lux: Option<real>, sunrise: real, sunset: real)
    requires !OverrideActive(s, now)
    ensures ShouldBeLight(cfg, s, now, lux, sunrise, sunset)
         == ShouldBeLight(cfg, s.(overrideUntil := None), now, lux, sunrise, sunset)
  {
    var a := ShouldBeLight(cfg, s, now, lux, sunrise, sunset);
    var b := ShouldBeLight(cfg, s.(overrideUntil := None), now, lux, sunrise, sunset);
    assert a.state == b.state;
    assert a.light == b.light && a.reason == b.reason;
  }

  // ---------------------------------------------------------------------
  // Applying a mode (`_apply_mode`, `_apply_nvim`, `_apply_hyprland`).
  // ---------------------------------------------------------------------

  /** The index of the first line that starts with `key`. */
  function FirstLineWith(lines: seq<string>, key: string): (r: Option<nat>)
    ensures r.None? <==> forall j :: 0 <= j < |lines| ==> !StartsWith(lines[j], key)
    ensures r.Some? ==> r.value < |lines| && StartsWith(lines[r.value], key)
    ensures r.Some? ==> forall j :: 0 <= j < r.value ==> !StartsWith(lines[j], key)
    decreases |lines|
  {
    if |lines| == 0 then None
    else if StartsWith(lines[0], key) then Some(0)
    else match FirstLineWith(lines[1..], key)
      case None => None
      case Some(i) => Some(i + 1)
  }

  /** The loop of `_apply_hyprland`: the first line starting with `key` is
      replaced, every other line is kept. */
  function ReplaceFirstLineWith(lines: seq<string>, key: string, line: string): (r: seq<string>)
    ensures FirstLineWith(lines, key).None? ==> r == lines
    ensures FirstLineWith(lines, key).Some? ==> r == lines[FirstLineWith(lines, key).value := line]
    decreases |lines|
  {
    if |lines| == 0 then []
    else if StartsWith(lines[0], key) then [line] + lines[1..]
    else [lines[0]] + ReplaceFirstLineWith(lines[1..], key, line)
  }

  /** `_apply_hyprland` on a text: replace the first line starting with
      `key`, or append `line` when `key` occurs nowhere. */
  function RewriteWith(content: string, key: string, line: string): string {
    if Contains(content, key) then
      Join(ReplaceFirstLineWith(Split(content, '\n'), key, line), "\n")
    else content + "\n" + line + "\n"
  }

  /** The first line starting with `key`, if any. */
  function DeclaredLine(content: string, key: string): Option<string> {
    var lines := Split(content, '\n');
    match FirstLineWith(lines, key)
    case None => None
    case Some(i) => Some(lines[i])
  }

  lemma FirstLineWithIs(lines: seq<string>, key: string, i: nat)
    requires i < |lines| && StartsWith(lines[i], key)
    requires forall j :: 0 <= j < i ==> !StartsWith(lines[j], key)
    ensures FirstLineWith(lines, key) == Some(i)
  {
    var r := FirstLineWith(lines, key);
    assert r.Some?;
  }

  lemma ReplacedLineIsFirst(lines: seq<string>, key: string, line: string)
    requires FirstLineWith(lines, key).Some? && StartsWith(line, key) && '\n' !in line
    requires forall k :: 0 <= k < |lines| ==> '\n' !in lines[k]
    ensures FirstLineWith(ReplaceFirstLineWith(lines, key, line), key) == FirstLineWith(lines, key)
    ensures forall k :: 0 <= k < |lines| ==> '\n' !in ReplaceFirstLineWith(lines, key, line)[k]
  {
    var i := FirstLineWith(lines, key).value;
    var r := ReplaceFirstLineWith(lines, key, line);
    FirstLineWithIs(r, key, i);
  }

  /** Where `key` occurs nowhere, no line starts with it. */
  lemma NoLineWith(content: string, key: string)
    requires !Contains(content, key)
    ensures FirstLineWith(Split(content, '\n'), key).None?
  {
    var lines := Split(content, '\n');
    forall j | 0 <= j < |lines| ensures !StartsWith(lines[j], key) {
      if StartsWith(lines[j], key) {
        SplitPieceContains(content, '\n', j, key);
      }
    }
  }

  lemma SplitTerminated(line: string)
    requires '\n' !in line
    ensures Split(line + "\n", '\n') == [line, ""]
  {
    assert line + "\n" == line + ['\n'] + "";
    SplitConcat(line, "", '\n');
    assert Split(line, '\n') == [line];
  }

  /** The lines of a text with `line` appended. */
  lemma AppendedLines(content: string, line: string)
    requires '\n' !in line
    ensures Split(content + "\n" + line + "\n", '\n') == Split(content, '\n') + [line, ""]
  {
    var t := line + "\n";
    assert content + "\n" + line + "\n" == content + ['\n'] + t;
    SplitConcat(content, t, '\n');
    SplitTerminated(line);
  }

  lemma RewriteWithDeclares(content: string, key: string, line: string)
    requires StartsWith(line, key) && '\n' !in line
    ensures FirstLineWith(Split(content, '\n'), key).Some? || !Contains(content, key) ==>
              DeclaredLine(RewriteWith(content, key, line), key) == Some(line)
    ensures FirstLineWith(Split(content, '\n'), key).None? && Contains(content, key) ==>
              RewriteWith(content, key, line) == content
  {
    var lines := Split(content, '\n');
    if Contains(content, key) {
      var r := ReplaceFirstLineWith(lines, key, line);
      if FirstLineWith(lines, key).Some? {
        ReplacedLineIsFirst(lines, key, line);
        SplitJoin(r, '\n');
      } else {
        JoinSplit(content, '\n');
      }
    } else {
      NoLineWith(content, key);
      AppendedLines(content, line);
      FirstLineWithIs(lines + [line, ""], key, |lines|);
    }
  }

  lemma RewriteWithIdempotent(content: string, key: string, line: string)
    requires StartsWith(line, key) && '\n' !in line
    ensures RewriteWith(RewriteWith(content, key, line), key, line) == RewriteWith(content, key, line)
  {
    var lines := Split(content, '\n');
    var c1 := RewriteWith(content, key, line);
    if Contains(content, key) && FirstLineWith(lines, key).None? {
      JoinSplit(content, '\n');
    } else {
      RewriteWithDeclares(content, key, line);
      var lines1 := Split(c1, '\n');
      var i := FirstLineWith(lines1, key).value;
      assert lines1[i] == line;
      SplitPieceContains(c1, '\n', i, key);
      assert ReplaceFirstLineWith(lines1, key, line) == lines1;
      JoinSplit(c1, '\n');
    }
  }

  const ModeKey := "BACKGROUND_MODE="

  /** The `staterc` line that records the mode. */
  function ModeLine(m: Mode): (r: string)
    ensures StartsWith(r, ModeKey) && '\n' !in r
    ensures r[|ModeKey|..] == "\"" + ModeName(m) + "\""
  {
    var r := ModeKey + "\"" + ModeName(m) + "\"";
    assert r[..|ModeKey|] == ModeKey;
    r
  }

  /** `_apply_hyprland` on the text of `staterc`. */
  function RewriteStaterc(content: string, m: Mode): string {
    RewriteWith(content, ModeKey, ModeLine(m))
  }

  /** The mode `staterc` declares: the value on its first key line. */
  function StatercMode(content: string): Option<string> {
    match DeclaredLine(content, ModeKey)
    case None => None
    case Some(l) => if |l| >= |ModeKey| then Some(l[|ModeKey|..]) else None
  }

  /** After the rewrite, `staterc` declares the applied mode, unless the key
      occurs in it only in the middle of a line, in which case the text is
      left exactly as it was. */
  lemma RewriteDeclaresMode(content: string, m: Mode)
    ensures FirstLineWith(Split(content, '\n'), ModeKey).Some? || !Contains(content, ModeKey) ==>
              StatercMode(RewriteStaterc(content, m)) == Some("\"" + ModeName(m) + "\"")
    ensures FirstLineWith(Split(content, '\n'), ModeKey).None? && Contains(content, ModeKey) ==>
              RewriteStaterc(content, m) == content
  {
    RewriteWithDeclares(content, ModeKey, ModeLine(m));
  }

  /** Rewriting with the same mode a second time changes nothing. */
  lemma RewriteIdempotent(content: string, m: Mode)
    ensures RewriteStaterc(RewriteStaterc(content, m), m) == RewriteStaterc(content, m)
  {
    RewriteWithIdempotent(content, ModeKey, ModeLine(m));
  }

  /** The files a mode change writes: `staterc` (absent when the file does
      not exist) and the Neovim settings (absent when there is no file yet). */
  datatype Files = Files(staterc: Option<string>, nvim: Option<map<string, string>>)

  datatype Applied = Applied(state: ThemeState, files: Files)

  /** `_apply_mode`: nothing happens when the mode is already current;
      otherwise the enabled targets are updated and the state records the
      new mode and the time of the change. */
  function ApplyMode(cfg: AutoConfig, s: ThemeState, m: Mode, now: real, f: Files): (r: Applied)
    ensures ModeName(m) == s.current ==> r == Applied(s, f)
    ensures ModeName(m) != s.current ==> (
      && r.state == ThemeState(ModeName(m), Some(now), s.overrideUntil)
      && (cfg.controlNvim ==> (
            && r.files.nvim.Some? && "background" in r.files.nvim.value
            && r.files.nvim.value["background"] == ModeName(m)))
      && (!cfg.controlNvim ==> r.files.nvim == f.nvim)
      && (cfg.controlHyprland && f.staterc.Some? ==>
            r.files.staterc == Some(RewriteStaterc(f.staterc.value, m)))
      && (!cfg.controlHyprland || f.staterc.None? ==> r.files.staterc == f.staterc))
  {
    if ModeName(m) == s.current then Applied(s, f)
    else
      var nvim :=
        if cfg.controlNvim then
          var settings := if f.nvim.Some? then f.nvim.value else map[];
          Some(settings["background" := ModeName(m)])
        else f.nvim;
      var staterc :=
        if cfg.controlHyprland && f.staterc.Some? then Some(RewriteStaterc(f.staterc.value, m))
        else f.staterc;
      Applied(s.(current := ModeName(m), lastChange := Some(now)), Files(staterc, nvim))
  }

  // ---------------------------------------------------------------------
  // The signal handlers and the loop step.
  // ---------------------------------------------------------------------

  /** `_handle_toggle`: flip the mode and, when the override duration is
      positive, hold it for that many minutes. */
  function Toggle(cfg: AutoConfig, s: ThemeState, now: real, f: Files): (r: Applied)
    ensures r.state.current == if s.current == "light" then "dark" else "light"
    ensures r.state.lastChange == Some(now)
    ensures cfg.overrideMinutes > 0.0 ==> r.state.overrideUntil == Some(now + cfg.overrideMinutes * 60.0)
    ensures cfg.overrideMinutes <= 0.0 ==> r.state.overrideUntil == s.overrideUntil
  {
    var m := if s.current == "light" then Dark else Light;
    var s' := if cfg.overrideMinutes > 0.0 then s.(overrideUntil := Some(now + cfg.overrideMinutes * 60.0)) else s;
    ApplyMode(cfg, s', m, now, f)
  }

  /** Toggling twice restores the mode. */
  lemma ToggleTwice(cfg: AutoConfig, s: ThemeState, now: real, later: real, f: Files)
    requires KnownMode(s)
    ensures Toggle(cfg, Toggle(cfg, s, now, f).state, later, f).state.current == s.current
  {
  }

  /** A toggle always switches the theme, so it always rewrites the
      enabled targets, and a toggle with an override holds its mode on the
      next loop step. */
  lemma ToggleHolds(cfg: AutoConfig, s: ThemeState, now: real, later: real, f: Files,
                    lux: Option<real>, sunrise: real, sunset: real)
    requires cfg.overrideMinutes > 0.0 && now <= later < now + cfg.overrideMinutes * 60.0
    ensures var t := Toggle(cfg, s, now, f);
            Step(cfg, t.state, later, lux, sunrise, sunset, t.files) == t
  {
    var t := Toggle(cfg, s, now, f);
    assert OverrideActive(t.state, later);
    assert KnownMode(t.state);
  }

  /** `_handle_refresh`: drop any override, decide, apply. */
  function Refresh(cfg: AutoConfig, s: ThemeState, now: real, lux: Option<real>, sunrise: real, sunset: real, f: Files): (r: Applied)
    ensures r.state.overrideUntil.None?
    ensures lux.None? ==> (r.state.current == "light" <==> sunrise <= now <= sunset)
    ensures lux.Some? && lux.value < cfg.darkLux ==> r.state.current == "dark"
    ensures lux.Some? && cfg.darkLux <= lux.value && lux.value > cfg.lightLux ==> r.state.current == "light"
  {
    var d := ShouldBeLight(cfg, s.(overrideUntil := None), now, lux, sunrise, sunset);
    ApplyMode(cfg, d.state, ModeOf(d.light), now, f)
  }

  /** One iteration of the daemon loop: decide and apply. */
  function Step(cfg: AutoConfig, s: ThemeState, now: real, lux: Option<real>, sunrise: real, sunset: real, f: Files): (r: Applied)
    ensures OverrideActive(s, now) && KnownMode(s) ==> r == Applied(s, f)
    ensures !OverrideActive(s, now) ==> r.state.overrideUntil.None?
  {
    var d := ShouldBeLight(cfg, s, now, lux, sunrise, sunset);
    ApplyMode(cfg, d.state, ModeOf(d.light), now, f)
  }

  /** Between the thresholds the loop changes nothing but the expired
      override: hysteresis keeps a known mode. */
  lemma HysteresisKeepsMode(cfg: AutoConfig, s: ThemeState, now: real, l: real, sunrise: real, sunset: real, f: Files)
    requires KnownMode(s) && !OverrideActive(s, now) && cfg.darkLux <= l <= cfg.lightLux
    ensures Step(cfg, s, now, Some(l), sunrise, sunset, f) == Applied(s.(overrideUntil := None), f)
  {
    var d := ShouldBeLight(cfg, s, now, Some(l), sunrise, sunset);
    assert ModeName(ModeOf(d.light)) == s.current;
  }

  // ---------------------------------------------------------------------
  // The configuration file (`_load_config`).
  // ---------------------------------------------------------------------

  datatype Value = Bool(b: bool) | Int(i: int) | Float(f: real) | Str(s: string)

  const Defaults: map<string, Value> := map[
    "latitude" := Str("auto"),
    "longitude" := Str("auto"),
    "timezone" := Str("auto"),
    "sensor_path" := Str("/sys/bus/iio/devices/iio:device0/in_illuminance_raw"),
    "lux_threshold_dark" := Int(50),
    "lux_threshold_light" := Int(200),
    "check_interval_seconds" := Int(60),
    "sun_offset_minutes" := Int(30),
    "control_hyprland" := Bool(true),
    "control_nvim" := Bool(true),
    "manual_override_duration" := Int(120)]

  /** `value.replace('.', '').replace('-', '')`. */
  function WithoutMarks(v: string): string {
    ReplaceAll(ReplaceAll(v, ".", ""), "-", "")
  }

  function Pow10(n: nat): (r: nat)
    ensures r > 0
  {
    if n == 0 then 1 else 10 * Pow10(n - 1)
  }

  predicate DigitsOrEmpty(s: string) {
    s == "" || AllDigits(s)
  }

  /** Python's `float()` on text made of digits, `.` and `-`: an optional
      minus, then digits around one point with at least one digit. */
  function ParseDecimal(v: string): (r: Option<real>)
    ensures r.Some? ==> '.' in v
  {
    var neg := |v| > 0 && v[0] == '-';
    var u := if neg then v[1..] else v;
    var a := Before(u, '.');
    var b := After(u, '.');
    if '.' in u && DigitsOrEmpty(a) && DigitsOrEmpty(b) && (a != "" || b != "") then
      var x := DigitsValue(a, 10) as real + DigitsValue(b, 10) as real / Pow10(|b|) as real;
      Some(if neg then -x else x)
    else None
  }

  /** The value `float()` gives digits `a` before and `b` after the point. */
  function DecimalOf(a: string, b: string): real {
    DigitsValue(a, 10) as real + DigitsValue(b, 10) as real / Pow10(|b|) as real
  }

  /** `float()` reads digits around one point as their decimal value. */
  lemma DecimalValue(a: string, b: string)
    requires DigitsOrEmpty(a) && DigitsOrEmpty(b) && (a != "" || b != "")
    ensures ParseDecimal(a + "." + b) == Some(DecimalOf(a, b))
    ensures (a + "." + b)[0] != '-'
  {
    assert '.' !in a by {
      if a != "" { assert forall i :: 0 <= i < |a| ==> IsDigit(a[i]); }
    }
    BeforeAfterJoined(a, '.', b);
    var v := a + "." + b;
    assert v == a + ['.'] + b;
    assert v[0] != '-' by {
      if a != "" { assert v[0] == a[0] && IsDigit(a[0]); } else { assert v[0] == '.'; }
    }
    assert '.' in v by { assert v[|a|] == '.'; }
  }

  /** A leading minus negates what `float()` reads from the rest. */
  lemma NegatedDecimal(v: string)
    requires |v| > 0 && v[0] != '-'
    ensures ParseDecimal("-" + v) == if ParseDecimal(v).Some? then Some(-ParseDecimal(v).value) else None
  {
    var w := "-" + v;
    assert w[0] == '-' && w[1..] == v;
  }

  /** Hence a negative decimal reads as the negated value. */
  lemma NegativeDecimalValue(a: string, b: string)
    requires DigitsOrEmpty(a) && DigitsOrEmpty(b) && (a != "" || b != "")
    ensures ParseDecimal("-" + (a + "." + b)) == Some(-DecimalOf(a, b))
  {
    DecimalValue(a, b);
    NegatedDecimal(a + "." + b);
  }

  /** The two boolean words hold neither a point nor a digit, so they are
      never read as numbers. */
  lemma BoolWordIsNotNumber(v: string)
    requires LowerAscii(v) == "true" || LowerAscii(v) == "false"
    ensures '.' !in v && !AllDigits(WithoutMarks(v))
  {
    assert forall i :: 0 <= i < |v| ==> LowerChar(v[i]) in "truefals";
    assert '.' !in v && '-' !in v;
    NotContainsChar(v, '.');
    ReplaceAbsent(v, ".", "");
    NotContainsChar(v, '-');
    ReplaceAbsent(v, "-", "");
    assert !IsDigit(v[0]);
  }

  /** The typing of one value: `true`/`false` in any case, then numbers,
      then plain text. `None` is the `ValueError` of `int()` or `float()`. */
  function ParseValue(v: string): (r: Option<Value>)
    ensures LowerAscii(v) == "true" ==> r == Some(Bool(true))
    ensures LowerAscii(v) == "false" ==> r == Some(Bool(false))
    ensures r.None? ==> AllDigits(WithoutMarks(v))
    ensures r.Some? && r.value.Str? ==> r.value.s == v && !AllDigits(WithoutMarks(v))
    ensures r.Some? && AllDigits(WithoutMarks(v)) ==> ('.' in v <==> r.value.Float?)
    ensures r.Some? && r.value.Int? ==> ParseInt(v) == Some(r.value.i)
    ensures r.Some? && r.value.Float? ==> ParseDecimal(v) == Some(r.value.f)
    ensures AllDigits(WithoutMarks(v)) && '.' !in v ==> (r.Some? <==> ParseInt(v).Some?)
    ensures AllDigits(WithoutMarks(v)) && '.' in v ==> (r.Some? <==> ParseDecimal(v).Some?)
  {
    var low := LowerAscii(v);
    if low == "true" || low == "false" then
      BoolWordIsNotNumber(v);
      Some(Bool(low == "true"))
    else if AllDigits(WithoutMarks(v)) then
      if '.' in v then
        match ParseDecimal(v)
        case None => None
        case Some(x) => Some(Float(x))
      else
        match ParseInt(v)
        case None => None
        case Some(i) => Some(Int(i))
    else Some(Str(v))
  }

  /** A plain decimal number is read as that integer. */
  lemma DigitsValueIsInt(v: string)
    requires AllDigits(v)
    ensures ParseValue(v) == Some(Int(DigitsValue(v, 10)))
  {
    NotContainsChar(v, '.');
    ReplaceAbsent(v, ".", "");
    NotContainsChar(v, '-');
    ReplaceAbsent(v, "-", "");
    ParseIntOfDigits(v);
    assert LowerAscii(v) == v by {
      forall i | 0 <= i < |v| ensures LowerAscii(v)[i] == v[i] { }
    }
    assert v != "true" && v != "false" by {
      assert IsDigit(v[0]) && !IsDigit('t') && !IsDigit('f');
    }
  }

  datatype LineResult = Skip | Entry(key: string, value: Value) | Fail

  /** One line of the `key=value` form. */
  function ParseLine(line: string): (r: LineResult)
    ensures Strip(line) == "" || StartsWith(Strip(line), "#") || '=' !in Strip(line) ==> r == Skip
  {
    var l := Strip(line);
    if l == "" || StartsWith(l, "#") || '=' !in l then Skip
    else match ParseValue(Strip(After(l, '=')))
      case None => Fail
      case Some(v) => Entry(Strip(Before(l, '=')), v)
  }

  /** The user's settings from the parsed lines, in order; a failing line
      discards them all. */
  function Collect(rs: seq<LineResult>): Option<map<string, Value>>
    decreases |rs|
  {
    if |rs| == 0 then Some(map[])
    else match Collect(rs[..|rs| - 1])
      case None => None
      case Some(m) =>
        match rs[|rs| - 1]
        case Skip => Some(m)
        case Fail => None
        case Entry(k, v) => Some(m[k := v])
  }

  /** Each line of the `key=value` form, parsed. */
  function ParsedLines(lines: seq<string>): (r: seq<LineResult>)
    ensures |r| == |lines|
  {
    seq(|lines|, i requires 0 <= i < |lines| => ParseLine(lines[i]))
  }

  function ParseEntries(lines: seq<string>): Option<map<string, Value>> {
    Collect(ParsedLines(lines))
  }

  /** The settings are discarded exactly when some line fails to parse. */
  lemma {:induction false} CollectFailsIff(rs: seq<LineResult>)
    ensures Collect(rs).None? <==> exists j :: 0 <= j < |rs| && rs[j].Fail?
    decreases |rs|
  {
    if |rs| > 0 {
      var front := rs[..|rs| - 1];
      CollectFailsIff(front);
      assert forall j :: 0 <= j < |front| ==> front[j] == rs[j];
    }
  }

  /** The value of `key` on the last line that sets it: the reference
      reading of a settings file in which later lines win. */
  function LastSetting(rs: seq<LineResult>, key: string): Option<Value>
    decreases |rs|
  {
    if |rs| == 0 then None
    else match rs[|rs| - 1]
      case Entry(k, v) => if k == key then Some(v) else LastSetting(rs[..|rs| - 1], key)
      case _ => LastSetting(rs[..|rs| - 1], key)
  }

  /** Every key that the collected settings hold comes from its last line. */
  lemma {:induction false} CollectIsLastSettings(rs: seq<LineResult>, key: string)
    requires Collect(rs).Some?
    ensures key in Collect(rs).value <==> LastSetting(rs, key).Some?
    ensures key in Collect(rs).value ==> Collect(rs).value[key] == LastSetting(rs, key).value
    decreases |rs|
  {
    if |rs| > 0 {
      CollectIsLastSettings(rs[..|rs| - 1], key);
    }
  }

  /** The user's settings in a config file's text: JSON, read by `json`,
      when the stripped text starts with `{`, else the `key=value` lines;
      `None` when it fails to parse. */
  function UserSettings(text: string, json: string -> Option<map<string, Value>>): Option<map<string, Value>> {
    var content := Strip(text);
    if StartsWith(content, "{") then json(content) else ParseEntries(Split(content, '\n'))
  }

  /** The user's file parses and sets `k`. */
  predicate UserSets(file: Option<string>, json: string -> Option<map<string, Value>>, k: string) {
    file.Some? && UserSettings(file.value, json).Some? && k in UserSettings(file.value, json).value
  }

  /** `_load_config`: the defaults, updated with the user's file when there
      is one (`config.update(user_config)`): every key the file sets takes
      the file's value, every other default stays. A file that fails to
      parse is ignored. */
  function LoadConfig(file: Option<string>, json: string -> Option<map<string, Value>>): (r: map<string, Value>)
    ensures Defaults.Keys <= r.Keys
    ensures file.None? ==> r == Defaults
    ensures file.Some? && UserSettings(file.value, json).None? ==> r == Defaults
    ensures file.Some? && UserSettings(file.value, json).Some? ==>
              forall k :: k in UserSettings(file.value, json).value ==> k in r && r[k] == UserSettings(file.value, json).value[k]
    ensures forall k :: k in Defaults && !UserSets(file, json, k) ==> r[k] == Defaults[k]
    ensures forall k :: k in r && k !in Defaults ==> file.Some? && UserSettings(file.value, json).Some?
  {
    match file
    case None => Defaults
    case Some(text) =>
      match UserSettings(text, json)
      case None => Defaults
      case Some(u) => Defaults + u
  }

  /** In a `key=value` config file, the last line that sets a key decides
      its value in the loaded configuration. */
  lemma KeyValueFileLastLineWins(text: string, json: string -> Option<map<string, Value>>, key: string)
    requires !StartsWith(Strip(text), "{")
    requires ParseEntries(Split(Strip(text), '\n')).Some?
    requires LastSetting(ParsedLines(Split(Strip(text), '\n')), key).Some?
    ensures key in LoadConfig(Some(text), json)
            && LoadConfig(Some(text), json)[key] == LastSetting(ParsedLines(Split(Strip(text), '\n')), key).value
  {
    CollectIsLastSettings(ParsedLines(Split(Strip(text), '\n')), key);
  }

  /** Python's numeric view of a setting (a `bool` is an `int`); text is
      not a number and comparing it raises `TypeError`. */
  function Numeric(v: Value): Option<real> {
    match v
    case Bool(b) => Some(if b then 1.0 else 0.0)
    case Int(i) => Some(i as real)
    case Float(f) => Some(f)
    case Str(_) => None
  }

  /** Python truthiness of a setting. */
  predicate Truthy(v: Value) {
    match v
    case Bool(b) => b
    case Int(i) => i != 0
    case Float(f) => f != 0.0
    case Str(s) => s != ""
  }

  /** The settings the decision uses, or `None` when a threshold or the
      override duration is text. The daemon raises `TypeError` only where
      such a value is compared: a threshold once a sensor reading exists,
      the duration on a toggle. */
  function ConfigOf(m: map<string, Value>): (r: Option<AutoConfig>)
    requires Defaults.Keys <= m.Keys
    ensures m == Defaults ==> r == Some(AutoConfig(50.0, 200.0, true, true, 120.0))
  {
    var dark := Numeric(m["lux_threshold_dark"]);
    var light := Numeric(m["lux_threshold_light"]);
    var minutes := Numeric(m["manual_override_duration"]);
    if dark.Some? && light.Some? && minutes.Some? then
      Some(AutoConfig(dark.value, light.value, Truthy(m["control_nvim"]), Truthy(m["control_hyprland"]), minutes.value))
    else None
  }
}

=== FILE: fanspeed.dfy ===
/**
 * The fan-speed status module: which sensors count as fans, the speed a fan
 * reports, the persisted "current fan" index and the text and tooltip shown
 * in the bar. The `sensors -j` report is given as its parsed JSON (devices
 * in report order, each with its sensors in order); the index file is given
 * as its text, `None` when it is missing or unreadable.
 */
module FanSpeed {
  import opened Py

  /** A sensor's entry in the report: a dictionary of numeric readings, or
      anything else (such as the adapter name), which is skipped. */
  datatype SensorData = Readings(values: seq<(string, real)>) | NotReadings

  /** One device: its name and its sensors, in report order. */
  type Device = (string, seq<(string, SensorData)>)

  datatype Fan = Fan(device: string, sensor: string, values: seq<(string, real)>)

  /** A reading key that names a fan input, e.g. `fan1_input`. */
  predicate IsFanKey(k: string) {
    Contains(k, "fan") && Contains(k, "input")
  }

  predicate HasFanInput(values: seq<(string, real)>) {
    exists i :: 0 <= i < |values| && IsFanKey(values[i].0)
  }

  /** The fans one device contributes, in sensor order. */
  function DeviceFans(name: string, data: seq<(string, SensorData)>): (r: seq<Fan>)
    ensures forall i :: 0 <= i < |r| ==> r[i].device == name && HasFanInput(r[i].values)
    ensures forall f :: f in r <==> f.device == name && Readings(f.values) in SensorsOf(data, f.sensor) && HasFanInput(f.values)
    decreases |data|
  {
    if |data| == 0 then []
    else
      var rest := DeviceFans(name, data[1..]);
      assert forall s :: SensorsOf(data, s) == (if data[0].0 == s then {data[0].1} else {}) + SensorsOf(data[1..], s);
      match data[0].1
      case Readings(v) => if HasFanInput(v) then [Fan(name, data[0].0, v)] + rest else rest
      case NotReadings => rest
  }

  /** The fans of a device keep their sensors' order: a single sensor
      contributes itself exactly when it is a dictionary with a fan input,
      and the fans of consecutive runs of sensors are concatenated. */
  lemma {:induction false} DeviceFansInOrder(name: string, a: seq<(string, SensorData)>, b: seq<(string, SensorData)>)
    ensures DeviceFans(name, a + b) == DeviceFans(name, a) + DeviceFans(name, b)
    ensures forall e :: DeviceFans(name, [e]) ==
              if e.1.Readings? && HasFanInput(e.1.values) then [Fan(name, e.0, e.1.values)] else []
    decreases |a|
  {
    if |a| == 0 {
      assert a + b == b;
    } else {
      assert (a + b)[0] == a[0];
      assert (a + b)[1..] == a[1..] + b;
      DeviceFansInOrder(name, a[1..], b);
    }
    forall e: (string, SensorData) ensures DeviceFans(name, [e]) ==
              if e.1.Readings? && HasFanInput(e.1.values) then [Fan(name, e.0, e.1.values)] else []
    {
      assert [e][1..] == [];
    }
  }

  /** The data recorded under sensor name `s`. */
  function SensorsOf(data: seq<(string, SensorData)>, s: string): set<SensorData>
    decreases |data|
  {
    if |data| == 0 then {} else (if data[0].0 == s then {data[0].1} else {}) + SensorsOf(data[1..], s)
  }

  /** The report's device names, in report order. */
  function DeviceNames(devs: seq<Device>): seq<string> {
    Firsts(devs)
  }

  /** A report's device names are dictionary keys, hence distinct. */
  predicate DistinctNames(devs: seq<Device>) {
    forall i, j :: 0 <= i < j < |devs| ==> devs[i].0 != devs[j].0
  }

  /** The sensors of the device called `name`. */
  function Lookup(devs: seq<Device>, name: string): (r: seq<(string, SensorData)>)
    ensures forall k :: 0 <= k < |devs| && devs[k].0 == name && DistinctNames(devs) ==> r == devs[k].1
    decreases |devs|
  {
    if |devs| == 0 then []
    else if devs[0].0 == name then devs[0].1
    else
      var r := Lookup(devs[1..], name);
      assert forall k :: 1 <= k < |devs| ==> devs[k] == devs[1..][k - 1];
      r
  }

  /** The fans of the listed devices, device by device. */
  function FansOf(names: seq<string>, devs: seq<Device>): (r: seq<Fan>)
    ensures forall i :: 0 <= i < |r| ==> r[i].device in names && HasFanInput(r[i].values)
    decreases |names|
  {
    if |names| == 0 then []
    else DeviceFans(names[0], Lookup(devs, names[0])) + FansOf(names[1..], devs)
  }

  /** `get_all_fans()` on a parsed report: devices in sorted name order,
      and within a device every dictionary sensor with a fan input key. */
  function GetAllFans(devs: seq<Device>): (r: seq<Fan>)
    ensures forall i :: 0 <= i < |r| ==> HasFanInput(r[i].values)
  {
    FansOf(SortStrings(DeviceNames(devs)), devs)
  }

  /** Within the fan list, devices appear in sorted order. */
  lemma {:induction false} FansOfSorted(names: seq<string>, devs: seq<Device>)
    requires SortedStrings(names)
    ensures forall i, j :: 0 <= i < j < |FansOf(names, devs)| ==> StrLe(FansOf(names, devs)[i].device, FansOf(names, devs)[j].device)
    decreases |names|
  {
    if |names| > 0 {
      var head := DeviceFans(names[0], Lookup(devs, names[0]));
      var tail := FansOf(names[1..], devs);
      var r := FansOf(names, devs);
      FansOfSorted(names[1..], devs);
      StrLeRefl(names[0]);
      forall i, j | 0 <= i < j < |r|
        ensures StrLe(r[i].device, r[j].device)
      {
        if j < |head| {
          assert r[i] == head[i] && r[j] == head[j];
        } else if i < |head| {
          assert r[i] == head[i] && r[j] == tail[j - |head|];
          var k :| 0 <= k < |names[1..]| && names[1..][k] == tail[j - |head|].device;
          assert names[k + 1] == names[1..][k];
        } else {
          assert r[i] == tail[i - |head|] && r[j] == tail[j - |head|];
        }
      }
    }
  }

  lemma GetAllFansSorted(devs: seq<Device>)
    ensures forall i, j :: 0 <= i < j < |GetAllFans(devs)| ==> StrLe(GetAllFans(devs)[i].device, GetAllFans(devs)[j].device)
  {
    FansOfSorted(SortStrings(DeviceNames(devs)), devs);
  }

  lemma {:induction false} FansOfMembers(names: seq<string>, devs: seq<Device>, f: Fan)
    ensures f in FansOf(names, devs) <==> f.device in names && f in DeviceFans(f.device, Lookup(devs, f.device))
    decreases |names|
  {
    if |names| > 0 {
      FansOfMembers(names[1..], devs, f);
      assert names == [names[0]] + names[1..];
    }
  }

  /** A sensor is listed as a fan exactly when it holds readings with a fan
      input key, whatever its device's place in the report. */
  lemma GetAllFansMembers(devs: seq<Device>, k: nat, f: Fan)
    requires DistinctNames(devs) && k < |devs| && f.device == devs[k].0
    ensures f in GetAllFans(devs) <==> Readings(f.values) in SensorsOf(devs[k].1, f.sensor) && HasFanInput(f.values)
  {
    var names := SortStrings(DeviceNames(devs));
    FansOfMembers(names, devs, f);
    assert f.device in multiset(DeviceNames(devs)) by {
      assert DeviceNames(devs)[k] == f.device;
    }
    assert f.device in names by {
      assert f.device in multiset(names);
    }
  }

  // ---------------------------------------------------------------------
  // Speed, index and output
  // ---------------------------------------------------------------------

  /** A reading `get_fan_speed` accepts. */
  predicate Spinning(kv: (string, real)) {
    IsFanKey(kv.0) && kv.1 > 0.0
  }

  /** `get_fan_speed(fan)`: the integer part of the first positive fan input
      reading, else 0. */
  function FanSpeed(values: seq<(string, real)>): (r: nat)
    ensures (forall i :: 0 <= i < |values| ==> !Spinning(values[i])) ==> r == 0
    ensures forall i :: 0 <= i < |values| && Spinning(values[i]) && (forall j :: 0 <= j < i ==> !Spinning(values[j]))
                        ==> r == values[i].1.Floor
    decreases |values|
  {
    if |values| == 0 then 0
    else if Spinning(values[0]) then values[0].1.Floor
    else
      var r := FanSpeed(values[1..]);
      assert forall i :: 1 <= i < |values| ==> values[i] == values[1..][i - 1];
      r
  }

  /** The index file's integer, or `None` when it is missing or `int()`
      rejects its text. */
  function StoredIndex(stored: Option<string>): (r: Option<int>)
    ensures stored.None? ==> r.None?
    ensures stored.Some? ==> r == ParseInt(stored.value)
  {
    match stored
    case None => None
    case Some(text) => ParseInt(text)
  }

  /** `get_current_fan_index(total)`: the stored index reduced modulo the
      number of fans (Python's `%`, never negative), or 0 when there are no
      fans or the stored text is missing or not an integer. */
  function CurrentFanIndex(stored: Option<string>, total: nat): (r: nat)
    ensures total > 0 ==> r < total
    ensures total == 0 || StoredIndex(stored).None? ==> r == 0
    ensures StoredIndex(stored).Some? && 0 <= StoredIndex(stored).value < total ==> r == StoredIndex(stored).value
    ensures StoredIndex(stored).Some? && -(total as int) <= StoredIndex(stored).value < 0
            ==> r == StoredIndex(stored).value + total
    ensures total > 0 && StoredIndex(stored).Some? ==> (StoredIndex(stored).value - r) % total == 0
  {
    match StoredIndex(stored)
    case None => 0
    case Some(i) =>
      if total > 0 then
        ModSmall(i, total);
        ModDifference(i, total);
        i % total
      else 0
  }

  /** `toggle_fan(fans)`: the index saved, or `None` when there are no fans
      and nothing is saved. */
  function ToggleFan(fans: seq<Fan>, stored: Option<string>): (r: Option<nat>)
    ensures r.None? <==> |fans| == 0
    ensures r.Some? ==> r.value < |fans|
    ensures r.Some? ==> r.value == if CurrentFanIndex(stored, |fans|) == |fans| - 1 then 0
                                   else CurrentFanIndex(stored, |fans|) + 1
  {
    if |fans| == 0 then None
    else
      var c := CurrentFanIndex(stored, |fans|);
      ModSmall(c + 1, |fans|);
      Some((c + 1) % |fans|)
  }

  /** After a toggle, the index read back is the one after the previous
      current fan, wrapping at the end. */
  lemma ToggleAdvances(fans: seq<Fan>, stored: Option<string>)
    requires |fans| > 0
    ensures CurrentFanIndex(Some(IntToString(ToggleFan(fans, stored).value)), |fans|)
            == if CurrentFanIndex(stored, |fans|) == |fans| - 1 then 0 else CurrentFanIndex(stored, |fans|) + 1
  {
    ParseIntOfString(ToggleFan(fans, stored).value);
  }

  /** The bullet marking the current fan. */
  const CurrentMarker: string := "\U{F0DA}"

  /** One tooltip line: marker, device, sensor and speed. */
  function FanLine(f: Fan, current: bool): (r: string)
    ensures StartsWith(r, CurrentMarker) <==> current
  {
    var line := (if current then CurrentMarker else " ") + " " + f.device + " - " + f.sensor + ": "
                + IntToString(FanSpeed(f.values)) + " RPM";
    assert line[0] == if current then '\U{F0DA}' else ' ';
    line
  }

  /** One line per fan, in order, marking only the fan at `current`. */
  function FanLines(fans: seq<Fan>, current: nat): (r: seq<string>)
    ensures |r| == |fans|
  {
    seq(|fans|, i requires 0 <= i < |fans| => FanLine(fans[i], i == current))
  }

  datatype Output = Output(text: string, tooltip: string)

  /** The tooltip's lines: a heading, one line per fan with only the current
      one marked, and a hint about clicking when there is more than one. */
  function TooltipLines(fans: seq<Fan>, current: nat): (r: seq<string>)
    ensures |r| == 1 + |fans| + (if |fans| > 1 then 2 else 0)
    ensures r[0] == "Fan Speeds:"
    ensures forall i :: 1 <= i <= |fans| ==> (StartsWith(r[i], CurrentMarker) <==> i - 1 == current)
    ensures |fans| > 1 ==> r[|r| - 2..] == ["", "(Click to cycle through fans)"]
  {
    ["Fan Speeds:"] + FanLines(fans, current)
      + (if |fans| > 1 then ["", "(Click to cycle through fans)"] else [])
  }

  /** `generate_output(fans)`. */
  function GenerateOutput(fans: seq<Fan>, stored: Option<string>): (r: Output)
    ensures |fans| == 0 ==> r == Output("N/A", "No fans detected")
    ensures |fans| > 0 ==> r.text == IntToString(FanSpeed(fans[CurrentFanIndex(stored, |fans|)].values) / 10)
    ensures |fans| > 0 ==> r.tooltip == Join(TooltipLines(fans, CurrentFanIndex(stored, |fans|)), "\n")
  {
    if |fans| == 0 then Output("N/A", "No fans detected")
    else
      var current := CurrentFanIndex(stored, |fans|);
      var rpm := FanSpeed(fans[current].values);
      Output(IntToString(rpm / 10), Join(TooltipLines(fans, current), "\n"))
  }

  /** A fan line has no line break when its device and sensor names have none. */
  lemma FanLineSingle(f: Fan, current: bool)
    requires '\n' !in f.device && '\n' !in f.sensor
    ensures '\n' !in FanLine(f, current)
  {
    var d := IntToString(FanSpeed(f.values));
    assert forall k :: 0 <= k < |d| ==> d[k] != '\n';
  }

  lemma TooltipLinesSingle(fans: seq<Fan>, current: nat)
    requires forall i :: 0 <= i < |fans| ==> '\n' !in fans[i].device && '\n' !in fans[i].sensor
    ensures forall i :: 0 <= i < |TooltipLines(fans, current)| ==> '\n' !in TooltipLines(fans, current)[i]
  {
    var lines := TooltipLines(fans, current);
    var hint := "(Click to cycle through fans)";
    assert forall k :: 0 <= k < |hint| ==> hint[k] != '\n';
    assert forall k :: 0 <= k < |"Fan Speeds:"| ==> "Fan Speeds:"[k] != '\n';
    forall i | 0 <= i < |lines|
      ensures '\n' !in lines[i]
    {
      if 1 <= i <= |fans| {
        FanLineSingle(fans[i - 1], i - 1 == current);
      }
    }
  }

  /** The tooltip splits back into its lines, one per fan plus the heading
      and hint, when no device or sensor name holds a line break. */
  lemma TooltipSplits(fans: seq<Fan>, stored: Option<string>)
    requires |fans| > 0
    requires forall i :: 0 <= i < |fans| ==> '\n' !in fans[i].device && '\n' !in fans[i].sensor
    ensures Split(GenerateOutput(fans, stored).tooltip, '\n') == TooltipLines(fans, CurrentFanIndex(stored, |fans|))
  {
    var lines := TooltipLines(fans, CurrentFanIndex(stored, |fans|));
    TooltipLinesSingle(fans, CurrentFanIndex(stored, |fans|));
    assert "\n" == ['\n'];
    SplitJoin(lines, '\n');
  }
}

=== FILE: lyrics.dfy ===
/** The album lyrics fetcher: the tags read from ffprobe, the choice of
    the lrclib match, the order in which the lyrics sources are tried, the
    conversion of plain lyrics to LRC and the handling of one audio file.
    ffprobe and the network are parameters: a tag dictionary, and the
    answer each source gives. */
module Lyrics {
  import opened Py

  // ---------------------------------------------------------------------
  // `get_audio_metadata`.
  // ---------------------------------------------------------------------

  /** `tags.get(upper) or tags.get(lower) or ""`: an empty value counts as
      missing. */
  function Tag(tags: map<string, string>, upper: string, lower: string): (r: string)
    ensures upper in tags && tags[upper] != "" ==> r == tags[upper]
    ensures !(upper in tags && tags[upper] != "") && lower in tags ==> r == tags[lower]
    ensures r == "" <==> (upper !in tags || tags[upper] == "") && (lower !in tags || tags[lower] == "")
  {
    if upper in tags && tags[upper] != "" then tags[upper]
    else if lower in tags && tags[lower] != "" then tags[lower]
    else ""
  }

  datatype Metadata = Metadata(title: string, artist: string, album: string)

  /** `get_audio_metadata`: the tags ffprobe reports, `None` when it fails
      or prints no JSON, which gives three empty values. */
  function AudioMetadata(tags: Option<map<string, string>>): (r: Metadata)
    ensures tags.None? ==> r == Metadata("", "", "")
    ensures tags.Some? ==> r.title == Tag(tags.value, "TITLE", "title")
    ensures tags.Some? ==> r.artist == Tag(tags.value, "ARTIST", "artist")
    ensures tags.Some? ==> r.album == Tag(tags.value, "ALBUM", "album")
  {
    match tags
    case None => Metadata("", "", "")
    case Some(t) => Metadata(Tag(t, "TITLE", "title"), Tag(t, "ARTIST", "artist"), Tag(t, "ALBUM", "album"))
  }

  // ---------------------------------------------------------------------
  // The lrclib match (`fetch_lyrics_lrclib`).
  // ---------------------------------------------------------------------

  /** A search result's album, `""` when it has none. */
  function TrackAlbum(track: map<string, string>): string {
    if "albumName" in track then track["albumName"] else ""
  }

  /** A result is on the album when the names agree ignoring case. */
  predicate OnAlbum(track: map<string, string>, album: string) {
    LowerAscii(TrackAlbum(track)) == LowerAscii(album)
  }

  /** The result whose lyrics are fetched: the first on the album when an
      album is known and some result is on it, else the first result.
      `None` when the search found nothing. */
  method PickTrack(results: seq<map<string, string>>, album: string) returns (best: Option<nat>)
    ensures best.None? <==> |results| == 0
    ensures best.Some? ==> best.value < |results|
    ensures best.Some? && album != "" && (exists i :: 0 <= i < |results| && OnAlbum(results[i], album)) ==>
              OnAlbum(results[best.value], album) &&
              forall j :: 0 <= j < best.value ==> !OnAlbum(results[j], album)
    ensures best.Some? && (album == "" || forall i :: 0 <= i < |results| ==> !OnAlbum(results[i], album)) ==>
              best.value == 0
  {
    if |results| == 0 {
      return None;
    }
    var i := 0;
    while i < |results|
      invariant 0 <= i <= |results|
      invariant album != "" ==> forall j :: 0 <= j < i ==> !OnAlbum(results[j], album)
    {
      if album != "" && OnAlbum(results[i], album) {
        return Some(i);
      }
      i := i + 1;
    }
    return Some(0);
  }

  /** The `[al:]` line of an lrclib answer: the local album when asked to
      prefer it and known, else the album lrclib reports, else none. */
  function AlbumLine(preferLocal: bool, album: string, reported: Option<string>): (r: Option<string>)
    ensures preferLocal && album != "" ==> r == Some("[al:" + album + "]")
    ensures !(preferLocal && album != "") && reported.Some? && reported.value != "" ==>
              r == Some("[al:" + reported.value + "]")
    ensures r.None? <==> !(preferLocal && album != "") && (reported.None? || reported.value == "")
  {
    if preferLocal && album != "" then Some("[al:" + album + "]")
    else if reported.Some? && reported.value != "" then Some("[al:" + reported.value + "]")
    else None
  }

  // ---------------------------------------------------------------------
  // `fetch_lyrics`: lrclib, then YouTube Music, then lyrics.ovh.
  // ---------------------------------------------------------------------

  /** An answer counts when it holds some text. */
  predicate Found(answer: Option<string>) {
    answer.Some? && answer.value != ""
  }

  /** `fetch_lyrics` on the answers the sources give, in order: the first
      answer with text, and how many sources were asked. */
  method FetchLyrics(answers: seq<Option<string>>) returns (lyrics: Option<string>, asked: nat)
    ensures asked <= |answers|
    ensures forall i :: 0 <= i < asked - 1 ==> !Found(answers[i])
    ensures lyrics.Some? ==> 0 < asked && Found(answers[asked - 1]) && lyrics == answers[asked - 1]
    ensures lyrics.None? <==> forall i :: 0 <= i < |answers| ==> !Found(answers[i])
    ensures lyrics.None? ==> asked == |answers|
  {
    asked := 0;
    while asked < |answers|
      invariant 0 <= asked <= |answers|
      invariant forall i :: 0 <= i < asked ==> !Found(answers[i])
    {
      var answer := answers[asked];
      asked := asked + 1;
      if Found(answer) {
        return answer, asked;
      }
    }
    return None, asked;
  }

  // ---------------------------------------------------------------------
  // Plain lyrics as LRC (`fetch_lyrics_lyricsovh`).
  // ---------------------------------------------------------------------

  /** The time tag of a line without timing. */
  const Untimed := "[00:00.00]"

  function TagLines(lines: seq<string>): (r: seq<string>)
    ensures |r| == |lines|
    ensures forall i :: 0 <= i < |lines| ==> r[i] == Untimed + lines[i]
  {
    seq(|lines|, i requires 0 <= i < |lines| => Untimed + lines[i])
  }

  /** The LRC text made from plain lyrics: artist and title tags, an empty
      line, then every line of the lyrics at time zero. */
  function PlainToLrc(artist: string, title: string, text: string): string {
    Join(["[ar:" + artist + "]", "[ti:" + title + "]", ""] + TagLines(Split(text, '\n')), "\n")
  }

  /** `fetch_lyrics_lyricsovh` given the status and the `lyrics` field of
      the answer: the stripped lyrics as LRC, `None` when the request
      failed or the lyrics are blank. */
  function FetchOvh(artist: string, title: string, status: int, lyrics: Option<string>): (r: Option<string>)
    ensures r.Some? <==> status == 200 && lyrics.Some? && Strip(lyrics.value) != ""
    ensures r.Some? ==> r.value == PlainToLrc(artist, title, Strip(lyrics.value))
  {
    if status == 200 && lyrics.Some? && Strip(lyrics.value) != "" then
      Some(PlainToLrc(artist, title, Strip(lyrics.value)))
    else None
  }

  /** A line with its time tag of zero removed. */
  function Untag(line: string): string {
    if StartsWith(line, Untimed) then line[|Untimed|..] else line
  }

  function UntagLines(lines: seq<string>): (r: seq<string>)
    ensures |r| == |lines|
    ensures forall i :: 0 <= i < |lines| ==> r[i] == Untag(lines[i])
  {
    seq(|lines|, i requires 0 <= i < |lines| => Untag(lines[i]))
  }

  /** The reference reading of such an LRC text: the lines after the
      header with their time tags removed. */
  function LrcToPlain(lrc: string): string {
    var lines := Split(lrc, '\n');
    if |lines| < 3 then "" else Join(UntagLines(lines[3..]), "\n")
  }

  lemma UntagTagged(lines: seq<string>)
    ensures UntagLines(TagLines(lines)) == lines
  {
    forall i | 0 <= i < |lines| ensures UntagLines(TagLines(lines))[i] == lines[i] {
      assert TagLines(lines)[i] == Untimed + lines[i];
      assert StartsWith(Untimed + lines[i], Untimed);
    }
  }

  /** The LRC text splits back into its header and its tagged lines. */
  lemma PlainLrcLines(artist: string, title: string, text: string)
    requires '\n' !in artist && '\n' !in title
    ensures Split(PlainToLrc(artist, title, text), '\n') ==
            ["[ar:" + artist + "]", "[ti:" + title + "]", ""] + TagLines(Split(text, '\n'))
  {
    var lines := Split(text, '\n');
    var parts := ["[ar:" + artist + "]", "[ti:" + title + "]", ""] + TagLines(lines);
    forall i | 0 <= i < |parts| ensures '\n' !in parts[i] {
      if i >= 3 {
        assert parts[i] == Untimed + lines[i - 3];
      }
    }
    SplitJoin(parts, '\n');
  }

  /** Converting plain lyrics to LRC loses nothing: reading the LRC back
      gives the lyrics, line for line, when the artist and title are on
      one line each. */
  lemma PlainLrcRoundTrip(artist: string, title: string, text: string)
    requires '\n' !in artist && '\n' !in title
    ensures LrcToPlain(PlainToLrc(artist, title, text)) == text
  {
    var lines := Split(text, '\n');
    var parts := ["[ar:" + artist + "]", "[ti:" + title + "]", ""] + TagLines(lines);
    PlainLrcLines(artist, title, text);
    assert parts[3..] == TagLines(lines);
    UntagTagged(lines);
    JoinSplit(text, '\n');
  }

  // ---------------------------------------------------------------------
  // Track numbers in file names.
  // ---------------------------------------------------------------------

  predicate IsSep(c: char) { c == '.' || c == ' ' || c == '-' }

  /** The number of leading digits. */
  function DigitRun(s: string): (n: nat)
    ensures n <= |s|
    ensures forall k :: 0 <= k < n ==> IsDigit(s[k])
    ensures n < |s| ==> !IsDigit(s[n])
    decreases |s|
  {
    if |s| > 0 && IsDigit(s[0]) then 1 + DigitRun(s[1..]) else 0
  }

  /** The number of leading separators. */
  function SepRun(s: string): (n: nat)
    ensures n <= |s|
    ensures forall k :: 0 <= k < n ==> IsSep(s[k])
    ensures n < |s| ==> !IsSep(s[n])
    decreases |s|
  {
    if |s| > 0 && IsSep(s[0]) then 1 + SepRun(s[1..]) else 0
  }

  /** `re.sub(r'^[0-9]{1,3}[. -]+', '', stem)`: one to three leading
      digits and the run of dots, spaces and dashes after them go; four
      or more digits match nothing. */
  function StripTrackNumber(stem: string): (r: string)
    ensures |r| <= |stem| && r == stem[|stem| - |r|..]
    ensures r != stem <==> 1 <= DigitRun(stem) <= 3 && DigitRun(stem) < |stem| && IsSep(stem[DigitRun(stem)])
    ensures r != stem ==> |r| == 0 || !IsSep(r[0])
    ensures forall k :: 0 <= k < |stem| - |r| ==> IsDigit(stem[k]) || IsSep(stem[k])
    ensures r != stem ==> forall k :: DigitRun(stem) <= k < |stem| - |r| ==> IsSep(stem[k])
  {
    var n := DigitRun(stem);
    if 1 <= n <= 3 && n < |stem| && IsSep(stem[n]) then
      var m := SepRun(stem[n..]);
      assert forall k :: n <= k < n + m ==> stem[k] == stem[n..][k - n];
      stem[n + m..]
    else stem
  }

  lemma DigitRunAt(a: string, b: string)
    requires forall k :: 0 <= k < |a| ==> IsDigit(a[k])
    requires |b| > 0 && !IsDigit(b[0])
    ensures DigitRun(a + b) == |a|
  {
    var s := a + b;
    assert forall k :: 0 <= k < |a| ==> s[k] == a[k];
    assert s[|a|] == b[0];
  }

  lemma SepRunAt(a: string, b: string)
    requires forall k :: 0 <= k < |a| ==> IsSep(a[k])
    requires |b| == 0 || !IsSep(b[0])
    ensures SepRun(a + b) == |a|
  {
    var s := a + b;
    assert forall k :: 0 <= k < |a| ==> s[k] == a[k];
    assert |b| > 0 ==> s[|a|] == b[0];
  }

  lemma ShortNumber(n: nat)
    requires n < 1000
    ensures 1 <= |NatToString(n)| <= 3
  {
    if n >= 10 {
      assert NatToString(n) == NatToString(n / 10) + [DigitChar(n % 10)];
      if n >= 100 {
        assert NatToString(n / 10) == NatToString(n / 100) + [DigitChar((n / 10) % 10)];
      }
    }
  }

  /** A file named after a track number of one to three digits (with or
      without leading zeros), separators and a title gives the title back. */
  lemma StripNumberedTitle(d: string, sep: string, title: string)
    requires 1 <= |d| <= 3 && forall k :: 0 <= k < |d| ==> IsDigit(d[k])
    requires |sep| > 0 && forall k :: 0 <= k < |sep| ==> IsSep(sep[k])
    requires |title| == 0 || !IsSep(title[0])
    ensures StripTrackNumber(d + sep + title) == title
  {
    var s := d + sep + title;
    assert s == d + (sep + title);
    assert !IsDigit(sep[0]);
    DigitRunAt(d, sep + title);
    assert s[|d|..] == sep + title;
    SepRunAt(sep, title);
    assert s[|d| + |sep|..] == title;
  }

  /** In particular for `str(n)` of a number below 1000. */
  lemma StripNumberOfTitle(n: nat, sep: string, title: string)
    requires n < 1000
    requires |sep| > 0 && forall k :: 0 <= k < |sep| ==> IsSep(sep[k])
    requires |title| == 0 || !IsSep(title[0])
    ensures StripTrackNumber(NatToString(n) + sep + title) == title
  {
    ShortNumber(n);
    StripNumberedTitle(NatToString(n), sep, title);
  }

  /** A number of four or more digits is not a track number: the stem is
      kept whole. */
  lemma LongNumberKept(d: string, rest: string)
    requires |d| >= 4 && forall k :: 0 <= k < |d| ==> IsDigit(d[k])
    requires |rest| == 0 || !IsDigit(rest[0])
    ensures StripTrackNumber(d + rest) == d + rest
  {
    if |rest| > 0 {
      DigitRunAt(d, rest);
    } else {
      assert d + rest == d;
      AllDigitRun(d);
    }
  }

  lemma {:induction false} AllDigitRun(d: string)
    requires forall k :: 0 <= k < |d| ==> IsDigit(d[k])
    ensures DigitRun(d) == |d|
    decreases |d|
  {
    if |d| > 0 {
      assert forall k :: 0 <= k < |d[1..]| ==> d[1..][k] == d[k + 1];
      AllDigitRun(d[1..]);
    }
  }

  // ---------------------------------------------------------------------
  // `process_audio_file`.
  // ---------------------------------------------------------------------

  /** What became of one audio file: skipped for an existing `.lrc`, no
      lyrics found for the query, or lyrics saved. */
  datatype Outcome = Skipped | NotFound(query: Metadata) | Saved(query: Metadata, lyrics: string)

  /** The value `process_audio_file` returns. */
  predicate Succeeded(o: Outcome) {
    !o.NotFound?
  }

  /** The query for a file: its tags, with the artist and album taken from
      the directories and the title from the file name when missing. */
  function Query(meta: Metadata, artistDir: string, albumDir: string, stem: string): (q: Metadata)
    ensures meta.title != "" ==> q.title == meta.title
    ensures meta.title == "" ==> q.title == StripTrackNumber(stem)
    ensures q.artist == if meta.artist != "" then meta.artist else artistDir
    ensures q.album == if meta.album != "" then meta.album else albumDir
  {
    Metadata(
      if meta.title != "" then meta.title else StripTrackNumber(stem),
      if meta.artist != "" then meta.artist else artistDir,
      if meta.album != "" then meta.album else albumDir)
  }

  /** `process_audio_file`: a file with an `.lrc` is skipped unless
      forced; otherwise its query goes to the sources in order and the
      first lyrics found are saved. `sources` are lrclib, YouTube Music
      and lyrics.ovh as functions of the query. */
  method ProcessAudioFile(lrcExists: bool, force: bool, tags: Option<map<string, string>>,
                          artistDir: string, albumDir: string, stem: string,
                          sources: seq<Metadata -> Option<string>>) returns (o: Outcome)
    ensures o.Skipped? <==> lrcExists && !force
    ensures !o.Skipped? ==> o.query == Query(AudioMetadata(tags), artistDir, albumDir, stem)
    ensures o.Saved? ==> o.lyrics != "" && exists i :: 0 <= i < |sources| && sources[i](o.query) == Some(o.lyrics)
    ensures o.Saved? ==> exists i :: 0 <= i < |sources| && sources[i](o.query) == Some(o.lyrics)
                              && forall j :: 0 <= j < i ==> !Found(sources[j](o.query))
    ensures o.NotFound? <==> (!(lrcExists && !force) &&
              forall i :: 0 <= i < |sources| ==> !Found(sources[i](Query(AudioMetadata(tags), artistDir, albumDir, stem))))
  {
    if lrcExists && !force {
      return Skipped;
    }
    var q := Query(AudioMetadata(tags), artistDir, albumDir, stem);
    var answers := seq(|sources|, i requires 0 <= i < |sources| => sources[i](q));
    assert forall i :: 0 <= i < |sources| ==> answers[i] == sources[i](q);
    var lyrics, asked := FetchLyrics(answers);
    if lyrics.None? {
      return NotFound(q);
    }
    assert sources[asked - 1](q) == Some(lyrics.value);
    assert forall j :: 0 <= j < asked - 1 ==> !Found(sources[j](q));
    return Saved(q, lyrics.value);
  }
}

=== FILE: mediaplayer.dfy ===
/**
 * The Waybar media-player module: how it reads its settings from the
 * environment, formats playback times, composes the "artist / track" label,
 * escapes Pango markup, and caches the last good metadata while a player
 * (typically a browser) briefly reports empty metadata.
 *
 * Playerctl itself is abstract: a player is the record of what the script
 * reads from it. Floats are `real`, and Python's `round()` is round half to
 * even on the exact value.
 */
module MediaPlayer {
  import opened Py

  // ---------------------------------------------------------------------
  // Rounding and the clock formats.
  // ---------------------------------------------------------------------

  /** Python's `round(x)`: the nearest integer, ties to the even one. */
  function RoundHalfEven(x: real): (r: int)
    ensures r as real - 0.5 <= x <= r as real + 0.5
    ensures (x - r as real == 0.5 || r as real - x == 0.5) ==> r % 2 == 0
    ensures x == x.Floor as real ==> r == x.Floor
  {
    var f := x.Floor;
    var d := x - f as real;
    if d < 0.5 then f
    else if d > 0.5 then f + 1
    else if f % 2 == 0 then f
    else f + 1
  }

  /** Python's `round(x, 2)`. */
  function Round2(x: real): (r: real)
    ensures x - 0.005 <= r <= x + 0.005
  {
    RoundHalfEven(x * 100.0) as real / 100.0
  }

  /** The whole seconds both time formatters show: `max(0, int(round(s)))`. */
  function TotalSeconds(seconds: real): (r: nat)
    ensures seconds <= 0.0 ==> r == 0
    ensures seconds >= 0.0 ==> r as real - 0.5 <= seconds <= r as real + 0.5
  {
    var t := RoundHalfEven(seconds);
    if t < 0 then 0 else t
  }

  /** The two or three zero-padded fields of a clock reading: minutes and
      seconds, preceded by hours when there is at least one hour. */
  function ClockFields(total: nat): (r: seq<string>)
    ensures |r| == if total < 3600 then 2 else 3
    ensures forall i :: 0 <= i < |r| ==> AllDigits(r[i]) && |r[i]| >= 2
    ensures |r[|r| - 1]| == 2 && |r[|r| - 2]| == 2
    ensures FieldValue(r[|r| - 1]) == Some(total % 60)
    ensures FieldValue(r[|r| - 2]) == Some(total / 60 % 60)
    ensures total >= 3600 ==> FieldValue(r[0]) == Some(total / 3600)
    ensures total >= 3600 ==> |r[0]| == var hs := NatToString(total / 3600); if |hs| >= 2 then |hs| else 2
    ensures forall i :: |r| - 2 <= i < |r| ==> DigitsValue(r[i], 10) < 60
  {
    var h := total / 3600;
    var m := total % 3600 / 60;
    var s := total % 3600 % 60;
    ClockDivMod(total);
    Pad2Value(h);
    Pad2Value(m);
    Pad2Value(s);
    if h > 0 then [Pad2(h), Pad2(m), Pad2(s)] else [Pad2(m), Pad2(s)]
  }

  /** `divmod(total, 3600)` then `divmod(rest, 60)` gives the minutes and
      seconds of the clock: both below 60. */
  lemma ClockDivMod(total: nat)
    ensures total % 3600 / 60 == total / 60 % 60 < 60
    ensures total % 3600 % 60 == total % 60
  {
    var q := total / 3600;
    var rest := total % 3600;
    var a := rest / 60;
    var b := rest % 60;
    assert total == 60 * (60 * q + a) + b;
    assert total / 60 == 60 * q + a;
    assert total % 60 == b;
    assert a < 60;
  }

  /** Reads a clock back: "MM:SS" or "HH:MM:SS" to a number of seconds. */
  function ClockSeconds(text: string): Option<int> {
    FieldSeconds(Split(text, ':'))
  }

  /** One clock field: a run of decimal digits. */
  function FieldValue(p: string): Option<nat> {
    if AllDigits(p) then Some(DigitsValue(p, 10)) else None
  }

  function FieldSeconds(parts: seq<string>): Option<int> {
    if |parts| == 2 then
      var m := FieldValue(parts[0]);
      var s := FieldValue(parts[1]);
      if m.Some? && s.Some? then Some(m.value * 60 + s.value) else None
    else if |parts| == 3 then
      var h := FieldValue(parts[0]);
      var m := FieldValue(parts[1]);
      var s := FieldValue(parts[2]);
      if h.Some? && m.Some? && s.Some? then Some(h.value * 3600 + m.value * 60 + s.value) else None
    else None
  }

  lemma Pad2Value(n: nat)
    ensures FieldValue(Pad2(n)) == Some(n)
  {
    Pad2Digits(n);
  }

  lemma JoinTwo(a: string, b: string, sep: string)
    ensures Join([a, b], sep) == a + sep + b
  {
    assert [a, b][1..] == [b];
  }

  lemma JoinThree(a: string, b: string, c: string, sep: string)
    ensures Join([a, b, c], sep) == a + sep + b + sep + c
  {
    assert [a, b, c][1..] == [b, c];
    JoinTwo(b, c, sep);
  }

  lemma ClockArithmetic(total: nat)
    ensures total / 3600 * 3600 + total % 3600 / 60 * 60 + total % 3600 % 60 == total
    ensures total < 3600 ==> total / 3600 == 0
  {
  }

  lemma NoColonInDigits(s: string)
    requires AllDigits(s)
    ensures ':' !in s && '\n' !in s
  {
  }

  lemma FieldSecondsTwo(a: string, b: string, x: nat, y: nat)
    requires FieldValue(a) == Some(x) && FieldValue(b) == Some(y)
    ensures FieldSeconds([a, b]) == Some(x * 60 + y)
  {
  }

  lemma FieldSecondsThree(a: string, b: string, c: string, x: nat, y: nat, z: nat)
    requires FieldValue(a) == Some(x) && FieldValue(b) == Some(y) && FieldValue(c) == Some(z)
    ensures FieldSeconds([a, b, c]) == Some(x * 3600 + y * 60 + z)
  {
  }

  lemma FieldsValue(total: nat)
    ensures FieldSeconds(ClockFields(total)) == Some(total)
  {
    var h := total / 3600;
    var m := total % 3600 / 60;
    var s := total % 3600 % 60;
    ClockArithmetic(total);
    Pad2Value(m);
    Pad2Value(s);
    if h > 0 {
      Pad2Value(h);
      FieldSecondsThree(Pad2(h), Pad2(m), Pad2(s), h, m, s);
    } else {
      FieldSecondsTwo(Pad2(m), Pad2(s), m, s);
    }
  }

  /** A formatted clock splits at its colons back into its fields. */
  lemma ClockSplits(total: nat)
    ensures Split(Join(ClockFields(total), ":"), ':') == ClockFields(total)
  {
    var f := ClockFields(total);
    forall i | 0 <= i < |f| ensures ':' !in f[i] {
      NoColonInDigits(f[i]);
    }
    SplitJoin(f, ':');
  }

  /** Reading a formatted clock back gives the seconds it was made from. */
  lemma ClockRoundTrip(total: nat)
    ensures ClockSeconds(Join(ClockFields(total), ":")) == Some(total)
  {
    var f := ClockFields(total);
    forall i | 0 <= i < |f| ensures ':' !in f[i] {
      NoColonInDigits(f[i]);
    }
    SplitJoin(f, ':');
    FieldsValue(total);
  }

  /** `format_time`: "MM:SS" below an hour, "HH:MM:SS" from an hour on. */
  function FormatTime(seconds: real): (r: string)
    ensures TotalSeconds(seconds) < 3600 ==> |r| == 5 && r[2] == ':'
    ensures TotalSeconds(seconds) >= 3600 ==> |r| >= 8 && r[|r| - 3] == ':' && r[|r| - 6] == ':'
    ensures ClockSeconds(r) == Some(TotalSeconds(seconds))
    ensures var t := TotalSeconds(seconds);
            var p := Split(r, ':');
            && |p| == (if t < 3600 then 2 else 3)
            && |p[|p| - 1]| == 2 && |p[|p| - 2]| == 2
            && FieldValue(p[|p| - 1]) == Some(t % 60)
            && FieldValue(p[|p| - 2]) == Some(t / 60 % 60)
            && (t >= 3600 ==> FieldValue(p[0]) == Some(t / 3600))
  {
    var t := TotalSeconds(seconds);
    ClockRoundTrip(t);
    ClockSplits(t);
    ClockShape(t);
    Join(ClockFields(t), ":")
  }

  /** Where the colons of a formatted clock sit. */
  lemma ClockShape(total: nat)
    ensures var r := Join(ClockFields(total), ":");
            && (total < 3600 ==> |r| == 5 && r[2] == ':')
            && (total >= 3600 ==> |r| >= 8 && r[|r| - 3] == ':' && r[|r| - 6] == ':')
  {
    var f := ClockFields(total);
    if |f| == 2 {
      assert f == [f[0], f[1]];
      JoinTwo(f[0], f[1], ":");
    } else {
      assert f == [f[0], f[1], f[2]];
      JoinThree(f[0], f[1], f[2], ":");
    }
  }

  /** The leading glyph of the multi-line timer. */
  function TimerIcon(playing: bool): char {
    if playing then '\U{F0F1B}' else ' '
  }

  /** The lines of `format_time_multiple_lines`, before joining. */
  function TimerLines(total: nat, playing: bool): (r: seq<string>)
    ensures |r| == if total < 3600 then 2 else 3
    ensures forall i :: 0 <= i < |r| ==> '\n' !in r[i]
  {
    var f := ClockFields(total);
    forall i | 0 <= i < |f| ensures '\n' !in f[i] {
      NoColonInDigits(f[i]);
    }
    if |f| == 3 then [[TimerIcon(playing)] + f[0], ":" + f[1], ":" + f[2]]
    else [[TimerIcon(playing)] + f[0], ":" + f[1]]
  }

  /** `format_time_multiple_lines`: the icon depends on `playing` alone; two
      lines below an hour and three from an hour on. */
  function MultiLineTime(seconds: real, playing: bool): (r: string)
    ensures |r| > 0 && r[0] == TimerIcon(playing)
    ensures |Split(r, '\n')| == if TotalSeconds(seconds) < 3600 then 2 else 3
  {
    var lines := TimerLines(TotalSeconds(seconds), playing);
    SplitJoin(lines, '\n');
    Join(lines, "\n")
  }

  /** With its line breaks removed, the multi-line timer is the icon
      followed by the one-line clock. */
  lemma PrefixJoinTwo(i: string, a: string, b: string)
    ensures Join([i + a, ":" + b], "") == i + Join([a, b], ":")
  {
    JoinTwo(i + a, ":" + b, "");
    JoinTwo(a, b, ":");
  }

  lemma PrefixJoinThree(i: string, a: string, b: string, c: string)
    ensures Join([i + a, ":" + b, ":" + c], "") == i + Join([a, b, c], ":")
  {
    JoinThree(i + a, ":" + b, ":" + c, "");
    JoinThree(a, b, c, ":");
  }

  lemma FormatTimeFields(seconds: real)
    ensures FormatTime(seconds) == Join(ClockFields(TotalSeconds(seconds)), ":")
  {
  }

  lemma MultiLineMatchesFormatTime(seconds: real, playing: bool)
    ensures Join(Split(MultiLineTime(seconds, playing), '\n'), "")
         == [TimerIcon(playing)] + FormatTime(seconds)
  {
    var t := TotalSeconds(seconds);
    var lines := TimerLines(t, playing);
    SplitJoin(lines, '\n');
    FormatTimeFields(seconds);
    var f := ClockFields(t);
    var i := [TimerIcon(playing)];
    if |f| == 3 {
      assert f == [f[0], f[1], f[2]];
      assert lines == [i + f[0], ":" + f[1], ":" + f[2]];
      PrefixJoinThree(i, f[0], f[1], f[2]);
    } else {
      assert f == [f[0], f[1]];
      assert lines == [i + f[0], ":" + f[1]];
      PrefixJoinTwo(i, f[0], f[1]);
    }
  }

  // ---------------------------------------------------------------------
  // Markup escaping.
  // ---------------------------------------------------------------------

  /** `escape`: every `&` becomes `&amp;`. */
  function Escape(s: string): (r: string)
    ensures '&' !in s ==> r == s
  {
    if '&' !in s then
      assert !Contains(s, "&") by { NotContainsChar(s, '&'); }
      ReplaceAbsent(s, "&", "&amp;");
      ReplaceAll(s, "&", "&amp;")
    else ReplaceAll(s, "&", "&amp;")
  }

  /** The number of occurrences of `c` in `s`. */
  function Count(s: string, c: char): nat
    decreases |s|
  {
    if |s| == 0 then 0 else (if s[0] == c then 1 else 0) + Count(s[1..], c)
  }

  /** Escaping works character by character. */
  lemma EscapeStep(c: char, rest: string)
    ensures Escape([c] + rest) == (if c == '&' then "&amp;" else [c]) + Escape(rest)
  {
    var s := [c] + rest;
    assert s[1..] == rest;
    if c == '&' {
      assert StartsWith(s, "&");
      assert s[|"&"|..] == rest;
    } else {
      assert !StartsWith(s, "&");
    }
  }

  /** Each `&` grows the text by the four characters of `amp;`. */
  lemma {:induction false} EscapeLength(s: string)
    ensures |Escape(s)| == |s| + 4 * Count(s, '&')
    decreases |s|
  {
    if |s| > 0 {
      assert s == [s[0]] + s[1..];
      EscapeStep(s[0], s[1..]);
      EscapeLength(s[1..]);
    }
  }

  /** The inverse of `escape`: `&amp;` back to `&`. */
  function Unescape(s: string): string {
    ReplaceAll(s, "&amp;", "&")
  }

  lemma UnescapeStep(c: char, rest: string)
    requires c != '&'
    ensures Unescape([c] + rest) == [c] + Unescape(rest)
  {
    var s := [c] + rest;
    assert s[1..] == rest;
    if |s| >= 5 {
      assert s[..5][0] == c;
    }
    assert !StartsWith(s, "&amp;");
  }

  /** Escaping loses nothing: unescaping gives the text back. */
  lemma {:induction false} UnescapeEscape(s: string)
    ensures Unescape(Escape(s)) == s
    decreases |s|
  {
    if |s| > 0 {
      assert s == [s[0]] + s[1..];
      EscapeStep(s[0], s[1..]);
      UnescapeEscape(s[1..]);
      var e := Escape(s[1..]);
      if s[0] == '&' {
        var t := "&amp;" + e;
        assert StartsWith(t, "&amp;");
        assert t[|"&amp;"|..] == e;
      } else {
        UnescapeStep(s[0], e);
      }
    }
  }

  // ---------------------------------------------------------------------
  // Settings (`validate_config`).
  // ---------------------------------------------------------------------

  /** The module's maximum label length: an integer clamped to 10..200, or
      70 when the text is not an integer. */
  function MaxLength(text: string): (r: nat)
    ensures 10 <= r <= 200
    ensures ParseInt(text).None? ==> r == 70
    ensures ParseInt(text).Some? && 10 <= ParseInt(text).value <= 200 ==> r == ParseInt(text).value
    ensures ParseInt(text).Some? && ParseInt(text).value < 10 ==> r == 10
    ensures ParseInt(text).Some? && ParseInt(text).value > 200 ==> r == 200
  {
    match ParseInt(text)
    case None => 70
    case Some(v) => if v < 10 then 10 else if v > 200 then 200 else v
  }

  /** Writing the chosen length back out and reading it again changes
      nothing: the clamp is a fixed point of its own output. */
  lemma MaxLengthStable(text: string)
    ensures MaxLength(IntToString(MaxLength(text))) == MaxLength(text)
  {
    ParseIntOfString(MaxLength(text));
  }

  /** The default length text reads as 70. */
  lemma DefaultMaxLength()
    ensures MaxLength("70") == 70
  {
    ParseIntOfDigits("70");
    assert "70"[..1] == "7" && "7"[..0] == "";
  }

  /** `s[:n]`. */
  function Truncate(s: string, n: nat): (r: string)
    ensures CutTo(s, n, r)
  {
    if |s| <= n then s else s[..n]
  }

  /** `c` is the first `min(|s|, n)` characters of `s`. */
  predicate CutTo(s: string, n: nat, c: string) {
    |c| == (if |s| <= n then |s| else n) && StartsWith(s, c)
  }

  /** A tooltip colour is accepted as `#` followed by 3, 6 or 8 characters. */
  predicate ValidColour(c: string) {
    StartsWith(c, "#") && (|c| == 4 || |c| == 7 || |c| == 9)
  }

  const White := "#FFFFFF"

  /** The colour check: a valid colour is kept, anything else is white. */
  function CheckColour(c: string): (r: string)
    ensures ValidColour(r)
    ensures ValidColour(c) <==> r == c
    ensures !ValidColour(c) ==> r == White
  {
    if ValidColour(c) then c else White
  }

  /** What a colour setting must come to: the variable's own value when it
      is a colour, the wallpaper palette entry (six hex digits are expected
      there) when the variable is unset, and white in every other case. */
  predicate ColourFrom(env: string -> Option<string>, key: string, palette: string, c: string) {
    match env(key)
    case Some(v) => c == (if StartsWith(v, "#") && |v| in {4, 7, 9} then v else White)
    case None =>
      match env(palette)
      case Some(p) => c == (if |p| in {3, 6, 8} then "#" + p else White)
      case None => c == White
  }

  /** A colour setting: its own variable, else `#` and the wallpaper palette
      entry, else white. */
  function ColourSetting(env: string -> Option<string>, key: string, palette: string): (r: string)
    ensures ValidColour(r)
    ensures ColourFrom(env, key, palette, r)
    ensures env(key).None? && env(palette).None? ==> r == White
  {
    assert env(key).None? && env(palette).Some? ==> StartsWith("#" + env(palette).value, "#");
    CheckColour(GetEnv(env, key, "#" + GetEnv(env, palette, "FFFFFF")))
  }

  datatype MediaConfig = MediaConfig(
    maxLength: nat,
    prefixPlaying: string,
    prefixPaused: string,
    standby: string,
    separator: string,
    artistColour: string,
    trackColour: string,
    progressColour: string,
    emptyColour: string,
    timeColour: string)

  /** `validate_config`. */
  function ValidateConfig(env: string -> Option<string>): (r: MediaConfig)
    ensures 10 <= r.maxLength <= 200
    ensures env("MEDIAPLAYER_MAX_LENGTH").None? ==> r.maxLength == 70
    ensures r.maxLength == MaxLength(GetEnv(env, "MEDIAPLAYER_MAX_LENGTH", "70"))
    ensures env("MEDIAPLAYER_MAX_LENGTH").Some? ==> r.maxLength == MaxLength(env("MEDIAPLAYER_MAX_LENGTH").value)
    ensures |r.prefixPlaying| <= 20 && |r.prefixPaused| <= 20
    ensures |r.standby| <= 50 && |r.separator| <= 10
    ensures CutTo(GetEnv(env, "MEDIAPLAYER_PREFIX_PLAYING", ""), 20, r.prefixPlaying)
    ensures CutTo(GetEnv(env, "MEDIAPLAYER_PREFIX_PAUSED", ""), 20, r.prefixPaused)
    ensures CutTo(GetEnv(env, "MEDIAPLAYER_STANDBY_TEXT", " MPlayer"), 50, r.standby)
    ensures CutTo(GetEnv(env, "MEDIAPLAYER_ARTIST_TRACK_SEPARATOR", "  "), 10, r.separator)
    ensures env("MEDIAPLAYER_STANDBY_TEXT").None? ==> r.standby == " MPlayer"
    ensures env("MEDIAPLAYER_ARTIST_TRACK_SEPARATOR").None? ==> r.separator == "  "
    ensures ValidColour(r.artistColour) && ValidColour(r.trackColour)
    ensures ValidColour(r.progressColour) && ValidColour(r.emptyColour)
    ensures ValidColour(r.timeColour)
    ensures ColourFrom(env, "MEDIAPLAYER_TOOLTIP_ARTIST_COLOR", "dcol_3xa8", r.artistColour)
    ensures ColourFrom(env, "MEDIAPLAYER_TOOLTIP_TRACK_COLOR", "dcol_txt1", r.trackColour)
    ensures ColourFrom(env, "MEDIAPLAYER_TOOLTIP_PROGRESS_COLOR", "dcol_pry4", r.progressColour)
    ensures ColourFrom(env, "MEDIAPLAYER_TOOLTIP_EMPTY_COLOR", "dcol_1xa3", r.emptyColour)
    ensures ColourFrom(env, "MEDIAPLAYER_TOOLTIP_TIME_COLOR", "dcol_txt1", r.timeColour)
    ensures (env("MEDIAPLAYER_TOOLTIP_TRACK_COLOR").None? && env("MEDIAPLAYER_TOOLTIP_TIME_COLOR").None?)
            ==> r.trackColour == r.timeColour
  {
    DefaultMaxLength();
    MediaConfig(
      MaxLength(GetEnv(env, "MEDIAPLAYER_MAX_LENGTH", "70")),
      Truncate(GetEnv(env, "MEDIAPLAYER_PREFIX_PLAYING", ""), 20),
      Truncate(GetEnv(env, "MEDIAPLAYER_PREFIX_PAUSED", ""), 20),
      Truncate(GetEnv(env, "MEDIAPLAYER_STANDBY_TEXT", " MPlayer"), 50),
      Truncate(GetEnv(env, "MEDIAPLAYER_ARTIST_TRACK_SEPARATOR", "  "), 10),
      ColourSetting(env, "MEDIAPLAYER_TOOLTIP_ARTIST_COLOR", "dcol_3xa8"),
      ColourSetting(env, "MEDIAPLAYER_TOOLTIP_TRACK_COLOR", "dcol_txt1"),
      ColourSetting(env, "MEDIAPLAYER_TOOLTIP_PROGRESS_COLOR", "dcol_pry4"),
      ColourSetting(env, "MEDIAPLAYER_TOOLTIP_EMPTY_COLOR", "dcol_1xa3"),
      ColourSetting(env, "MEDIAPLAYER_TOOLTIP_TIME_COLOR", "dcol_txt1"))
  }

  /** A cut is determined by the text and the length: two cuts of the same
      text to the same length are equal. */
  lemma {:induction false} CutToUnique(s: string, n: nat, c1: string, c2: string)
    requires CutTo(s, n, c1) && CutTo(s, n, c2)
    ensures c1 == c2
  {
    assert c1 == s[..|c1|] && c2 == s[..|c2|];
  }

  /** Every setting that is already acceptable (a length the clamp keeps,
      texts within their limits, colours of the accepted form) is taken
      as given. */
  lemma ValidSettingsAreKept(env: string -> Option<string>, maxLength: int, standby: string, separator: string, artist: string)
    requires env("MEDIAPLAYER_MAX_LENGTH") == Some(IntToString(maxLength)) && 10 <= maxLength <= 200
    requires env("MEDIAPLAYER_STANDBY_TEXT") == Some(standby) && |standby| <= 50
    requires env("MEDIAPLAYER_ARTIST_TRACK_SEPARATOR") == Some(separator) && |separator| <= 10
    requires env("MEDIAPLAYER_TOOLTIP_ARTIST_COLOR") == Some(artist) && ValidColour(artist)
    ensures var r := ValidateConfig(env);
            r.maxLength == maxLength && r.standby == standby && r.separator == separator
            && r.artistColour == artist
  {
    var r := ValidateConfig(env);
    ParseIntOfString(maxLength);
    CutToUnique(standby, 50, standby, r.standby);
    CutToUnique(separator, 10, separator, r.separator);
  }

  // ---------------------------------------------------------------------
  // The "artist / track" label (`format_artist_track`).
  // ---------------------------------------------------------------------


  /** A text longer than `limit` is cut to `limit` characters, trailing
      space removed, and an ellipsis appended. */
  function Ellipsize(s: string, limit: nat): (r: string)
    ensures |s| <= limit ==> r == s
    ensures |s| > limit ==> (
      && 0 < |r| <= limit + 1 && r[|r| - 1] == Ellipsis
      && StartsWith(s, r[..|r| - 1]))
    ensures |s| > limit ==> forall i :: |r| - 1 <= i < limit ==> IsSpace(s[i])
    ensures |s| > limit && |r| > 1 ==> !IsSpace(r[|r| - 2])
  {
    if |s| > limit then
      var cut := RStrip(s[..limit]);
      RStripPrefix(s[..limit]);
      assert (cut + [Ellipsis])[..|cut|] == cut;
      cut + [Ellipsis]
    else s
  }

  /** Two cuts of a text that each drop only trailing white space and keep
      a non-space last character have the same length. */
  lemma KeptLengthUnique(t: string, x: nat, y: nat)
    requires x <= |t| && y <= |t|
    requires forall i :: x <= i < |t| ==> IsSpace(t[i])
    requires forall i :: y <= i < |t| ==> IsSpace(t[i])
    requires x > 0 ==> !IsSpace(t[x - 1])
    requires y > 0 ==> !IsSpace(t[y - 1])
    ensures x == y
  {
  }

  /** The shortening is determined by its contract: a start of the text
      that ends in a non-space, followed by `…`, where everything dropped
      from the first `limit` characters is white space, is exactly what
      `Ellipsize` gives. */
  lemma EllipsizeDetermined(s: string, limit: nat, e: string)
    requires |s| > limit && 0 < |e| <= limit + 1 && e[|e| - 1] == Ellipsis
    requires StartsWith(s, e[..|e| - 1])
    requires forall i :: |e| - 1 <= i < limit ==> IsSpace(s[i])
    requires |e| > 1 ==> !IsSpace(e[|e| - 2])
    ensures e == Ellipsize(s, limit)
  {
    var r := Ellipsize(s, limit);
    var a := |e| - 1;
    var b := |r| - 1;
    KeptLengthUnique(s[..limit], a, b);
    assert e[..a] == s[..a] == r[..b];
    assert e == e[..a] + [Ellipsis];
    assert r == r[..b] + [Ellipsis];
  }

  /** The artist shown next to a track: the part before the first `,`, then
      before the first `&`, trimmed. */
  function ArtistName(a: string): (r: string)
    ensures ',' !in r && '&' !in r
    ensures Trimmed(r)
  {
    var x := Before(Before(a, ','), '&');
    assert ',' !in x by {
      assert StartsWith(Before(a, ','), x);
      assert x == Before(a, ',')[..|x|];
    }
    StripIsTrimmed(x);
    StripSubrange(x);
    Strip(x)
  }

  /** Cutting the artist a second time changes nothing. */
  lemma ArtistNameIdempotent(a: string)
    ensures ArtistName(ArtistName(a)) == ArtistName(a)
  {
    var r := ArtistName(a);
    assert Before(r, ',') == r;
    assert Before(r, '&') == r;
    StripTrimmed(r);
  }

  const PrefixSeparator := "  "

  lemma ConcatAffixes(a: string, b: string, c: string)
    ensures StartsWith(a + b + c, a) && EndsWith(a + b + c, c)
  {
    assert (a + b + c)[..|a|] == a;
    assert (a + b + c)[|a + b + c| - |c|..] == c;
  }

  /** The label of a track without an artist. */
  function TrackLabel(prefix: string, track: string): (r: string)
    ensures StartsWith(r, prefix + PrefixSeparator) && EndsWith(r, "</b>")
  {
    ConcatAffixes(prefix + PrefixSeparator, "<b>" + track, "</b>");
    prefix + PrefixSeparator + "<b>" + track + "</b>"
  }

  /** The label of an artist and a track. */
  function PairLabel(prefix: string, artist: string, separator: string, track: string): (r: string)
    ensures StartsWith(r, prefix + PrefixSeparator) && EndsWith(r, "</b>")
  {
    ConcatAffixes(prefix + PrefixSeparator, "<i>" + artist + "</i>" + separator + "<b>" + track, "</b>");
    prefix + PrefixSeparator + "<i>" + artist + "</i>" + separator + "<b>" + track + "</b>"
  }

  /** The label shown when there is no track. */
  function StandbyLabel(standby: string, activeName: Option<string>): (r: string)
    ensures StartsWith(r, "<b>" + standby) && EndsWith(r, "</b>")
  {
    match activeName
    case Some(n) =>
      ConcatAffixes("<b>" + standby, " " + n, "</b>");
      "<b>" + standby + " " + n + "</b>"
    case None =>
      ConcatAffixes("<b>" + standby, "", "</b>");
      assert "<b>" + standby + "" == "<b>" + standby;
      "<b>" + standby + "</b>"
  }

  /** `format_artist_track`. Without a track the standby label is shown,
      whatever the artist. The length-weighted split of a long
      "artist + track" is abstract: `limits(max, |artist|, |track|)` gives
      the artist and track limits the script computes in floating point. */
  function FormatArtistTrack(
    cfg: MediaConfig, artist: string, track: string, playing: bool, maxLength: nat,
    activeName: Option<string>, limits: (nat, nat, nat) -> (nat, nat)): (r: string)
    ensures track == "" ==> r == StandbyLabel(cfg.standby, activeName)
    ensures track != "" ==>
      StartsWith(r, (if playing then cfg.prefixPlaying else cfg.prefixPaused) + PrefixSeparator)
    ensures EndsWith(r, "</b>")
    ensures (track != "" && artist == "" && |track| <= maxLength) ==>
      r == TrackLabel(if playing then cfg.prefixPlaying else cfg.prefixPaused, track)
    ensures (track != "" && artist != "" && |artist| + |track| <= maxLength) ==>
      r == PairLabel(if playing then cfg.prefixPlaying else cfg.prefixPaused,
                     ArtistName(artist), cfg.separator, track)
    ensures (track != "" && artist == "" && |track| > maxLength) ==>
      r == TrackLabel(if playing then cfg.prefixPlaying else cfg.prefixPaused, Ellipsize(track, maxLength))
    ensures (track != "" && artist != "" && |artist| + |track| > maxLength) ==>
      var l := limits(maxLength, |ArtistName(artist)|, |track|);
      r == PairLabel(if playing then cfg.prefixPlaying else cfg.prefixPaused,
                     Ellipsize(ArtistName(artist), l.0), cfg.separator, Ellipsize(track, l.1))
  {
    var prefix := if playing then cfg.prefixPlaying else cfg.prefixPaused;
    if track != "" && artist == "" then
      TrackLabel(prefix, Ellipsize(track, maxLength))
    else if track != "" then
      var a := ArtistName(artist);
      if |artist| + |track| > maxLength then
        var limit := limits(maxLength, |a|, |track|);
        PairLabel(prefix, Ellipsize(a, limit.0), cfg.separator, Ellipsize(track, limit.1))
      else PairLabel(prefix, a, cfg.separator, track)
    else StandbyLabel(cfg.standby, activeName)
  }

  /** A track shown without an artist never takes more than the length
      limit plus the ellipsis: the label holds the start of the track, whole
      when it fits, otherwise cut and ended with `…`. */
  lemma {:induction false} LoneTrackFitsLimit(
    cfg: MediaConfig, track: string, playing: bool, maxLength: nat,
    activeName: Option<string>, limits: (nat, nat, nat) -> (nat, nat)) returns (shown: string)
    requires track != ""
    ensures FormatArtistTrack(cfg, "", track, playing, maxLength, activeName, limits)
            == TrackLabel(if playing then cfg.prefixPlaying else cfg.prefixPaused, shown)
    ensures |shown| <= maxLength + 1
    ensures |track| <= maxLength ==> shown == track
    ensures |track| > maxLength ==>
      shown[|shown| - 1] == Ellipsis && StartsWith(track, shown[..|shown| - 1])
    ensures |track| > maxLength ==> forall i :: |shown| - 1 <= i < maxLength ==> IsSpace(track[i])
    ensures |track| > maxLength && |shown| > 1 ==> !IsSpace(shown[|shown| - 2])
  {
    shown := Ellipsize(track, maxLength);
  }

  // ---------------------------------------------------------------------
  // One refresh (`write_output`) and the metadata cache.
  // ---------------------------------------------------------------------

  datatype Meta = Meta(track: string, artist: string, duration: real)

  const NoMeta := Meta("", "", 0.0)

  /** What the script reads from a Playerctl player. `name` is `None` when
      reading the name fails (the player went away); `position` is `None`
      when `get_position()` fails; `meta` is `None` when the metadata is
      absent or unreadable. */
  datatype Player = Player(name: Option<string>, position: Option<real>, meta: Option<Meta>, status: string)

  /** The module's memory between refreshes: the last metadata worth
      showing and the last player whose name could be read. */
  datatype MediaState = MediaState(cache: Meta, lastValid: Option<Player>)

  predicate StateOk(s: MediaState) {
    s.lastValid.Some? ==> s.lastValid.value.name.Some?
  }

  /** The JSON line written for Waybar (the tooltip is not modelled). */
  datatype Output = Output(text: string, cls: string, alt: string)

  datatype Refresh = Refresh(out: Option<Output>, state: MediaState)

  /** Fresh metadata with each empty field filled from the cache. */
  function Merge(got: Meta, cache: Meta): (r: Meta)
    ensures r.track == if got.track != "" then got.track else cache.track
    ensures r.artist == if got.artist != "" then got.artist else cache.artist
    ensures r.duration == if got.duration > 0.0 || cache.duration <= 0.0 then got.duration else cache.duration
  {
    Meta(
      if got.track == "" && cache.track != "" then cache.track else got.track,
      if got.artist == "" && cache.artist != "" then cache.artist else got.artist,
      if got.duration <= 0.0 && cache.duration > 0.0 then cache.duration else got.duration)
  }

  predicate Showable(m: Meta) {
    m.track != "" || m.artist != "" || m.duration > 0.0
  }

  /** Seconds left to play, from the rounded position and duration. */
  function TimeLeft(position: real, duration: real): (r: real)
    ensures r >= 0.0
    ensures duration <= 0.0 ==> r == 0.0
  {
    var pos := if Round2(position) < 0.0 then 0.0 else Round2(position);
    var dur := if Round2(duration) < 0.0 then 0.0 else Round2(duration);
    var pos' := if dur != 0.0 && pos > dur then dur else pos;
    if dur != 0.0 then
      var left := Round2(dur - pos');
      if left < 0.0 then 0.0 else left
    else 0.0
  }

  /** The player a refresh reads from: the given one, or the last valid one
      when the given one's name cannot be read. */
  function Effective(p: Player, s: MediaState): (r: Option<Player>)
    requires StateOk(s)
    ensures r.Some? ==> r.value.name.Some?
    ensures r.None? <==> p.name.None? && s.lastValid.None?
    ensures p.name.Some? ==> r == Some(p)
    ensures p.name.None? ==> r == s.lastValid
  {
    if p.name.Some? then Some(p) else s.lastValid
  }

  /** `write_output`. `activeName` is the name of the module's current
      player, shown in the standby label. */
  function WriteOutput(
    cfg: MediaConfig, limits: (nat, nat, nat) -> (nat, nat), activeName: Option<string>,
    player: Option<Player>, s: MediaState): (r: Refresh)
    requires StateOk(s)
    ensures StateOk(r.state)
    ensures player.None? ==> r == Refresh(Some(Output(cfg.standby, "custom-nothing-playing", "")), s)
    ensures player.Some? && Effective(player.value, s).None? ==> r == Refresh(None, s)
    ensures player.Some? && Effective(player.value, s).Some? ==> (
      var q := Effective(player.value, s).value;
      && r.out.Some?
      && r.state.lastValid == Some(q)
      && (q.status == "Stopped" ==>
            r.out.value == Output("", "custom-stopped", "") && r.state.cache == NoMeta)
      && (q.status != "Stopped" ==>
            var m := Shown(q, s);
            && r.out.value.cls == "custom-" + q.name.value
            && r.out.value.text
               == Escape(FormatArtistTrack(cfg, m.artist, m.track, q.status == "Playing",
                                           cfg.maxLength, activeName, limits))
            && (Showable(m) ==> r.state.cache == m)
            && (!Showable(m) ==> r.state.cache == s.cache)))
  {
    match player
    case None => Refresh(Some(Output(cfg.standby, "custom-nothing-playing", "")), s)
    case Some(p) =>
      match Effective(p, s)
      case None => Refresh(None, s)
      case Some(q) =>
        var got := if q.meta.Some? then q.meta.value else NoMeta;
        var m := Merge(got, s.cache);
        var cache := if Showable(m) then m else s.cache;
        if q.status == "Stopped" then
          Refresh(Some(Output("", "custom-stopped", "")), MediaState(NoMeta, Some(q)))
        else
          var playing := q.status == "Playing";
          var position := if q.position.Some? then q.position.value else 0.0;
          var text := FormatArtistTrack(cfg, m.artist, m.track, playing, cfg.maxLength, activeName, limits);
          Refresh(
            Some(Output(Escape(text), "custom-" + q.name.value,
                        MultiLineTime(TimeLeft(position, m.duration), playing))),
            MediaState(cache, Some(q)))
  }

  /** The track and artist a refresh displays. */
  function Shown(p: Player, s: MediaState): Meta {
    Merge(if p.meta.Some? then p.meta.value else NoMeta, s.cache)
  }

  /** A refresh in which the player momentarily reports no metadata shows
      the same track and artist as the refresh before it. */
  lemma MetadataDropoutKeepsLabel(
    cfg: MediaConfig, limits: (nat, nat, nat) -> (nat, nat), activeName: Option<string>,
    p: Player, s: MediaState)
    requires StateOk(s) && p.name.Some? && p.status != "Stopped"
    ensures var s1 := WriteOutput(cfg, limits, activeName, Some(p), s).state;
            var p2 := p.(meta := None);
            && Shown(p2, s1).track == Shown(p, s).track
            && Shown(p2, s1).artist == Shown(p, s).artist
            && WriteOutput(cfg, limits, activeName, Some(p2), s1).out.value.text
               == WriteOutput(cfg, limits, activeName, Some(p), s).out.value.text
  {
    var m := Shown(p, s);
    var s1 := WriteOutput(cfg, limits, activeName, Some(p), s).state;
    if Showable(m) {
      assert s1.cache == m;
    } else {
      assert s1.cache == s.cache;
      assert m.track == "" && m.artist == "";
    }
    var p2 := p.(meta := None);
    assert Shown(p2, s1).track == m.track && Shown(p2, s1).artist == m.artist;
  }

  /** After a stop, a refresh without metadata shows the standby label: no
      stale track survives the stop. */
  lemma StopForgetsTrack(
    cfg: MediaConfig, limits: (nat, nat, nat) -> (nat, nat), activeName: Option<string>,
    p: Player, s: MediaState, q: Player)
    requires StateOk(s) && p.name.Some? && p.status == "Stopped"
    requires q.name.Some? && q.status != "Stopped" && q.meta.None?
    ensures var s1 := WriteOutput(cfg, limits, activeName, Some(p), s).state;
            StartsWith(Unescape(WriteOutput(cfg, limits, activeName, Some(q), s1).out.value.text),
                       "<b>" + cfg.standby)
  {
    var s1 := WriteOutput(cfg, limits, activeName, Some(p), s).state;
    assert s1.cache == NoMeta;
    var m := Shown(q, s1);
    assert m.track == "";
    var text := FormatArtistTrack(cfg, m.artist, m.track, q.status == "Playing", cfg.maxLength, activeName, limits);
    UnescapeEscape(text);
  }
}

=== FILE: paths.dfy ===
/**
 * POSIX path handling the scripts rely on: `os.path.basename`,
 * `os.path.dirname`, `os.path.join`, and `pathlib.PurePosixPath`'s
 * normalised text, `name`, `suffix` and `stem`. Paths are plain strings;
 * nothing here touches a file system.
 */
module Paths {
  import opened Py

  /** `p.rfind('/') + 1`: where the last component starts. */
  function TailStart(p: string): (i: nat)
    ensures i <= |p|
    ensures '/' !in p[i..]
    ensures i > 0 ==> p[i - 1] == '/'
    decreases |p|
  {
    if |p| == 0 then 0
    else if p[|p| - 1] == '/' then |p|
    else
      var i := TailStart(p[..|p| - 1]);
      assert p[i..] == p[..|p| - 1][i..] + [p[|p| - 1]];
      i
  }

  /** `os.path.basename(p)`: the longest suffix without a slash. */
  function Basename(p: string): (r: string)
    ensures '/' !in r && EndsWith(p, r)
    ensures |r| < |p| ==> p[|p| - |r| - 1] == '/'
  {
    p[TailStart(p)..]
  }

  predicate AllSlashes(s: string) {
    forall i :: 0 <= i < |s| ==> s[i] == '/'
  }

  function RStripSlashes(s: string): (r: string)
    ensures StartsWith(s, r)
    ensures |r| > 0 ==> r[|r| - 1] != '/'
    ensures AllSlashes(s[|r|..])
    decreases |s|
  {
    if |s| > 0 && s[|s| - 1] == '/' then
      var r := RStripSlashes(s[..|s| - 1]);
      assert s[|r|..] == s[..|s| - 1][|r|..] + "/";
      r
    else s
  }

  /** `os.path.dirname(p)`: everything before the last component, without
      trailing slashes unless it consists of slashes only. */
  function Dirname(p: string): (r: string)
    ensures StartsWith(p, r)
    ensures |r| <= TailStart(p)
  {
    var head := p[..TailStart(p)];
    if head != "" && !AllSlashes(head) then RStripSlashes(head) else head
  }

  /** `os.path.join(a, b)`. */
  function JoinPath(a: string, b: string): string {
    if StartsWith(b, "/") then b
    else if a == "" || EndsWith(a, "/") then a + b
    else a + "/" + b
  }

  /** The joined path ends with `b`; an absolute `b` replaces `a`, and a
      relative one is put after it. */
  lemma JoinPathShape(a: string, b: string)
    ensures EndsWith(JoinPath(a, b), b)
    ensures StartsWith(b, "/") ==> JoinPath(a, b) == b
    ensures !StartsWith(b, "/") ==> StartsWith(JoinPath(a, b), a)
  {
    var r := JoinPath(a, b);
    if !StartsWith(b, "/") {
      if a == "" || EndsWith(a, "/") {
        assert r[..|a|] == a && r[|r| - |b|..] == b;
      } else {
        assert r[..|a|] == a && r[|r| - |b|..] == b;
      }
    }
  }

  lemma TailStartAfterSlash(d: string, n: string)
    requires '/' !in n
    ensures TailStart(d + "/" + n) == |d| + 1
    decreases |n|
  {
    var s := d + "/" + n;
    if |n| > 0 {
      assert s[..|s| - 1] == d + "/" + n[..|n| - 1];
      TailStartAfterSlash(d, n[..|n| - 1]);
    }
  }

  lemma TailStartNoSlash(n: string)
    requires '/' !in n
    ensures TailStart(n) == 0
    decreases |n|
  {
    if |n| > 0 {
      assert '/' !in n[..|n| - 1];
      TailStartNoSlash(n[..|n| - 1]);
    }
  }

  /** Joining a directory (without a trailing slash) and a file name can be
      taken apart again by `dirname` and `basename`. */
  lemma DirnameBasenameOfJoin(d: string, n: string)
    requires '/' !in n
    requires |d| == 0 || d[|d| - 1] != '/'
    ensures Basename(JoinPath(d, n)) == n
    ensures Dirname(JoinPath(d, n)) == d
  {
    if d == "" {
      assert |n| == 0 || n[0] != '/';
      TailStartNoSlash(n);
    } else {
      var s := d + "/" + n;
      assert |n| == 0 || n[0] != '/';
      assert JoinPath(d, n) == s;
      TailStartAfterSlash(d, n);
      assert s[..|d| + 1] == d + "/";
      assert s[|d| + 1..] == n;
      assert !AllSlashes(d + "/") by { assert (d + "/")[|d| - 1] != '/'; }
      var r := RStripSlashes(d + "/");
      assert (d + "/")[..|d|] == d;
      assert RStripSlashes(d) == d;
    }
  }

  // ---------------------------------------------------------------------
  // pathlib
  // ---------------------------------------------------------------------

  /** The anchor `PurePosixPath` keeps: exactly two leading slashes are
      preserved, one or three and more collapse to one. */
  function Root(p: string): (r: string)
    ensures r == "" || r == "/" || r == "//"
    ensures StartsWith(p, r)
  {
    if StartsWith(p, "//") && !StartsWith(p, "///") then "//"
    else if StartsWith(p, "/") then "/"
    else ""
  }

  /** The components that survive parsing: empty and `.` segments go. */
  function Keep(segs: seq<string>): (r: seq<string>)
    ensures forall i :: 0 <= i < |r| ==> r[i] != "" && r[i] != "." && r[i] in segs
    ensures |r| <= |segs|
  {
    if |segs| == 0 then []
    else if segs[0] == "" || segs[0] == "." then Keep(segs[1..])
    else [segs[0]] + Keep(segs[1..])
  }

  function Parts(p: string): (r: seq<string>)
    ensures forall i :: 0 <= i < |r| ==> r[i] != "" && r[i] != "." && '/' !in r[i]
  {
    Keep(Split(p, '/'))
  }

  /** `str(Path(p))`. */
  function Normalize(p: string): string {
    var parts := Parts(p);
    if Root(p) == "" && |parts| == 0 then "." else Root(p) + Join(parts, "/")
  }

  /** `Path(p).name`: the last component, or "" for a bare anchor or `.`. */
  function Name(p: string): (r: string)
    ensures '/' !in r
  {
    var parts := Parts(p);
    if |parts| == 0 then "" else parts[|parts| - 1]
  }

  /** Where `suffix` starts in a name, when it has one: the last `.` that is
      neither the first nor the last character. */
  function SuffixStart(name: string): (r: Option<nat>)
    ensures r.Some? ==> 0 < r.value < |name| - 1 && name[r.value] == '.' && '.' !in name[r.value + 1..]
  {
    var i := LastDot(name);
    if i.Some? && 0 < i.value < |name| - 1 then i else None
  }

  function LastDot(s: string): (r: Option<nat>)
    ensures r.Some? ==> r.value < |s| && s[r.value] == '.' && '.' !in s[r.value + 1..]
    ensures r.None? ==> '.' !in s
    decreases |s|
  {
    if |s| == 0 then None
    else if s[|s| - 1] == '.' then Some(|s| - 1)
    else
      var r := LastDot(s[..|s| - 1]);
      assert s == s[..|s| - 1] + [s[|s| - 1]];
      if r.Some? then assert s[r.value + 1..] == s[..|s| - 1][r.value + 1..] + [s[|s| - 1]]; r else r
  }

  /** `Path(p).suffix`. */
  function Suffix(p: string): (r: string)
    ensures EndsWith(Name(p), r)
    ensures r == "" || (r[0] == '.' && '.' !in r[1..] && |r| >= 2 && |r| < |Name(p)|)
  {
    var n := Name(p);
    match SuffixStart(n)
    case None => ""
    case Some(i) => n[i..]
  }

  /** `Path(p).stem`. */
  function Stem(p: string): (r: string)
    ensures Name(p) == r + Suffix(p)
  {
    var n := Name(p);
    match SuffixStart(n)
    case None => n
    case Some(i) => assert n == n[..i] + n[i..]; n[..i]
  }

  lemma KeepClean(segs: seq<string>)
    requires forall i :: 0 <= i < |segs| ==> segs[i] != "" && segs[i] != "."
    ensures Keep(segs) == segs
  {
    if |segs| > 0 {
      KeepClean(segs[1..]);
    }
  }

  lemma SplitAfterSlash(x: string)
    ensures Split("/" + x, '/') == [""] + Split(x, '/')
  {
    var s := "/" + x;
    assert CharIndex(s, '/') == Some(0);
    assert s[1..] == x;
  }

  lemma KeepEmptyHead(segs: seq<string>)
    ensures Keep([""] + segs) == Keep(segs)
  {
    assert ([""] + segs)[1..] == segs;
  }

  /** The components of a joined path without an anchor. */
  lemma PartsOfJoinedParts(parts: seq<string>)
    requires forall i :: 0 <= i < |parts| ==> parts[i] != "" && parts[i] != "." && '/' !in parts[i]
    ensures Parts(Join(parts, "/")) == parts
  {
    if |parts| == 0 {
      assert CharIndex("", '/') == None;
    } else {
      SplitJoin(parts, '/');
      KeepClean(parts);
    }
  }

  /** A leading slash adds no component. */
  lemma PartsAfterSlash(x: string)
    ensures Parts("/" + x) == Parts(x)
  {
    SplitAfterSlash(x);
    KeepEmptyHead(Split(x, '/'));
  }

  lemma DoubleSlash(x: string)
    ensures "//" + x == "/" + ("/" + x)
  {
    assert "//" == "/" + "/";
    forall k | 0 <= k < |x| + 2 ensures ("//" + x)[k] == ("/" + ("/" + x))[k] {
    }
  }

  /** The components written out by `Normalize`, read back. */
  lemma PartsOfJoined(root: string, parts: seq<string>)
    requires root == "" || root == "/" || root == "//"
    requires forall i :: 0 <= i < |parts| ==> parts[i] != "" && parts[i] != "." && '/' !in parts[i]
    ensures Parts(root + Join(parts, "/")) == parts
  {
    var j := Join(parts, "/");
    PartsOfJoinedParts(parts);
    if root == "/" {
      PartsAfterSlash(j);
    } else if root == "//" {
      DoubleSlash(j);
      PartsAfterSlash("/" + j);
      PartsAfterSlash(j);
    } else {
      assert root + j == j;
    }
  }

  lemma JoinStartsWithFirst(parts: seq<string>, sep: string)
    requires |parts| > 0
    ensures StartsWith(Join(parts, sep), parts[0])
  {
  }

  /** Normalising keeps the components. */
  lemma PartsOfNormalize(p: string)
    ensures Parts(Normalize(p)) == Parts(p)
  {
    var parts := Parts(p);
    if Root(p) == "" && |parts| == 0 {
      assert CharIndex(".", '/') == None;
    } else {
      PartsOfJoined(Root(p), parts);
    }
  }

  /** Normalising keeps the anchor. */
  lemma RootOfNormalize(p: string)
    ensures Root(Normalize(p)) == Root(p)
  {
    var parts := Parts(p);
    if |parts| > 0 {
      var j := Join(parts, "/");
      JoinStartsWithFirst(parts, "/");
      assert j[0] == parts[0][0] && parts[0][0] != '/';
      var n := Root(p) + j;
      assert n[|Root(p)|] == j[0];
    }
  }

  /** `str(Path(str(Path(p)))) == str(Path(p))`. */
  lemma NormalizeIdempotent(p: string)
    ensures Normalize(Normalize(p)) == Normalize(p)
  {
    PartsOfNormalize(p);
    RootOfNormalize(p);
  }

  /** A path and its normalised text have the same name and suffix. */
  lemma NameOfNormalize(p: string)
    ensures Name(Normalize(p)) == Name(p)
    ensures Suffix(Normalize(p)) == Suffix(p)
  {
    PartsOfNormalize(p);
  }
}

=== FILE: strings.dfy ===
/**
 * Python built-in string behaviour that the desktop scripts rely on:
 * `str.strip`, `str.split`, `str.replace`, `str.startswith`, `in`,
 * `int()` and the zero-padded integer formats. Each function follows
 * CPython's documented behaviour on the inputs the scripts produce; where
 * CPython is Unicode-aware in a way the model is not (case mapping, Unicode
 * digits) the difference is stated on the function.
 */
module Py {

  datatype Option<+T> = None | Some(value: T)

  /** The code points for which CPython's `str.isspace()` is true; these are
      exactly the characters `str.strip()` and `str.split()` treat as space. */
  predicate IsSpace(c: char) {
    || c == ' ' || c == '\t' || c == '\n' || c == '\r' || c == '\U{B}' || c == '\U{C}'
    || ('\U{1C}' <= c <= '\U{1F}') || c == '\U{85}' || c == '\U{A0}' || c == '\U{1680}'
    || ('\U{2000}' <= c <= '\U{200A}') || c == '\U{2028}' || c == '\U{2029}' || c == '\U{202F}'
    || c == '\U{205F}' || c == '\U{3000}'
  }

  predicate IsDigit(c: char) { '0' <= c <= '9' }

  /** U+2026, the horizontal ellipsis the scripts use to mark shortened text. */
  const Ellipsis := '\U{2026}'

  function Spaces(n: nat): (r: string)
    ensures |r| == n
    ensures forall i :: 0 <= i < n ==> r[i] == ' '
  {
    if n == 0 then "" else Spaces(n - 1) + " "
  }

  predicate StartsWith(s: string, prefix: string) {
    |prefix| <= |s| && s[..|prefix|] == prefix
  }

  predicate EndsWith(s: string, suffix: string) {
    |suffix| <= |s| && s[|s| - |suffix|..] == suffix
  }

  /** Python's `sub in s`. */
  predicate Contains(s: string, sub: string)
    decreases |s|
  {
    StartsWith(s, sub) || (|s| > 0 && Contains(s[1..], sub))
  }

  lemma ContainsAt(s: string, sub: string, i: nat)
    requires i + |sub| <= |s| && s[i..i + |sub|] == sub
    ensures Contains(s, sub)
    decreases i
  {
    if i > 0 {
      assert s[1..][i - 1..i - 1 + |sub|] == sub;
      ContainsAt(s[1..], sub, i - 1);
    }
  }

  /** `str.lstrip()` with no argument. */
  function LStrip(s: string): (r: string)
    ensures |r| <= |s|
    ensures |r| > 0 ==> !IsSpace(r[0])
    ensures forall k :: 0 <= k < |s| - |r| ==> IsSpace(s[k])
  {
    if |s| > 0 && IsSpace(s[0]) then LStrip(s[1..]) else s
  }

  /** `str.rstrip()` with no argument. */
  function RStrip(s: string): (r: string)
    ensures |r| <= |s|
    ensures |r| > 0 ==> !IsSpace(r[|r| - 1])
    ensures forall k :: |r| <= k < |s| ==> IsSpace(s[k])
  {
    if |s| > 0 && IsSpace(s[|s| - 1]) then RStrip(s[..|s| - 1]) else s
  }

  /** `lstrip()` keeps a suffix of its input. */
  lemma {:induction false} LStripSuffix(s: string)
    ensures LStrip(s) == s[|s| - |LStrip(s)|..]
    decreases |s|
  {
    if |s| > 0 && IsSpace(s[0]) {
      LStripSuffix(s[1..]);
    }
  }

  /** `rstrip()` keeps a prefix of its input. */
  lemma {:induction false} RStripPrefix(s: string)
    ensures RStrip(s) == s[..|RStrip(s)|]
    decreases |s|
  {
    if |s| > 0 && IsSpace(s[|s| - 1]) {
      RStripPrefix(s[..|s| - 1]);
    }
  }

  /** `str.strip()` with no argument. */
  function Strip(s: string): (r: string)
    ensures |r| <= |s|
    ensures |r| > 0 ==> !IsSpace(r[0]) && !IsSpace(r[|r| - 1])
  {
    var l := LStrip(s);
    RStripPrefix(l);
    RStrip(l)
  }

  /** A string that `strip()` leaves alone: no space at either end. */
  predicate Trimmed(s: string) {
    |s| == 0 || (!IsSpace(s[0]) && !IsSpace(s[|s| - 1]))
  }

  lemma StripTrimmed(s: string)
    requires Trimmed(s)
    ensures Strip(s) == s
  {
  }

  lemma StripIsTrimmed(s: string)
    ensures Trimmed(Strip(s))
  {
  }

  /** Stripping only removes space: every other character survives it. */
  lemma StripKeepsNonSpace(x: string)
    ensures forall k :: 0 <= k < |x| && !IsSpace(x[k]) ==> x[k] in Strip(x)
  {
    var l := LStrip(x);
    var r := RStrip(l);
    LStripSuffix(x);
    RStripPrefix(l);
    forall k | 0 <= k < |x| && !IsSpace(x[k])
      ensures x[k] in Strip(x)
    {
      assert |x| - |l| <= k;
      assert l[k - (|x| - |l|)] == x[k];
      assert k - (|x| - |l|) < |r|;
      assert r[k - (|x| - |l|)] == x[k];
    }
  }

  /** Stripping adds no character: everything in `strip()`'s result was in its input. */
  lemma StripSubrange(x: string)
    ensures forall c :: c in Strip(x) ==> c in x
  {
    var l := LStrip(x);
    LStripSuffix(x);
    RStripPrefix(l);
    assert l == x[|x| - |l|..];
    assert forall c :: c in RStrip(l) ==> c in l;
  }

  /** A non-space character absent from the stripped text was absent before. */
  lemma NoCharAfterStrip(x: string, c: char)
    requires !IsSpace(c) && c !in Strip(x)
    ensures c !in x && Before(x, c) == x
  {
    StripKeepsNonSpace(x);
  }

  /** `str.strip(c)` for a single character `c`. */
  function StripChar(s: string, c: char): (r: string)
    ensures |r| <= |s|
    ensures |r| > 0 ==> r[0] != c && r[|r| - 1] != c
    decreases |s|
  {
    if |s| > 0 && s[0] == c then StripChar(s[1..], c)
    else if |s| > 0 && s[|s| - 1] == c then StripChar(s[..|s| - 1], c)
    else s
  }

  /** Index of the first occurrence of `c` (Python `s.find(c)` when found). */
  function CharIndex(s: string, c: char): (r: Option<nat>)
    ensures r.None? <==> c !in s
    ensures r.Some? ==> r.value < |s| && s[r.value] == c && c !in s[..r.value]
  {
    if |s| == 0 then None
    else if s[0] == c then Some(0)
    else match CharIndex(s[1..], c)
      case None => None
      case Some(i) => assert s[1..][..i] == s[1..i + 1]; Some(i + 1)
  }

  /** The text before the first `c`, or all of `s` when there is none:
      element 0 of `s.split(c, 1)`. */
  function Before(s: string, c: char): (r: string)
    ensures c !in r
    ensures c !in s ==> r == s
    ensures StartsWith(s, r)
  {
    match CharIndex(s, c)
    case None => s
    case Some(i) => s[..i]
  }

  /** The text after the first `c` (element 1 of `s.split(c, 1)`), or ""
      when there is none. */
  function After(s: string, c: char): (r: string)
    ensures c in s ==> s == Before(s, c) + [c] + r
    ensures c !in s ==> r == ""
  {
    match CharIndex(s, c)
    case None => ""
    case Some(i) => assert s == s[..i] + [c] + s[i + 1..]; s[i + 1..]
  }

  /** Splitting at the first `c` takes apart what was joined around it. */
  lemma BeforeAfterJoined(k: string, c: char, rest: string)
    requires c !in k
    ensures Before(k + [c] + rest, c) == k
    ensures After(k + [c] + rest, c) == rest
  {
    var s := k + [c] + rest;
    assert s[..|k|] == k && s[|k|] == c;
    assert CharIndex(s, c) == Some(|k|);
    assert s[|k| + 1..] == rest;
  }

  /** `s.split(c)` for a one-character separator. */
  function Split(s: string, c: char): (r: seq<string>)
    ensures |r| >= 1
    ensures forall i :: 0 <= i < |r| ==> c !in r[i]
    ensures r[0] == Before(s, c)
    decreases |s|
  {
    match CharIndex(s, c)
    case None => [s]
    case Some(i) => [s[..i]] + Split(s[i + 1..], c)
  }

  /** `sep.join(parts)`. */
  function Join(parts: seq<string>, sep: string): (r: string)
    decreases |parts|
  {
    if |parts| == 0 then ""
    else if |parts| == 1 then parts[0]
    else parts[0] + sep + Join(parts[1..], sep)
  }

  lemma {:induction false} JoinSplit(s: string, c: char)
    ensures Join(Split(s, c), [c]) == s
    decreases |s|
  {
    match CharIndex(s, c)
    case None =>
    case Some(i) =>
      var rest := s[i + 1..];
      var parts := Split(rest, c);
      assert Split(s, c) == [s[..i]] + parts;
      JoinSplit(rest, c);
      JoinCons(s[..i], parts, [c]);
      assert s == s[..i] + [c] + rest;
  }

  /** One unfolding of `Join` on a list of at least two parts. */
  lemma JoinCons(p: string, parts: seq<string>, sep: string)
    requires |parts| >= 1
    ensures Join([p] + parts, sep) == p + sep + Join(parts, sep)
  {
    assert ([p] + parts)[1..] == parts;
  }

  /** Joining with one more, empty, part adds a trailing separator. */
  lemma {:induction false} JoinSnoc(parts: seq<string>, sep: string)
    requires |parts| >= 1
    ensures Join(parts + [""], sep) == Join(parts, sep) + sep
    decreases |parts|
  {
    if |parts| == 1 {
      assert (parts + [""])[1..] == [""];
    } else {
      JoinSnoc(parts[1..], sep);
      assert (parts + [""])[1..] == parts[1..] + [""];
    }
  }

  lemma {:induction false} SplitJoin(parts: seq<string>, c: char)
    requires |parts| >= 1
    requires forall i :: 0 <= i < |parts| ==> c !in parts[i]
    ensures Split(Join(parts, [c]), c) == parts
    decreases |parts|
  {
    if |parts| > 1 {
      var p := parts[0];
      var tail := Join(parts[1..], [c]);
      var s := Join(parts, [c]);
      assert s == p + [c] + tail;
      assert s[|p|] == c && s[..|p|] == p;
      SplitAtFirst(s, c, |p|);
      assert s[|p| + 1..] == tail;
      SplitJoin(parts[1..], c);
      assert parts == [p] + parts[1..];
    }
  }

  /** The first `c` is at `i` when `s[i]` is `c` and nothing before it is. */
  lemma CharIndexAt(s: string, c: char, i: nat)
    requires i < |s| && s[i] == c && c !in s[..i]
    ensures CharIndex(s, c) == Some(i)
  {
    assert s[i] in s;
  }

  lemma SplitAtFirst(s: string, c: char, i: nat)
    requires i < |s| && s[i] == c && c !in s[..i]
    ensures Split(s, c) == [s[..i]] + Split(s[i + 1..], c)
  {
    CharIndexAt(s, c, i);
  }

  lemma ConcatShift(a: string, c: char, b: string, i: nat)
    requires i < |a|
    ensures (a + [c] + b)[..i] == a[..i] && (a + [c] + b)[i] == a[i]
    ensures (a + [c] + b)[i + 1..] == a[i + 1..] + [c] + b
  {
  }

  lemma SplitShift(a: string, b: string, c: char, i: nat)
    requires i < |a| && a[i] == c && c !in a[..i]
    ensures Split(a + [c] + b, c) == [a[..i]] + Split(a[i + 1..] + [c] + b, c)
  {
    ConcatShift(a, c, b, i);
    SplitAtFirst(a + [c] + b, c, i);
  }

  /** `x = (a + b) + c` regrouped as `a + (b + c)`, named `r`. */
  lemma AssocChain<T>(x: seq<T>, y: seq<T>, a: seq<T>, b: seq<T>, c: seq<T>, r: seq<T>)
    requires x == y + c && y == a + b && r == b + c
    ensures x == a + r
  {
  }

  lemma Assoc<T>(a: seq<T>, b: seq<T>, c: seq<T>)
    ensures (a + b) + c == a + (b + c)
  {
  }

  lemma ConsAssoc(x: string, l: seq<string>, r: seq<string>)
    ensures [x] + (l + r) == [x] + l + r
  {
  }

  lemma {:induction false} SplitConcatStep(a: string, b: string, c: char, i: nat)
    requires i < |a| && a[i] == c && c !in a[..i]
    requires Split(a[i + 1..] + [c] + b, c) == Split(a[i + 1..], c) + Split(b, c)
    ensures Split(a + [c] + b, c) == Split(a, c) + Split(b, c)
  {
    SplitShift(a, b, c, i);
    SplitAtFirst(a, c, i);
    ConsAssoc(a[..i], Split(a[i + 1..], c), Split(b, c));
  }

  /** Splitting `a + c + b` at `c` splits `a` and `b` separately. */
  lemma {:induction false} SplitConcat(a: string, b: string, c: char)
    ensures Split(a + [c] + b, c) == Split(a, c) + Split(b, c)
    decreases |a|
  {
    if c !in a {
      var s := a + [c] + b;
      assert s[..|a|] == a && s[|a| + 1..] == b;
      SplitAtFirst(s, c, |a|);
      assert Split(a, c) == [a];
    } else {
      var i := CharIndex(a, c).value;
      SplitConcat(a[i + 1..], b, c);
      SplitConcatStep(a, b, c, i);
    }
  }

  /** A string without `c` does not contain the one-character text `[c]`. */
  lemma {:induction false} NotContainsChar(s: string, c: char)
    requires c !in s
    ensures !Contains(s, [c])
    decreases |s|
  {
    if |s| > 0 {
      assert s[..1] == [s[0]] && s[0] != c;
      assert c !in s[1..] by {
        assert forall k :: 0 <= k < |s[1..]| ==> s[1..][k] == s[k + 1];
      }
      NotContainsChar(s[1..], c);
    }
  }

  /** Text found in a suffix is found in the whole. */
  lemma {:induction false} ContainsSuffix(s: string, j: nat, sub: string)
    requires j <= |s| && Contains(s[j..], sub)
    ensures Contains(s, sub)
    decreases j
  {
    if j > 0 {
      assert s[1..][j - 1..] == s[j..];
      ContainsSuffix(s[1..], j - 1, sub);
    }
  }

  /** Every part of `sep.join(parts)` occurs in it, at the returned index. */
  lemma {:induction false} JoinPartAt(parts: seq<string>, sep: string, k: nat) returns (start: nat)
    requires k < |parts|
    ensures start + |parts[k]| <= |Join(parts, sep)|
    ensures Join(parts, sep)[start..start + |parts[k]|] == parts[k]
    decreases |parts|
  {
    var j := Join(parts, sep);
    if |parts| == 1 {
      start := 0;
      assert j[0..|parts[0]|] == j;
    } else if k == 0 {
      start := 0;
      assert j == parts[0] + (sep + Join(parts[1..], sep));
      assert j[0..|parts[0]|] == parts[0];
    } else {
      var tail := Join(parts[1..], sep);
      var t := JoinPartAt(parts[1..], sep, k - 1);
      var off := |parts[0]| + |sep|;
      assert j == (parts[0] + sep) + tail;
      start := off + t;
      assert j[start..start + |parts[k]|] == tail[t..t + |parts[k]|];
    }
  }

  /** Every piece of `s.split(c)` occurs in `s`, at the returned index. */
  lemma SplitPieceAt(s: string, c: char, k: nat) returns (start: nat)
    requires k < |Split(s, c)|
    ensures start + |Split(s, c)[k]| <= |s|
    ensures s[start..start + |Split(s, c)[k]|] == Split(s, c)[k]
  {
    var parts := Split(s, c);
    JoinSplit(s, c);
    start := PieceOfJoin(s, parts, [c], k);
  }

  /** `JoinPartAt` for a text known to be the join of `parts`. */
  lemma PieceOfJoin(s: string, parts: seq<string>, sep: string, k: nat) returns (start: nat)
    requires k < |parts| && Join(parts, sep) == s
    ensures start + |parts[k]| <= |s|
    ensures s[start..start + |parts[k]|] == parts[k]
  {
    start := JoinPartAt(parts, sep, k);
  }

  /** A piece of `s.split(c)` that starts with `sub` shows that `s`
      contains `sub`. */
  lemma SplitPieceContains(s: string, c: char, k: nat, sub: string)
    requires k < |Split(s, c)| && StartsWith(Split(s, c)[k], sub)
    ensures Contains(s, sub)
  {
    var piece := Split(s, c)[k];
    var start := SplitPieceAt(s, c, k);
    PrefixOfPiece(s, piece, start, sub);
  }

  /** A prefix of text found in `s` is itself found in `s`. */
  lemma PrefixOfPiece(s: string, piece: string, start: nat, sub: string)
    requires start + |piece| <= |s| && s[start..start + |piece|] == piece
    requires StartsWith(piece, sub)
    ensures Contains(s, sub)
  {
    assert s[start..start + |sub|] == piece[..|sub|];
    ContainsAt(s, sub, start);
  }

  /** `s.split()` with no argument: the maximal runs of non-space text. */
  function SplitWs(s: string): (r: seq<string>)
    ensures forall i :: 0 <= i < |r| ==> |r[i]| > 0 && !IsSpace(r[i][0])
    decreases |s|
  {
    var t := LStrip(s);
    if |t| == 0 then []
    else
      var w := WordLen(t, 0);
      [t[..w]] + SplitWs(t[w..])
  }

  function WordLen(t: string, i: nat): (w: nat)
    requires i <= |t|
    requires |t| > 0 && !IsSpace(t[0])
    ensures 0 < w <= |t|
    ensures w == |t| || IsSpace(t[w])
    decreases |t| - i
  {
    if i < |t| && !IsSpace(t[i]) then WordLen(t, i + 1) else i
  }

  /** `WordLen` stops at the first white space after `i`. */
  lemma {:induction false} WordLenAt(t: string, i: nat, w: nat)
    requires |t| > 0 && !IsSpace(t[0]) && i <= w <= |t|
    requires forall j :: i <= j < w ==> !IsSpace(t[j])
    requires w == |t| || IsSpace(t[w])
    ensures WordLen(t, i) == w
    decreases w - i
  {
    if i < w {
      WordLenAt(t, i + 1, w);
    }
  }

  /** `split()` takes a word ending at white space, or at the end, as its
      first part. */
  lemma SplitWsWord(w: string, x: string)
    requires |w| > 0 && forall j :: 0 <= j < |w| ==> !IsSpace(w[j])
    requires x == "" || IsSpace(x[0])
    ensures SplitWs(w + x) == [w] + SplitWs(x)
  {
    var t := w + x;
    assert t[0] == w[0];
    assert LStrip(t) == t;
    WordLenAt(t, 0, |w|);
    assert t[..|w|] == w && t[|w|..] == x;
  }

  /** Leading white space does not change `split()`. */
  lemma SplitWsSpace(c: char, y: string)
    requires IsSpace(c)
    ensures SplitWs([c] + y) == SplitWs(y)
  {
    assert ([c] + y)[1..] == y;
    assert LStrip([c] + y) == LStrip(y);
  }

  /** `rstrip()` after a part that ends in non-space strips only what
      follows it. */
  lemma {:induction false} RStripAfterWord(p: string, x: string)
    requires |p| > 0 && !IsSpace(p[|p| - 1])
    ensures RStrip(p + x) == p + RStrip(x)
    decreases |x|
  {
    if |x| == 0 {
      assert p + x == p;
    } else if IsSpace(x[|x| - 1]) {
      assert (p + x)[..|p + x| - 1] == p + x[..|x| - 1];
      RStripAfterWord(p, x[..|x| - 1]);
    }
  }

  /** `strip()` of text after a part without white space at either end
      strips only the trailing text. */
  lemma StripAfterWord(p: string, x: string)
    requires |p| > 0 && !IsSpace(p[0]) && !IsSpace(p[|p| - 1])
    ensures Strip(p + x) == p + RStrip(x)
  {
    assert (p + x)[0] == p[0];
    assert LStrip(p + x) == p + x;
    RStripAfterWord(p, x);
  }

  /** `s.replace(pat, rep)` for a non-empty pattern: every occurrence, left
      to right, non-overlapping. */
  function ReplaceAll(s: string, pat: string, rep: string): (r: string)
    requires |pat| > 0
    decreases |s|
  {
    if |s| == 0 then ""
    else if StartsWith(s, pat) then rep + ReplaceAll(s[|pat|..], pat, rep)
    else [s[0]] + ReplaceAll(s[1..], pat, rep)
  }

  lemma {:induction false} ReplaceAbsent(s: string, pat: string, rep: string)
    requires |pat| > 0 && !Contains(s, pat)
    ensures ReplaceAll(s, pat, rep) == s
    decreases |s|
  {
    if |s| > 0 {
      ReplaceAbsent(s[1..], pat, rep);
    }
  }

  /** The first components of a list of pairs, in order: the keys of a
      dictionary given as its items. */
  function Firsts<A, B>(ps: seq<(A, B)>): (r: seq<A>)
    ensures |r| == |ps|
    ensures forall i :: 0 <= i < |ps| ==> r[i] == ps[i].0
  {
    seq(|ps|, i requires 0 <= i < |ps| => ps[i].0)
  }

  /** `os.getenv(key, default)` over an environment given as a function. */
  function GetEnv(env: string -> Option<string>, key: string, default: string): string {
    match env(key)
    case None => default
    case Some(v) => v
  }

  /** `str.lower()` restricted to ASCII letters. */
  function LowerAscii(s: string): (r: string)
    ensures |r| == |s|
    ensures forall i :: 0 <= i < |s| ==> r[i] == LowerChar(s[i])
  {
    seq(|s|, i requires 0 <= i < |s| => LowerChar(s[i]))
  }

  function LowerChar(c: char): char {
    if 'A' <= c <= 'Z' then (c as int + 32) as char else c
  }

  /** `str.upper()` restricted to ASCII letters. */
  function UpperAscii(s: string): (r: string)
    ensures |r| == |s|
    ensures forall i :: 0 <= i < |s| ==> r[i] == UpperChar(s[i])
  {
    seq(|s|, i requires 0 <= i < |s| => UpperChar(s[i]))
  }

  function UpperChar(c: char): char {
    if 'a' <= c <= 'z' then (c as int - 32) as char else c
  }

  /** `s.ljust(n)`: pad on the right with spaces up to length `n`. */
  function LJust(s: string, n: nat): (r: string)
    ensures |r| == if |s| >= n then |s| else n
    ensures r[..|s|] == s
    ensures forall i :: |s| <= i < |r| ==> r[i] == ' '
  {
    if |s| >= n then s else s + Spaces(n - |s|)
  }

  /** `s.isdigit()` for ASCII digits: non-empty and digits only. */
  predicate AllDigits(s: string) {
    |s| > 0 && forall i :: 0 <= i < |s| ==> IsDigit(s[i])
  }

  // ---------------------------------------------------------------------
  // Integers: `int(text)`, `int(text, 16)`, `str(n)` and `f"{n:02d}"`.
  // ---------------------------------------------------------------------

  predicate IsDigitIn(c: char, base: nat) {
    if base == 16 then IsDigit(c) || ('a' <= c <= 'f') || ('A' <= c <= 'F')
    else IsDigit(c)
  }

  function DigitValue(c: char): nat {
    if IsDigit(c) then c as nat - '0' as nat
    else if 'a' <= c <= 'f' then c as nat - 'a' as nat + 10
    else if 'A' <= c <= 'F' then c as nat - 'A' as nat + 10
    else 0
  }

  /** Digits in `base` with single underscores between them, the shape
      `int()` accepts after the sign. */
  predicate Grouped(b: string, base: nat) {
    && |b| > 0 && IsDigitIn(b[0], base) && IsDigitIn(b[|b| - 1], base)
    && (forall i :: 0 <= i < |b| ==> IsDigitIn(b[i], base) || b[i] == '_')
    && (forall i :: 0 <= i < |b| - 1 ==> !(b[i] == '_' && b[i + 1] == '_'))
  }

  /** The value of a digit string, underscores ignored. */
  function DigitsValue(b: string, base: nat): nat
    decreases |b|
  {
    if |b| == 0 then 0
    else if b[|b| - 1] == '_' then DigitsValue(b[..|b| - 1], base)
    else DigitsValue(b[..|b| - 1], base) * base + DigitValue(b[|b| - 1])
  }

  /** The part of `int(text, base)` after the optional sign: for base 16 an
      optional `0x` prefix, after which one underscore may come first. */
  function ParseMagnitude(t: string, base: nat): Option<nat> {
    if base == 16 && (StartsWith(t, "0x") || StartsWith(t, "0X")) then
      var b := t[2..];
      if |b| > 0 && b[0] == '_' && Grouped(b[1..], 16) then Some(DigitsValue(b[1..], 16))
      else if Grouped(b, 16) then Some(DigitsValue(b, 16))
      else None
    else if Grouped(t, base) then Some(DigitsValue(t, base))
    else None
  }

  /** Python `int(text, base)` for base 10 and 16: surrounding space, an
      optional sign, then the digits. `None` is the `ValueError` case.
      Python also accepts any Unicode decimal digit (category Nd), such as
      Arabic-Indic or full-width digits; only ASCII digits are read here. */
  function ParseIntBase(text: string, base: nat): Option<int>
    requires base == 10 || base == 16
  {
    var t := Strip(text);
    if |t| > 0 && (t[0] == '-' || t[0] == '+') then
      match ParseMagnitude(t[1..], base)
      case None => None
      case Some(m) => Some(if t[0] == '-' then -(m as int) else m)
    else
      match ParseMagnitude(t, base)
      case None => None
      case Some(m) => Some(m)
  }

  /** Python `int(text)`. */
  function ParseInt(text: string): Option<int> {
    ParseIntBase(text, 10)
  }

  function DigitChar(d: nat): (c: char)
    requires d < 10
    ensures IsDigit(c) && DigitValue(c) == d
  {
    ('0' as int + d) as char
  }

  /** `str(n)` for a natural number. */
  function NatToString(n: nat): (r: string)
    ensures AllDigits(r)
    decreases n
  {
    if n < 10 then [DigitChar(n)] else NatToString(n / 10) + [DigitChar(n % 10)]
  }

  /** `str(i)`. */
  function IntToString(i: int): (r: string)
    ensures |r| > 0 && Trimmed(r)
    ensures forall k :: 0 <= k < |r| ==> r[k] == '-' || IsDigit(r[k])
  {
    if i < 0 then "-" + NatToString(-i) else NatToString(i)
  }

  /** Python's `%` by a positive divisor on the values a wrap-around meets. */
  /** A number and its remainder differ by a multiple of the divisor. */
  lemma ModDifference(i: int, n: int)
    requires n > 0
    ensures (i - i % n) % n == 0
  {
    var q := i / n;
    assert i - i % n == q * n;
    MultipleMod(q, n);
  }

  lemma MultipleMod(q: int, n: int)
    requires n > 0
    ensures (q * n) % n == 0
  {
    var d := (q * n) / n;
    var r := (q * n) % n;
    assert q * n == d * n + r && 0 <= r < n;
    assert (q - d) * n == r;
    ProductBounds(q - d, n);
  }

  lemma ProductBounds(k: int, n: int)
    requires n > 0
    ensures k >= 1 ==> k * n >= n
    ensures k <= -1 ==> k * n <= -n
  {
  }

  lemma ModSmall(i: int, n: int)
    requires n > 0
    ensures 0 <= i < n ==> i % n == i
    ensures -n <= i < 0 ==> i % n == i + n
    ensures i == n ==> i % n == 0
  {
    if 0 <= i < n {
      assert i == 0 * n + i;
    } else if -n <= i < 0 {
      assert i == (-1) * n + (i + n);
    }
  }

  /** `f"{n:02d}"` for a natural number: at least two digits. */
  function Pad2(n: nat): (r: string)
    ensures AllDigits(r) && |r| >= 2
    ensures n < 100 ==> |r| == 2
    ensures |r| == if |NatToString(n)| >= 2 then |NatToString(n)| else 2
  {
    if n < 10 then "0" + NatToString(n)
    else
      assert NatToString(n) == NatToString(n / 10) + [DigitChar(n % 10)];
      NatToString(n)
  }

  lemma {:induction false} DigitsValueOfNat(n: nat)
    ensures DigitsValue(NatToString(n), 10) == n
    decreases n
  {
    var s := NatToString(n);
    if n >= 10 {
      DigitsValueOfNat(n / 10);
      assert s[..|s| - 1] == NatToString(n / 10);
    }
  }

  /** The two-digit rendering reads back as the number. */
  lemma Pad2Digits(n: nat)
    ensures DigitsValue(Pad2(n), 10) == n
  {
    if n < 10 {
      var p := Pad2(n);
      var d := DigitChar(n);
      assert p == ['0', d];
      assert p[..1] == ['0'] && ['0'][..0] == [];
    } else {
      DigitsValueOfNat(n);
    }
  }

  lemma AllDigitsGrouped(s: string)
    requires AllDigits(s)
    ensures Grouped(s, 10)
  {
  }

  lemma DigitsTrimmed(s: string)
    requires AllDigits(s)
    ensures Strip(s) == s
  {
    assert !IsSpace(s[0]) && !IsSpace(s[|s| - 1]);
    StripTrimmed(s);
  }

  /** `int(str(n)) == n`: decimal rendering and parsing are inverse. */
  lemma ParseIntOfString(i: int)
    ensures ParseInt(IntToString(i)) == Some(i)
  {
    var text := IntToString(i);
    if i < 0 {
      assert text == "-" + NatToString(-i);
      DigitsValueOfNat(-i);
      ParseIntOfNegative(NatToString(-i));
    } else {
      assert text == NatToString(i);
      DigitsValueOfNat(i);
      ParseIntOfDigits(NatToString(i));
    }
  }

  /** A minus sign before decimal digits parses to the negated value. */
  lemma ParseIntOfNegative(d: string)
    requires AllDigits(d)
    ensures ParseInt("-" + d) == Some(-(DigitsValue(d, 10) as int))
  {
    var s := "-" + d;
    assert !IsSpace(s[0]) && !IsSpace(s[|s| - 1]);
    StripTrimmed(s);
    assert Strip(s) == s;
    assert s[1..] == d;
    AllDigitsGrouped(d);
    assert ParseMagnitude(d, 10) == Some(DigitsValue(d, 10));
    assert ParseIntBase(s, 10) == Some(-(DigitsValue(d, 10) as int));
  }

  /** `int()` rejects any text holding a `.`, such as a decimal fraction. */
  lemma ParseIntRejectsDot(text: string)
    requires '.' in text
    ensures ParseInt(text).None?
  {
    StripKeepsNonSpace(text);
    var t := Strip(text);
    var i :| 0 <= i < |t| && t[i] == '.';
    if |t| > 0 && (t[0] == '-' || t[0] == '+') {
      assert t[1..][i - 1] == '.';
    }
  }

  /** Decimal digit strings parse to their value. */
  lemma ParseIntOfDigits(s: string)
    requires AllDigits(s)
    ensures ParseInt(s) == Some(DigitsValue(s, 10))
  {
    DigitsTrimmed(s);
  }

  // ---------------------------------------------------------------------
  // `sorted()` on strings.
  // ---------------------------------------------------------------------

  /** Python's `a <= b` on strings: code-point lexicographic order. */
  predicate StrLe(a: string, b: string)
    decreases |a|
  {
    |a| == 0 || (|b| > 0 && (a[0] < b[0] || (a[0] == b[0] && StrLe(a[1..], b[1..]))))
  }

  lemma {:induction false} StrLeTotal(a: string, b: string)
    ensures StrLe(a, b) || StrLe(b, a)
    decreases |a|
  {
    if |a| > 0 && |b| > 0 && a[0] == b[0] {
      StrLeTotal(a[1..], b[1..]);
    }
  }

  lemma {:induction false} StrLeRefl(a: string)
    ensures StrLe(a, a)
    decreases |a|
  {
    if |a| > 0 {
      StrLeRefl(a[1..]);
    }
  }

  lemma {:induction false} StrLeTrans(a: string, b: string, c: string)
    requires StrLe(a, b) && StrLe(b, c)
    ensures StrLe(a, c)
    decreases |a|
  {
    if |a| > 0 && a[0] == b[0] && b[0] == c[0] {
      StrLeTrans(a[1..], b[1..], c[1..]);
    }
  }

  predicate SortedStrings(s: seq<string>) {
    forall i, j :: 0 <= i < j < |s| ==> StrLe(s[i], s[j])
  }

  /** Insert `x` into a sorted list after the elements smaller than it. */
  function InsertSorted(x: string, s: seq<string>): (r: seq<string>)
    requires SortedStrings(s)
    ensures SortedStrings(r)
    ensures multiset(r) == multiset(s) + multiset{x}
    ensures |r| == |s| + 1
  {
    if |s| == 0 then [x]
    else if StrLe(x, s[0]) then
      var r := [x] + s;
      forall j | 1 <= j < |r|
        ensures StrLe(x, r[j])
      {
        if j == 1 {
          StrLeRefl(s[0]);
        }
        StrLeTrans(x, s[0], r[j]);
      }
      assert s == [s[0]] + s[1..];
      r
    else
      var t := InsertSorted(x, s[1..]);
      StrLeTotal(x, s[0]);
      assert s == [s[0]] + s[1..];
      forall j | 0 <= j < |t|
        ensures StrLe(s[0], t[j])
      {
        assert t[j] in multiset(t);
      }
      [s[0]] + t
  }

  /** `sorted(s)` for a list of strings (insertion sort). */
  function SortStrings(s: seq<string>): (r: seq<string>)
    ensures SortedStrings(r)
    ensures multiset(r) == multiset(s)
    ensures |r| == |s|
  {
    if |s| == 0 then []
    else
      assert s == s[..|s| - 1] + [s[|s| - 1]];
      InsertSorted(s[|s| - 1], SortStrings(s[..|s| - 1]))
  }
}

=== FILE: tab_bar.dfy ===
/** The kitty tab bar: the colour roles read from kitty's theme files, hex
    colour parsing, the change test that reloads them, and the arithmetic
    that places the layout icon, the tab titles and the right-hand clock on
    an abstract cursor. */
module TabBar {
  import opened Py

  // ---------------------------------------------------------------------
  // Theme files (`load_wallbash_colors`): one `key value` pair per line.
  // ---------------------------------------------------------------------

  /** One line of `theme.conf` or `colors.conf`: blank lines and `#`
      comments give nothing, and a line of at least two words maps its
      first word to its second. */
  function ThemeEntry(line: string): (r: Option<(string, string)>)
    ensures Strip(line) == "" || StartsWith(Strip(line), "#") ==> r.None?
    ensures r.Some? ==> |r.value.0| > 0 && |r.value.1| > 0
    ensures r.Some? ==> !IsSpace(r.value.0[0]) && !IsSpace(r.value.1[0])
  {
    var l := Strip(line);
    if l == "" || StartsWith(l, "#") then None
    else
      var parts := SplitWs(l);
      if |parts| >= 2 then Some((parts[0], parts[1])) else None
  }

  /** The partner of `ThemeEntry`: a line whose first two words are `k`
      and `v` maps `k` to `v`, whatever words follow them. */
  lemma ThemeEntryFirstTwoWords(k: string, v: string, rest: string)
    requires |k| > 0 && |v| > 0 && k[0] != '#'
    requires forall j :: 0 <= j < |k| ==> !IsSpace(k[j])
    requires forall j :: 0 <= j < |v| ==> !IsSpace(v[j])
    requires rest == "" || IsSpace(rest[0])
    ensures ThemeEntry(k + " " + v + rest) == Some((k, v))
  {
    var x := StrippedTwoWords(k, v, rest);
    var l := k + ([' '] + (v + x));
    assert SplitWs(l) == [k, v] + SplitWs(x) by { TwoWords(k, v, x); }
    assert l[0] == k[0];
  }

  /** `strip()` of a line that starts with two words keeps both words and
      what follows them up to its last non-space. */
  lemma StrippedTwoWords(k: string, v: string, rest: string) returns (x: string)
    requires |k| > 0 && |v| > 0
    requires !IsSpace(k[0]) && !IsSpace(v[|v| - 1])
    requires rest == "" || IsSpace(rest[0])
    ensures x == "" || IsSpace(x[0])
    ensures Strip(k + " " + v + rest) == k + ([' '] + (v + x))
  {
    var p := k + " " + v;
    assert p[0] == k[0] && p[|p| - 1] == v[|v| - 1];
    StripAfterWord(p, rest);
    x := RStrip(rest);
    RStripPrefix(rest);
    assert x == "" || x[0] == rest[0];
    assert p + x == k + ([' '] + (v + x));
  }

  /** `split()` of two words and whatever follows from white space on. */
  lemma TwoWords(k: string, v: string, x: string)
    requires |k| > 0 && |v| > 0
    requires forall j :: 0 <= j < |k| ==> !IsSpace(k[j])
    requires forall j :: 0 <= j < |v| ==> !IsSpace(v[j])
    requires x == "" || IsSpace(x[0])
    ensures SplitWs(k + ([' '] + (v + x))) == [k, v] + SplitWs(x)
  {
    var y := v + x;
    var z := [' '] + y;
    assert SplitWs(k + z) == [k] + SplitWs(z) by { SplitWsWord(k, z); }
    assert SplitWs(z) == SplitWs(y) by { SplitWsSpace(' ', y); }
    assert SplitWs(y) == [v] + SplitWs(x) by { SplitWsWord(v, x); }
  }

  /** A line of a single word, with or without trailing space, gives
      nothing. */
  lemma ThemeEntrySingleWord(k: string, rest: string)
    requires |k| > 0 && forall j :: 0 <= j < |k| ==> !IsSpace(k[j])
    requires forall j :: 0 <= j < |rest| ==> IsSpace(rest[j])
    ensures ThemeEntry(k + rest) == None
  {
    var line := k + rest;
    assert line[0] == k[0];
    assert LStrip(line) == line;
    RStripAfterWord(k, rest);
    RStripPrefix(rest);
    assert RStrip(rest) == "";
    assert Strip(line) == k;
    SplitWsWord(k, "");
    assert k + "" == k;
  }

  /** The entry of every line, in order. */
  function Entries(lines: seq<string>): (r: seq<Option<(string, string)>>)
    decreases |lines|
  {
    if |lines| == 0 then [] else Entries(lines[..|lines| - 1]) + [ThemeEntry(lines[|lines| - 1])]
  }

  /** The dictionary the lines build, each pair stored in turn. */
  function Assemble(es: seq<Option<(string, string)>>): (r: map<string, string>)
    decreases |es|
  {
    if |es| == 0 then map[]
    else
      var m := Assemble(es[..|es| - 1]);
      match es[|es| - 1]
      case None => m
      case Some(kv) => m[kv.0 := kv.1]
  }

  /** The value on the last line that names `key`: the reference reading
      of a file in which later lines win. */
  function LastValue(es: seq<Option<(string, string)>>, key: string): Option<string>
    decreases |es|
  {
    if |es| == 0 then None
    else match es[|es| - 1]
      case Some(kv) => if kv.0 == key then Some(kv.1) else LastValue(es[..|es| - 1], key)
      case None => LastValue(es[..|es| - 1], key)
  }

  /** The colours of one theme file. */
  function ParseTheme(content: string): map<string, string> {
    Assemble(Entries(Split(content, '\n')))
  }

  /** A key is defined exactly when some line names it, and it takes the
      value of the last such line. */
  lemma {:induction false} AssembleIsLastValue(es: seq<Option<(string, string)>>, key: string)
    ensures key in Assemble(es) <==> LastValue(es, key).Some?
    ensures key in Assemble(es) ==> Assemble(es)[key] == LastValue(es, key).value
    decreases |es|
  {
    if |es| > 0 {
      AssembleIsLastValue(es[..|es| - 1], key);
    }
  }

  lemma {:induction false} AssembleConcat(x: seq<Option<(string, string)>>, y: seq<Option<(string, string)>>)
    ensures Assemble(x + y) == Assemble(x) + Assemble(y)
    decreases |y|
  {
    if |y| == 0 {
      assert x + y == x;
    } else {
      var y' := y[..|y| - 1];
      assert (x + y)[..|x + y| - 1] == x + y';
      assert (x + y)[|x + y| - 1] == y[|y| - 1];
      AssembleConcat(x, y');
    }
  }

  /** Appending lines to a theme file overrides the keys they name and
      keeps every other key: the file reads as the union of its parts, the
      later part winning. */
  lemma LaterLinesOverride(a: string, b: string)
    ensures ParseTheme(a + "\n" + b) == ParseTheme(a) + ParseTheme(b)
  {
    var la := Split(a, '\n');
    var lb := Split(b, '\n');
    assert Split(a + "\n" + b, '\n') == la + lb by { SplitConcat(a, b, '\n'); }
    EntriesConcat(la, lb);
    AssembleConcat(Entries(la), Entries(lb));
  }

  lemma {:induction false} EntriesConcat(x: seq<string>, y: seq<string>)
    ensures Entries(x + y) == Entries(x) + Entries(y)
    decreases |y|
  {
    if |y| == 0 {
      assert x + y == x;
    } else {
      var y' := y[..|y| - 1];
      assert (x + y)[..|x + y| - 1] == x + y';
      assert (x + y)[|x + y| - 1] == y[|y| - 1];
      EntriesConcat(x, y');
    }
  }

  lemma EmptyThemeFile()
    ensures ParseTheme("") == map[]
  {
    assert Split("", '\n') == [""];
    assert Entries([""]) == [ThemeEntry("")];
  }

  /** The dictionary the colour roles are looked up in: `theme.conf` when a
      non-empty one yields any pair, `colors.conf` otherwise. */
  function ThemeColours(theme: Option<string>, colours: Option<string>): (r: map<string, string>)
    ensures theme.Some? && ParseTheme(theme.value) != map[] ==> r == ParseTheme(theme.value)
    ensures !(theme.Some? && ParseTheme(theme.value) != map[]) ==>
              r == if colours.Some? then ParseTheme(colours.value) else map[]
  {
    EmptyThemeFile();
    var t := if theme.Some? && |theme.value| > 0 then ParseTheme(theme.value) else map[];
    if t == map[] && colours.Some? then ParseTheme(colours.value) else t
  }

  // ---------------------------------------------------------------------
  // Colour roles.
  // ---------------------------------------------------------------------

  datatype Role = IconFg | IconBg | BatText | Clock | Separator | Utc
                | InactiveTabFg | ActiveTabFg | InactiveTabBg | ActiveTabBg

  /** The roles in the order the script converts them. */
  const Roles: seq<Role> :=
    [IconFg, IconBg, BatText, Clock, Separator, Utc,
     InactiveTabFg, ActiveTabFg, InactiveTabBg, ActiveTabBg]

  lemma RolesComplete()
    ensures forall role: Role :: role in Roles
  {
    forall role: Role ensures role in Roles {
      match role
      case IconFg => assert Roles[0] == role;
      case IconBg => assert Roles[1] == role;
      case BatText => assert Roles[2] == role;
      case Clock => assert Roles[3] == role;
      case Separator => assert Roles[4] == role;
      case Utc => assert Roles[5] == role;
      case InactiveTabFg => assert Roles[6] == role;
      case ActiveTabFg => assert Roles[7] == role;
      case InactiveTabBg => assert Roles[8] == role;
      case ActiveTabBg => assert Roles[9] == role;
    }
  }

  /** The colour a role has when no theme file provides one. */
  function Fallback(role: Role): string {
    match role
    case IconFg => "#dcd7ba"
    case IconBg => "#1f1f28"
    case BatText => "#727169"
    case Clock => "#6a9589"
    case Separator => "#727169"
    case Utc => "#727169"
    case InactiveTabFg => "#727169"
    case ActiveTabFg => "#c8c093"
    case InactiveTabBg => "#1f1f28"
    case ActiveTabBg => "#1f1f28"
  }

  /** The theme-file key a role is read from. */
  function ThemeKey(role: Role): string {
    match role
    case IconFg => "foreground"
    case IconBg => "background"
    case BatText => "color8"
    case Clock => "color6"
    case Separator => "color8"
    case Utc => "color8"
    case InactiveTabFg => "inactive_tab_foreground"
    case ActiveTabFg => "active_tab_foreground"
    case InactiveTabBg => "inactive_tab_background"
    case ActiveTabBg => "active_tab_background"
  }

  /** `load_wallbash_colors`: every role gets a colour, the theme's when
      its key is present and the fallback otherwise. The three roles read
      from `color8` always agree. */
  function LoadColours(theme: Option<string>, colours: Option<string>): (r: map<Role, string>)
    ensures forall role: Role :: role in r
    ensures var tc := ThemeColours(theme, colours);
            forall role: Role :: r[role] == if ThemeKey(role) in tc then tc[ThemeKey(role)] else Fallback(role)
    ensures r[BatText] == r[Separator] == r[Utc]
  {
    RoleColours(ThemeColours(theme, colours))
  }

  /** The role map built from the chosen dictionary: the fallbacks when it
      is empty, else each role's key looked up with the fallback as default. */
  function RoleColours(tc: map<string, string>): (r: map<Role, string>)
    ensures forall role: Role :: role in r
    ensures forall role: Role :: r[role] == if ThemeKey(role) in tc then tc[ThemeKey(role)] else Fallback(role)
  {
    RolesComplete();
    var base := map role | role in Roles :: Fallback(role);
    if tc == map[] then base
    else map role | role in Roles :: if ThemeKey(role) in tc then tc[ThemeKey(role)] else base[role]
  }

  /** Once `theme.conf` yields any pair, `colors.conf` no longer matters. */
  lemma ThemeFileTakesPrecedence(theme: string, c1: Option<string>, c2: Option<string>)
    requires ParseTheme(theme) != map[]
    ensures LoadColours(Some(theme), c1) == LoadColours(Some(theme), c2)
  {
    assert ThemeColours(Some(theme), c1) == ThemeColours(Some(theme), c2);
  }

  // ---------------------------------------------------------------------
  // `hex_to_rgb_int`.
  // ---------------------------------------------------------------------

  /** `int(hex, 16)` after dropping one leading `#`; `None` is the
      `ValueError` case. */
  function HexToRgb(hex: string): (r: Option<int>)
    ensures StartsWith(hex, "##") ==> r.None?
  {
    var digits := if StartsWith(hex, "#") then hex[1..] else hex;
    if StartsWith(hex, "##") then
      assert digits[0] == '#';
      HashRejected(digits);
      ParseIntBase(digits, 16)
    else ParseIntBase(digits, 16)
  }

  /** `int()` rejects text that starts with `#`. */
  lemma HashRejected(t: string)
    requires |t| > 0 && t[0] == '#'
    ensures ParseIntBase(t, 16).None?
  {
    var u := Strip(t);
    assert |u| > 0 && u[0] == '#' by {
      assert LStrip(t) == t;
      assert u == RStrip(t);
      RStripPrefix(t);
    }
    assert ParseMagnitude(u, 16).None? by {
      assert !StartsWith(u, "0x") && !StartsWith(u, "0X") by { assert |u| >= 2 ==> u[..2][0] == '#'; }
      assert !IsDigitIn(u[0], 16);
    }
  }

  /** Unsigned hexadecimal digits without a `0x` prefix parse to their
      value. */
  lemma HexParse(t: string)
    requires Grouped(t, 16) && !IsSpace(t[0]) && !IsSpace(t[|t| - 1])
    requires t[0] != '-' && t[0] != '+' && !StartsWith(t, "0x") && !StartsWith(t, "0X")
    ensures ParseIntBase(t, 16) == Some(DigitsValue(t, 16))
  {
    StripTrimmed(t);
  }

  function Pow16(k: nat): (r: nat)
    ensures r > 0
  {
    if k == 0 then 1 else 16 * Pow16(k - 1)
  }

  function HexDigit(d: nat): (c: char)
    requires d < 16
    ensures IsDigitIn(c, 16) && DigitValue(c) == d
    ensures !IsSpace(c) && c != '_' && c != 'x' && c != 'X' && c != '-' && c != '+'
  {
    if d < 10 then ('0' as int + d) as char else ('a' as int + d - 10) as char
  }

  /** The last `k` hexadecimal digits of `n`, lower case. */
  function HexDigits(n: nat, k: nat): (r: string)
    ensures |r| == k
    ensures forall i :: 0 <= i < k ==> IsDigitIn(r[i], 16) && r[i] != '_' && r[i] != 'x'
    ensures k > 0 ==> !IsSpace(r[0]) && !IsSpace(r[k - 1]) && r[0] != '-' && r[0] != '+'
    decreases k
  {
    if k == 0 then "" else HexDigits(n / 16, k - 1) + [HexDigit(n % 16)]
  }

  /** `#rrggbb`, the form in which the theme files write a 24-bit colour. */
  function HexColour(n: nat): (r: string)
    requires n < 0x100_0000
    ensures |r| == 7 && r[0] == '#'
  {
    "#" + HexDigits(n, 6)
  }

  lemma {:induction false} HexDigitsValue(n: nat, k: nat)
    requires n < Pow16(k)
    ensures DigitsValue(HexDigits(n, k), 16) == n
    decreases k
  {
    if k > 0 {
      var d := HexDigits(n, k);
      assert d[..k - 1] == HexDigits(n / 16, k - 1);
      assert n / 16 < Pow16(k - 1);
      HexDigitsValue(n / 16, k - 1);
      assert n == (n / 16) * 16 + n % 16;
    }
  }

  /** Reading back a `#rrggbb` colour gives the colour value. */
  lemma HexRoundTrip(n: nat)
    requires n < 0x100_0000
    ensures HexToRgb(HexColour(n)) == Some(n)
  {
    var d := HexDigits(n, 6);
    var h := HexColour(n);
    assert h[1..] == d;
    assert StartsWith(h, "#") && !StartsWith(h, "##") by { assert h[1] != '#'; }
    assert !StartsWith(d, "0x") && !StartsWith(d, "0X") by { assert d[1] != 'x' && d[1] != 'X'; }
    assert Grouped(d, 16);
    HexParse(d);
    assert Pow16(6) == 0x100_0000;
    HexDigitsValue(n, 6);
  }

  // ---------------------------------------------------------------------
  // `refresh_colors`: reload only when a file's mtime changed.
  // ---------------------------------------------------------------------

  /** The converted colour of each role. */
  type Palette = map<Role, int>

  /** Each role's colour converted in turn; the first that does not parse
      raises, which leaves the roles before it updated and the rest as they
      were. `asRgb` is kitty's `as_rgb`. */
  function Convert(roles: seq<Role>, colours: map<Role, string>, asRgb: int -> int, p: Palette): (r: Palette)
    requires forall role: Role :: role in colours
    ensures forall role :: role in p ==> role in r
    ensures forall role :: role in r ==> role in p || role in roles
    ensures forall role :: role in p && role !in roles ==> r[role] == p[role]
    decreases |roles|
  {
    if |roles| == 0 then p
    else match HexToRgb(colours[roles[0]])
      case None => p
      case Some(v) => Convert(roles[1..], colours, asRgb, p[roles[0] := asRgb(v)])
  }

  /** When every colour parses, every role takes its converted colour. */
  lemma {:induction false} ConvertAll(roles: seq<Role>, colours: map<Role, string>, asRgb: int -> int, p: Palette)
    requires forall role: Role :: role in colours
    requires forall role :: role in roles ==> HexToRgb(colours[role]).Some?
    ensures forall role :: role in roles ==>
              role in Convert(roles, colours, asRgb, p) &&
              Convert(roles, colours, asRgb, p)[role] == asRgb(HexToRgb(colours[role]).value)
    decreases |roles|
  {
    if |roles| > 0 {
      var v := HexToRgb(colours[roles[0]]).value;
      var p' := p[roles[0] := asRgb(v)];
      assert forall role :: role in roles[1..] ==> role in roles;
      assert forall role :: role in roles ==> role == roles[0] || role in roles[1..];
      ConvertAll(roles[1..], colours, asRgb, p');
    }
  }

  /** A colour that fails to parse stops the conversion: the result is that
      of converting only the roles before it. */
  lemma {:induction false} ConvertStopsAtFailure(roles: seq<Role>, colours: map<Role, string>, asRgb: int -> int, p: Palette, j: nat)
    requires forall role: Role :: role in colours
    requires j < |roles| && HexToRgb(colours[roles[j]]).None?
    ensures Convert(roles, colours, asRgb, p) == Convert(roles[..j], colours, asRgb, p)
    decreases j
  {
    var prefix := roles[..j];
    if j == 0 {
      ConvertNone(roles, colours, asRgb, p);
      assert prefix == [];
    } else {
      assert prefix[0] == roles[0];
      match HexToRgb(colours[roles[0]])
      case None =>
        ConvertNone(roles, colours, asRgb, p);
        ConvertNone(prefix, colours, asRgb, p);
      case Some(v) =>
        var p' := p[roles[0] := asRgb(v)];
        ConvertSome(roles, colours, asRgb, p, v);
        ConvertSome(prefix, colours, asRgb, p, v);
        PrefixTail(roles, j);
        ConvertStopsAtFailure(roles[1..], colours, asRgb, p', j - 1);
    }
  }

  /** A first colour that fails stops the conversion at once. */
  lemma ConvertNone(roles: seq<Role>, colours: map<Role, string>, asRgb: int -> int, p: Palette)
    requires forall role: Role :: role in colours
    requires |roles| > 0 && HexToRgb(colours[roles[0]]).None?
    ensures Convert(roles, colours, asRgb, p) == p
  {
  }

  /** A first colour that parses is stored, and the rest converted after it. */
  lemma ConvertSome(roles: seq<Role>, colours: map<Role, string>, asRgb: int -> int, p: Palette, v: int)
    requires forall role: Role :: role in colours
    requires |roles| > 0 && HexToRgb(colours[roles[0]]) == Some(v)
    ensures Convert(roles, colours, asRgb, p) == Convert(roles[1..], colours, asRgb, p[roles[0] := asRgb(v)])
  {
  }

  lemma PrefixTail(roles: seq<Role>, j: nat)
    requires 0 < j < |roles|
    ensures roles[..j][1..] == roles[1..][..j - 1]
    ensures roles[1..][j - 1] == roles[j]
  {
  }

  /** The files the tab bar reads: each one's mtime (`None` when missing)
      and content (`None` when missing, or when an empty `theme.conf` is
      skipped). */
  datatype ThemeFiles = ThemeFiles(
    themeMtime: Option<real>, coloursMtime: Option<real>,
    theme: Option<string>, colours: Option<string>)

  /** The module's globals: the mtimes last seen and the palette. */
  datatype TabState = TabState(lastTheme: Option<real>, lastColours: Option<real>, palette: Palette)

  /** The palette computed when kitty loads the script; `None` is the
      import failing on a colour that does not parse. */
  function InitialState(f: ThemeFiles, asRgb: int -> int): (r: Option<TabState>)
    ensures r.Some? ==> r.value.lastTheme.None? && r.value.lastColours.None?
    ensures r.Some? ==> forall role: Role :: role in r.value.palette
    ensures r.Some? <==> forall role: Role :: HexToRgb(LoadColours(f.theme, f.colours)[role]).Some?
  {
    RolesComplete();
    var colours := LoadColours(f.theme, f.colours);
    if forall role: Role :: HexToRgb(colours[role]).Some? then
      Some(TabState(None, None, map role | role in Roles :: asRgb(HexToRgb(colours[role]).value)))
    else None
  }

  /** `refresh_colors`. The new mtimes are recorded before any colour is
      converted, so a colour that fails leaves a partly refreshed palette
      that is not retried until a file changes again. */
  function Refresh(s: TabState, f: ThemeFiles, asRgb: int -> int): (r: TabState)
    ensures f.themeMtime == s.lastTheme && f.coloursMtime == s.lastColours ==> r == s
    ensures r.lastTheme == f.themeMtime && r.lastColours == f.coloursMtime
    ensures s.palette.Keys <= r.palette.Keys
    ensures (f.themeMtime != s.lastTheme || f.coloursMtime != s.lastColours) &&
            (forall role: Role :: HexToRgb(LoadColours(f.theme, f.colours)[role]).Some?) ==>
              forall role: Role :: role in r.palette &&
                r.palette[role] == asRgb(HexToRgb(LoadColours(f.theme, f.colours)[role]).value)
  {
    if f.themeMtime != s.lastTheme || f.coloursMtime != s.lastColours then
      RolesComplete();
      var colours := LoadColours(f.theme, f.colours);
      var palette := Convert(Roles, colours, asRgb, s.palette);
      assert (forall role: Role :: HexToRgb(colours[role]).Some?) ==>
               forall role: Role :: role in palette && palette[role] == asRgb(HexToRgb(colours[role]).value) by {
        if forall role: Role :: HexToRgb(colours[role]).Some? {
          ConvertAll(Roles, colours, asRgb, s.palette);
        }
      }
      TabState(f.themeMtime, f.coloursMtime, palette)
    else s
  }

  /** A second refresh against the same files does nothing. */
  lemma RefreshSettles(s: TabState, f: ThemeFiles, asRgb: int -> int)
    ensures Refresh(Refresh(s, f, asRgb), f, asRgb) == Refresh(s, f, asRgb)
  {
  }

  // ---------------------------------------------------------------------
  // Drawing on an abstract cursor.
  // ---------------------------------------------------------------------

  /** The part of kitty's screen cursor the script touches. Each drawn
      character advances `x` by one cell. */
  datatype Cursor = Cursor(x: int, fg: int, bg: int, bold: bool, italic: bool)

  function Draw(c: Cursor, text: string): (r: Cursor)
    ensures r == c.(x := c.x + |text|)
  {
    c.(x := c.x + |text|)
  }

  /** An argument of `calc_draw_spaces`: text, or a number shown by `str`. */
  datatype Arg = Text(s: string) | Number(n: int)

  function ArgText(a: Arg): string {
    match a
    case Text(s) => s
    case Number(n) => IntToString(n)
  }

  /** The arguments' texts written one after another. */
  function Texts(args: seq<Arg>): string
    decreases |args|
  {
    if |args| == 0 then "" else Texts(args[..|args| - 1]) + ArgText(args[|args| - 1])
  }

  /** `calc_draw_spaces`: the cells the arguments take when drawn one after
      another. */
  method CalcDrawSpaces(args: seq<Arg>) returns (length: nat)
    ensures length == |Texts(args)|
  {
    length := 0;
    var i := 0;
    while i < |args|
      invariant 0 <= i <= |args|
      invariant length == |Texts(args[..i])|
    {
      assert args[..i + 1][..i] == args[..i];
      length := length + |ArgText(args[i])|;
      i := i + 1;
    }
    assert args[..i] == args;
  }

  /** The text of the layout icon shown before the first tab. */
  function IconText(layout: string): (r: string)
    ensures |r| == |layout| + 4
  {
    " \U{F16A0} " + UpperAscii(layout) + " "
  }

  /** `_draw_icon`: only the first tab draws the icon. It restores the
      colours it changed, leaves the text bold and upright, and puts the
      cursor just after the icon. */
  function DrawIcon(c: Cursor, index: int, layout: string, iconFg: int, iconBg: int): (r: (int, Cursor))
    ensures index != 1 ==> r == (0, c)
    ensures index == 1 ==> r.0 == r.1.x == |layout| + 4
    ensures index == 1 ==> r.1.fg == c.fg && r.1.bg == c.bg && r.1.bold && !r.1.italic
  {
    if index != 1 then (0, c)
    else
      var drawn := Draw(c.(fg := iconFg, bg := iconBg, italic := false, bold := true), IconText(layout));
      var restored := drawn.(fg := c.fg, bg := c.bg, x := |IconText(layout)|);
      (restored.x, restored)
  }

  /** The title a tab shows: longer than 25 characters, it becomes its
      first six, an ellipsis and its last six. */
  function TitleDisplay(title: string): (r: string)
    ensures |r| <= 25
    ensures |title| <= 25 <==> r == title
    ensures |title| > 25 ==>
              |r| == 13 && r[..6] == title[..6] && r[6] == Ellipsis && r[7..] == title[|title| - 6..]
  {
    if |title| > 25 then title[..6] + [Ellipsis] + title[|title| - 6..] else title
  }

  /** The text of a tab before its trailing spaces: the state icon, the
      index and title, and a marker for the stack layout. */
  function TabText(active: bool, index: int, title: string, layout: string): string {
    (if active then " \U{F192} " else " \U{F444} ")
    + IntToString(index) + ":" + TitleDisplay(title)
    + (if layout == "stack" then " [\U{F848}]" else "")
    + " "
  }

  /** The arguments of `_draw_left_status` that its arithmetic uses. */
  datatype TabDraw = TabDraw(
    leadingSpaces: int, trailingSpaces: int, sepText: string,
    activeFg: int, inactiveFg: int)

  /** `_draw_left_status`: draws the tab, shortens it with an ellipsis when
      it runs past `maxTitleLength` cells after `before`, pads it, and
      draws the separator unless it is the last tab. Returns the end of the
      tab and the cursor. */
  function DrawLeftStatus(c: Cursor, d: TabDraw, active: bool, index: int, title: string, layout: string,
                          before: int, maxTitleLength: int, isLast: bool): (r: (int, Cursor))
    ensures maxTitleLength >= 1 && d.trailingSpaces >= 0 ==> r.0 <= before + maxTitleLength
    ensures r.1.fg == c.fg && r.1.bg == c.bg && !r.1.bold && !r.1.italic
    ensures r.1.x == r.0 + if isLast then 0 else |d.sepText|
  {
    var c1 := if d.leadingSpaces != 0 then Draw(c, Spaces(if d.leadingSpaces > 0 then d.leadingSpaces else 0)) else c;
    var c2 := c1.(fg := if active then d.activeFg else d.inactiveFg, bg := 0);
    var c3 := Draw(c2, TabText(active, index, title, layout));
    var trailing := if maxTitleLength - 1 < d.trailingSpaces then maxTitleLength - 1 else d.trailingSpaces;
    var limit := maxTitleLength - trailing;
    var extra := c3.x - before - limit;
    var c4 := if extra > 0 then Draw(c3.(x := c3.x - (extra + 1)), [Ellipsis]) else c3;
    var c5 := if trailing != 0 then Draw(c4, Spaces(if trailing > 0 then trailing else 0)) else c4;
    var end := c5.x;
    var c6 := c5.(bold := false, italic := false, fg := 0);
    var c7 := if isLast then c6 else Draw(c6, d.sepText);
    (end, c7.(fg := c.fg, bg := c.bg))
  }

  /** `RIGHT_MARGIN`: the cells left free after the clock. */
  const RightMargin := 1

  /** The cells of the right-hand status: the time, a space and the date. */
  function StatusCells(clock: string, date: string): seq<Arg> {
    [Text(clock), Text(" "), Text(date)]
  }

  lemma StatusCellsLength(clock: string, date: string)
    ensures |Texts(StatusCells(clock, date))| == |clock| + 1 + |date|
  {
    var cells := StatusCells(clock, date);
    assert Texts(cells[..1]) == clock by {
      assert cells[..1][..0] == [];
    }
    assert Texts(cells[..2]) == clock + " " by {
      assert cells[..2][..1] == cells[..1];
    }
    assert cells[..3] == cells;
  }

  /** The spaces drawn before the status: what is left of the line after
      the status and the margin, when that is positive. */
  function Padding(columns: int, x: int, clock: string, date: string): (r: nat)
    ensures r > 0 <==> columns - x - (RightMargin + |clock| + 1 + |date|) > 0
    ensures r > 0 ==> x + r + |clock| + 1 + |date| + RightMargin == columns
  {
    StatusCellsLength(clock, date);
    var spaces := columns - x - (RightMargin + |Texts(StatusCells(clock, date))|);
    if spaces > 0 then spaces else 0
  }

  /** `_draw_right_status`: on the last tab, pads the line so that the
      time and date end one cell before the right edge, or simply follow
      the tabs when the line is full. The final move to the right never
      triggers when each character takes one cell. */
  function DrawRightStatus(c: Cursor, columns: int, isLast: bool, clock: string, date: string,
                           iconFg: int, sepFg: int, utcFg: int): (r: (int, Cursor))
    ensures !isLast ==> r == (0, c)
    ensures isLast ==> r.0 == r.1.x && r.1.italic && r.1.bg == 0 && r.1.fg == utcFg
    ensures isLast && c.x + RightMargin + |clock| + 1 + |date| < columns ==> r.0 == columns - RightMargin
    ensures isLast && c.x + RightMargin + |clock| + 1 + |date| >= columns ==> r.0 == c.x + |clock| + 1 + |date|
  {
    if !isLast then (0, c)
    else
      StatusCellsLength(clock, date);
      var statusLength := RightMargin + |Texts(StatusCells(clock, date))|;
      var c1 := Draw(c, Spaces(Padding(columns, c.x, clock, date)));
      var c2 := Draw(c1.(fg := iconFg, italic := true), clock);
      var c3 := Draw(c2.(fg := sepFg), " ");
      var c4 := Draw(c3.(fg := utcFg), date).(bg := 0);
      var c5 := if columns - c4.x > statusLength then c4.(x := columns - statusLength) else c4;
      (c5.x, c5)
  }
}

=== FILE: waybar_json.dfy ===
/**
 * The recursive key rewrite the waybar manager applies to a parsed layout
 * (`modify_json_key`): every object entry named `key` gets the new value,
 * nested objects are searched, and so are objects sitting directly inside
 * an array. A JSON object is a sequence of (name, value) entries in file
 * order.
 */
module WaybarJson {
  import opened Py

  datatype Json =
    | JNull
    | JBool(b: bool)
    | JNum(n: int)
    | JStr(s: string)
    | JArr(items: seq<Json>)
    | JObj(fields: seq<(string, Json)>)

  /** The entry names of an object, in order. */
  function Keys(fields: seq<(string, Json)>): seq<string> {
    Firsts(fields)
  }

  /** `modify_json_key(data, key, value)`. Anything but an object comes back
      unchanged; arrays are only entered when they are an entry's value. */
  function ModifyJsonKey(data: Json, key: string, value: Json): (r: Json)
    ensures !data.JObj? ==> r == data
    ensures data.JObj? ==> r.JObj? && Keys(r.fields) == Keys(data.fields)
    ensures data.JObj? ==> forall i :: 0 <= i < |data.fields| && data.fields[i].0 == key
                             ==> r.fields[i].1 == value
    ensures data.JObj? ==> forall i :: 0 <= i < |data.fields| && data.fields[i].0 != key
                             && !data.fields[i].1.JObj? && !data.fields[i].1.JArr?
                             ==> r.fields[i].1 == data.fields[i].1
    ensures data.JObj? ==> forall i :: 0 <= i < |data.fields| && data.fields[i].0 != key
                             && data.fields[i].1.JObj?
                             ==> r.fields[i].1.JObj? && Keys(r.fields[i].1.fields) == Keys(data.fields[i].1.fields)
    ensures data.JObj? ==> forall i :: 0 <= i < |data.fields| && data.fields[i].0 != key
                             && data.fields[i].1.JArr?
                             ==> r.fields[i].1.JArr? && SameArrayShape(data.fields[i].1.items, r.fields[i].1.items)
    decreases data, 1
  {
    match data
    case JObj(fields) =>
      JObj(seq(|fields|, i requires 0 <= i < |fields| => (fields[i].0, ModifyEntry(data, fields[i], key, value))))
    case _ => data
  }

  /** An array after the rewrite: same length, non-object items unchanged,
      object items with the same entry names. */
  predicate SameArrayShape(before: seq<Json>, after: seq<Json>) {
    && |after| == |before|
    && (forall j :: 0 <= j < |before| && !before[j].JObj? ==> after[j] == before[j])
    && (forall j :: 0 <= j < |before| && before[j].JObj? ==> after[j].JObj? && Keys(after[j].fields) == Keys(before[j].fields))
  }

  /** The new value of one entry of `parent`. */
  function ModifyEntry(parent: Json, entry: (string, Json), key: string, value: Json): Json
    requires entry < parent
    decreases parent, 0
  {
    if entry.0 == key then value
    else match entry.1
      case JObj(_) => ModifyJsonKey(entry.1, key, value)
      case JArr(items) =>
        JArr(seq(|items|, j requires 0 <= j < |items| => if items[j].JObj? then ModifyJsonKey(items[j], key, value) else items[j]))
      case _ => entry.1
  }

  /** Every entry the rewrite can reach that is named `key` holds `value`. */
  predicate AllSet(data: Json, key: string, value: Json)
    decreases data, 1
  {
    match data
    case JObj(fields) => forall i :: 0 <= i < |fields| ==> EntryAllSet(data, fields[i], key, value)
    case _ => true
  }

  /** One entry of `parent` as `AllSet` requires it. */
  predicate EntryAllSet(parent: Json, entry: (string, Json), key: string, value: Json)
    requires entry < parent
    decreases parent, 0
  {
    if entry.0 == key then entry.1 == value
    else match entry.1
      case JObj(_) => AllSet(entry.1, key, value)
      case JArr(items) => forall j :: 0 <= j < |items| && items[j].JObj? ==> AllSet(items[j], key, value)
      case _ => true
  }

  /** After the rewrite, every reachable entry named `key` holds `value`. */
  lemma {:induction false} ModifySetsAll(data: Json, key: string, value: Json)
    ensures AllSet(ModifyJsonKey(data, key, value), key, value)
    decreases data
  {
    if data.JObj? {
      var r := ModifyJsonKey(data, key, value);
      forall i | 0 <= i < |data.fields|
        ensures EntryAllSet(r, r.fields[i], key, value)
      {
        var entry := data.fields[i];
        assert entry < data;
        var m := ModifyEntry(data, entry, key, value);
        assert r.fields[i] == (entry.0, m);
        if entry.0 != key {
          match entry.1
          case JObj(_) => ModifySetsAll(entry.1, key, value);
          case JArr(items) =>
            forall j | 0 <= j < |items| && items[j].JObj?
              ensures AllSet(m.items[j], key, value)
            {
              assert items[j] < entry.1;
              ModifySetsAll(items[j], key, value);
            }
          case _ =>
        }
      }
    }
  }

  /** A document in which every reachable `key` entry already holds `value`
      is left as it is. */
  lemma {:induction false} ModifyFixesAllSet(data: Json, key: string, value: Json)
    requires AllSet(data, key, value)
    ensures ModifyJsonKey(data, key, value) == data
    decreases data
  {
    if data.JObj? {
      var r := ModifyJsonKey(data, key, value);
      forall i | 0 <= i < |data.fields|
        ensures r.fields[i] == data.fields[i]
      {
        var entry := data.fields[i];
        assert entry < data;
        assert EntryAllSet(data, entry, key, value);
        var m := ModifyEntry(data, entry, key, value);
        assert r.fields[i] == (entry.0, m);
        if entry.0 != key {
          match entry.1
          case JObj(_) => ModifyFixesAllSet(entry.1, key, value);
          case JArr(items) =>
            forall j | 0 <= j < |items|
              ensures m.items[j] == items[j]
            {
              if items[j].JObj? {
                assert items[j] < entry.1;
                ModifyFixesAllSet(items[j], key, value);
              }
            }
            assert m.items == items;
          case _ =>
        }
      }
      assert r.fields == data.fields;
    }
  }

  /** The rewrite leaves a document unchanged exactly when every reachable
      `key` entry already holds `value`. */
  lemma ModifyFixedIff(data: Json, key: string, value: Json)
    ensures ModifyJsonKey(data, key, value) == data <==> AllSet(data, key, value)
  {
    if ModifyJsonKey(data, key, value) == data {
      ModifySetsAll(data, key, value);
    } else if AllSet(data, key, value) {
      ModifyFixesAllSet(data, key, value);
    }
  }

  /** Rewriting twice with the same key and value is the same as once. */
  lemma ModifyIsIdempotent(data: Json, key: string, value: Json)
    ensures ModifyJsonKey(ModifyJsonKey(data, key, value), key, value) == ModifyJsonKey(data, key, value)
  {
    ModifySetsAll(data, key, value);
    ModifyFixesAllSet(ModifyJsonKey(data, key, value), key, value);
  }
}

=== FILE: waybar_layouts.dfy ===
/**
 * Layout bookkeeping of the waybar manager: which files count as layouts,
 * how `list_layouts` splits them into selectable layouts and backups, how
 * `--next`/`--prev`/`--set` pick a layout from the state file, and how a
 * layout's style sheet is found. Directory walks, globbing and existence
 * tests are parameters.
 */
module WaybarLayouts {
  import opened Py
  import opened Paths
  import WaybarState

  // ---------------------------------------------------------------------
  // Layout directories and files
  // ---------------------------------------------------------------------

  /** A per-user layout directory: `<home>/waybar/layouts`. */
  function UserLayoutDir(home: string): (r: string)
    ensures EndsWith(r, "layouts")
  {
    JoinPath(JoinPath(home, "waybar"), "layouts")
  }

  /** The system entries of `LAYOUT_DIRS` as written: they come out of
      `os.path.join("usr", ...)` and are therefore relative paths. */
  const SystemLayoutDirs: seq<string> := ["usr/local/share/waybar/layouts", "usr/share/waybar/layouts"]

  /** `LAYOUT_DIRS`. */
  function LayoutDirs(configHome: string, dataHome: string): (r: seq<string>)
    ensures |r| == 4 && r[2..] == SystemLayoutDirs
  {
    [UserLayoutDir(configHome), UserLayoutDir(dataHome)] + SystemLayoutDirs
  }

  /** The system layout directories are looked up relative to the working
      directory, not under `/usr`. */
  lemma SystemLayoutDirsAreRelative()
    ensures forall i :: 0 <= i < |SystemLayoutDirs| ==> |SystemLayoutDirs[i]| > 0 && SystemLayoutDirs[i][0] != '/'
  {
  }

  /** The system entries as evidently intended: under `/usr`. */
  const FixedSystemLayoutDirs: seq<string> := ["/usr/local/share/waybar/layouts", "/usr/share/waybar/layouts"]

  /** `LAYOUT_DIRS` with the system entries under `/usr`. */
  function FixedLayoutDirs(configHome: string, dataHome: string): (r: seq<string>)
    ensures |r| == 4 && r[2..] == FixedSystemLayoutDirs
  {
    [UserLayoutDir(configHome), UserLayoutDir(dataHome)] + FixedSystemLayoutDirs
  }

  /** With the correction every system layout directory is absolute. */
  lemma FixedSystemLayoutDirsAreAbsolute()
    ensures forall i :: 0 <= i < |FixedSystemLayoutDirs| ==> |FixedSystemLayoutDirs[i]| > 0 && FixedSystemLayoutDirs[i][0] == '/'
  {
  }

  /** A user layout directory is absolute when its XDG home is. */
  lemma UserLayoutDirIsAbsolute(home: string)
    requires StartsWith(home, "/")
    ensures |UserLayoutDir(home)| > 0 && UserLayoutDir(home)[0] == '/'
  {
    assert "waybar"[0] == 'w' && "layouts"[0] == 'l';
    var a := JoinPath(home, "waybar");
    assert StartsWith(a, home);
    assert a[0] == '/';
    assert StartsWith(JoinPath(a, "layouts"), a);
  }

  const LayoutIgnore: set<string> := {"test.jsonc", "dock#sample.jsonc"}

  /** A file name `find_layout_files` keeps. */
  predicate IsLayoutFile(file: string) {
    EndsWith(file, ".jsonc") && file !in LayoutIgnore
  }

  /** The layout paths one walk yields, in walk order: `walk` lists each
      visited directory with the names of the files in it. */
  function WalkLayouts(walk: seq<(string, seq<string>)>): (r: seq<string>)
    decreases |walk|
  {
    if |walk| == 0 then []
    else DirLayouts(walk[0].0, walk[0].1) + WalkLayouts(walk[1..])
  }

  function DirLayouts(root: string, files: seq<string>): (r: seq<string>)
    decreases |files|
  {
    if |files| == 0 then []
    else (if IsLayoutFile(files[0]) then [JoinPath(root, files[0])] else []) + DirLayouts(root, files[1..])
  }

  /** A directory contributes exactly its layout files, joined to it. */
  lemma {:induction false} DirLayoutsMembers(root: string, files: seq<string>, p: string)
    ensures p in DirLayouts(root, files) <==> exists f :: f in files && IsLayoutFile(f) && p == JoinPath(root, f)
    decreases |files|
  {
    if |files| > 0 {
      DirLayoutsMembers(root, files[1..], p);
      assert files == [files[0]] + files[1..];
      if exists f :: f in files && IsLayoutFile(f) && p == JoinPath(root, f) {
        var f :| f in files && IsLayoutFile(f) && p == JoinPath(root, f);
        if f != files[0] {
          assert f in files[1..];
        }
      }
    }
  }

  /** `find_layout_files()`: the layout files of all walks, sorted. */
  function FindLayoutFiles(walk: seq<(string, seq<string>)>): (r: seq<string>)
    ensures SortedStrings(r)
    ensures multiset(r) == multiset(WalkLayouts(walk))
  {
    SortStrings(WalkLayouts(walk))
  }

  /** A path is listed exactly when some walked directory holds a layout
      file of that name. */
  lemma {:induction false} FindLayoutFilesMembers(walk: seq<(string, seq<string>)>, p: string)
    ensures p in FindLayoutFiles(walk) <==>
            exists i :: 0 <= i < |walk| && p in DirLayouts(walk[i].0, walk[i].1)
    decreases |walk|
  {
    assert p in FindLayoutFiles(walk) <==> p in multiset(WalkLayouts(walk));
    WalkLayoutsMembers(walk, p);
  }

  lemma {:induction false} WalkLayoutsMembers(walk: seq<(string, seq<string>)>, p: string)
    ensures p in WalkLayouts(walk) <==> exists i :: 0 <= i < |walk| && p in DirLayouts(walk[i].0, walk[i].1)
    decreases |walk|
  {
    if |walk| > 0 {
      WalkLayoutsMembers(walk[1..], p);
      if exists i :: 0 <= i < |walk| && p in DirLayouts(walk[i].0, walk[i].1) {
        var i :| 0 <= i < |walk| && p in DirLayouts(walk[i].0, walk[i].1);
        if i > 0 {
          assert walk[1..][i - 1] == walk[i];
        }
      }
      if p in WalkLayouts(walk[1..]) {
        var i :| 0 <= i < |walk[1..]| && p in DirLayouts(walk[1..][i].0, walk[1..][i].1);
        assert walk[i + 1] == walk[1..][i];
      }
    }
  }

  // ---------------------------------------------------------------------
  // Style resolution
  // ---------------------------------------------------------------------

  /** `STYLE_DIRS`. */
  function StyleDirs(configHome: string, dataHome: string): (r: seq<string>)
    ensures |r| == 2
  {
    [JoinPath(JoinPath(configHome, "waybar"), "styles"),
     JoinPath(JoinPath(dataHome, "waybar"), "styles")]
  }

  /** The three glob patterns tried in one style directory, in order: the
      layout's name, its name up to the first `#`, and the name of the
      directory holding the layout when there is one. */
  function DirPatterns(dir: string, name: string, dirName: string): (r: seq<string>)
    ensures |r| == if dirName == "" then 2 else 3
  {
    [JoinPath(dir, name + "*.css"), JoinPath(dir, Before(name, '#') + "*.css")]
      + (if dirName != "" then [JoinPath(dir, dirName + "*.css")] else [])
  }

  /** The first pattern whose glob is non-empty gives that glob's first hit. */
  function FirstMatch(patterns: seq<string>, glob: string -> seq<string>): (r: Option<string>)
    ensures r.None? <==> forall i :: 0 <= i < |patterns| ==> glob(patterns[i]) == []
    decreases |patterns|
  {
    if |patterns| == 0 then None
    else if |glob(patterns[0])| > 0 then Some(glob(patterns[0])[0])
    else
      var r := FirstMatch(patterns[1..], glob);
      assert forall i :: 1 <= i < |patterns| ==> patterns[i] == patterns[1..][i - 1];
      r
  }

  /** A hit comes from the first pattern whose glob is non-empty. */
  lemma {:induction false} FirstMatchIsFirstHit(patterns: seq<string>, glob: string -> seq<string>, i: nat)
    requires i < |patterns| && |glob(patterns[i])| > 0
    requires forall j :: 0 <= j < i ==> glob(patterns[j]) == []
    ensures FirstMatch(patterns, glob) == Some(glob(patterns[i])[0])
    decreases i
  {
    if i > 0 {
      assert forall j :: 0 <= j < i - 1 ==> patterns[1..][j] == patterns[j + 1];
      FirstMatchIsFirstHit(patterns[1..], glob, i - 1);
    }
  }

  /** One style directory of the first loop of `resolve_style_path`, given
      that directory's patterns. */
  function GlobDir(ps: seq<string>, glob: string -> seq<string>): Option<string>
    requires 2 <= |ps| <= 3
  {
    if |glob(ps[0])| > 0 then Some(glob(ps[0])[0])
    else if |glob(ps[1])| > 0 then Some(glob(ps[1])[0])
    else if |ps| == 3 && |glob(ps[2])| > 0 then Some(glob(ps[2])[0])
    else None
  }

  /** The first loop of `resolve_style_path`: directory by directory, the
      patterns of that directory. */
  function GlobPass(dirs: seq<string>, name: string, dirName: string, glob: string -> seq<string>): Option<string>
    decreases |dirs|
  {
    if |dirs| == 0 then None
    else
      match GlobDir(DirPatterns(dirs[0], name, dirName), glob)
      case Some(p) => Some(p)
      case None => GlobPass(dirs[1..], name, dirName, glob)
  }

  /** All patterns of all directories, flattened in search order. */
  function StylePatterns(dirs: seq<string>, name: string, dirName: string): seq<string>
    decreases |dirs|
  {
    if |dirs| == 0 then [] else DirPatterns(dirs[0], name, dirName) + StylePatterns(dirs[1..], name, dirName)
  }

  lemma {:induction false} FirstMatchAppend(a: seq<string>, b: seq<string>, glob: string -> seq<string>)
    ensures FirstMatch(a + b, glob) == if FirstMatch(a, glob).Some? then FirstMatch(a, glob) else FirstMatch(b, glob)
    decreases |a|
  {
    if |a| > 0 {
      assert (a + b)[1..] == a[1..] + b;
      FirstMatchAppend(a[1..], b, glob);
    } else {
      assert a + b == b;
    }
  }

  lemma GlobDirIsFirstMatch(ps: seq<string>, glob: string -> seq<string>)
    requires 2 <= |ps| <= 3
    ensures GlobDir(ps, glob) == FirstMatch(ps, glob)
  {
    assert ps[1..][0] == ps[1];
    if |ps| == 3 {
      assert ps[1..][1..][0] == ps[2];
      assert ps[1..][1..][1..] == [];
    } else {
      assert ps[1..][1..] == [];
    }
  }

  /** The nested loop tries exactly the flattened patterns, in order. */
  lemma {:induction false} GlobPassIsFirstMatch(dirs: seq<string>, name: string, dirName: string, glob: string -> seq<string>)
    ensures GlobPass(dirs, name, dirName, glob) == FirstMatch(StylePatterns(dirs, name, dirName), glob)
    decreases |dirs|
  {
    if |dirs| > 0 {
      GlobPassIsFirstMatch(dirs[1..], name, dirName, glob);
      GlobDirIsFirstMatch(DirPatterns(dirs[0], name, dirName), glob);
      FirstMatchAppend(DirPatterns(dirs[0], name, dirName), StylePatterns(dirs[1..], name, dirName), glob);
    }
  }

  /** Directory `i` is the first style directory whose `defaults.css` exists. */
  predicate FirstDefaultAt(dirs: seq<string>, present: string -> bool, i: nat) {
    && i < |dirs| && present(JoinPath(dirs[i], "defaults.css"))
    && forall j :: 0 <= j < i ==> !present(JoinPath(dirs[j], "defaults.css"))
  }

  /** The second loop: the `defaults.css` of the first style directory
      that has one. */
  function DefaultPass(dirs: seq<string>, present: string -> bool): (r: Option<string>)
    ensures r.None? <==> forall i :: 0 <= i < |dirs| ==> !present(JoinPath(dirs[i], "defaults.css"))
    ensures forall i: nat :: FirstDefaultAt(dirs, present, i) ==> r == Some(JoinPath(dirs[i], "defaults.css"))
    decreases |dirs|
  {
    if |dirs| == 0 then None
    else if present(JoinPath(dirs[0], "defaults.css")) then Some(JoinPath(dirs[0], "defaults.css"))
    else
      var r := DefaultPass(dirs[1..], present);
      assert forall i :: 1 <= i < |dirs| ==> dirs[i] == dirs[1..][i - 1];
      assert forall i: nat :: 1 <= i && FirstDefaultAt(dirs, present, i) ==> FirstDefaultAt(dirs[1..], present, i - 1);
      r
  }

  /** The layout's name without `.jsonc`, as style lookup uses it. */
  function LayoutStem(layout: string): string {
    ReplaceAll(Basename(layout), ".jsonc", "")
  }

  /** Every glob pattern `resolve_style_path` tries for a layout, in order. */
  function StyleCandidates(layout: string, dirs: seq<string>): seq<string> {
    StylePatterns(dirs, LayoutStem(layout), Basename(Dirname(layout)))
  }

  /** `resolve_style_path(layout)`: a glob hit for the layout's patterns,
      else an existing `defaults.css`, else the first directory's
      `defaults.css` whether or not it exists. */
  function ResolveStylePath(layout: string, dirs: seq<string>, glob: string -> seq<string>, present: string -> bool): (r: string)
    requires |dirs| > 0
    ensures FirstMatch(StyleCandidates(layout, dirs), glob).Some? ==> r == FirstMatch(StyleCandidates(layout, dirs), glob).value
    ensures FirstMatch(StyleCandidates(layout, dirs), glob).None? ==>
              forall i: nat :: FirstDefaultAt(dirs, present, i) ==> r == JoinPath(dirs[i], "defaults.css")
    ensures FirstMatch(StyleCandidates(layout, dirs), glob).None?
            && (forall i :: 0 <= i < |dirs| ==> !present(JoinPath(dirs[i], "defaults.css")))
            ==> r == JoinPath(dirs[0], "defaults.css")
  {
    var name := LayoutStem(layout);
    var dirName := Basename(Dirname(layout));
    GlobPassIsFirstMatch(dirs, name, dirName, glob);
    match GlobPass(dirs, name, dirName, glob)
    case Some(p) => p
    case None => FallbackStyle(dirs, present)
  }

  /** What `resolve_style_path` falls back to without a glob hit: the
      first existing `defaults.css`, else the first directory's. */
  function FallbackStyle(dirs: seq<string>, present: string -> bool): (r: string)
    requires |dirs| > 0
    ensures forall i: nat :: FirstDefaultAt(dirs, present, i) ==> r == JoinPath(dirs[i], "defaults.css")
    ensures (forall i :: 0 <= i < |dirs| ==> !present(JoinPath(dirs[i], "defaults.css")))
            ==> r == JoinPath(dirs[0], "defaults.css")
  {
    match DefaultPass(dirs, present)
    case Some(p) => p
    case None => JoinPath(dirs[0], "defaults.css")
  }

  // ---------------------------------------------------------------------
  // list_layouts
  // ---------------------------------------------------------------------

  /** An entry of the `layouts` list; `isBackupEntry` marks the synthetic
      "List all N Backup(s) saved" entry. */
  datatype LayoutPair = LayoutPair(layout: string, name: string, style: string, isBackupEntry: bool)

  datatype Backup = Backup(layout: string, name: string)

  datatype Listing = Listing(layouts: seq<LayoutPair>, backups: seq<Backup>)

  predicate IsBackupPath(p: string) {
    Contains(p, "/backup/") || Contains(p, "\\backup\\")
  }

  /** Some layout directory is a textual prefix of `layout`. */
  predicate UnderSomeDir(layout: string, dirs: seq<string>) {
    exists i :: 0 <= i < |dirs| && StartsWith(layout, dirs[i])
  }

  /** The environment `list_layouts` consults: the layout and style
      directories, `os.path.relpath`, globbing and existence tests. */
  datatype Env = Env(layoutDirs: seq<string>, styleDirs: seq<string>, relpath: (string, string) -> string,
                     glob: string -> seq<string>, present: string -> bool)

  predicate ValidEnv(env: Env) {
    |env.styleDirs| > 0
  }

  /** The name shown for a layout found under `dir`. */
  function EntryName(env: Env, layout: string, dir: string): string {
    ReplaceAll(env.relpath(layout, dir), ".jsonc", "")
  }

  /** The inner loop of `list_layouts` over the directories for one layout:
      a backup is recorded under every directory it starts with
      (`continue`), any other layout only under the first such directory
      (`break`). */
  function Classify(env: Env, layout: string, dirs: seq<string>): (r: (seq<LayoutPair>, seq<Backup>))
    requires ValidEnv(env)
    ensures IsBackupPath(layout) ==> r.0 == []
    ensures !IsBackupPath(layout) ==> r.1 == [] && |r.0| <= 1 && (|r.0| == 1 <==> UnderSomeDir(layout, dirs))
    ensures forall i :: 0 <= i < |r.0| ==> (r.0[i].layout == layout && !r.0[i].isBackupEntry
                                          && r.0[i].style == ResolveStylePath(layout, env.styleDirs, env.glob, env.present))
    ensures forall i :: 0 <= i < |r.1| ==> r.1[i].layout == layout
    ensures |r.1| <= |dirs|
    decreases |dirs|
  {
    if |dirs| == 0 then ([], [])
    else
      var rest := Classify(env, layout, dirs[1..]);
      assert UnderSomeDir(layout, dirs) <==> StartsWith(layout, dirs[0]) || UnderSomeDir(layout, dirs[1..]) by {
        if UnderSomeDir(layout, dirs[1..]) {
          var i :| 0 <= i < |dirs[1..]| && StartsWith(layout, dirs[1..][i]);
          assert dirs[i + 1] == dirs[1..][i];
        }
        if UnderSomeDir(layout, dirs) && !StartsWith(layout, dirs[0]) {
          var i :| 0 <= i < |dirs| && StartsWith(layout, dirs[i]);
          assert dirs[1..][i - 1] == dirs[i];
        }
      }
      if StartsWith(layout, dirs[0]) then
        if IsBackupPath(layout) then (rest.0, [Backup(layout, EntryName(env, layout, dirs[0]))] + rest.1)
        else ([LayoutPair(layout, EntryName(env, layout, dirs[0]),
                          ResolveStylePath(layout, env.styleDirs, env.glob, env.present), false)], [])
      else rest
  }

  /** The layout directories `layout` starts with, in search order. */
  function MatchingDirs(layout: string, dirs: seq<string>): (r: seq<string>)
    ensures forall d :: d in r <==> d in dirs && StartsWith(layout, d)
    decreases |dirs|
  {
    if |dirs| == 0 then []
    else (if StartsWith(layout, dirs[0]) then [dirs[0]] else []) + MatchingDirs(layout, dirs[1..])
  }

  /** What `Classify` records, against the directories the layout starts
      with: a backup once per such directory, in order, named relative to
      it; any other layout once, named relative to the first. */
  lemma {:induction false} ClassifyPerDirectory(env: Env, layout: string, dirs: seq<string>)
    requires ValidEnv(env)
    ensures var r := Classify(env, layout, dirs);
            var m := MatchingDirs(layout, dirs);
            && (IsBackupPath(layout) ==>
                  |r.1| == |m| && forall i :: 0 <= i < |r.1| ==> r.1[i] == Backup(layout, EntryName(env, layout, m[i])))
            && (!IsBackupPath(layout) && |r.0| == 1 ==> |m| > 0 && r.0[0].name == EntryName(env, layout, m[0]))
    decreases |dirs|
  {
    if |dirs| > 0 {
      ClassifyPerDirectory(env, layout, dirs[1..]);
      var rest := Classify(env, layout, dirs[1..]);
      var m := MatchingDirs(layout, dirs[1..]);
      if StartsWith(layout, dirs[0]) {
        assert MatchingDirs(layout, dirs) == [dirs[0]] + m;
        if IsBackupPath(layout) {
          var b := [Backup(layout, EntryName(env, layout, dirs[0]))] + rest.1;
          assert Classify(env, layout, dirs).1 == b;
          assert forall i :: 1 <= i < |b| ==> b[i] == rest.1[i - 1] && ([dirs[0]] + m)[i] == m[i - 1];
        }
      } else {
        assert MatchingDirs(layout, dirs) == m;
      }
    }
  }

  /** The outer loop of `list_layouts` over the found layouts. */
  function Scan(env: Env, layouts: seq<string>): (r: (seq<LayoutPair>, seq<Backup>))
    requires ValidEnv(env)
    ensures forall i :: 0 <= i < |r.0| ==> !r.0[i].isBackupEntry && !IsBackupPath(r.0[i].layout)
    ensures forall i :: 0 <= i < |r.1| ==> IsBackupPath(r.1[i].layout) && r.1[i].layout in layouts
    decreases |layouts|
  {
    if |layouts| == 0 then ([], [])
    else
      var c := Classify(env, layouts[0], env.layoutDirs);
      var rest := Scan(env, layouts[1..]);
      (c.0 + rest.0, c.1 + rest.1)
  }

  /** The text of the synthetic entry. */
  function BackupSummary(n: nat): string {
    "List all " + NatToString(n) + " Backup(s) saved"
  }

  /** `list_layouts()` over the sorted layout files: the selectable layouts,
      followed by the synthetic backup entry when there are backups. */
  function ListLayouts(env: Env, layouts: seq<string>): (r: Listing)
    requires ValidEnv(env)
    ensures |r.backups| > 0 <==> |r.layouts| > 0 && r.layouts[|r.layouts| - 1].isBackupEntry
    ensures |r.backups| > 0 ==> r.layouts[|r.layouts| - 1] == LayoutPair("", BackupSummary(|r.backups|), "", true)
    ensures forall i :: 0 <= i < |r.layouts| - 1 ==> !r.layouts[i].isBackupEntry
    ensures forall i :: 0 <= i < |r.backups| ==> IsBackupPath(r.backups[i].layout) && r.backups[i].layout in layouts
  {
    var s := Scan(env, layouts);
    if |s.1| > 0 then Listing(s.0 + [LayoutPair("", BackupSummary(|s.1|), "", true)], s.1)
    else Listing(s.0, s.1)
  }

  /** The list `handle_layout_navigation` cycles through: the layouts of
      every entry but the synthetic one. */
  function Selectable(pairs: seq<LayoutPair>): (r: seq<string>)
    decreases |pairs|
  {
    if |pairs| == 0 then []
    else (if pairs[0].isBackupEntry then [] else [pairs[0].layout]) + Selectable(pairs[1..])
  }

  /** The reference: the found layouts that are not backups and lie under a
      layout directory, in order. */
  function NonBackupLayouts(layouts: seq<string>, dirs: seq<string>): seq<string>
    decreases |layouts|
  {
    if |layouts| == 0 then []
    else (if !IsBackupPath(layouts[0]) && UnderSomeDir(layouts[0], dirs) then [layouts[0]] else [])
         + NonBackupLayouts(layouts[1..], dirs)
  }

  lemma {:induction false} SelectableAppend(a: seq<LayoutPair>, b: seq<LayoutPair>)
    ensures Selectable(a + b) == Selectable(a) + Selectable(b)
    decreases |a|
  {
    if |a| > 0 {
      assert (a + b)[1..] == a[1..] + b;
      SelectableAppend(a[1..], b);
    } else {
      assert a + b == b;
    }
  }

  lemma {:induction false} ScanSelectable(env: Env, layouts: seq<string>)
    requires ValidEnv(env)
    ensures Selectable(Scan(env, layouts).0) == NonBackupLayouts(layouts, env.layoutDirs)
    decreases |layouts|
  {
    if |layouts| > 0 {
      var c := Classify(env, layouts[0], env.layoutDirs);
      ScanSelectable(env, layouts[1..]);
      SelectableAppend(c.0, Scan(env, layouts[1..]).0);
      if |c.0| == 1 {
        assert Selectable(c.0) == [layouts[0]] by {
          assert c.0[1..] == [];
        }
      }
    }
  }

  /** The layouts navigation cycles through are exactly the non-backup
      layouts under some layout directory, in sorted order. */
  lemma ListLayoutsSelectable(env: Env, layouts: seq<string>)
    requires ValidEnv(env)
    ensures Selectable(ListLayouts(env, layouts).layouts) == NonBackupLayouts(layouts, env.layoutDirs)
  {
    var s := Scan(env, layouts);
    ScanSelectable(env, layouts);
    if |s.1| > 0 {
      var extra := [LayoutPair("", BackupSummary(|s.1|), "", true)];
      SelectableAppend(s.0, extra);
      assert Selectable(extra) == [] by { assert extra[1..] == []; }
    }
  }

  /** The first entry `set_layout(layout)` accepts: one whose layout path or
      name equals the argument. */
  function FindPair(pairs: seq<LayoutPair>, layout: string): (r: Option<LayoutPair>)
    ensures r.Some? ==> r.value in pairs && (r.value.layout == layout || r.value.name == layout)
    ensures r.None? <==> forall i :: 0 <= i < |pairs| ==> pairs[i].layout != layout && pairs[i].name != layout
    decreases |pairs|
  {
    if |pairs| == 0 then None
    else if pairs[0].layout == layout || pairs[0].name == layout then Some(pairs[0])
    else
      var r := FindPair(pairs[1..], layout);
      assert forall i :: 1 <= i < |pairs| ==> pairs[i] == pairs[1..][i - 1];
      r
  }

  /** `layout` names entry `p` for `set_layout`: its layout path or its name. */
  predicate PairMatches(p: LayoutPair, layout: string) {
    p.layout == layout || p.name == layout
  }

  /** Entry `i` is the first one that `layout` names. */
  predicate FirstPairAt(pairs: seq<LayoutPair>, layout: string, i: nat) {
    i < |pairs| && PairMatches(pairs[i], layout) && forall j :: 0 <= j < i ==> !PairMatches(pairs[j], layout)
  }

  /** What `set_layout` records in the state file, or `None` when it exits
      with "Layout not found": the first entry the argument names, unless
      its layout path is empty (as the synthetic entry's is) or no entry
      matches. */
  function SetLayoutTarget(pairs: seq<LayoutPair>, layout: string): (r: Option<LayoutPair>)
    ensures forall i: nat :: FirstPairAt(pairs, layout, i) ==> (r.Some? <==> pairs[i].layout != "") && (r.Some? ==> r.value == pairs[i])
    ensures (forall i :: 0 <= i < |pairs| ==> !PairMatches(pairs[i], layout)) ==> r.None?
  {
    var f := FindPair(pairs, layout);
    FindPairIsFirst(pairs, layout);
    match f
    case Some(p) => if p.layout == "" then None else Some(p)
    case None => None
  }

  /** `FindPair` returns the first entry the argument names. */
  lemma {:induction false} FindPairIsFirst(pairs: seq<LayoutPair>, layout: string)
    ensures forall i: nat :: FirstPairAt(pairs, layout, i) ==> FindPair(pairs, layout) == Some(pairs[i])
    decreases |pairs|
  {
    if |pairs| > 0 && !PairMatches(pairs[0], layout) {
      FindPairIsFirst(pairs[1..], layout);
      forall i: nat | FirstPairAt(pairs, layout, i)
        ensures FindPair(pairs, layout) == Some(pairs[i])
      {
        assert i > 0;
        assert FirstPairAt(pairs[1..], layout, i - 1) by {
          assert forall j :: 0 <= j < i - 1 ==> pairs[1..][j] == pairs[j + 1];
        }
      }
    }
  }

  const NameKey: string := "WAYBAR_LAYOUT_NAME"
  const StyleKey: string := "WAYBAR_STYLE_PATH"

  /** The state file after `set_layout`'s three `set_state_value` calls:
      the layout path, then its name, then its style, each written and
      read back in turn. */
  function SetLayoutState(file: Option<seq<string>>, p: LayoutPair): seq<string> {
    var f1 := WaybarState.StoredLines(file, LayoutKey, p.layout);
    var f2 := WaybarState.StoredLines(Some(f1), NameKey, p.name);
    WaybarState.StoredLines(Some(f2), StyleKey, p.style)
  }

  /** After `set_layout` stores an entry, the state file gives back its
      layout path, and its name and style when those have no surrounding
      space (`get_state_value` strips them). */
  lemma SetLayoutStateReadsBack(file: Option<seq<string>>, p: LayoutPair)
    requires file.Some? ==> WaybarState.NoBreaks(file.value)
    requires StorableLayout(p.layout) && '\n' !in p.name && '\n' !in p.style
    ensures WaybarState.GetStateValue(Some(SetLayoutState(file, p)), LayoutKey, None) == Some(p.layout)
    ensures Trimmed(p.name) ==> WaybarState.GetStateValue(Some(SetLayoutState(file, p)), NameKey, None) == Some(p.name)
    ensures Trimmed(p.style) ==> WaybarState.GetStateValue(Some(SetLayoutState(file, p)), StyleKey, None) == Some(p.style)
  {
    LayoutReadsBack(file, p);
    if Trimmed(p.name) {
      NameReadsBack(file, p);
    }
    if Trimmed(p.style) {
      StyleReadsBack(file, p);
    }
  }

  /** The three state keys `set_layout` writes are plain: no `=`, no line
      break, no leading space. */
  lemma StateKeysArePlain()
    ensures '=' !in LayoutKey && '\n' !in LayoutKey && |LayoutKey| > 0 && !IsSpace(LayoutKey[0])
    ensures '=' !in NameKey && '\n' !in NameKey && |NameKey| > 0 && !IsSpace(NameKey[0])
    ensures '=' !in StyleKey && '\n' !in StyleKey && |StyleKey| > 0 && !IsSpace(StyleKey[0])
    ensures LayoutKey != NameKey && LayoutKey != StyleKey && NameKey != StyleKey
  {
    assert LayoutKey[14] != NameKey[14];
    assert LayoutKey[7] != StyleKey[7];
    assert NameKey[7] != StyleKey[7];
  }

  lemma LayoutReadsBack(file: Option<seq<string>>, p: LayoutPair)
    requires file.Some? ==> WaybarState.NoBreaks(file.value)
    requires StorableLayout(p.layout) && '\n' !in p.name && '\n' !in p.style
    ensures WaybarState.GetStateValue(Some(SetLayoutState(file, p)), LayoutKey, None) == Some(p.layout)
  {
    var f1 := WaybarState.StoredLines(file, LayoutKey, p.layout);
    var f2 := WaybarState.StoredLines(Some(f1), NameKey, p.name);
    var f3 := WaybarState.StoredLines(Some(f2), StyleKey, p.style);
    assert SetLayoutState(file, p) == f3;
    StateKeysArePlain();
    WaybarState.StoredGivesKeyLine(file, LayoutKey, p.layout);
    var p2 := WaybarState.StoredKeepsKeyLine(f1, LayoutKey, |f1| - 1, NameKey, p.name);
    var p3 := WaybarState.StoredKeepsKeyLine(f2, LayoutKey, p2, StyleKey, p.style);
    WaybarState.GetKeyValueLine(f3, LayoutKey, p.layout, p3, None);
  }

  lemma NameReadsBack(file: Option<seq<string>>, p: LayoutPair)
    requires file.Some? ==> WaybarState.NoBreaks(file.value)
    requires Trimmed(p.name) && '\n' !in p.layout && '\n' !in p.name && '\n' !in p.style
    ensures WaybarState.GetStateValue(Some(SetLayoutState(file, p)), NameKey, None) == Some(p.name)
  {
    var f1 := WaybarState.StoredLines(file, LayoutKey, p.layout);
    var f2 := WaybarState.StoredLines(Some(f1), NameKey, p.name);
    var f3 := WaybarState.StoredLines(Some(f2), StyleKey, p.style);
    assert SetLayoutState(file, p) == f3;
    StateKeysArePlain();
    WaybarState.StoredGivesKeyLine(Some(f1), NameKey, p.name);
    var p3 := WaybarState.StoredKeepsKeyLine(f2, NameKey, |f2| - 1, StyleKey, p.style);
    WaybarState.GetKeyValueLine(f3, NameKey, p.name, p3, None);
  }

  lemma StyleReadsBack(file: Option<seq<string>>, p: LayoutPair)
    requires file.Some? ==> WaybarState.NoBreaks(file.value)
    requires Trimmed(p.style) && '\n' !in p.layout && '\n' !in p.name && '\n' !in p.style
    ensures WaybarState.GetStateValue(Some(SetLayoutState(file, p)), StyleKey, None) == Some(p.style)
  {
    var f1 := WaybarState.StoredLines(file, LayoutKey, p.layout);
    var f2 := WaybarState.StoredLines(Some(f1), NameKey, p.name);
    var f3 := WaybarState.StoredLines(Some(f2), StyleKey, p.style);
    assert SetLayoutState(file, p) == f3;
    StateKeysArePlain();
    WaybarState.StoredGivesKeyLine(Some(f2), StyleKey, p.style);
    WaybarState.GetKeyValueLine(f3, StyleKey, p.style, |f3| - 1, None);
  }

  // ---------------------------------------------------------------------
  // Navigation
  // ---------------------------------------------------------------------

  const LayoutKey: string := "WAYBAR_LAYOUT_PATH"

  /** The layout after index `i` in a list of `n`. */
  function NextIndex(i: nat, n: nat): (r: nat)
    requires i < n
    ensures r < n
    ensures r == if i == n - 1 then 0 else i + 1
  {
    (i + 1) % n
  }

  /** The layout before index `i` in a list of `n`. */
  function PrevIndex(i: nat, n: nat): (r: nat)
    requires i < n
    ensures r < n
    ensures r == if i == 0 then n - 1 else i - 1
  {
    (i - 1 + n) % n
  }

  lemma PrevUndoesNext(i: nat, n: nat)
    requires i < n
    ensures PrevIndex(NextIndex(i, n), n) == i
    ensures NextIndex(PrevIndex(i, n), n) == i
  {
  }

  /** `k` steps forward from `i`. */
  function Advance(i: nat, n: nat, k: nat): (r: nat)
    requires i < n
    ensures r < n
  {
    if k == 0 then i else NextIndex(Advance(i, n, k - 1), n)
  }

  /** Up to a full round, `k` steps forward add `k` and wrap once past the end. */
  lemma {:induction false} AdvanceWraps(i: nat, n: nat, k: nat)
    requires i < n && k <= n
    ensures Advance(i, n, k) == if i + k < n then i + k else i + k - n
  {
    if k > 0 {
      AdvanceWraps(i, n, k - 1);
    }
  }

  /** `n` presses of `--next` come back to the starting layout. */
  lemma FullCycle(i: nat, n: nat)
    requires i < n
    ensures Advance(i, n, n) == i
    ensures forall k :: 0 < k < n ==> Advance(i, n, k) != i
  {
    AdvanceWraps(i, n, n);
    forall k | 0 < k < n
      ensures Advance(i, n, k) != i
    {
      AdvanceWraps(i, n, k);
    }
  }

  /** The current layout: of the first line starting with
      `WAYBAR_LAYOUT_PATH=`, the text between the first and the second `=`
      (`line.split("=")[1]`), trimmed. */
  function CurrentLayout(lines: seq<string>): (r: Option<string>)
    ensures r.None? <==> forall i :: 0 <= i < |lines| ==> !WaybarState.Matches(lines[i], LayoutKey)
    decreases |lines|
  {
    if |lines| == 0 then None
    else if WaybarState.Matches(lines[0], LayoutKey) then Some(Strip(Before(After(lines[0], '='), '=')))
    else
      var r := CurrentLayout(lines[1..]);
      assert forall i :: 1 <= i < |lines| ==> lines[i] == lines[1..][i - 1];
      r
  }

  /** Where `get_state_value` reads a value without `=`, navigation reads
      the same current layout. */
  lemma {:induction false} CurrentLayoutAgrees(lines: seq<string>, v: string)
    requires WaybarState.FirstValue(lines, LayoutKey, None) == Some(v) && '=' !in v
    ensures CurrentLayout(lines) == Some(v)
    decreases |lines|
  {
    if WaybarState.Matches(lines[0], LayoutKey) {
      var x := After(lines[0], '=');
      assert Strip(x) == v;
      NoCharAfterStrip(x, '=');
    } else {
      CurrentLayoutAgrees(lines[1..], v);
    }
  }

  /** The first index of `x` in `xs` (`list.index`). */
  function IndexOf(xs: seq<string>, x: string): (i: nat)
    requires x in xs
    ensures i < |xs| && xs[i] == x && x !in xs[..i]
  {
    if xs[0] == x then 0
    else
      var i := IndexOf(xs[1..], x);
      assert xs[1..][..i] == xs[1..i + 1];
      i + 1
  }

  datatype NavOption = Next | Prev | SetTo

  /** What `handle_layout_navigation` ends in: the argument it passes to
      `set_layout`, an error it logs before returning, or an exception that
      escapes it. */
  datatype NavOutcome = Chose(layout: string) | Logged(message: string) | Raised(exception: string)

  /** `handle_layout_navigation(option)`. `state` is the state file (`None`
      when missing), `recached` what `get_current_layout_from_config`
      returns, `arg` the optional `argv[2]`. */
  function Navigate(layouts: seq<string>, state: Option<seq<string>>, recached: Option<string>,
                    option: NavOption, arg: Option<string>): (r: NavOutcome)
    ensures state.None? ==> r == Raised("FileNotFoundError")
    ensures r.Chose? && option != SetTo ==> r.layout in layouts
    ensures r.Chose? && option == SetTo ==> arg == Some(r.layout)
  {
    match state
    case None => Raised("FileNotFoundError")
    case Some(lines) =>
      var current := CurrentLayout(lines);
      if current.None? || current.value == "" then Logged("Current layout not found in state file.")
      else if current.value !in layouts && (recached.None? || recached.value == "") then
        Logged("Failed to recache current layout.")
      else
        var cur := if current.value in layouts then current.value else recached.value;
        if cur !in layouts then Raised("ValueError")
        else
          var i := IndexOf(layouts, cur);
          match option
          case Next => Chose(layouts[NextIndex(i, |layouts|)])
          case Prev => Chose(layouts[PrevIndex(i, |layouts|)])
          case SetTo => if arg.None? then Logged("Usage: --set <layout>") else Chose(arg.value)
  }

  /** A layout path the state file can hold and give back unchanged. */
  predicate StorableLayout(l: string) {
    l != "" && '=' !in l && Trimmed(l) && '\n' !in l && '\r' !in l
  }

  /** Once `set_layout` has stored the entry of a listed layout, `--next`
      moves to the following one, cyclically. */
  lemma NextAfterSet(layouts: seq<string>, i: nat, file: Option<seq<string>>, p: LayoutPair,
                     recached: Option<string>, arg: Option<string>)
    requires i < |layouts| && StorableLayout(layouts[i]) && p.layout == layouts[i]
    requires '\n' !in p.name && '\n' !in p.style && (file.Some? ==> WaybarState.NoBreaks(file.value))
    requires forall a, b :: 0 <= a < b < |layouts| ==> layouts[a] != layouts[b]
    ensures Navigate(layouts, Some(SetLayoutState(file, p)), recached, Next, arg)
            == Chose(layouts[NextIndex(i, |layouts|)])
  {
    StoredLayoutIsCurrent(file, p);
    var j := IndexOf(layouts, layouts[i]);
    assert j == i;
  }

  /** `--prev` undoes `--next`: from the layout `--next` chose and
      `set_layout` stored, `--prev` returns to where it started. */
  lemma PrevAfterNext(layouts: seq<string>, i: nat, file: Option<seq<string>>, p: LayoutPair,
                      file2: Option<seq<string>>, p2: LayoutPair, recached: Option<string>, arg: Option<string>)
    requires i < |layouts| && forall k :: 0 <= k < |layouts| ==> StorableLayout(layouts[k])
    requires forall a, b :: 0 <= a < b < |layouts| ==> layouts[a] != layouts[b]
    requires p.layout == layouts[i] && p2.layout == layouts[NextIndex(i, |layouts|)]
    requires '\n' !in p.name && '\n' !in p.style && (file.Some? ==> WaybarState.NoBreaks(file.value))
    requires '\n' !in p2.name && '\n' !in p2.style && (file2.Some? ==> WaybarState.NoBreaks(file2.value))
    ensures Navigate(layouts, Some(SetLayoutState(file, p)), recached, Next, arg)
            == Chose(layouts[NextIndex(i, |layouts|)])
    ensures Navigate(layouts, Some(SetLayoutState(file2, p2)), recached, Prev, arg) == Chose(layouts[i])
  {
    var n := |layouts|;
    NextAfterSet(layouts, i, file, p, recached, arg);
    var j := NextIndex(i, n);
    StoredLayoutIsCurrent(file2, p2);
    var k := IndexOf(layouts, layouts[j]);
    assert k == j;
    PrevUndoesNext(i, n);
  }

  /** The layout `set_layout` stored is the one navigation reads as current. */
  lemma StoredLayoutIsCurrent(file: Option<seq<string>>, p: LayoutPair)
    requires StorableLayout(p.layout) && '\n' !in p.name && '\n' !in p.style
    requires file.Some? ==> WaybarState.NoBreaks(file.value)
    ensures CurrentLayout(SetLayoutState(file, p)) == Some(p.layout)
  {
    SetLayoutStateReadsBack(file, p);
    CurrentLayoutAgrees(SetLayoutState(file, p), p.layout);
  }
}

=== FILE: waybar_sources.dfy ===
/**
 * Where the waybar manager takes its font family, font size, icon size and
 * border radius from: an ordered list of sources, the first one that yields
 * a usable value winning, and the default otherwise. Each source's raw
 * text (`None` when the source has no value) is an input; reading the
 * config, state and theme files that produce them is not modelled here.
 */
module WaybarSources {
  import opened Py

  /** A setting's value; its constructor is the type of the default. */
  datatype Setting = IntSetting(i: int) | StrSetting(s: string)

  /** `_try_parse_value`: the value one source's raw text yields. Missing or
      empty text yields nothing; for an integer default the text must pass
      `int()`; for a string default it is stripped of space, then of double
      quotes, then of single quotes (and may end up empty). */
  function ParseSource(default: Setting, raw: Option<string>): (r: Option<Setting>)
    ensures raw.None? || raw == Some("") ==> r.None?
    ensures r.Some? ==> r.value.IntSetting? == default.IntSetting?
    ensures default.IntSetting? && raw.Some? ==> (r.Some? <==> ParseInt(raw.value).Some?)
    ensures default.StrSetting? && raw.Some? && raw.value != "" ==> r.Some?
  {
    match raw
    case None => None
    case Some(text) =>
      if text == "" then None
      else match default
        case StrSetting(_) => Some(StrSetting(StripChar(StripChar(Strip(text), '"'), '\'')))
        case IntSetting(_) =>
          match ParseInt(text)
          case Some(v) => Some(IntSetting(v))
          case None => None
  }

  /** Every source's parsed value, in priority order. */
  function ParsedSources(default: Setting, raws: seq<Option<string>>): (r: seq<Option<Setting>>)
    ensures |r| == |raws|
    ensures forall i :: 0 <= i < |raws| ==> r[i] == ParseSource(default, raws[i])
  {
    seq(|raws|, i requires 0 <= i < |raws| => ParseSource(default, raws[i]))
  }

  /** The first present value of a list, or `d` when there is none. */
  function FirstSome<T>(xs: seq<Option<T>>, d: T): (r: T)
    ensures (forall i :: 0 <= i < |xs| ==> xs[i].None?) ==> r == d
    ensures forall i :: 0 <= i < |xs| && xs[i].Some? && (forall j :: 0 <= j < i ==> xs[j].None?) ==> r == xs[i].value
    decreases |xs|
  {
    if |xs| == 0 then d
    else if xs[0].Some? then xs[0].value
    else
      var r := FirstSome(xs[1..], d);
      assert forall i :: 1 <= i < |xs| ==> xs[i] == xs[1..][i - 1];
      r
  }

  /** `get_waybar_value_from_sources(name, default, sources)`, given each
      source's raw text in priority order: the value of the first source
      that parses, else the default. */
  function ValueFromSources(default: Setting, raws: seq<Option<string>>): (r: Setting)
    ensures r.IntSetting? == default.IntSetting?
    ensures (forall i :: 0 <= i < |raws| ==> ParseSource(default, raws[i]).None?) ==> r == default
    ensures forall i :: 0 <= i < |raws| && ParseSource(default, raws[i]).Some?
                        && (forall j :: 0 <= j < i ==> ParseSource(default, raws[j]).None?)
                        ==> r == ParseSource(default, raws[i]).value
  {
    var ps := ParsedSources(default, raws);
    var r := FirstSome(ps, default);
    assert r == default || exists i :: 0 <= i < |ps| && ps[i].Some? && r == ps[i].value by {
      FirstSomeIsSome(ps, default);
    }
    r
  }

  lemma {:induction false} FirstSomeIsSome<T>(xs: seq<Option<T>>, d: T)
    ensures FirstSome(xs, d) == d || exists i :: 0 <= i < |xs| && xs[i].Some? && FirstSome(xs, d) == xs[i].value
    decreases |xs|
  {
    if |xs| > 0 && xs[0].None? {
      FirstSomeIsSome(xs[1..], d);
      if FirstSome(xs, d) != d {
        var i :| 0 <= i < |xs[1..]| && xs[1..][i].Some? && FirstSome(xs, d) == xs[1..][i].value;
        assert xs[i + 1] == xs[1..][i];
      }
    }
  }

  lemma {:induction false} FirstSomeAppend<T>(xs: seq<Option<T>>, ys: seq<Option<T>>, d: T)
    requires exists i :: 0 <= i < |xs| && xs[i].Some?
    ensures FirstSome(xs + ys, d) == FirstSome(xs, d)
    decreases |xs|
  {
    if xs[0].None? {
      var i :| 0 <= i < |xs| && xs[i].Some?;
      assert xs[1..][i - 1] == xs[i];
      assert (xs + ys)[1..] == xs[1..] + ys;
      FirstSomeAppend(xs[1..], ys, d);
    }
  }

  lemma {:induction false} FirstSomeSkipsNone<T>(a: seq<Option<T>>, b: seq<Option<T>>, d: T)
    ensures FirstSome(a + [None] + b, d) == FirstSome(a + b, d)
    decreases |a|
  {
    if |a| == 0 {
      assert a + [None] + b == [None] + b;
      assert ([None] + b)[1..] == b;
      assert a + b == b;
    } else if a[0].None? {
      assert (a + [None] + b)[1..] == a[1..] + [None] + b;
      assert (a + b)[1..] == a[1..] + b;
      FirstSomeSkipsNone(a[1..], b, d);
    }
  }

  lemma ParsedAppend(default: Setting, a: seq<Option<string>>, b: seq<Option<string>>)
    ensures ParsedSources(default, a + b) == ParsedSources(default, a) + ParsedSources(default, b)
  {
  }

  /** Sources after one that parses are never consulted. */
  lemma LaterSourcesIgnored(default: Setting, raws: seq<Option<string>>, more: seq<Option<string>>)
    requires exists i :: 0 <= i < |raws| && ParseSource(default, raws[i]).Some?
    ensures ValueFromSources(default, raws + more) == ValueFromSources(default, raws)
  {
    var ps := ParsedSources(default, raws);
    ParsedAppend(default, raws, more);
    var i :| 0 <= i < |raws| && ParseSource(default, raws[i]).Some?;
    assert ps[i].Some?;
    FirstSomeAppend(ps, ParsedSources(default, more), default);
  }

  /** A source with no value, in any position, changes nothing. */
  lemma MissingSourceIgnored(default: Setting, before: seq<Option<string>>, after: seq<Option<string>>)
    ensures ValueFromSources(default, before + [None] + after) == ValueFromSources(default, before + after)
  {
    ParsedAppend(default, before + [None], after);
    ParsedAppend(default, before, [None]);
    ParsedAppend(default, before, after);
    assert ParsedSources(default, [None]) == [None];
    FirstSomeSkipsNone(ParsedSources(default, before), ParsedSources(default, after), default);
  }

  /** `get_waybar_font_family()`: the `WAYBAR_FONT` config value, the
      theme's `$BAR_FONT`, the state file's `BAR_FONT`, else "monospace". */
  function FontFamily(config: Option<string>, theme: Option<string>, state: Option<string>): (r: string)
    ensures config.Some? && config.value != "" ==> r == StripChar(StripChar(Strip(config.value), '"'), '\'')
    ensures ((config.None? || config == Some("")) && theme.Some? && theme.value != "")
            ==> r == StripChar(StripChar(Strip(theme.value), '"'), '\'')
    ensures ((config.None? || config == Some("")) && (theme.None? || theme == Some(""))
             && state.Some? && state.value != "") ==> r == StripChar(StripChar(Strip(state.value), '"'), '\'')
    ensures ((config.None? || config == Some("")) && (theme.None? || theme == Some(""))
             && (state.None? || state == Some(""))) ==> r == "monospace"
  {
    ValueCons(StrSetting("monospace"), config, [theme] + [state]);
    ValueCons(StrSetting("monospace"), theme, [state]);
    ValueOne(StrSetting("monospace"), state);
    ValueFromSources(StrSetting("monospace"), [config] + ([theme] + [state])).s
  }

  /** `get_waybar_font_size()`: `WAYBAR_SCALE` from the config, the state
      file's `BAR_FONT_SIZE`, the theme's `$BAR_FONT_SIZE`, else 10. */
  function FontSize(config: Option<string>, state: Option<string>, theme: Option<string>): (r: int)
    ensures config.Some? && ParseInt(config.value).Some? ==> r == ParseInt(config.value).value
    ensures ((config.None? || ParseInt(config.value).None?) && state.Some? && ParseInt(state.value).Some?)
            ==> r == ParseInt(state.value).value
    ensures ((config.None? || ParseInt(config.value).None?) && (state.None? || ParseInt(state.value).None?)
             && theme.Some? && ParseInt(theme.value).Some?) ==> r == ParseInt(theme.value).value
    ensures ((config.None? || ParseInt(config.value).None?) && (state.None? || ParseInt(state.value).None?)
             && (theme.None? || ParseInt(theme.value).None?)) ==> r == 10
  {
    ValueCons(IntSetting(10), config, [state] + [theme]);
    ValueCons(IntSetting(10), state, [theme]);
    ValueOne(IntSetting(10), theme);
    ValueFromSources(IntSetting(10), [config] + ([state] + [theme])).i
  }

  /** `get_waybar_icon_size()`: `WAYBAR_ICON_SIZE`, then `WAYBAR_SCALE` from
      the config, the state file's `BAR_ICON_SIZE`, the theme's
      `$BAR_ICON_SIZE`, else 10. */
  function IconSize(iconConfig: Option<string>, scaleConfig: Option<string>, state: Option<string>,
                    theme: Option<string>): (r: int)
    ensures iconConfig.Some? && ParseInt(iconConfig.value).Some? ==> r == ParseInt(iconConfig.value).value
    ensures ((iconConfig.None? || ParseInt(iconConfig.value).None?) && scaleConfig.Some?
             && ParseInt(scaleConfig.value).Some?) ==> r == ParseInt(scaleConfig.value).value
    ensures ((iconConfig.None? || ParseInt(iconConfig.value).None?) && (scaleConfig.None? || ParseInt(scaleConfig.value).None?)
             && state.Some? && ParseInt(state.value).Some?) ==> r == ParseInt(state.value).value
    ensures ((iconConfig.None? || ParseInt(iconConfig.value).None?) && (scaleConfig.None? || ParseInt(scaleConfig.value).None?)
             && (state.None? || ParseInt(state.value).None?) && theme.Some? && ParseInt(theme.value).Some?)
            ==> r == ParseInt(theme.value).value
    ensures ((iconConfig.None? || ParseInt(iconConfig.value).None?) && (scaleConfig.None? || ParseInt(scaleConfig.value).None?)
             && (state.None? || ParseInt(state.value).None?) && (theme.None? || ParseInt(theme.value).None?)) ==> r == 10
  {
    ValueCons(IntSetting(10), iconConfig, [scaleConfig] + ([state] + [theme]));
    ValueCons(IntSetting(10), scaleConfig, [state] + [theme]);
    ValueCons(IntSetting(10), state, [theme]);
    ValueOne(IntSetting(10), theme);
    ValueFromSources(IntSetting(10), [iconConfig] + ([scaleConfig] + ([state] + [theme]))).i
  }

  /** The first source decides when it parses; otherwise the rest do. */
  lemma ValueCons(default: Setting, raw: Option<string>, rest: seq<Option<string>>)
    ensures ValueFromSources(default, [raw] + rest) ==
            if ParseSource(default, raw).Some? then ParseSource(default, raw).value
            else ValueFromSources(default, rest)
  {
    ParsedAppend(default, [raw], rest);
    var ps := ParsedSources(default, [raw] + rest);
    assert ps[1..] == ParsedSources(default, rest);
  }

  /** A single source decides when it parses; otherwise the default. */
  lemma ValueOne(default: Setting, raw: Option<string>)
    ensures ValueFromSources(default, [raw]) ==
            if ParseSource(default, raw).Some? then ParseSource(default, raw).value else default
  {
    assert ParsedSources(default, [raw])[0] == ParseSource(default, raw);
  }

  // ---------------------------------------------------------------------
  // Border radius
  // ---------------------------------------------------------------------

  /** Python's truth test on an optional string: present and non-empty. */
  predicate Given(v: Option<string>) {
    v.Some? && v.value != ""
  }

  /** The radius a theme file sets: on the first line mentioning `rounding`
      and holding `=`, the first word between the first and second `=`.
      When that text has no word, the read fails with an `IndexError` that
      is caught and logged, so nothing is found. */
  function RoundingValue(lines: seq<string>): (r: Option<string>)
    ensures r.Some? ==> r.value != "" && !IsSpace(r.value[0])
    decreases |lines|
  {
    if |lines| == 0 then None
    else if Contains(lines[0], "rounding") && '=' in lines[0] then
      var words := SplitWs(Strip(Before(After(lines[0], '='), '=')));
      if |words| == 0 then None else Some(words[0])
    else RoundingValue(lines[1..])
  }

  /** The theme named in the state file: of the first line starting with
      `HYPR_THEME=`, the stripped text after the first `=`, without
      surrounding double and then single quotes. */
  function ThemeName(lines: seq<string>): Option<string>
    decreases |lines|
  {
    if |lines| == 0 then None
    else if StartsWith(lines[0], "HYPR_THEME=") then Some(StripChar(StripChar(After(Strip(lines[0]), '='), '"'), '\''))
    else ThemeName(lines[1..])
  }

  /** What `update_border_radius` can read, apart from the CSS file. */
  datatype RadiusInputs = RadiusInputs(
    envRadius: Option<string>,          // WAYBAR_BORDER_RADIUS
    reloadFlag: Option<string>,         // reload_flag
    themeConf: Option<seq<string>>,     // hypr/themes/theme.conf, None when missing
    hyprBorder: Option<string>,         // hypr_border
    state: Option<seq<string>>,         // the state file, None when missing
    hyprTheme: string -> Option<seq<string>>)  // hypr.theme of a named theme

  /** Neither the environment override nor the second priority (theme.conf
      during a theme switch, `hypr_border` otherwise) gives a radius. */
  predicate NoPrimaryRadius(inp: RadiusInputs) {
    && !Given(inp.envRadius)
    && if inp.reloadFlag == Some("1") then inp.themeConf.None? || RoundingValue(inp.themeConf.value).None?
       else !Given(inp.hyprBorder)
  }

  /** The rounding of the current theme's `hypr.theme`, the third priority. */
  function CurrentThemeRounding(inp: RadiusInputs): Option<string> {
    var theme := if inp.state.Some? then ThemeName(inp.state.value) else None;
    if Given(theme) && inp.hyprTheme(theme.value).Some? then RoundingValue(inp.hyprTheme(theme.value).value)
    else None
  }

  /** The raw border radius before the final check: the environment
      override, else (during a theme switch) theme.conf's rounding or
      (otherwise) `hypr_border`, else the current theme's rounding. */
  function RawRadius(inp: RadiusInputs): (r: Option<string>)
    ensures Given(inp.envRadius) ==> r == inp.envRadius
    ensures !Given(inp.envRadius) && inp.reloadFlag != Some("1") && Given(inp.hyprBorder) ==> r == inp.hyprBorder
    ensures (!Given(inp.envRadius) && inp.reloadFlag == Some("1") && inp.themeConf.Some?
             && RoundingValue(inp.themeConf.value).Some?) ==> r == RoundingValue(inp.themeConf.value)
    ensures NoPrimaryRadius(inp) && CurrentThemeRounding(inp).Some? ==> r == CurrentThemeRounding(inp)
    ensures NoPrimaryRadius(inp) && CurrentThemeRounding(inp).None? ==> !Given(r)
  {
    var first :=
      if Given(inp.envRadius) then inp.envRadius
      else if inp.reloadFlag == Some("1") then
        match inp.themeConf
        case Some(lines) => if RoundingValue(lines).Some? then RoundingValue(lines) else inp.envRadius
        case None => inp.envRadius
      else inp.hyprBorder;
    if Given(first) then first
    else
      var theme := if inp.state.Some? then ThemeName(inp.state.value) else None;
      if Given(theme) then
        match inp.hyprTheme(theme.value)
        case Some(lines) => if RoundingValue(lines).Some? then RoundingValue(lines) else first
        case None => first
      else first
  }

  /** The radius text written into the CSS, or the crash of the final check. */
  datatype Radius = RadiusText(text: string) | RadiusValueError

  /** The final check as written: `not border_radius or int(border_radius) < 0`
      falls back to 2, but `int()` raises on text that is not an integer,
      and nothing catches it. */
  function FinalRadiusAsWritten(raw: Option<string>): (r: Radius)
    ensures !Given(raw) ==> r == RadiusText("2")
    ensures Given(raw) ==> (r == RadiusValueError <==> ParseInt(raw.value).None?)
    ensures r.RadiusText? && Given(raw) && ParseInt(raw.value).value >= 0 ==> r.text == raw.value
  {
    if !Given(raw) then RadiusText("2")
    else match ParseInt(raw.value)
      case None => RadiusValueError
      case Some(v) => if v < 0 then RadiusText("2") else RadiusText(raw.value)
  }

  /** A decimal radius such as `hypr_border=4.5` aborts the update. */
  lemma DecimalRadiusRaises(raw: string)
    requires '.' in raw
    ensures FinalRadiusAsWritten(Some(raw)) == RadiusValueError
  {
    ParseIntRejectsDot(raw);
  }

  /** The final check as evidently intended: anything that is not a
      non-negative integer falls back to 2. */
  function FinalRadius(raw: Option<string>): (r: string)
    ensures ParseInt(r).Some? && ParseInt(r).value >= 0
    ensures Given(raw) && ParseInt(raw.value).Some? && ParseInt(raw.value).value >= 0 ==> r == raw.value
    ensures FinalRadiusAsWritten(raw).RadiusText? ==> r == FinalRadiusAsWritten(raw).text
  {
    ParseIntOfString(2);
    assert IntToString(2) == "2";
    if Given(raw) && ParseInt(raw.value).Some? && ParseInt(raw.value).value >= 0 then raw.value else "2"
  }

  // ---------------------------------------------------------------------
  // re.sub(r"\d+pt", f"{radius}pt", content)
  // ---------------------------------------------------------------------

  /** The length of the run of digits `s` starts with. */
  function DigitRun(s: string): (n: nat)
    ensures n <= |s|
    ensures forall k :: 0 <= k < n ==> IsDigit(s[k])
    ensures n == |s| || !IsDigit(s[n])
  {
    if |s| > 0 && IsDigit(s[0]) then 1 + DigitRun(s[1..]) else 0
  }

  /** Every maximal run of digits directly followed by `pt`, together with
      the `pt`, becomes `radius + "pt"`; the scan resumes after it. Other
      text is copied. */
  function SubstitutePt(s: string, radius: string): (r: string)
    decreases |s|
  {
    if |s| == 0 then ""
    else if IsDigit(s[0]) then
      var n := DigitRun(s);
      if StartsWith(s[n..], "pt") then radius + "pt" + SubstitutePt(s[n + 2..], radius)
      else s[..n] + SubstitutePt(s[n..], radius)
    else [s[0]] + SubstitutePt(s[1..], radius)
  }

  /** `update_border_radius`'s write: the substituted CSS, or `None` when the
      substitution changes nothing and the file is left alone. */
  function UpdatedCss(content: string, radius: string): (r: Option<string>)
    ensures r.Some? ==> r.value != content
    ensures r.None? <==> SubstitutePt(content, radius) == content
  {
    var u := SubstitutePt(content, radius);
    if u == content then None else Some(u)
  }

  lemma {:induction false} DigitRunOf(d: string, y: string)
    requires forall k :: 0 <= k < |d| ==> IsDigit(d[k])
    requires y == "" || !IsDigit(y[0])
    ensures DigitRun(d + y) == |d|
    decreases |d|
  {
    if |d| > 0 {
      assert IsDigit((d + y)[0]);
      assert (d + y)[1..] == d[1..] + y;
      DigitRunOf(d[1..], y);
    } else {
      assert d + y == y;
    }
  }

  lemma NonDigitStep(c: char, x: string, radius: string)
    requires !IsDigit(c)
    ensures SubstitutePt([c] + x, radius) == [c] + SubstitutePt(x, radius)
  {
    assert ([c] + x)[1..] == x;
  }

  lemma DigitsPtStep(d: string, x: string, radius: string)
    requires AllDigits(d)
    ensures SubstitutePt(d + "pt" + x, radius) == radius + "pt" + SubstitutePt(x, radius)
  {
    var s := d + "pt" + x;
    assert s == d + ("pt" + x);
    DigitRunOf(d, "pt" + x);
    assert s[|d|..] == "pt" + x;
    assert s[|d| + 2..] == x;
  }

  lemma DigitsNoPtStep(d: string, y: string, radius: string)
    requires AllDigits(d)
    requires y == "" || !IsDigit(y[0])
    requires !StartsWith(y, "pt")
    ensures SubstitutePt(d + y, radius) == d + SubstitutePt(y, radius)
  {
    DigitRunOf(d, y);
    var s := d + y;
    assert s[|d|..] == y;
    assert s[..|d|] == d;
  }

  /** How the substituted text begins: empty for empty text, otherwise with
      a digit exactly when the original does, and with the same character
      when that is not a digit. */
  lemma SubstituteHead(x: string, radius: string)
    requires AllDigits(radius)
    ensures x == "" ==> SubstitutePt(x, radius) == ""
    ensures x != "" ==> SubstitutePt(x, radius) != ""
                        && (IsDigit(x[0]) <==> IsDigit(SubstitutePt(x, radius)[0]))
                        && (!IsDigit(x[0]) ==> SubstitutePt(x, radius)[0] == x[0])
  {
  }

  /** Text that begins neither with a digit nor with `pt` keeps both
      properties through the substitution. */
  lemma NoPtKept(y: string, radius: string)
    requires AllDigits(radius)
    requires y == "" || !IsDigit(y[0])
    requires !StartsWith(y, "pt")
    ensures SubstitutePt(y, radius) == "" || !IsDigit(SubstitutePt(y, radius)[0])
    ensures !StartsWith(SubstitutePt(y, radius), "pt")
  {
    SubstituteHead(y, radius);
    if |y| > 0 {
      var t := SubstitutePt(y, radius);
      NonDigitStep(y[0], y[1..], radius);
      assert y == [y[0]] + y[1..];
      SubstituteHead(y[1..], radius);
      if |y| >= 2 && y[0] == 'p' {
        assert y[1] != 't';
        assert t[1] == SubstitutePt(y[1..], radius)[0];
      }
    }
  }

  /** Substituting a digit radius twice is substituting it once: the
      written `<radius>pt` is itself a match that maps to itself. */
  lemma {:induction false} SubstituteIdempotent(s: string, radius: string)
    requires AllDigits(radius)
    ensures SubstitutePt(SubstitutePt(s, radius), radius) == SubstitutePt(s, radius)
    decreases |s|
  {
    if |s| > 0 {
      if IsDigit(s[0]) {
        var n := DigitRun(s);
        if StartsWith(s[n..], "pt") {
          var t := SubstitutePt(s[n + 2..], radius);
          SubstituteIdempotent(s[n + 2..], radius);
          DigitsPtStep(radius, t, radius);
        } else {
          var d := s[..n];
          var y := s[n..];
          var t := SubstitutePt(y, radius);
          NoPtKept(y, radius);
          DigitsNoPtStep(d, t, radius);
          SubstituteIdempotent(y, radius);
        }
      } else {
        SubstituteIdempotent(s[1..], radius);
        NonDigitStep(s[0], SubstitutePt(s[1..], radius), radius);
      }
    }
  }

  /** CSS without any `pt` is left unchanged, so nothing is written. */
  lemma {:induction false} SubstituteWithoutPt(s: string, radius: string)
    requires !Contains(s, "pt")
    ensures SubstitutePt(s, radius) == s
    decreases |s|
  {
    if |s| > 0 {
      if IsDigit(s[0]) {
        var n := DigitRun(s);
        NotContainsSuffix(s, n);
        assert !StartsWith(s[n..], "pt") by {
          if n < |s| { assert !Contains(s[n..], "pt"); }
        }
        SubstituteWithoutPt(s[n..], radius);
        assert s[..n] + s[n..] == s;
      } else {
        SubstituteWithoutPt(s[1..], radius);
        assert [s[0]] + s[1..] == s;
      }
    }
  }

  lemma {:induction false} NotContainsSuffix(s: string, n: nat)
    requires n <= |s| && !Contains(s, "pt")
    ensures !Contains(s[n..], "pt")
    decreases n
  {
    if n > 0 {
      NotContainsSuffix(s[1..], n - 1);
      assert s[1..][n - 1..] == s[n..];
    }
  }
}

=== FILE: waybar_state.dfy ===
/**
 * The waybar manager's state store: a flat `KEY=VALUE` text file (staterc)
 * read by first match and rewritten whole, with duplicate keys removed, on
 * every update. The file is a sequence of lines without terminators;
 * `None` stands for a file that does not exist.
 */
module WaybarState {
  import opened Py

  /** The key of a state line: the text before its first `=`, or the whole
      line when it has none (`line.split("=", 1)[0]`). */
  function KeyOf(line: string): string {
    Before(line, '=')
  }

  /** A line that `get_state_value(key)` accepts. */
  predicate Matches(line: string, key: string) {
    StartsWith(line, key + "=")
  }

  /** `get_state_value(key, default)`: the trimmed text after the first `=`
      of the first line that starts with `key=`, or `default` when the file
      is missing or no line matches. */
  function GetStateValue(file: Option<seq<string>>, key: string, default: Option<string>): (r: Option<string>)
    ensures file.None? ==> r == default
    ensures file.Some? && (forall i :: 0 <= i < |file.value| ==> !Matches(file.value[i], key)) ==> r == default
    ensures forall i :: file.Some? && 0 <= i < |file.value| && Matches(file.value[i], key)
                        && (forall j :: 0 <= j < i ==> !Matches(file.value[j], key))
                        ==> r == Some(Strip(After(file.value[i], '=')))
  {
    match file
    case None => default
    case Some(lines) => FirstValue(lines, key, default)
  }

  function FirstValue(lines: seq<string>, key: string, default: Option<string>): (r: Option<string>)
    ensures (forall i :: 0 <= i < |lines| ==> !Matches(lines[i], key)) ==> r == default
    ensures forall i :: 0 <= i < |lines| && Matches(lines[i], key)
                        && (forall j :: 0 <= j < i ==> !Matches(lines[j], key))
                        ==> r == Some(Strip(After(lines[i], '=')))
  {
    if |lines| == 0 then default
    else if Matches(lines[0], key) then Some(Strip(After(lines[0], '=')))
    else
      var r := FirstValue(lines[1..], key, default);
      assert forall i :: 1 <= i < |lines| ==> lines[i] == lines[1..][i - 1];
      r
  }

  /** The loop of `set_state_value` over the existing lines: each line is
      stripped, blank lines are dropped, and a line is kept only when its key
      is not `key` and has not been kept before. */
  function Rewrite(lines: seq<string>, key: string, seen: set<string>): seq<string>
    decreases |lines|
  {
    if |lines| == 0 then []
    else
      var l := Strip(lines[0]);
      if l == "" then Rewrite(lines[1..], key, seen)
      else if KeyOf(l) !in seen && KeyOf(l) != key then [l] + Rewrite(lines[1..], key, seen + {KeyOf(l)})
      else Rewrite(lines[1..], key, seen)
  }

  /** `set_state_value(key, value)`: the lines of the rewritten file. */
  function SetStateValue(file: Option<seq<string>>, key: string, value: string): (r: seq<string>)
    ensures |r| >= 1 && r[|r| - 1] == key + "=" + value
    ensures file.None? ==> r == [key + "=" + value]
  {
    match file
    case None => [key + "=" + value]
    case Some(lines) => Rewrite(lines, key, {}) + [key + "=" + value]
  }

  // ---------------------------------------------------------------------
  // An independent description of the rewrite: the first line of each key,
  // in file order, by a quantified "no earlier line has this key" test.
  // ---------------------------------------------------------------------

  /** Line `j`, stripped, is non-blank and no earlier non-blank line has its key. */
  predicate IsFirstOfKey(lines: seq<string>, j: nat)
    requires j < |lines|
  {
    && Strip(lines[j]) != ""
    && forall i :: 0 <= i < j ==> Strip(lines[i]) == "" || KeyOf(Strip(lines[i])) != KeyOf(Strip(lines[j]))
  }

  /** The first line of every key other than `key` among `lines[..n]`, in order. */
  function FirstLines(lines: seq<string>, key: string, n: nat): seq<string>
    requires n <= |lines|
  {
    if n == 0 then [] else FirstLines(lines, key, n - 1) + FirstPiece(lines, key, n - 1)
  }

  /** Line `j`, stripped, when it is the first of a key other than `key`. */
  function FirstPiece(lines: seq<string>, key: string, j: nat): seq<string>
    requires j < |lines|
  {
    if IsFirstOfKey(lines, j) && KeyOf(Strip(lines[j])) != key then [Strip(lines[j])] else []
  }

  /** The keys kept from `lines[..n]`: what the source's `seen_keys` holds. */
  function SeenKeys(lines: seq<string>, key: string, n: nat): set<string>
    requires n <= |lines|
  {
    if n == 0 then {}
    else
      var l := Strip(lines[n - 1]);
      if l != "" && KeyOf(l) != key then SeenKeys(lines, key, n - 1) + {KeyOf(l)} else SeenKeys(lines, key, n - 1)
  }

  /** A key is seen exactly when some earlier non-blank line other than `key`'s carries it. */
  lemma {:induction false} SeenKeysMembers(lines: seq<string>, key: string, n: nat, k: string)
    requires n <= |lines|
    ensures k in SeenKeys(lines, key, n)
            <==> exists j :: 0 <= j < n && Strip(lines[j]) != "" && KeyOf(Strip(lines[j])) != key && KeyOf(Strip(lines[j])) == k
  {
    if n > 0 {
      SeenKeysMembers(lines, key, n - 1, k);
      var l := Strip(lines[n - 1]);
      if k in SeenKeys(lines, key, n) && !(k in SeenKeys(lines, key, n - 1)) {
        assert Strip(lines[n - 1]) != "" && KeyOf(l) != key && KeyOf(l) == k;
      }
    }
  }

  lemma SeenKeysStep(lines: seq<string>, key: string, n: nat)
    requires n < |lines|
    ensures var l := Strip(lines[n]);
            SeenKeys(lines, key, n + 1)
            == if l != "" && KeyOf(l) != key then SeenKeys(lines, key, n) + {KeyOf(l)} else SeenKeys(lines, key, n)
  {
  }

  lemma FirstOfKeyIffUnseen(lines: seq<string>, key: string, n: nat)
    requires n < |lines|
    requires Strip(lines[n]) != "" && KeyOf(Strip(lines[n])) != key
    ensures IsFirstOfKey(lines, n) <==> KeyOf(Strip(lines[n])) !in SeenKeys(lines, key, n)
  {
    var k := KeyOf(Strip(lines[n]));
    SeenKeysMembers(lines, key, n, k);
    if k in SeenKeys(lines, key, n) {
      var j :| 0 <= j < n && Strip(lines[j]) != "" && KeyOf(Strip(lines[j])) != key && KeyOf(Strip(lines[j])) == k;
      assert !IsFirstOfKey(lines, n);
    }
  }

  /** One unfolding of `Rewrite` on a non-empty list. */
  lemma RewriteCons(lines: seq<string>, key: string, seen: set<string>)
    requires |lines| > 0
    ensures var l := Strip(lines[0]);
            Rewrite(lines, key, seen)
            == if l != "" && KeyOf(l) !in seen && KeyOf(l) != key then [l] + Rewrite(lines[1..], key, seen + {KeyOf(l)})
               else Rewrite(lines[1..], key, seen)
  {
  }

  /** One step of the loop from line `n` emits that line's first piece. */
  lemma RewriteStep(lines: seq<string>, key: string, n: nat)
    requires n < |lines|
    ensures Rewrite(lines[n..], key, SeenKeys(lines, key, n))
            == FirstPiece(lines, key, n) + Rewrite(lines[n + 1..], key, SeenKeys(lines, key, n + 1))
  {
    var l := Strip(lines[n]);
    var seen := SeenKeys(lines, key, n);
    var rest := lines[n..];
    assert rest[0] == lines[n];
    assert rest[1..] == lines[n + 1..];
    RewriteCons(rest, key, seen);
    SeenKeysStep(lines, key, n);
    if l != "" && KeyOf(l) != key {
      FirstOfKeyIffUnseen(lines, key, n);
      if KeyOf(l) in seen {
        assert seen + {KeyOf(l)} == seen;
        assert FirstPiece(lines, key, n) == [];
      } else {
        assert FirstPiece(lines, key, n) == [l];
      }
    } else {
      assert FirstPiece(lines, key, n) == [];
    }
  }

  /** The rewrite of `lines[n..]`, continued from what the loop has seen,
      completes the first lines of `lines[..n]`. */
  predicate SuffixSplit(lines: seq<string>, key: string, n: nat)
    requires n <= |lines|
  {
    FirstLines(lines, key, |lines|) == FirstLines(lines, key, n) + Rewrite(lines[n..], key, SeenKeys(lines, key, n))
  }

  /** The inductive step of `RewriteSuffix`: from line `n + 1` back to `n`. */
  lemma RewriteSuffixStep(lines: seq<string>, key: string, n: nat)
    requires n < |lines|
    requires SuffixSplit(lines, key, n + 1)
    ensures SuffixSplit(lines, key, n)
  {
    var c := Rewrite(lines[n + 1..], key, SeenKeys(lines, key, n + 1));
    RewriteStep(lines, key, n);
    AssocChain(FirstLines(lines, key, |lines|), FirstLines(lines, key, n + 1),
               FirstLines(lines, key, n), FirstPiece(lines, key, n), c,
               Rewrite(lines[n..], key, SeenKeys(lines, key, n)));
  }

  lemma {:induction false} RewriteSuffix(lines: seq<string>, key: string, n: nat)
    requires n <= |lines|
    ensures SuffixSplit(lines, key, n)
    decreases |lines| - n
  {
    if n < |lines| {
      RewriteSuffix(lines, key, n + 1);
      RewriteSuffixStep(lines, key, n);
    } else {
      RewriteSuffixBase(lines, key);
    }
  }

  lemma RewriteSuffixBase(lines: seq<string>, key: string)
    ensures SuffixSplit(lines, key, |lines|)
  {
    assert lines[|lines|..] == [];
  }

  /** The rewrite keeps exactly the first line of every other key, stripped,
      in file order, and drops blank lines. */
  lemma RewriteIsFirstLines(lines: seq<string>, key: string)
    ensures Rewrite(lines, key, {}) == FirstLines(lines, key, |lines|)
  {
    RewriteSuffix(lines, key, 0);
    assert SuffixSplit(lines, key, 0);
    assert lines[0..] == lines;
    assert SeenKeys(lines, key, 0) == {};
  }

  // ---------------------------------------------------------------------
  // Shape of the rewritten file.
  // ---------------------------------------------------------------------

  /** What every kept line looks like: stripped, non-blank, with a key that
      is neither `key` nor one kept earlier; and no two kept lines share a key. */
  predicate CleanLines(xs: seq<string>, key: string, seen: set<string>) {
    && (forall i :: 0 <= i < |xs| ==> xs[i] != "" && Trimmed(xs[i]))
    && (forall i :: 0 <= i < |xs| ==> KeyOf(xs[i]) != key && KeyOf(xs[i]) !in seen)
    && (forall i, j :: 0 <= i < j < |xs| ==> KeyOf(xs[i]) != KeyOf(xs[j]))
  }

  lemma CleanCons(l: string, t: seq<string>, key: string, seen: set<string>)
    requires l != "" && Trimmed(l) && KeyOf(l) != key && KeyOf(l) !in seen
    requires CleanLines(t, key, seen + {KeyOf(l)})
    ensures CleanLines([l] + t, key, seen)
  {
    var xs := [l] + t;
    forall i | 1 <= i < |xs|
      ensures xs[i] == t[i - 1]
    {
    }
  }

  lemma {:induction false} RewriteIsClean(lines: seq<string>, key: string, seen: set<string>)
    ensures CleanLines(Rewrite(lines, key, seen), key, seen)
    decreases |lines|
  {
    if |lines| > 0 {
      var l := Strip(lines[0]);
      StripIsTrimmed(lines[0]);
      if l == "" {
        RewriteIsClean(lines[1..], key, seen);
      } else if KeyOf(l) !in seen && KeyOf(l) != key {
        RewriteIsClean(lines[1..], key, seen + {KeyOf(l)});
        CleanCons(l, Rewrite(lines[1..], key, seen + {KeyOf(l)}), key, seen);
      } else {
        RewriteIsClean(lines[1..], key, seen);
      }
    }
  }

  lemma {:induction false} RewriteOfClean(xs: seq<string>, key: string, seen: set<string>, tail: string)
    requires CleanLines(xs, key, seen)
    requires Strip(tail) == "" || KeyOf(Strip(tail)) == key
    ensures Rewrite(xs + [tail], key, seen) == xs
    decreases |xs|
  {
    if |xs| == 0 {
      assert [tail][1..] == [];
    } else {
      var x := xs[0];
      StripTrimmed(x);
      assert (xs + [tail])[1..] == xs[1..] + [tail];
      RewriteOfClean(xs[1..], key, seen + {KeyOf(x)}, tail);
    }
  }

  /** A prefix `k=` whose key has no `=` fixes the key and the value. */
  lemma KeyAndValueOf(k: string, rest: string)
    requires '=' !in k
    ensures KeyOf(k + "=" + rest) == k
    ensures After(k + "=" + rest, '=') == rest
  {
    BeforeAfterJoined(k, '=', rest);
  }

  lemma StartsWithKeyHasKey(line: string, k: string)
    requires '=' !in k && StartsWith(line, k + "=")
    ensures KeyOf(line) == k
  {
    KeyAndValueOf(k, line[|k| + 1..]);
    assert line == k + "=" + line[|k| + 1..];
  }

  /** Stripping keeps a prefix that neither starts nor ends with space. */
  lemma StripKeepsPrefix(p: string, q: string)
    requires |p| > 0 && !IsSpace(p[0]) && !IsSpace(p[|p| - 1])
    ensures StartsWith(Strip(p + q), p)
  {
    var s := p + q;
    assert LStrip(s) == s;
    var r := RStrip(s);
    RStripPrefix(s);
    assert s[|p| - 1] == p[|p| - 1];
    assert |r| >= |p|;
    assert r[..|p|] == s[..|p|];
  }

  /** After `set_state_value(key, value)` (with `key` free of `=`) the file
      holds exactly one line with key `key`, and it is the last line; the
      other lines are the first occurrence of every other key, in order. */
  lemma SetLeavesOneLinePerKey(file: Option<seq<string>>, key: string, value: string)
    requires '=' !in key
    ensures var r := SetStateValue(file, key, value);
            && KeyOf(r[|r| - 1]) == key
            && (forall i :: 0 <= i < |r| - 1 ==> KeyOf(r[i]) != key)
            && (forall i, j :: 0 <= i < j < |r| ==> KeyOf(r[i]) != KeyOf(r[j]))
            && (file.Some? ==> r[..|r| - 1] == FirstLines(file.value, key, |file.value|))
  {
    KeyAndValueOf(key, value);
    var r := SetStateValue(file, key, value);
    if file.Some? {
      RewriteIsClean(file.value, key, {});
      RewriteIsFirstLines(file.value, key);
      assert r[..|r| - 1] == Rewrite(file.value, key, {});
    }
  }

  /** Applying the same update twice gives the same file as applying it
      once, for a key without `=` that does not start with space. */
  lemma SetIsIdempotent(file: Option<seq<string>>, key: string, value: string)
    requires '=' !in key
    requires |key| == 0 || !IsSpace(key[0])
    ensures SetStateValue(Some(SetStateValue(file, key, value)), key, value) == SetStateValue(file, key, value)
  {
    var line := key + "=" + value;
    var kept := match file case None => [] case Some(lines) => Rewrite(lines, key, {});
    assert SetStateValue(file, key, value) == kept + [line];
    if file.Some? {
      RewriteIsClean(file.value, key, {});
    }
    var p := key + "=";
    assert line == p + value;
    StripKeepsPrefix(p, value);
    StartsWithKeyHasKey(Strip(line), key);
    RewriteOfClean(kept, key, {}, line);
  }

  /** Reading a key back after setting it returns the value set, for a key
      without `=` and a value without surrounding space or line breaks (a
      line break would split the written line in two when the file is read
      again). */
  lemma GetAfterSet(file: Option<seq<string>>, key: string, value: string, default: Option<string>)
    requires '=' !in key
    requires Trimmed(value) && '\n' !in value && '\r' !in value
    ensures GetStateValue(Some(SetStateValue(file, key, value)), key, default) == Some(value)
  {
    var r := SetStateValue(file, key, value);
    SetLeavesOneLinePerKey(file, key, value);
    forall i | 0 <= i < |r| - 1
      ensures !Matches(r[i], key)
    {
      if Matches(r[i], key) {
        StartsWithKeyHasKey(r[i], key);
      }
    }
    KeyAndValueOf(key, value);
    assert Matches(r[|r| - 1], key);
    StripTrimmed(value);
  }

  /** `get_config_value(key, default)` on the hypr config file: each line is
      stripped and loses one leading `export `, then the first line that
      starts with `key=` gives its trimmed text after the first `=`. */
  function GetConfigValue(file: Option<seq<string>>, key: string, default: Option<string>): (r: Option<string>)
    ensures file.None? ==> r == default
    ensures file.Some? ==> r == FirstValue(ConfigLines(file.value), key, default)
  {
    match file
    case None => default
    case Some(lines) => FirstValue(ConfigLines(lines), key, default)
  }

  /** A config line as `get_config_value` compares it. */
  function ConfigLine(line: string): (r: string)
    ensures !StartsWith(Strip(line), "export ") ==> r == Strip(line)
    ensures StartsWith(Strip(line), "export ") ==> Strip(line) == "export " + r
  {
    var l := Strip(line);
    if StartsWith(l, "export ") then l[7..] else l
  }

  function ConfigLines(lines: seq<string>): (r: seq<string>)
    ensures |r| == |lines|
    ensures forall i :: 0 <= i < |lines| ==> r[i] == ConfigLine(lines[i])
  {
    seq(|lines|, i requires 0 <= i < |lines| => ConfigLine(lines[i]))
  }

  /** An `export` prefix does not hide a setting from `get_config_value`:
      the first line that sets `key`, exported or not, gives its value. */
  lemma ExportedSettingIsFound(lines: seq<string>, n: nat, key: string, value: string, default: Option<string>)
    requires '=' !in key && Trimmed(value)
    requires n < |lines| && lines[n] == "export " + key + "=" + value
    requires forall j :: 0 <= j < n ==> !Matches(ConfigLine(lines[j]), key)
    ensures GetConfigValue(Some(lines), key, default) == Some(value)
  {
    var kv := key + "=" + value;
    var line := lines[n];
    assert line == "export " + kv;
    assert line[0] == 'e';
    assert line[|line| - 1] == if |value| > 0 then value[|value| - 1] else '=';
    StripTrimmed(line);
    assert line[..7] == "export ";
    assert line[7..] == kv;
    var cl := ConfigLines(lines);
    assert cl[n] == kv;
    assert kv[..|key| + 1] == key + "=";
    assert Matches(cl[n], key);
    KeyAndValueOf(key, value);
    StripTrimmed(value);
  }

  // ---------------------------------------------------------------------
  // The file as written and read back: `"\n".join(lines) + "\n"`, then
  // iterated line by line.
  // ---------------------------------------------------------------------

  /** The text `set_state_value` writes for its lines. */
  function WrittenText(lines: seq<string>): string {
    Join(lines, "\n") + "\n"
  }

  /** The lines `for line in file` yields from a text, without their `\n`
      terminators; a final `\n` does not start another line. */
  function ReadLines(text: string): (r: seq<string>)
    ensures forall i :: 0 <= i < |r| ==> '\n' !in r[i]
  {
    var parts := Split(text, '\n');
    if parts[|parts| - 1] == "" then parts[..|parts| - 1] else parts
  }

  /** No line of a line list holds a line break. */
  predicate NoBreaks(lines: seq<string>) {
    forall i :: 0 <= i < |lines| ==> '\n' !in lines[i]
  }

  /** Writing lines without line breaks and reading them back gives the same lines. */
  lemma ReadWritten(lines: seq<string>)
    requires |lines| >= 1 && NoBreaks(lines)
    ensures ReadLines(WrittenText(lines)) == lines
  {
    var parts := lines + [""];
    JoinSnoc(lines, "\n");
    assert forall i :: 0 <= i < |parts| ==> '\n' !in parts[i];
    SplitJoin(parts, '\n');
    assert parts[..|lines|] == lines;
  }

  lemma {:induction false} RewriteNoBreaks(lines: seq<string>, key: string, seen: set<string>)
    requires NoBreaks(lines)
    ensures NoBreaks(Rewrite(lines, key, seen))
    decreases |lines|
  {
    if |lines| > 0 {
      var l := Strip(lines[0]);
      StripSubrange(lines[0]);
      assert NoBreaks(lines[1..]);
      RewriteNoBreaks(lines[1..], key, seen);
      RewriteNoBreaks(lines[1..], key, seen + {KeyOf(l)});
    }
  }

  /** For a key and value without line breaks, the file `set_state_value`
      writes reads back as exactly the lines of the model. */
  lemma SetFileIsLineModel(file: Option<seq<string>>, key: string, value: string)
    requires file.Some? ==> NoBreaks(file.value)
    requires '\n' !in key && '\n' !in value
    ensures ReadLines(WrittenText(SetStateValue(file, key, value))) == SetStateValue(file, key, value)
  {
    var line := key + "=" + value;
    assert '\n' !in line;
    var kept := match file case None => [] case Some(lines) => Rewrite(lines, key, {});
    if file.Some? {
      RewriteNoBreaks(file.value, key, {});
    }
    assert SetStateValue(file, key, value) == kept + [line];
    ReadWritten(kept + [line]);
  }

  /** `SetLeavesOneLinePerKey` for the file as written: re-read, it holds
      one line with key `key`, the last, and no two lines share a key. */
  lemma SetFileLeavesOneLinePerKey(file: Option<seq<string>>, key: string, value: string)
    requires file.Some? ==> NoBreaks(file.value)
    requires '=' !in key && '\n' !in key && '\n' !in value
    ensures var w := ReadLines(WrittenText(SetStateValue(file, key, value)));
            && |w| >= 1
            && KeyOf(w[|w| - 1]) == key
            && (forall i :: 0 <= i < |w| - 1 ==> KeyOf(w[i]) != key)
            && (forall i, j :: 0 <= i < j < |w| ==> KeyOf(w[i]) != KeyOf(w[j]))
  {
    SetFileIsLineModel(file, key, value);
    SetLeavesOneLinePerKey(file, key, value);
  }

  /** `SetIsIdempotent` for the file as written: updating the re-read file
      with the same key and value writes the same text again. */
  lemma SetFileIsIdempotent(file: Option<seq<string>>, key: string, value: string)
    requires file.Some? ==> NoBreaks(file.value)
    requires '=' !in key && '\n' !in key && '\n' !in value
    requires |key| == 0 || !IsSpace(key[0])
    ensures var w := ReadLines(WrittenText(SetStateValue(file, key, value)));
            WrittenText(SetStateValue(Some(w), key, value)) == WrittenText(SetStateValue(file, key, value))
  {
    SetFileIsLineModel(file, key, value);
    SetIsIdempotent(file, key, value);
  }

  /** The state file after `set_state_value`, as the next reader sees it. */
  function StoredLines(file: Option<seq<string>>, key: string, value: string): (r: seq<string>)
    ensures NoBreaks(r)
  {
    ReadLines(WrittenText(SetStateValue(file, key, value)))
  }

  // ---------------------------------------------------------------------
  // Updates of other keys keep a key's line.
  // ---------------------------------------------------------------------

  /** Line `p` is the one line of `key`: trimmed, starting with `key=`, and
      no other line, stripped, has that key. */
  predicate KeyLineAt(lines: seq<string>, key: string, p: nat) {
    && '=' !in key
    && p < |lines| && Trimmed(lines[p]) && Matches(lines[p], key)
    && forall i :: 0 <= i < |lines| && i != p ==> KeyOf(Strip(lines[i])) != key
  }

  lemma StripTwice(x: string)
    ensures Strip(Strip(x)) == Strip(x)
  {
    StripIsTrimmed(x);
    StripTrimmed(Strip(x));
  }

  lemma {:induction false} RewriteAvoidsKey(xs: seq<string>, key2: string, seen: set<string>, key: string)
    requires forall j :: 0 <= j < |xs| ==> KeyOf(Strip(xs[j])) != key
    ensures var r := Rewrite(xs, key2, seen);
            forall i :: 0 <= i < |r| ==> KeyOf(Strip(r[i])) != key
    decreases |xs|
  {
    if |xs| > 0 {
      var l := Strip(xs[0]);
      var rest := xs[1..];
      RewriteCons(xs, key2, seen);
      StripTwice(xs[0]);
      assert forall j :: 0 <= j < |rest| ==> rest[j] == xs[j + 1];
      if l != "" && KeyOf(l) !in seen && KeyOf(l) != key2 {
        RewriteAvoidsKey(rest, key2, seen + {KeyOf(l)}, key);
        var t := Rewrite(rest, key2, seen + {KeyOf(l)});
        forall i | 0 <= i < |[l] + t|
          ensures KeyOf(Strip(([l] + t)[i])) != key
        {
          if i > 0 {
            assert ([l] + t)[i] == t[i - 1];
          }
        }
      } else {
        RewriteAvoidsKey(rest, key2, seen, key);
      }
    }
  }

  lemma KeyLineTail(lines: seq<string>, key: string, p: nat)
    requires KeyLineAt(lines, key, p) && p > 0
    ensures KeyLineAt(lines[1..], key, p - 1) && KeyOf(Strip(lines[0])) != key
  {
    var rest := lines[1..];
    assert forall j :: 0 <= j < |rest| ==> rest[j] == lines[j + 1];
  }

  lemma KeyLineConsHead(l: string, t: seq<string>, key: string)
    requires '=' !in key && Trimmed(l) && Matches(l, key)
    requires forall i :: 0 <= i < |t| ==> KeyOf(Strip(t[i])) != key
    ensures KeyLineAt([l] + t, key, 0)
  {
    assert forall i :: 1 <= i < |[l] + t| ==> ([l] + t)[i] == t[i - 1];
  }

  lemma KeyLineConsTail(l: string, t: seq<string>, key: string, q: nat)
    requires KeyLineAt(t, key, q) && KeyOf(Strip(l)) != key
    ensures KeyLineAt([l] + t, key, q + 1) && ([l] + t)[q + 1] == t[q]
  {
    assert forall i :: 1 <= i < |[l] + t| ==> ([l] + t)[i] == t[i - 1];
  }

  /** The rewrite for `key2` keeps the one line of another key, as the one line of that key. */
  lemma {:induction false} RewriteKeepsKeyLine(lines: seq<string>, key: string, key2: string, seen: set<string>, p: nat)
    returns (q: nat)
    requires KeyLineAt(lines, key, p) && key != key2 && key !in seen
    ensures KeyLineAt(Rewrite(lines, key2, seen), key, q) && Rewrite(lines, key2, seen)[q] == lines[p]
    decreases |lines|
  {
    var rest := lines[1..];
    var l := Strip(lines[0]);
    RewriteCons(lines, key2, seen);
    if p == 0 {
      StripTrimmed(lines[0]);
      StartsWithKeyHasKey(lines[0], key);
      assert l == lines[0] && l != "";
      assert forall j :: 0 <= j < |rest| ==> KeyOf(Strip(rest[j])) != key by {
        assert forall j :: 0 <= j < |rest| ==> rest[j] == lines[j + 1];
      }
      RewriteAvoidsKey(rest, key2, seen + {key}, key);
      KeyLineConsHead(l, Rewrite(rest, key2, seen + {key}), key);
      q := 0;
    } else {
      KeyLineTail(lines, key, p);
      if l != "" && KeyOf(l) !in seen && KeyOf(l) != key2 {
        var q1 := RewriteKeepsKeyLine(rest, key, key2, seen + {KeyOf(l)}, p - 1);
        StripTwice(lines[0]);
        KeyLineConsTail(l, Rewrite(rest, key2, seen + {KeyOf(l)}), key, q1);
        q := q1 + 1;
      } else {
        q := RewriteKeepsKeyLine(rest, key, key2, seen, p - 1);
      }
    }
  }

  /** `set_state_value(key2, value2)` keeps the one line of any other key. */
  lemma SetKeepsKeyLine(lines: seq<string>, key: string, p: nat, key2: string, value2: string) returns (q: nat)
    requires KeyLineAt(lines, key, p) && key != key2
    requires '=' !in key2 && (|key2| == 0 || !IsSpace(key2[0]))
    ensures var r := SetStateValue(Some(lines), key2, value2);
            KeyLineAt(r, key, q) && r[q] == lines[p]
  {
    q := RewriteKeepsKeyLine(lines, key, key2, {}, p);
    var kv := key2 + "=" + value2;
    StripKeepsPrefix(key2 + "=", value2);
    StartsWithKeyHasKey(Strip(kv), key2);
  }

  /** The line just written by `set_state_value(key, value)` is the one line of `key`. */
  lemma SetGivesKeyLine(file: Option<seq<string>>, key: string, value: string)
    requires '=' !in key && |key| > 0 && !IsSpace(key[0]) && Trimmed(value)
    ensures var r := SetStateValue(file, key, value);
            KeyLineAt(r, key, |r| - 1) && r[|r| - 1] == key + "=" + value
  {
    var r := SetStateValue(file, key, value);
    SetLeavesOneLinePerKey(file, key, value);
    if file.Some? {
      RewriteIsClean(file.value, key, {});
      assert r[..|r| - 1] == Rewrite(file.value, key, {});
      forall i | 0 <= i < |r| - 1
        ensures KeyOf(Strip(r[i])) != key
      {
        assert r[i] == Rewrite(file.value, key, {})[i];
        StripTrimmed(r[i]);
      }
    }
    var kv := key + "=" + value;
    assert kv[0] == key[0];
    assert kv[|kv| - 1] == if |value| > 0 then value[|value| - 1] else '=';
    assert kv[..|key| + 1] == key + "=";
  }

  /** `SetKeepsKeyLine` for the file as written and read back. */
  lemma StoredKeepsKeyLine(lines: seq<string>, key: string, p: nat, key2: string, value2: string) returns (q: nat)
    requires KeyLineAt(lines, key, p) && key != key2 && NoBreaks(lines)
    requires '=' !in key2 && '\n' !in key2 && (|key2| == 0 || !IsSpace(key2[0])) && '\n' !in value2
    ensures var r := StoredLines(Some(lines), key2, value2);
            KeyLineAt(r, key, q) && r[q] == lines[p]
  {
    SetFileIsLineModel(Some(lines), key2, value2);
    q := SetKeepsKeyLine(lines, key, p, key2, value2);
  }

  /** `SetGivesKeyLine` for the file as written and read back. */
  lemma StoredGivesKeyLine(file: Option<seq<string>>, key: string, value: string)
    requires file.Some? ==> NoBreaks(file.value)
    requires '=' !in key && '\n' !in key && |key| > 0 && !IsSpace(key[0]) && Trimmed(value) && '\n' !in value
    ensures var r := StoredLines(file, key, value);
            KeyLineAt(r, key, |r| - 1) && r[|r| - 1] == key + "=" + value
  {
    SetFileIsLineModel(file, key, value);
    SetGivesKeyLine(file, key, value);
  }

  /** The line `key=value` gives `get_state_value` the value, for a trimmed value. */
  lemma GetKeyValueLine(lines: seq<string>, key: string, value: string, p: nat, default: Option<string>)
    requires KeyLineAt(lines, key, p) && lines[p] == key + "=" + value
    requires |key| > 0 && !IsSpace(key[0]) && Trimmed(value)
    ensures GetStateValue(Some(lines), key, default) == Some(value)
  {
    GetKeyLine(lines, key, p, default);
    KeyAndValueOf(key, value);
    StripTrimmed(value);
  }

  /** A line that `get_state_value` accepts for `key` still has that key once stripped. */
  lemma MatchesKeepsKey(line: string, key: string)
    requires '=' !in key && |key| > 0 && !IsSpace(key[0]) && Matches(line, key)
    ensures KeyOf(Strip(line)) == key
  {
    var rest := line[|key| + 1..];
    assert line == key + "=" + rest;
    StripKeepsPrefix(key + "=", rest);
    StartsWithKeyHasKey(Strip(line), key);
  }

  /** The one line of a key gives `get_state_value` its value. */
  lemma GetKeyLine(lines: seq<string>, key: string, p: nat, default: Option<string>)
    requires KeyLineAt(lines, key, p) && |key| > 0 && !IsSpace(key[0])
    ensures GetStateValue(Some(lines), key, default) == Some(Strip(After(lines[p], '=')))
  {
    forall i | 0 <= i < p
      ensures !Matches(lines[i], key)
    {
      if Matches(lines[i], key) {
        MatchesKeepsKey(lines[i], key);
      }
    }
    assert Matches(lines[p], key);
  }

  /** A value holding a line break is written as two lines: read back, the
      second is a line of its own. */
  lemma ValueWithBreakSplitsLine()
    ensures ReadLines(WrittenText(SetStateValue(None, "k", "a\nb"))) == ["k=a", "b"]
  {
    var x := "k" + "=" + "a\nb";
    assert SetStateValue(None, "k", "a\nb") == [x];
    assert x == "k=a\nb";
    var t := "k=a\nb\n";
    assert WrittenText([x]) == t;
    SplitAtFirst(t, '\n', 3);
    assert t[..3] == "k=a" && t[4..] == "b\n";
    SplitAtFirst("b\n", '\n', 1);
    assert "b\n"[..1] == "b" && "b\n"[2..] == "";
    assert Split("", '\n') == [""];
  }

  /** Updating that re-read file with the same key and value keeps the
      stray second line, so the update is not idempotent on the file. */
  lemma ValueWithBreakNotIdempotent()
    ensures SetStateValue(Some(["k=a", "b"]), "k", "a\nb") == ["b", "k=a\nb"]
  {
    KeyAndValueOf("k", "a");
    assert "k" + "=" + "a" == "k=a";
    StripTrimmed("k=a");
    StripTrimmed("b");
    assert CharIndex("b", '=') == None;
    assert KeyOf("b") == "b";
    var lines := ["k=a", "b"];
    RewriteCons(lines, "k", {});
    assert Rewrite(lines, "k", {}) == Rewrite(["b"], "k", {});
    RewriteCons(["b"], "k", {});
    assert Rewrite(["b"], "k", {}) == ["b"];
    var x := "k" + "=" + "a\nb";
    assert x == "k=a\nb";
  }
}

=== FILE: waybar_watch.dfy ===
/**
 * The decision logic of the waybar config watcher: which file events
 * matter, how polling turns modification times into events, when a theme
 * update lock is considered held, how pending changes are batched across
 * ticks, and whether a change needs a full restart or a hot reload. File
 * listings, modification times, the lock file's contents and process
 * probes are inputs.
 */
module WaybarWatch {
  import opened Py
  import opened Paths

  // ---------------------------------------------------------------------
  // Event relevance (`_is_relevant_waybar_path`, `filter_waybar_events`)
  // ---------------------------------------------------------------------

  const WatchedSuffixes: set<string> := {".css", ".json", ".jsonc"}

  /** A path whose changes the watcher reacts to. `suffix.lower()` is taken
      on ASCII letters only; no other code point lower-cases into one of the
      letters of the three watched suffixes, so membership is unaffected. */
  predicate IsRelevant(p: string) {
    var n := Name(p);
    && n != ""
    && !StartsWith(n, ".")
    && !EndsWith(n, "~")
    && !EndsWith(n, ".swp")
    && LowerAscii(Suffix(p)) in WatchedSuffixes
  }

  /** Relevance depends on the name and suffix only, which normalising keeps. */
  lemma RelevantNormalize(p: string)
    ensures IsRelevant(Normalize(p)) == IsRelevant(p)
  {
    NameOfNormalize(p);
  }

  /** The images under `f` of the elements of `xs` that `keep` accepts, in order. */
  function FilterMap(xs: seq<string>, keep: string -> bool, f: string -> string): (r: seq<string>)
    ensures |r| <= |xs|
  {
    if |xs| == 0 then []
    else
      var rest := FilterMap(xs[1..], keep, f);
      if keep(xs[0]) then [f(xs[0])] + rest else rest
  }

  lemma {:induction false} FilterMapAppend(a: seq<string>, b: seq<string>, keep: string -> bool, f: string -> string)
    ensures FilterMap(a + b, keep, f) == FilterMap(a, keep, f) + FilterMap(b, keep, f)
  {
    if |a| > 0 {
      assert (a + b)[1..] == a[1..] + b;
      FilterMapAppend(a[1..], b, keep, f);
    } else {
      assert a + b == b;
    }
  }

  lemma {:induction false} FilterMapKeeps(xs: seq<string>, keep: string -> bool, f: string -> string)
    requires forall x :: keep(x) ==> keep(f(x))
    ensures forall y :: y in FilterMap(xs, keep, f) ==> keep(y)
  {
    if |xs| > 0 {
      FilterMapKeeps(xs[1..], keep, f);
    }
  }

  lemma {:induction false} FilterMapTwice(xs: seq<string>, keep: string -> bool, f: string -> string)
    requires forall x :: keep(x) ==> keep(f(x)) && f(f(x)) == f(x)
    ensures FilterMap(FilterMap(xs, keep, f), keep, f) == FilterMap(xs, keep, f)
  {
    if |xs| > 0 {
      FilterMapTwice(xs[1..], keep, f);
      var r := FilterMap(xs[1..], keep, f);
      if keep(xs[0]) {
        assert ([f(xs[0])] + r)[1..] == r;
      }
    }
  }

  /** `filter_waybar_events`: the normalised text of every relevant event. */
  function FilterEvents(events: seq<string>): (r: seq<string>)
    ensures |r| <= |events|
  {
    FilterMap(events, IsRelevant, Normalize)
  }

  /** Everything that survives filtering is itself relevant. */
  lemma FilterEventsRelevant(events: seq<string>)
    ensures forall x :: x in FilterEvents(events) ==> IsRelevant(x)
  {
    forall x | IsRelevant(x)
      ensures IsRelevant(Normalize(x))
    {
      RelevantNormalize(x);
    }
    FilterMapKeeps(events, IsRelevant, Normalize);
  }

  /** Filtering a batch is filtering its parts: surviving events keep their
      relative order. */
  lemma FilterEventsAppend(a: seq<string>, b: seq<string>)
    ensures FilterEvents(a + b) == FilterEvents(a) + FilterEvents(b)
  {
    FilterMapAppend(a, b, IsRelevant, Normalize);
  }

  /** A single event survives iff it is relevant, and then as its normal form. */
  lemma FilterEventsSingle(e: string)
    ensures FilterEvents([e]) == if IsRelevant(e) then [Normalize(e)] else []
  {
    assert [e][1..] == [];
  }

  /** Filtering is stable: a filtered batch passes through unchanged. */
  lemma FilterEventsIdempotent(events: seq<string>)
    ensures FilterEvents(FilterEvents(events)) == FilterEvents(events)
  {
    forall x | IsRelevant(x)
      ensures IsRelevant(Normalize(x)) && Normalize(Normalize(x)) == Normalize(x)
    {
      RelevantNormalize(x);
      NormalizeIdempotent(x);
    }
    FilterMapTwice(events, IsRelevant, Normalize);
  }

  // ---------------------------------------------------------------------
  // Polling (`poll_waybar_events`)
  // ---------------------------------------------------------------------

  /** One directory entry as the poll sees it: its path text, whether it is
      a regular file, and its modification time (`None` when it vanished
      before `stat`). */
  datatype DirEntry = DirEntry(path: string, isFile: bool, mtime: Option<int>)

  /** An entry the poll compares against its record. */
  predicate Tracked(e: DirEntry) {
    e.isFile && IsRelevant(e.path) && e.mtime.Some?
  }

  /** The tracked entries as (path, time) pairs, in listing order. */
  function TrackedTimes(entries: seq<DirEntry>): (r: seq<(string, int)>)
    ensures |r| <= |entries|
  {
    if |entries| == 0 then []
    else
      var rest := TrackedTimes(entries[1..]);
      if Tracked(entries[0]) then [(entries[0].path, entries[0].mtime.value)] + rest else rest
  }

  /** Exactly the tracked entries make it into the pairs. */
  lemma {:induction false} TrackedTimesMembers(entries: seq<DirEntry>)
    ensures forall i :: 0 <= i < |entries| && Tracked(entries[i]) ==> (entries[i].path, entries[i].mtime.value) in TrackedTimes(entries)
    ensures forall t :: t in TrackedTimes(entries) ==> exists i :: 0 <= i < |entries| && Tracked(entries[i]) && t == (entries[i].path, entries[i].mtime.value)
  {
    if |entries| > 0 {
      TrackedTimesMembers(entries[1..]);
      assert forall i :: 1 <= i < |entries| ==> entries[i] == entries[1..][i - 1];
    }
  }

  /** Some pair has path `k`. */
  predicate Listed(times: seq<(string, int)>, k: string) {
    exists i :: 0 <= i < |times| && times[i].0 == k
  }

  /** The scan over the tracked entries: a first sighting is recorded
      without an event, a changed time is recorded and reported. */
  function PollScan(times: seq<(string, int)>, seen: map<string, int>): (r: (seq<string>, map<string, int>))
    ensures forall k :: k in r.1 ==> k in seen || Listed(times, k)
    ensures forall x :: x in r.0 ==> Listed(times, x)
  {
    if |times| == 0 then ([], seen)
    else
      var (p, t) := times[0];
      assert forall i :: 1 <= i < |times| ==> times[i] == times[1..][i - 1];
      if p !in seen then PollScan(times[1..], seen[p := t])
      else if t != seen[p] then
        var r := PollScan(times[1..], seen[p := t]);
        ([p] + r.0, r.1)
      else PollScan(times[1..], seen)
  }

  /** `poll_waybar_events(directories, last_mtimes)` over the entries listed
      in the watched directories: the events and the new record; records of
      paths that no longer exist are dropped. */
  function Poll(entries: seq<DirEntry>, last: map<string, int>, existing: set<string>): (r: (seq<string>, map<string, int>))
    ensures forall k :: k in r.1 ==> k in existing
    ensures forall k :: k in r.1 ==> k in last || Listed(TrackedTimes(entries), k)
    ensures forall x :: x in r.0 ==> Listed(TrackedTimes(entries), x)
  {
    var times := TrackedTimes(entries);
    var r := PollScan(times, last);
    (r.0, map k | k in r.1 && k in existing :: r.1[k])
  }

  predicate DistinctPaths(times: seq<(string, int)>) {
    forall i, j :: 0 <= i < j < |times| ==> times[i].0 != times[j].0
  }

  /** With distinct paths: a path raises an event iff it was recorded with a
      different time; every scanned path ends up recorded with its time;
      other records are untouched. */
  lemma {:induction false} PollScanFacts(times: seq<(string, int)>, seen: map<string, int>)
    requires DistinctPaths(times)
    ensures var r := PollScan(times, seen);
            forall i :: 0 <= i < |times| ==>
              && (times[i].0 in r.0 <==> times[i].0 in seen && seen[times[i].0] != times[i].1)
              && times[i].0 in r.1 && r.1[times[i].0] == times[i].1
    ensures var r := PollScan(times, seen);
            forall k :: k in seen && (forall i :: 0 <= i < |times| ==> times[i].0 != k)
              ==> k in r.1 && r.1[k] == seen[k] && k !in r.0
  {
    if |times| > 0 {
      var (p, t) := times[0];
      var rest := times[1..];
      assert DistinctPaths(rest);
      assert forall i :: 1 <= i < |times| ==> times[i] == rest[i - 1];
      assert forall i :: 0 <= i < |rest| ==> rest[i].0 != p;
      var seen' := if p !in seen || t != seen[p] then seen[p := t] else seen;
      PollScanFacts(rest, seen');
      var r' := PollScan(rest, seen');
      assert PollScan(times, seen).1 == r'.1;
    }
  }

  /** A scan over paths already recorded with their current times reports
      nothing and changes nothing. */
  lemma {:induction false} PollScanUnchanged(times: seq<(string, int)>, seen: map<string, int>)
    requires forall i :: 0 <= i < |times| ==> times[i].0 in seen && seen[times[i].0] == times[i].1
    ensures PollScan(times, seen) == ([], seen)
  {
    if |times| > 0 {
      assert forall i :: 1 <= i < |times| ==> times[i] == times[1..][i - 1];
      PollScanUnchanged(times[1..], seen);
    }
  }

  /** A poll with the record the previous poll left, over the same unchanged
      listing, reports nothing. */
  lemma PollQuietWhenUnchanged(entries: seq<DirEntry>, last: map<string, int>, existing: set<string>)
    requires DistinctPaths(TrackedTimes(entries))
    requires forall i :: 0 <= i < |TrackedTimes(entries)| ==> TrackedTimes(entries)[i].0 in existing
    ensures Poll(entries, Poll(entries, last, existing).1, existing).0 == []
  {
    var times := TrackedTimes(entries);
    PollScanFacts(times, last);
    PollScanUnchanged(times, Poll(entries, last, existing).1);
  }

  // ---------------------------------------------------------------------
  // Theme update lock (`read_theme_lock_meta`, `pid_is_active`,
  // `theme_update_lock_active`)
  // ---------------------------------------------------------------------

  datatype LockMeta = LockMeta(pid: Option<int>, cmd: Option<string>)

  /** The key and value of a metadata line, when it has one: stripped, not
      blank, not a `#` comment, and holding an `=`. */
  function LockEntry(raw: string): Option<(string, string)> {
    var l := Strip(raw);
    if l == "" || StartsWith(l, "#") || '=' !in l then None
    else Some((Strip(Before(l, '=')), Strip(After(l, '='))))
  }

  /** The pid a line sets: a `pid` entry whose value `int()` accepts. */
  function PidOf(raw: string): Option<int> {
    match LockEntry(raw)
    case Some((k, v)) => if k == "pid" then ParseInt(v) else None
    case None => None
  }

  /** The command hint a line sets. */
  function CmdOf(raw: string): Option<string> {
    match LockEntry(raw)
    case Some((k, v)) => if k == "cmd" then Some(v) else None
    case None => None
  }

  /** What one line contributes: the pid and the command hint it sets. */
  function LineMeta(raw: string): LockMeta {
    LockMeta(PidOf(raw), CmdOf(raw))
  }

  /** The loop of `read_theme_lock_meta` over the lines' contributions,
      from the metadata read so far: a later setting overrides an earlier one. */
  function ScanLock(items: seq<LockMeta>, acc: LockMeta): LockMeta
    decreases |items|
  {
    if |items| == 0 then acc
    else
      var it := items[0];
      ScanLock(items[1..], LockMeta(if it.pid.Some? then it.pid else acc.pid,
                                    if it.cmd.Some? then it.cmd else acc.cmd))
  }

  /** Each line's contribution, in file order. */
  function LockItems(lines: seq<string>): (r: seq<LockMeta>)
    ensures |r| == |lines|
    ensures forall i :: 0 <= i < |lines| ==> r[i] == LineMeta(lines[i])
  {
    seq(|lines|, i requires 0 <= i < |lines| => LineMeta(lines[i]))
  }

  /** `read_theme_lock_meta(lock_path)`; a missing file gives no metadata. */
  function ReadThemeLockMeta(file: Option<seq<string>>): (r: LockMeta)
    ensures file.None? ==> r == LockMeta(None, None)
  {
    match file
    case None => LockMeta(None, None)
    case Some(lines) => ScanLock(LockItems(lines), LockMeta(None, None))
  }

  /** The last setting wins: the pid read is the one on the last line that
      sets a valid pid (an invalid value leaves the earlier one in place),
      and likewise for the command hint. */
  lemma {:induction false} ScanLockLastWins(items: seq<LockMeta>, acc: LockMeta)
    ensures (forall j :: 0 <= j < |items| ==> items[j].pid.None?) ==> ScanLock(items, acc).pid == acc.pid
    ensures forall j :: 0 <= j < |items| && items[j].pid.Some? && (forall k :: j < k < |items| ==> items[k].pid.None?)
                        ==> ScanLock(items, acc).pid == items[j].pid
    ensures (forall j :: 0 <= j < |items| ==> items[j].cmd.None?) ==> ScanLock(items, acc).cmd == acc.cmd
    ensures forall j :: 0 <= j < |items| && items[j].cmd.Some? && (forall k :: j < k < |items| ==> items[k].cmd.None?)
                        ==> ScanLock(items, acc).cmd == items[j].cmd
    decreases |items|
  {
    if |items| > 0 {
      var it := items[0];
      ScanLockLastWins(items[1..], LockMeta(if it.pid.Some? then it.pid else acc.pid,
                                            if it.cmd.Some? then it.cmd else acc.cmd));
      assert forall j :: 1 <= j < |items| ==> items[j] == items[1..][j - 1];
    }
  }

  /** A `key=value` line with a clean key and value yields exactly them. */
  lemma LockEntryOf(k: string, v: string)
    requires |k| > 0 && Trimmed(k) && '=' !in k && k[0] != '#'
    requires |v| > 0 && Trimmed(v)
    ensures LockEntry(k + "=" + v) == Some((k, v))
  {
    var l := k + "=" + v;
    assert l[0] == k[0] && l[|l| - 1] == v[|v| - 1];
    StripTrimmed(l);
    assert l != "" && !StartsWith(l, "#") && l[|k|] == '=';
    BeforeAfterJoined(k, '=', v);
    StripTrimmed(k);
    StripTrimmed(v);
  }

  /** The line the lock's writer produces for a pid sets that pid. */
  lemma PidLineSetsPid(n: int)
    ensures LineMeta("pid=" + IntToString(n)) == LockMeta(Some(n), None)
  {
    var d := IntToString(n);
    var l := "pid=" + d;
    assert l == "pid" + "=" + d;
    LockEntryOf("pid", d);
    assert LockEntry(l) == Some(("pid", d));
    ParseIntOfString(n);
    assert PidOf(l) == Some(n);
    assert "pid" != "cmd" by { assert "pid"[0] != "cmd"[0]; }
    assert CmdOf(l) == None;
  }

  /** What probing the pid with signal 0 reported. */
  datatype Probe = Alive | NoSuchProcess | PermissionDenied

  /** `pid_is_active(pid, hint)`; `cmdline` is the process's command line,
      "" when unreadable. */
  function PidIsActive(probe: Probe, hint: string, cmdline: string): (r: bool)
    ensures probe == NoSuchProcess ==> !r
    ensures probe == PermissionDenied ==> r
    ensures probe == Alive ==> (r <==> hint == "" || cmdline == "" || Contains(cmdline, hint))
  {
    match probe
    case NoSuchProcess => false
    case PermissionDenied => true
    case Alive => !(hint != "" && cmdline != "" && !Contains(cmdline, hint))
  }

  const DefaultLockHint: string := "color.set.sh"

  /** `cmd_hint or "color.set.sh"`. */
  function LockHint(cmd: Option<string>): (r: string)
    ensures r != ""
  {
    if cmd.Some? && cmd.value != "" then cmd.value else DefaultLockHint
  }

  /** Whether the lock counts as held, and whether it is deleted as stale. */
  datatype LockVerdict = LockVerdict(active: bool, remove: bool)

  /** A pid that `if pid:` accepts. */
  predicate HasPid(meta: LockMeta) {
    meta.pid.Some? && meta.pid.value != 0
  }

  /** `theme_update_lock_active(lock_path, ttl)`. `age` is the lock file's
      age at the time of the check, `None` when it vanished before `stat`. */
  function ThemeUpdateLockActive(lockExists: bool, meta: LockMeta, probe: Probe, cmdline: string,
                                 ttl: real, age: Option<real>): (r: LockVerdict)
    ensures r.remove ==> !r.active && lockExists
    ensures !lockExists ==> !r.active
    ensures lockExists && HasPid(meta) ==>
              (r.active <==> probe == PermissionDenied || (probe == Alive && (cmdline == "" || Contains(cmdline, LockHint(meta.cmd)))))
    ensures lockExists && HasPid(meta) ==> r.remove == !r.active
    ensures lockExists && !HasPid(meta) ==> (r.active <==> ttl <= 0.0 || (age.Some? && age.value <= ttl))
    ensures lockExists && !HasPid(meta) ==> (r.remove <==> ttl > 0.0 && age.Some? && age.value > ttl)
  {
    if !lockExists then LockVerdict(false, false)
    else if HasPid(meta) then
      if PidIsActive(probe, LockHint(meta.cmd), cmdline) then LockVerdict(true, false)
      else LockVerdict(false, true)
    else if ttl <= 0.0 then LockVerdict(true, false)
    else match age
      case None => LockVerdict(false, false)
      case Some(a) => if a <= ttl then LockVerdict(true, false) else LockVerdict(false, true)
  }

  /** A lock that names a process is judged by the process alone: its age
      and the ttl do not matter. */
  lemma LockWithPidIgnoresAge(meta: LockMeta, probe: Probe, cmdline: string,
                              ttl1: real, age1: Option<real>, ttl2: real, age2: Option<real>)
    requires HasPid(meta)
    ensures ThemeUpdateLockActive(true, meta, probe, cmdline, ttl1, age1)
            == ThemeUpdateLockActive(true, meta, probe, cmdline, ttl2, age2)
  {
  }

  // ---------------------------------------------------------------------
  // Reload classification (`smart_reload_waybar`)
  // ---------------------------------------------------------------------

  const StructuralNames: set<string> := {"config.jsonc", "includes.json"}

  /** A changed file whose name calls for a full restart. */
  predicate IsStructural(f: string) {
    Name(f) in StructuralNames
  }

  datatype ReloadAction = StartBar | RestartBar | HotReload

  /** `smart_reload_waybar(changed)`: `running` says whether a bar process
      was found, `signalDelivered` whether SIGUSR2 reached it (a vanished
      process makes the source start a new bar instead). */
  function SmartReload(changed: seq<string>, running: bool, signalDelivered: bool): (r: ReloadAction)
    ensures !running ==> r == StartBar
    ensures running ==> (r == RestartBar <==> exists f :: f in changed && IsStructural(f))
    ensures running && r != RestartBar ==> (r == HotReload <==> signalDelivered)
  {
    var needsRestart := exists f :: f in changed && IsStructural(f);
    if !running then StartBar
    else if needsRestart then RestartBar
    else if signalDelivered then HotReload
    else StartBar
  }

  /** `list(dict.fromkeys(xs))` continued from the keys in `seen`. */
  function DedupFrom(xs: seq<string>, seen: set<string>): (r: seq<string>)
    ensures forall x :: x in r <==> x in xs && x !in seen
    ensures forall i, j :: 0 <= i < j < |r| ==> r[i] != r[j]
    decreases |xs|
  {
    if |xs| == 0 then []
    else if xs[0] in seen then DedupFrom(xs[1..], seen)
    else
      var rest := DedupFrom(xs[1..], seen + {xs[0]});
      assert forall x :: x in xs <==> x == xs[0] || x in xs[1..];
      [xs[0]] + rest
  }

  /** `list(dict.fromkeys(xs))`: each path once, at its first position. */
  function Dedup(xs: seq<string>): (r: seq<string>)
    ensures forall x :: x in r <==> x in xs
    ensures forall i, j :: 0 <= i < j < |r| ==> r[i] != r[j]
  {
    DedupFrom(xs, {})
  }

  /** Removing repeated paths does not change the reload decision. */
  lemma SmartReloadIgnoresRepeats(changed: seq<string>, running: bool, signalDelivered: bool)
    ensures SmartReload(Dedup(changed), running, signalDelivered) == SmartReload(changed, running, signalDelivered)
  {
    var d := Dedup(changed);
    assert (exists f :: f in d && IsStructural(f)) <==> (exists f :: f in changed && IsStructural(f));
  }

  // ---------------------------------------------------------------------
  // The watch loop tick (`watch_waybar`)
  // ---------------------------------------------------------------------

  /** What the loop carries from one tick to the next. */
  datatype WatchState = WatchState(inProgress: bool, pending: seq<string>)

  /** A tick's new state, and the changed files it reloads for, if any. */
  datatype TickResult = TickResult(state: WatchState, reload: Option<seq<string>>)

  /** The batch a tick starts from: a theme update that begins now discards
      what was pending. */
  function TickBase(s: WatchState, lockBefore: bool): seq<string> {
    if lockBefore && !s.inProgress then [] else s.pending
  }

  /** One iteration of the watch loop. `lockBefore` and `lockAfter` are the
      two lock checks around the wait for events; `raw` is what the wait
      returned. */
  function Tick(s: WatchState, lockBefore: bool, raw: seq<string>, lockAfter: bool): (r: TickResult)
    ensures r.state.inProgress <==> lockAfter && (s.inProgress || lockBefore)
    ensures r.state.inProgress ==> r.reload.None?
    ensures r.reload.Some? ==> FilterEvents(raw) == [] && r.state.pending == []
    ensures r.reload.Some? ==> forall x :: x in r.reload.value <==> x in TickBase(s, lockBefore)
    ensures r.reload.None? ==> r.state.pending == TickBase(s, lockBefore) + FilterEvents(raw)
    ensures r.reload.None? && !r.state.inProgress ==> TickBase(s, lockBefore) + FilterEvents(raw) == [] || FilterEvents(raw) != []
  {
    var inProgress := s.inProgress || lockBefore;
    var events := FilterEvents(raw);
    var pending := TickBase(s, lockBefore) + events;
    var inProgress' := inProgress && lockAfter;
    if inProgress' then TickResult(WatchState(true, pending), None)
    else if pending != [] && events == [] then TickResult(WatchState(false, []), Some(Dedup(pending)))
    else TickResult(WatchState(false, pending), None)
  }

  /** Changes made while a theme update holds the lock are not lost: they
      wait in the batch and are reloaded together on the first quiet tick
      after the lock is released. */
  lemma BatchedUntilUnlocked(s: WatchState, raw: seq<string>)
    requires FilterEvents(raw) != []
    ensures var t1 := Tick(s, true, raw, true);
            && t1.reload.None?
            && var t2 := Tick(t1.state, false, [], false);
               && t2.reload.Some?
               && forall x :: x in FilterEvents(raw) ==> x in t2.reload.value
  {
    var t1 := Tick(s, true, raw, true);
    assert t1.state.pending == TickBase(s, true) + FilterEvents(raw);
    assert FilterEvents([]) == [];
    var t2 := Tick(t1.state, false, [], false);
    assert TickBase(t1.state, false) == t1.state.pending;
  }

  // ---------------------------------------------------------------------
  // Whether a command line skips the layout sync (`should_skip_layout_sync`)
  // ---------------------------------------------------------------------

  const CssOnlyFlags: set<string> :=
    {"--update-border-radius", "-b", "--update-global-css", "-g", "--style", "-s"}

  const StructuralFlags: set<string> :=
    {"--update", "-u", "--update-icon-size", "-i", "--generate-includes", "-G", "--config", "-c",
     "--set", "--next", "-n", "--prev", "-p", "--select-layout", "-L", "--select-style", "-Y",
     "--select", "-S", "--watch", "-w", "--json", "-j"}

  /** `should_skip_layout_sync(argv)`. */
  function ShouldSkipLayoutSync(argv: seq<string>): (r: bool)
    ensures r ==> exists i :: 0 <= i < |argv| && argv[i] in CssOnlyFlags
    ensures r ==> forall i :: 0 <= i < |argv| ==> argv[i] !in StructuralFlags
  {
    if exists i :: 0 <= i < |argv| && argv[i] in StructuralFlags then false
    else exists i :: 0 <= i < |argv| && argv[i] in CssOnlyFlags
  }

  /** No flag is both css-only and structural. */
  lemma FlagSetsDisjoint()
    ensures CssOnlyFlags * StructuralFlags == {}
  {
  }

  /** A structural flag anywhere on the command line keeps the layout sync;
      with none, any css-only flag skips it. */
  lemma SkipLayoutSyncByFlags(argv: seq<string>, f: string)
    ensures f in StructuralFlags ==> !ShouldSkipLayoutSync(argv + [f]) && !ShouldSkipLayoutSync([f] + argv)
    ensures f in CssOnlyFlags && (forall i :: 0 <= i < |argv| ==> argv[i] !in StructuralFlags)
            ==> ShouldSkipLayoutSync(argv + [f])
  {
    var a := argv + [f];
    assert a[|argv|] == f;
    var b := [f] + argv;
    assert b[0] == f;
    if f in CssOnlyFlags && (forall i :: 0 <= i < |argv| ==> argv[i] !in StructuralFlags) {
      FlagSetsDisjoint();
      assert f !in StructuralFlags;
      forall i | 0 <= i < |a|
        ensures a[i] !in StructuralFlags
      {
        if i < |argv| { assert a[i] == argv[i]; }
      }
    }
  }
}

=== FILE: weather.dfy ===
/** The wttr.in weather module for waybar: the text formatters, the
    twelve-hour to 24-hour conversion, the summary of weather chances, the
    settings read from the environment, the rain cap and the cache rule. */
module Weather {
  import opened Py

  // ---------------------------------------------------------------------
  // `format_time` and `format_temp`.
  // ---------------------------------------------------------------------

  predicate NoDoubleZero(s: string) {
    forall i :: 0 <= i < |s| - 1 ==> !(s[i] == '0' && s[i + 1] == '0')
  }

  /** Removing every `"00"` left to right leaves no two zeros side by side,
      and a text that does not start with `"00"` keeps its first
      character. */
  lemma {:induction false} ReplaceZeros(s: string)
    ensures NoDoubleZero(ReplaceAll(s, "00", ""))
    ensures |s| > 0 && !StartsWith(s, "00") ==> |ReplaceAll(s, "00", "")| > 0 && ReplaceAll(s, "00", "")[0] == s[0]
    decreases |s|
  {
    if |s| > 0 {
      if StartsWith(s, "00") {
        ReplaceZeros(s[2..]);
      } else {
        var rest := ReplaceAll(s[1..], "00", "");
        ReplaceZeros(s[1..]);
        assert ReplaceAll(s, "00", "") == [s[0]] + rest;
        if s[0] == '0' && |s| > 1 {
          assert s[1] != '0' by { assert s[..2] != "00"; }
          assert !StartsWith(s[1..], "00") by { assert s[1..][0] != '0'; }
        }
      }
    }
  }

  /** `format_time`: an hourly time of wttr.in (`"0"`, `"300"`, ...,
      `"2100"`) without its `"00"`s, padded to three characters. */
  function FormatTime(time: string): (r: string)
    ensures |r| >= 3
    ensures NoDoubleZero(r)
    ensures !Contains(time, "00") ==> r == LJust(time, 3)
    ensures var short := ReplaceAll(time, "00", "");
            && |r| == (if |short| >= 3 then |short| else 3)
            && r[..|short|] == short
            && forall i :: |short| <= i < |r| ==> r[i] == ' '
  {
    var short := ReplaceAll(time, "00", "");
    ReplaceZeros(time);
    assert !Contains(time, "00") ==> short == time by {
      if !Contains(time, "00") { ReplaceAbsent(time, "00", ""); }
    }
    var r := LJust(short, 3);
    assert forall i :: 0 <= i < |r| - 1 ==> !(r[i] == '0' && r[i + 1] == '0') by {
      forall i | 0 <= i < |r| - 1 ensures !(r[i] == '0' && r[i + 1] == '0') {
        if i + 1 < |short| {
          assert r[i] == short[i] && r[i + 1] == short[i + 1];
        } else {
          assert r[i + 1] == ' ';
        }
      }
    }
    r
  }

  /** Appending `"00"` to a text without `"00"` and removing every `"00"`
      gives the text back. */
  lemma {:induction false} DropHundreds(x: string)
    requires !Contains(x, "00")
    ensures ReplaceAll(x + "00", "00", "") == x
    decreases |x|
  {
    var t := x + "00";
    if |x| == 0 {
      assert t == "00" && t[2..] == "";
    } else if StartsWith(t, "00") {
      assert |x| == 1 && x[0] == t[0] == '0';
      assert x == "0" && t == "000" && t[2..] == "0";
      assert ReplaceAll("0", "00", "") == "0" by {
        assert "0"[1..] == "";
      }
    } else {
      assert Contains(x, "00") <== Contains(x[1..], "00");
      DropHundreds(x[1..]);
      assert t[1..] == x[1..] + "00";
      assert x == [x[0]] + x[1..];
    }
  }

  /** The text of an hour from 1 to 23 in hundreds is the hour's text with
      `"00"` appended, and the hour's text holds no `"00"`. */
  lemma HourInHundreds(h: nat)
    requires 1 <= h <= 23
    ensures IntToString(100 * h) == IntToString(h) + "00"
    ensures !Contains(IntToString(h), "00")
  {
    assert (100 * h) / 10 == 10 * h && (100 * h) % 10 == 0;
    assert (10 * h) / 10 == h && (10 * h) % 10 == 0;
    assert DigitChar(0) == '0';
    assert NatToString(100 * h) == NatToString(10 * h) + "0";
    assert NatToString(10 * h) == NatToString(h) + "0";
    var t := NatToString(h);
    if h < 10 {
      assert t == [DigitChar(h)];
      assert !Contains(t[1..], "00") by { assert t[1..] == ""; }
    } else {
      assert t == NatToString(h / 10) + [DigitChar(h % 10)];
      assert 1 <= h / 10 <= 2;
      assert t[0] == DigitChar(h / 10) != '0';
      var u := t[1..];
      assert |u| == 1;
      assert !Contains(u[1..], "00") by { assert u[1..] == ""; }
    }
  }

  /** The hourly times wttr.in sends (`"0"`, `"100"`, ..., `"2300"`) are
      shown as the hour itself, padded to three characters. */
  lemma WttrHourTimes(h: nat)
    requires h <= 23
    ensures FormatTime(IntToString(100 * h)) == LJust(IntToString(h), 3)
  {
    if h == 0 {
      assert IntToString(0) == "0";
      assert !Contains("0", "00") by { assert "0"[1..] == ""; }
    } else {
      HourInHundreds(h);
      DropHundreds(IntToString(h));
    }
  }

  /** `format_temp`: a temperature with a sign column (a space unless it
      is negative), padded to five characters. `None` is the `IndexError`
      an empty text raises. */
  function FormatTemp(temp: string): (r: Option<string>)
    ensures r.Some? <==> |temp| > 0
    ensures r.Some? ==> |r.value| >= 5 && |r.value| >= |temp|
    ensures r.Some? && temp[0] == '-' ==> r.value[..|temp|] == temp
    ensures r.Some? && temp[0] == '-' ==> |r.value| == (if |temp| >= 5 then |temp| else 5)
    ensures r.Some? && temp[0] == '-' ==> forall i :: |temp| <= i < |r.value| ==> r.value[i] == ' '
    ensures r.Some? && temp[0] != '-' ==> |r.value| > |temp| && r.value[0] == ' ' && r.value[1..|temp| + 1] == temp
    ensures r.Some? && temp[0] != '-' ==> |r.value| == (if |temp| + 1 >= 5 then |temp| + 1 else 5)
    ensures r.Some? ==> forall i :: |temp| + 1 <= i < |r.value| ==> r.value[i] == ' '
  {
    if |temp| == 0 then None
    else
      var signed := if temp[0] != '-' then " " + temp else temp;
      var r := LJust(signed, 5);
      assert r[..|signed|] == signed;
      assert temp[0] != '-' ==> r[1..|temp| + 1] == signed[1..];
      Some(r)
  }

  /** A reading and its negative line up: they differ only in the sign
      column. */
  lemma TemperaturesAlign(digits: string)
    requires |digits| > 0 && digits[0] != '-'
    ensures FormatTemp(digits).Some? && FormatTemp("-" + digits).Some?
    ensures FormatTemp(digits).value[1..] == FormatTemp("-" + digits).value[1..]
  {
    var a := FormatTemp(digits).value;
    var b := FormatTemp("-" + digits).value;
    assert |a| == |b|;
    forall i | 1 <= i < |a| ensures a[i] == b[i] {
      if i <= |digits| {
        assert a[i] == digits[i - 1];
        assert b[..|digits| + 1][i] == ("-" + digits)[i];
      }
    }
  }

  // ---------------------------------------------------------------------
  // `get_timestamp`: `strptime(time, "%I:%M %p").strftime("%H:%M")`.
  // ---------------------------------------------------------------------

  /** The index of the first white-space character, `|s|` when there is
      none. */
  function FirstSpace(s: string): (i: nat)
    ensures i <= |s|
    ensures forall k :: 0 <= k < i ==> !IsSpace(s[k])
    ensures i < |s| ==> IsSpace(s[i])
    decreases |s|
  {
    if |s| == 0 || IsSpace(s[0]) then 0 else 1 + FirstSpace(s[1..])
  }

  /** `%I`: an hour of the twelve-hour clock, with or without its leading
      zero. */
  predicate HourText(h: string) {
    || (|h| == 1 && '1' <= h[0] <= '9')
    || (|h| == 2 && h[0] == '0' && '1' <= h[1] <= '9')
    || (|h| == 2 && h[0] == '1' && '0' <= h[1] <= '2')
  }

  /** `%M`: a minute of one digit, or of two digits the first below 6. */
  predicate MinuteText(m: string) {
    || (|m| == 1 && IsDigit(m[0]))
    || (|m| == 2 && '0' <= m[0] <= '5' && IsDigit(m[1]))
  }

  /** `%I:%M %p` read back as an hour of the day and a minute: the hour up
      to the colon, the minute up to the white space, which may be a run,
      then `AM` or `PM` in any case and nothing after. Twelve o'clock is
      hour 0 in the morning and 12 in the afternoon. `None` is the
      `ValueError` of `strptime`. */
  function ParseTime12(s: string): (r: Option<(nat, nat)>)
    ensures r.Some? ==> r.value.0 < 24 && r.value.1 < 60
  {
    if ':' !in s then None else ParseAfterHour(Before(s, ':'), After(s, ':'))
  }

  /** The hour text and what follows its colon. */
  function ParseAfterHour(hour: string, rest: string): (r: Option<(nat, nat)>)
    ensures r.Some? ==> r.value.0 < 24 && r.value.1 < 60
  {
    var w := FirstSpace(rest);
    var period := LowerAscii(LStrip(rest[w..]));
    if HourText(hour) && MinuteText(rest[..w]) && w < |rest| && (period == "am" || period == "pm") then
      MinuteBound(rest[..w]);
      Some((DigitsValue(hour, 10) % 12 + (if period == "pm" then 12 else 0), DigitsValue(rest[..w], 10)))
    else None
  }

  lemma MinuteBound(m: string)
    requires MinuteText(m)
    ensures DigitsValue(m, 10) < 60
  {
    if |m| == 2 {
      assert m[..1][..0] == [];
      assert DigitsValue(m[..1], 10) == DigitValue(m[0]);
    } else {
      assert m[..0] == [];
    }
  }

  /** `get_timestamp`: with the 24-hour format, an `HH:MM` clock; with any
      other format, the text unchanged. `None` is the `ValueError` raised
      on a text that is not a twelve-hour time. */
  function GetTimestamp(timeFormat: string, time: string): (r: Option<string>)
    ensures timeFormat != "24h" ==> r == Some(time)
    ensures timeFormat == "24h" ==> (r.Some? <==> ParseTime12(time).Some?)
    ensures r.Some? && timeFormat == "24h" ==>
              |r.value| == 5 && r.value[2] == ':' &&
              DigitsValue(r.value[..2], 10) < 24 && DigitsValue(r.value[3..], 10) < 60
  {
    if timeFormat == "24h" then
      match ParseTime12(time)
      case None => None
      case Some(hm) =>
        Clock24Shape(hm.0, hm.1);
        Some(Pad2(hm.0) + ":" + Pad2(hm.1))
    else Some(time)
  }

  /** `strftime("%H:%M")` is five characters: two digits giving the hour,
      a colon, two digits giving the minute. */
  lemma Clock24Shape(h: nat, m: nat)
    requires h < 24 && m < 60
    ensures var text := Pad2(h) + ":" + Pad2(m);
            |text| == 5 && text[2] == ':' && DigitsValue(text[..2], 10) == h && DigitsValue(text[3..], 10) == m
  {
    var text := Pad2(h) + ":" + Pad2(m);
    assert text[..2] == Pad2(h) && text[3..] == Pad2(m);
    Pad2Digits(h);
    Pad2Digits(m);
  }

  /** `strftime("%I:%M %p")`: the form in which wttr.in reports sunrise and
      sunset. */
  function Clock12(h: nat, m: nat): (r: string)
    requires h < 24 && m < 60
  {
    Pad2(if h % 12 == 0 then 12 else h % 12) + ":" + Pad2(m) + " " + (if h < 12 then "AM" else "PM")
  }

  lemma Pad2Shape(n: nat)
    requires n < 100
    ensures Pad2(n)[0] == DigitChar(n / 10) && Pad2(n)[1] == DigitChar(n % 10)
  {
    if n >= 10 {
      assert NatToString(n) == NatToString(n / 10) + [DigitChar(n % 10)];
    }
  }

  lemma HourTextOf(n: nat)
    requires 1 <= n <= 12
    ensures HourText(Pad2(n)) && DigitsValue(Pad2(n), 10) == n
  {
    Pad2Shape(n);
    Pad2Digits(n);
  }

  lemma MinuteTextOf(m: nat)
    requires m < 60
    ensures MinuteText(Pad2(m)) && DigitsValue(Pad2(m), 10) == m
  {
    Pad2Shape(m);
    Pad2Digits(m);
  }

  lemma PeriodOf(p: string)
    requires p == "AM" || p == "PM"
    ensures !IsSpace(p[0])
    ensures LowerAscii(p) == (if p == "AM" then "am" else "pm")
  {
    var l := LowerAscii(p);
    assert l[1] == 'm';
    if p == "AM" {
      assert l[0] == 'a';
      assert l == "am";
    } else {
      assert l[0] == 'p';
      assert l == "pm";
    }
  }

  predicate DigitText(t: string) {
    forall i :: 0 <= i < |t| ==> IsDigit(t[i])
  }

  /** The first white space of `a + b` is at `|a|` when `a` has none and
      `b` starts with one. */
  lemma FirstSpaceAt(a: string, b: string)
    requires forall i :: 0 <= i < |a| ==> !IsSpace(a[i])
    requires |b| > 0 && IsSpace(b[0])
    ensures FirstSpace(a + b) == |a|
  {
    var s := a + b;
    assert forall i :: 0 <= i < |a| ==> s[i] == a[i];
    assert s[|a|] == b[0];
  }

  /** `%I:%M %p` reads back the hour and minute of its parts. */
  lemma ParseTime12Parts(hh: string, mm: string, p: string)
    requires HourText(hh) && MinuteText(mm) && (p == "AM" || p == "PM")
    ensures ParseTime12(hh + ":" + mm + " " + p).Some?
    ensures ParseTime12(hh + ":" + mm + " " + p).value.0 == DigitsValue(hh, 10) % 12 + (if p == "PM" then 12 else 0)
    ensures ParseTime12(hh + ":" + mm + " " + p).value.1 == DigitsValue(mm, 10)
  {
    var rest := mm + " " + p;
    var s := hh + ":" + mm + " " + p;
    assert s == hh + [':'] + rest;
    assert ':' !in hh by { assert DigitText(hh); }
    BeforeAfterJoined(hh, ':', rest);
    assert ':' in s by { assert s[|hh|] == ':'; }
    PeriodOf(p);
    ParseAfterHourParts(hh, mm, p);
  }

  lemma LStripOneSpace(p: string)
    requires |p| > 0 && !IsSpace(p[0])
    ensures LStrip(" " + p) == p
  {
    assert (" " + p)[1..] == p;
  }

  lemma ParseAfterHourParts(hh: string, mm: string, p: string)
    requires HourText(hh) && MinuteText(mm) && |p| > 0 && !IsSpace(p[0])
    requires LowerAscii(p) == "am" || LowerAscii(p) == "pm"
    ensures ParseAfterHour(hh, mm + " " + p).Some?
    ensures ParseAfterHour(hh, mm + " " + p).value.0 == DigitsValue(hh, 10) % 12 + (if LowerAscii(p) == "pm" then 12 else 0)
    ensures ParseAfterHour(hh, mm + " " + p).value.1 == DigitsValue(mm, 10)
  {
    var rest := mm + " " + p;
    assert FirstSpace(rest) == |mm| by {
      assert DigitText(mm);
      assert rest == mm + (" " + p);
      FirstSpaceAt(mm, " " + p);
    }
    assert rest[..|mm|] == mm && rest[|mm|..] == " " + p;
    LStripOneSpace(p);
  }

  /** Reading a twelve-hour time back gives the hour and minute it shows. */
  lemma ParseClock12(h: nat, m: nat)
    requires h < 24 && m < 60
    ensures ParseTime12(Clock12(h, m)) == Some((h, m))
  {
    var h12 := if h % 12 == 0 then 12 else h % 12;
    var p := if h < 12 then "AM" else "PM";
    HourTextOf(h12);
    MinuteTextOf(m);
    assert Clock12(h, m) == Pad2(h12) + ":" + Pad2(m) + " " + p;
    ParseTime12Parts(Pad2(h12), Pad2(m), p);
    var r := ParseTime12(Clock12(h, m));
    assert r.value.0 == h by { TwelveHourArithmetic(h); }
    assert r.value == (h, m);
  }

  lemma TwelveHourArithmetic(h: nat)
    requires h < 24
    ensures (if h % 12 == 0 then 12 else h % 12) % 12 + (if h < 12 then 0 else 12) == h
  {
  }

  /** Converting a wttr.in twelve-hour time gives the same clock in 24-hour
      form. */
  lemma TimestampRoundTrip(h: nat, m: nat)
    requires h < 24 && m < 60
    ensures GetTimestamp("24h", Clock12(h, m)) == Some(Pad2(h) + ":" + Pad2(m))
  {
    ParseClock12(h, m);
  }

  // ---------------------------------------------------------------------
  // `split_time_parts`.
  // ---------------------------------------------------------------------

  /** `split_time_parts`: hour, minute and the suffix after the first
      space of the stripped text, a missing part being empty. */
  function SplitTimeParts(time: string): (r: (string, string, string))
    ensures ':' !in r.0 && ' ' !in r.0 && ' ' !in r.1
    ensures ' ' !in Strip(time) ==> r.2 == ""
    ensures ' ' in Strip(time) && ':' in Before(Strip(time), ' ') ==> r.0 + ":" + r.1 + " " + r.2 == Strip(time)
    ensures ' ' !in Strip(time) && ':' in Strip(time) ==> r.0 + ":" + r.1 == Strip(time)
    ensures ':' !in Before(Strip(time), ' ') ==> r.0 == Before(Strip(time), ' ') && r.1 == ""
    ensures ' ' in Strip(time) && ':' !in Before(Strip(time), ' ') ==> r.0 + " " + r.2 == Strip(time)
  {
    var t := Strip(time);
    var main := Before(t, ' ');
    var suffix := After(t, ' ');
    var hour := Before(main, ':');
    var minute := After(main, ':');
    assert ' ' !in minute by {
      if ':' in main {
        assert main == hour + [':'] + minute;
        assert forall i :: 0 <= i < |minute| ==> minute[i] == main[|hour| + 1 + i];
      }
    }
    (hour, minute, suffix)
  }

  /** `split_time_parts` takes a time apart at its colon and space. */
  lemma SplitParts(hh: string, mm: string, p: string)
    requires |hh| > 0 && DigitText(hh) && DigitText(mm)
    requires |p| > 0 && ' ' !in p && !IsSpace(p[|p| - 1])
    ensures SplitTimeParts(hh + ":" + mm + " " + p) == (hh, mm, p)
  {
    var main := hh + ":" + mm;
    var s := hh + ":" + mm + " " + p;
    assert s == main + [' '] + p;
    assert !IsSpace(s[0]) && !IsSpace(s[|s| - 1]);
    StripTrimmed(s);
    assert ' ' !in main by {
      assert forall i :: 0 <= i < |main| ==> main[i] == ':' || IsDigit(main[i]);
    }
    BeforeAfterJoined(main, ' ', p);
    assert main == hh + [':'] + mm;
    assert ':' !in hh;
    BeforeAfterJoined(hh, ':', mm);
  }

  /** The parts of a twelve-hour sunrise time: its hour, minute and
      period. */
  lemma SplitClock12(h: nat, m: nat)
    requires h < 24 && m < 60
    ensures SplitTimeParts(Clock12(h, m)) ==
              (Pad2(if h % 12 == 0 then 12 else h % 12), Pad2(m), if h < 12 then "AM" else "PM")
  {
    var hh := Pad2(if h % 12 == 0 then 12 else h % 12);
    var p := if h < 12 then "AM" else "PM";
    assert DigitText(hh) && DigitText(Pad2(m));
    SplitParts(hh, Pad2(m), p);
  }

  // ---------------------------------------------------------------------
  // `format_chances`.
  // ---------------------------------------------------------------------

  /** The hourly chance fields and their labels, in the order listed. */
  const Events: seq<(string, string)> := [
    ("chanceoffog", "Fog"), ("chanceoffrost", "Frost"),
    ("chanceofovercast", "Overcast"), ("chanceofrain", "Rain"),
    ("chanceofsnow", "Snow"), ("chanceofsunshine", "Sunshine"),
    ("chanceofthunder", "Thunder"), ("chanceofwindy", "Wind")]

  /** `int(hour.get(key, 0))`; `None` is the `ValueError` on a field that
      is not an integer. */
  function ChanceValue(hour: map<string, string>, key: string): (r: Option<int>)
    ensures key !in hour ==> r == Some(0)
  {
    if key in hour then ParseInt(hour[key]) else Some(0)
  }

  /** The entry of one event: its label, then the field as reported. */
  function Item(hour: map<string, string>, event: (string, string)): string
    requires event.0 in hour
  {
    event.1 + " " + hour[event.0] + "%"
  }

  /** The event's chance parses and is positive. */
  predicate Positive(hour: map<string, string>, event: (string, string)) {
    var v := ChanceValue(hour, event.0);
    v.Some? && v.value > 0
  }

  /** The reference: the entry of every event with a positive chance, in
      the order of `events`, built from the last event back. */
  function Expected(events: seq<(string, string)>, hour: map<string, string>): seq<string>
    decreases |events|
  {
    if |events| == 0 then []
    else
      var e := events[|events| - 1];
      Expected(events[..|events| - 1], hour) + (if Positive(hour, e) then [Item(hour, e)] else [])
  }

  /** `Expected` read from the first event on. */
  lemma {:induction false} ExpectedCons(events: seq<(string, string)>, hour: map<string, string>)
    requires |events| > 0
    ensures Expected(events, hour)
            == (if Positive(hour, events[0]) then [Item(hour, events[0])] else []) + Expected(events[1..], hour)
    decreases |events|
  {
    var n := |events|;
    var head := if Positive(hour, events[0]) then [Item(hour, events[0])] else [];
    if n == 1 {
      assert events[..0] == [] && events[1..] == [];
    } else {
      var init := events[..n - 1];
      var e := events[n - 1];
      var last := if Positive(hour, e) then [Item(hour, e)] else [];
      ExpectedCons(init, hour);
      assert init[0] == events[0];
      assert init[1..] == events[1..][..n - 2];
      assert events[1..][n - 2] == e;
      assert Expected(events[1..], hour) == Expected(init[1..], hour) + last;
      assert Expected(events, hour) == (head + Expected(init[1..], hour)) + last;
    }
  }

  /** The entries of the events whose chance is positive, in order: exactly
      the reference list, when every chance parses. */
  function ChanceItems(events: seq<(string, string)>, hour: map<string, string>): (r: Option<seq<string>>)
    ensures r.Some? <==> forall i :: 0 <= i < |events| ==> ChanceValue(hour, events[i].0).Some?
    ensures r.Some? ==> r.value == Expected(events, hour)
    ensures r.Some? ==> forall k :: 0 <= k < |r.value| ==> |r.value[k]| > 0
    decreases |events|
  {
    if |events| == 0 then Some([])
    else
      var e := events[0];
      assert forall i :: 1 <= i < |events| ==> events[i] == events[1..][i - 1];
      match ChanceValue(hour, e.0)
      case None => None
      case Some(v) =>
        match ChanceItems(events[1..], hour)
        case None => None
        case Some(rest) =>
          ExpectedCons(events, hour);
          Some(if v > 0 then [Item(hour, e)] + rest else rest)
  }

  /** The reference holds one entry per positive chance, in order, and
      nothing for the others. */
  lemma {:induction false} ExpectedMembers(events: seq<(string, string)>, hour: map<string, string>)
    ensures |Expected(events, hour)| <= |events|
    ensures |Expected(events, hour)| == 0 <==> forall i :: 0 <= i < |events| ==> !Positive(hour, events[i])
    ensures forall i :: 0 <= i < |events| && Positive(hour, events[i]) ==> Item(hour, events[i]) in Expected(events, hour)
    decreases |events|
  {
    if |events| > 0 {
      var init := events[..|events| - 1];
      var e := events[|events| - 1];
      ExpectedMembers(init, hour);
      var last := if Positive(hour, e) then [Item(hour, e)] else [];
      assert Expected(events, hour) == Expected(init, hour) + last;
      forall i | 0 <= i < |events| && Positive(hour, events[i])
        ensures Item(hour, events[i]) in Expected(events, hour)
      {
        if i < |init| {
          assert init[i] == events[i];
          assert Item(hour, init[i]) in Expected(init, hour);
        }
      }
      if forall i :: 0 <= i < |events| ==> !Positive(hour, events[i]) {
        assert forall i :: 0 <= i < |init| ==> init[i] == events[i];
        assert !Positive(hour, e);
      }
    }
  }

  lemma JoinNonEmpty(items: seq<string>, sep: string)
    requires forall k :: 0 <= k < |items| ==> |items[k]| > 0
    ensures Join(items, sep) == "" <==> |items| == 0
  {
    if |items| > 0 {
      assert |Join(items, sep)| >= |items[0]|;
    }
  }

  /** `format_chances`: the entries of the positive chances, in the order
      of `Events`, joined by `", "`; empty exactly when no chance is
      positive. */
  function FormatChances(hour: map<string, string>): (r: Option<string>)
    ensures r.Some? <==> forall i :: 0 <= i < |Events| ==> ChanceValue(hour, Events[i].0).Some?
    ensures r.Some? ==> r.value == Join(Expected(Events, hour), ", ")
    ensures r.Some? ==> (r.value == "" <==> forall i :: 0 <= i < |Events| ==> ChanceValue(hour, Events[i].0).value <= 0)
  {
    JoinChances(Events, hour)
  }

  /** `format_chances` over any list of events. */
  function JoinChances(events: seq<(string, string)>, hour: map<string, string>): (r: Option<string>)
    ensures r.Some? <==> forall i :: 0 <= i < |events| ==> ChanceValue(hour, events[i].0).Some?
    ensures r.Some? ==> r.value == Join(Expected(events, hour), ", ")
    ensures r.Some? ==> (r.value == "" <==> forall i :: 0 <= i < |events| ==> ChanceValue(hour, events[i].0).value <= 0)
  {
    match ChanceItems(events, hour)
    case None => None
    case Some(items) =>
      JoinNonEmpty(items, ", ");
      ExpectedMembers(events, hour);
      Some(Join(items, ", "))
  }

  // ---------------------------------------------------------------------
  // Settings.
  // ---------------------------------------------------------------------

  /** `os.getenv(name, default).lower()`. */
  function Setting(env: string -> Option<string>, name: string, default: string): string {
    LowerAscii(GetEnv(env, name, default))
  }

  /** The three unit settings. */
  datatype Units = Units(temperature: string, time: string, wind: string)

  /** The units as the script leaves them. Its validation assigns the
      defaults to names nothing reads, so an unknown unit stays in
      effect. */
  function UnitsAsWritten(env: string -> Option<string>): (r: Units)
    ensures env("WEATHER_TEMPERATURE_UNIT").None? ==> r.temperature == "c"
    ensures env("WEATHER_TIME_FORMAT").None? ==> r.time == "12h"
    ensures env("WEATHER_WINDSPEED_UNIT").None? ==> r.wind == "km/h"
    ensures env("WEATHER_TEMPERATURE_UNIT").Some? ==> r.temperature == LowerAscii(env("WEATHER_TEMPERATURE_UNIT").value)
    ensures env("WEATHER_TIME_FORMAT").Some? ==> r.time == LowerAscii(env("WEATHER_TIME_FORMAT").value)
    ensures env("WEATHER_WINDSPEED_UNIT").Some? ==> r.wind == LowerAscii(env("WEATHER_WINDSPEED_UNIT").value)
  {
    Units(
      Setting(env, "WEATHER_TEMPERATURE_UNIT", "c"),
      Setting(env, "WEATHER_TIME_FORMAT", "12h"),
      Setting(env, "WEATHER_WINDSPEED_UNIT", "km/h"))
  }

  /** The units with the evident intent of the validation: an unknown
      unit falls back to the default. */
  function CheckedUnits(env: string -> Option<string>): (r: Units)
    ensures r.temperature == "c" || r.temperature == "f"
    ensures r.time == "12h" || r.time == "24h"
    ensures r.wind == "km/h" || r.wind == "mph"
  {
    var u := UnitsAsWritten(env);
    Units(
      if u.temperature == "c" || u.temperature == "f" then u.temperature else "c",
      if u.time == "12h" || u.time == "24h" then u.time else "12h",
      if u.wind == "km/h" || u.wind == "mph" then u.wind else "km/h")
  }

  /** The checked units keep every valid choice and replace only unknown
      ones, with the defaults. */
  lemma CheckedUnitsKeepValidChoices(env: string -> Option<string>)
    ensures var u := UnitsAsWritten(env); var c := CheckedUnits(env);
            && (u.temperature == "c" || u.temperature == "f" <==> c.temperature == u.temperature)
            && (u.time == "12h" || u.time == "24h" <==> c.time == u.time)
            && (u.wind == "km/h" || u.wind == "mph" <==> c.wind == u.wind)
            && (u.temperature != "c" && u.temperature != "f" ==> c.temperature == "c")
            && (u.time != "12h" && u.time != "24h" ==> c.time == "12h")
            && (u.wind != "km/h" && u.wind != "mph" ==> c.wind == "km/h")
  {
  }

  /** The values of one reading that depend on the units. */
  datatype Reading = Reading(tempC: string, tempF: string, feelsLikeC: string, feelsLikeF: string,
                             windKmph: string, windMiles: string)

  /** `get_temperature`: Celsius for the unit `c`, Fahrenheit for any
      other. */
  function Temperature(unit: string, x: Reading): (r: string)
    ensures EndsWith(r, "°C") <==> unit == "c"
  {
    if unit == "c" then x.tempC + "°C" else x.tempF + "°F"
  }

  /** `get_wind_speed`: kilometres for the unit `km/h`, miles for any
      other. */
  function WindSpeed(unit: string, x: Reading): (r: string)
    ensures EndsWith(r, "Km/h") <==> unit == "km/h"
  {
    if unit == "km/h" then x.windKmph + "Km/h" else
      var r := x.windMiles + "Mph";
      assert |r| >= 4 ==> r[|r| - 4..][1] == 'M';
      r
  }

  /** With an unknown temperature unit such as `kelvin` the script shows
      Fahrenheit, and with an unknown wind unit such as `kmh` it shows
      miles, where the defaults it means to restore are Celsius and
      kilometres. */
  lemma UnknownUnitsShowImperial(x: Reading)
    ensures var env := (k: string) => if k == "WEATHER_TEMPERATURE_UNIT" then Some("kelvin")
                                      else if k == "WEATHER_WINDSPEED_UNIT" then Some("kmh") else None;
            && !EndsWith(Temperature(UnitsAsWritten(env).temperature, x), "°C")
            && !EndsWith(WindSpeed(UnitsAsWritten(env).wind, x), "Km/h")
            && EndsWith(Temperature(CheckedUnits(env).temperature, x), "°C")
            && EndsWith(WindSpeed(CheckedUnits(env).wind, x), "Km/h")
  {
    var env := (k: string) => if k == "WEATHER_TEMPERATURE_UNIT" then Some("kelvin")
                              else if k == "WEATHER_WINDSPEED_UNIT" then Some("kmh") else None;
    assert LowerAscii("kelvin") == "kelvin";
    assert LowerAscii("kmh") == "kmh";
  }

  /** The same slip on the time format has no visible effect: only `24h`
      converts, so an unknown format behaves as its default `12h`. */
  lemma TimeFormatSlipIsHarmless(env: string -> Option<string>, time: string)
    ensures GetTimestamp(UnitsAsWritten(env).time, time) == GetTimestamp(CheckedUnits(env).time, time)
  {
  }

  /** A yes/no setting: true for `true`, `1`, `t`, `y` and `yes` in any
      case. */
  function Flag(env: string -> Option<string>, name: string, default: string): (r: bool)
    ensures env(name).None? ==> r == (LowerAscii(default) in ["true", "1", "t", "y", "yes"])
    ensures env(name).Some? ==> r == (LowerAscii(env(name).value) in ["true", "1", "t", "y", "yes"])
  {
    Setting(env, name, default) in ["true", "1", "t", "y", "yes"]
  }

  /** `FORECAST_DAYS`: an integer in 0..3, 3 when the setting is missing,
      not an integer or out of range. */
  function ForecastDays(env: string -> Option<string>): (r: int)
    ensures 0 <= r <= 3
    ensures (match ParseInt(GetEnv(env, "WEATHER_FORECAST_DAYS", "3"))
             case Some(d) => r == (if 0 <= d <= 3 then d else 3)
             case None => r == 3)
  {
    match ParseInt(GetEnv(env, "WEATHER_FORECAST_DAYS", "3"))
    case None => 3
    case Some(d) => if 0 <= d < 4 then d else 3
  }

  datatype Settings = Settings(units: Units, showIcon: bool, showLocation: bool,
                               showTodayDetails: bool, forecastDays: int)

  /** The module's settings as the script leaves them: the units
      unchecked (see `UnitsAsWritten`), the flags, and the forecast days,
      whose range check does take effect. */
  function LoadSettings(env: string -> Option<string>): (r: Settings)
    ensures 0 <= r.forecastDays <= 3
    ensures env("WEATHER_TEMPERATURE_UNIT").Some? ==> r.units.temperature == LowerAscii(env("WEATHER_TEMPERATURE_UNIT").value)
    ensures env("WEATHER_WINDSPEED_UNIT").Some? ==> r.units.wind == LowerAscii(env("WEATHER_WINDSPEED_UNIT").value)
    ensures env("WEATHER_SHOW_ICON").None? ==> r.showIcon
    ensures env("WEATHER_SHOW_LOCATION").None? ==> !r.showLocation
    ensures env("WEATHER_SHOW_TODAY_DETAILS").None? ==> r.showTodayDetails
    ensures r.units == UnitsAsWritten(env)
    ensures env("WEATHER_TIME_FORMAT").Some? ==> r.units.time == LowerAscii(env("WEATHER_TIME_FORMAT").value)
    ensures env("WEATHER_TEMPERATURE_UNIT").None? ==> r.units.temperature == "c"
    ensures env("WEATHER_TIME_FORMAT").None? ==> r.units.time == "12h"
    ensures env("WEATHER_WINDSPEED_UNIT").None? ==> r.units.wind == "km/h"
    ensures env("WEATHER_FORECAST_DAYS").None? ==> r.forecastDays == 3
    ensures r.forecastDays == ForecastDays(env)
    ensures r.showIcon == Flag(env, "WEATHER_SHOW_ICON", "True")
    ensures r.showLocation == Flag(env, "WEATHER_SHOW_LOCATION", "False")
    ensures r.showTodayDetails == Flag(env, "WEATHER_SHOW_TODAY_DETAILS", "True")
  {
    WithUnits(env, UnitsAsWritten(env))
  }

  /** The settings with the evident intent of the unit checks. */
  function CheckedSettings(env: string -> Option<string>): (r: Settings)
    ensures 0 <= r.forecastDays <= 3
    ensures r.units.temperature == "c" || r.units.temperature == "f"
    ensures r.units.wind == "km/h" || r.units.wind == "mph"
    ensures r.units.time == "12h" || r.units.time == "24h"
    ensures env("WEATHER_SHOW_ICON").None? ==> r.showIcon
    ensures env("WEATHER_SHOW_LOCATION").None? ==> !r.showLocation
    ensures env("WEATHER_SHOW_TODAY_DETAILS").None? ==> r.showTodayDetails
    ensures r.forecastDays == ForecastDays(env)
  {
    WithUnits(env, CheckedUnits(env))
  }

  /** The flags and the forecast days of `env`, with the given units. */
  function WithUnits(env: string -> Option<string>, units: Units): (r: Settings)
    ensures r.units == units && 0 <= r.forecastDays <= 3
    ensures env("WEATHER_SHOW_ICON").None? ==> r.showIcon
    ensures env("WEATHER_SHOW_LOCATION").None? ==> !r.showLocation
    ensures env("WEATHER_SHOW_TODAY_DETAILS").None? ==> r.showTodayDetails
    ensures r.showIcon == Flag(env, "WEATHER_SHOW_ICON", "True")
    ensures r.showLocation == Flag(env, "WEATHER_SHOW_LOCATION", "False")
    ensures r.showTodayDetails == Flag(env, "WEATHER_SHOW_TODAY_DETAILS", "True")
    ensures env("WEATHER_FORECAST_DAYS").None? ==> r.forecastDays == 3
    ensures r.forecastDays == ForecastDays(env)
  {
    ParseIntOfString(3);
    assert IntToString(3) == "3";
    assert LowerAscii("True") == "true";
    assert LowerAscii("False") == "false";
    Settings(units,
             Flag(env, "WEATHER_SHOW_ICON", "True"),
             Flag(env, "WEATHER_SHOW_LOCATION", "False"),
             Flag(env, "WEATHER_SHOW_TODAY_DETAILS", "True"),
             ForecastDays(env))
  }

  // ---------------------------------------------------------------------
  // The rain chance of the min/max view.
  // ---------------------------------------------------------------------

  function Min(a: int, b: int): int { if a <= b then a else b }

  /** The chance of rain of every hour; `None` when one is not an
      integer. */
  function RainChances(hourly: seq<map<string, string>>): (r: Option<seq<int>>)
    ensures r.Some? <==> forall i :: 0 <= i < |hourly| ==> ChanceValue(hourly[i], "chanceofrain").Some?
    ensures r.Some? ==> |r.value| == |hourly|
    ensures r.Some? ==> forall i :: 0 <= i < |hourly| ==> r.value[i] == ChanceValue(hourly[i], "chanceofrain").value
    decreases |hourly|
  {
    if |hourly| == 0 then Some([])
    else
      assert forall i :: 1 <= i < |hourly| ==> hourly[i] == hourly[1..][i - 1];
      match ChanceValue(hourly[0], "chanceofrain")
      case None => None
      case Some(v) =>
        match RainChances(hourly[1..])
        case None => None
        case Some(rest) => Some([v] + rest)
  }

  function SeqMax(xs: seq<int>): (r: int)
    requires |xs| > 0
    ensures forall i :: 0 <= i < |xs| ==> xs[i] <= r
    ensures r in xs
    decreases |xs|
  {
    if |xs| == 1 then xs[0]
    else
      var m := SeqMax(xs[1..]);
      assert forall i :: 1 <= i < |xs| ==> xs[i] == xs[1..][i - 1];
      if xs[0] >= m then xs[0] else m
  }

  /** `min(max(chance of rain of each hour), 99)`; `None` is the
      `ValueError` of an empty day or of a field that is not an
      integer. */
  function MaxRainChance(hourly: seq<map<string, string>>): (r: Option<int>)
    ensures r.Some? <==> |hourly| > 0 && forall i :: 0 <= i < |hourly| ==> ChanceValue(hourly[i], "chanceofrain").Some?
    ensures r.Some? ==> r.value <= 99
    ensures r.Some? ==> forall i :: 0 <= i < |hourly| ==> Min(ChanceValue(hourly[i], "chanceofrain").value, 99) <= r.value
    ensures r.Some? ==> exists i :: 0 <= i < |hourly| && r.value == Min(ChanceValue(hourly[i], "chanceofrain").value, 99)
  {
    match RainChances(hourly)
    case None => None
    case Some(cs) =>
      if |cs| == 0 then None
      else
        var m := SeqMax(cs);
        assert exists i :: 0 <= i < |cs| && cs[i] == m;
        Some(Min(m, 99))
  }

  /** `f"{n:2d}"`: the number right-aligned in two characters. */
  function RainField(n: int): (r: string)
    ensures 0 <= n <= 99 ==> |r| == 2
  {
    var s := IntToString(n);
    assert 0 <= n <= 99 ==> |s| == 1 || |s| == 2 by {
      if 10 <= n <= 99 {
        assert NatToString(n) == NatToString(n / 10) + [DigitChar(n % 10)];
      }
    }
    assert 10 <= n <= 99 ==> |s| == 2 by {
      if 10 <= n <= 99 {
        assert NatToString(n) == NatToString(n / 10) + [DigitChar(n % 10)];
      }
    }
    if |s| >= 2 then s else " " + s
  }

  /** The cap keeps the rain field two characters wide: with chances
      that are not negative, the field never grows a third digit. */
  lemma RainFieldWidth(hourly: seq<map<string, string>>)
    requires MaxRainChance(hourly).Some?
    requires forall i :: 0 <= i < |hourly| ==> ChanceValue(hourly[i], "chanceofrain").value >= 0
    ensures |RainField(MaxRainChance(hourly).value)| == 2
  {
    assert Min(ChanceValue(hourly[0], "chanceofrain").value, 99) >= 0;
  }

  // ---------------------------------------------------------------------
  // The cache of the last answer.
  // ---------------------------------------------------------------------

  /** `CACHE_EXPIRY`: an hour, in seconds. */
  const CacheExpiry: real := 3600.0

  /** `is_cache_valid`: the cache file exists and is younger than an hour;
      a modification time in the future gives a negative age, which counts.
      `mtime` is `None` when the file is missing or cannot be read. */
  function IsCacheValid(mtime: Option<real>, now: real): (r: bool)
    ensures r ==> mtime.Some? && now < mtime.value + CacheExpiry
    ensures mtime.Some? && now < mtime.value + CacheExpiry ==> r
  {
    match mtime
    case None => false
    case Some(m) => now - m < CacheExpiry
  }

  /** A cache that is valid now was valid at every earlier moment since it
      was written. */
  lemma CacheValidEarlier(mtime: Option<real>, now: real, earlier: real)
    requires IsCacheValid(mtime, now) && mtime.value <= earlier <= now
    ensures IsCacheValid(mtime, earlier)
  {
  }

  /** Where the weather comes from: the cache unless forced, when valid
      and readable; otherwise the service, whose answer is saved. The
      result is the weather and whether it was saved; `None` is the exit
      on a failed request. */
  function ChooseWeather<W>(force: bool, cacheValid: bool, cached: Option<W>, fetched: Option<W>): (r: Option<(W, bool)>)
    ensures force ==> r == if fetched.Some? then Some((fetched.value, true)) else None
    ensures !force && cacheValid && cached.Some? ==> r == Some((cached.value, false))
    ensures r.Some? && !r.value.1 ==> !force && cacheValid && cached == Some(r.value.0)
    ensures r.Some? && r.value.1 ==> fetched == Some(r.value.0)
    ensures !force && (!cacheValid || cached.None?) && fetched.Some? ==> r == Some((fetched.value, true))
    ensures r.None? <==> fetched.None? && (force || !cacheValid || cached.None?)
  {
    var fromCache := if !force && cacheValid then cached else None;
    match fromCache
    case Some(w) => Some((w, false))
    case None =>
      match fetched
      case None => None
      case Some(w) => Some((w, true))
  }
}
